=== FILE: README.md ===
# bio-writer-poc: a verified model of the biography editor's core

bio-writer-poc is a biography editor. A user fills in a structured profile:
job title, department, business function, location, years of experience,
contact details, education, experience and achievements. A local Ollama model
writes a professional summary and a mentor summary from that profile,
extracts keywords, and refines the text in a chat. During a chat turn the
model may also propose changes to profile fields. The user confirms those
changes with "yes" or cancels them with "no".

This project models that core in Dafny and proves properties of the model.
Each module follows one source file. Pure helpers are functions with lemmas.
Code that updates state step by step uses classes and methods with loop
invariants, proved against specification functions.

| module | file | models |
|---|---|---|
| `Wrappers` | `wrappers.dfy` | `Option` and `Result` |
| `JsText` | `js_text.dfy` | the ECMAScript string operations the source uses: `trim`, `toLowerCase` (ASCII), `split`, `join`, `indexOf`, `startsWith` |
| `JsNumber` | `js_number.dfy` | `parseInt`, `parseFloat`, `Number(string)`, `Math.round` and the decimal text of a number |
| `JsonValue` | `json_value.dfy` | a parsed JSON value, member lookup, and JavaScript's string and number coercions |
| `Sequences` | `sequences.dfy` | filtering, de-duplication and subsequences |
| `Profile` | `profile.dfy` | the biography document (a class whose fields the routes assign), its contact details, entries, history and pending update |
| `Parsers` | `parsers.dfy` | `parseKeywords`, `buildConversationContext`, `validateTags` |
| `JsonText` | `json_text.dfy` | `stripCodeFences`, `extractJsonSubstring`, `parseJsonFromText` |
| `MentorSummary` | `mentor_summary.dfy` | `normalizeMentorSummary` |
| `PromptBuilder` | `prompt_builder.dfy` | `clean`, `pushSection`, `assemblePrompt` |
| `TracingConfig` | `tracing_config.dfy` | the environment-to-`tracingConfig` mapping and its sample-rate check |
| `AiConfig` | `ai_config.dfy` | the `parseOptional*` and `resolve*` helpers, and `getAIConfig` with its cache |
| `Validators` | `validators.dfy` | every validator of `validators.js` |
| `FieldUpdates` | `field_updates.dfy` | parsing, normalising, explaining and applying proposed field updates, and the yes/no classifier |
| `Tracing` | `tracing.dfy` | `TracingService`: spans, the sanitiser, the in-memory buffer, the statistics |
| `Ollama` | `ollama.dfy` | `joinUrl`, the request body, the retry loop, and the error mapping of the five service operations |
| `Chat` | `chat.dfy` | the `POST /:biographyId/refine` route: its pending-proposal state machine, and the order of refinement and proposal |
| `StructuredDisplay` | `structured_display.dfy` | `parseMentorSummary` and the displayed business function |
| `BiographyContext` | `biography_context.dfy` | the prompt contexts, the fallback summary and the keyword-extraction text of the biography routes |
| `BiographyRoutes` | `biography_routes.dfy` | regenerating a field, replacing tags, setting one field, and editing education and experience entries by index |

The model takes a few things as parameters:

- `JSON.parse` is a function `parse: string -> Option<Json>`, where `None` means it throws.
- The `URL` constructor is a predicate on strings.
- The clock, `Math.random` and `uuidv4` are values passed in.
- Each model call is given as an answer function. A `Transport` or `ModelGateway` object records every call made to it, in order.

Where the code and its documentation disagree, the model follows the code:

- The two defects under "## Findings" are modelled as written: the mentor-summary service normalises with the glyph as the file spells it, and the four indexed-edit routes use the guard that lets a non-numeric index through. The corrected definitions stand beside them with their intended properties proved.

- `useOllamaSystem` and `useOllamaJsonFormat` are resolved in `backend/src/config/ai.js`. No request body reads them: whatever they say, a request never carries a `system` or `format` field.
- Every service operation in `backend/src/services/ollama.js` calls `getAIConfig()` outside its `try`. A configuration error therefore escapes unmapped, even from `proposeBiographyFieldUpdates`.
- The chat history query sorts in ascending order, then limits to 20. So the conversation context is the OLDEST twenty messages, not the latest ones.
- In `normalizeMentorSummary`, the `--` rule can never fire: any line it would match was already rewritten by the `- -` rule before it.
- A `TRACE_SAMPLE_RATE` that does not parse is `NaN`. `NaN` passes the range check, and then no trace is ever sampled.

## Model

| member | source | states |
|---|---|---|
| Parsers.ParseKeywords | backend/src/utils/parsers.js:10-16 | the keywords are taken, in order, from the trimmed comma-separated pieces of the trimmed reply |
| Parsers.KeywordClean | backend/src/utils/parsers.js:10-16 | every keyword is non-empty, has no white space at either end and holds no comma |
| Parsers.KeywordsOfBlank | backend/src/utils/parsers.js:10-16 | a reply made only of white space and commas yields no keyword |
| Parsers.KeywordsRoundTrip | backend/src/utils/parsers.js:10-16 | clean keywords written out with `", "` are parsed back unchanged |
| Parsers.ContextLines | backend/src/utils/parsers.js:28-29 | one `User: `/`Assistant: ` line per message, carrying the message text |
| Parsers.BuildConversationContext | backend/src/utils/parsers.js:23-31 | an empty history gives the empty transcript |
| Parsers.ContextLinesRecovered | backend/src/utils/parsers.js:23-31 | when no message holds a line break, splitting the transcript on line breaks gives back one line per message |
| Parsers.ContextLineSpeaker | backend/src/utils/parsers.js:29 | a transcript line starts with `User: ` exactly when its message has the role `user` |
| Parsers.TagTexts | backend/src/utils/parsers.js:48 | each element is trimmed, and a non-string element becomes empty |
| Parsers.SanitizeTags | backend/src/utils/parsers.js:46-50 | the sanitised tags hold no duplicates |
| Parsers.SanitizedFromInput | backend/src/utils/parsers.js:46-50 | every sanitised tag is non-empty, unpadded, and the trimmed text of some string element |
| Parsers.InputSanitized | backend/src/utils/parsers.js:46-50 | every string element whose trimmed text is non-empty appears, trimmed, among the sanitised tags |
| Parsers.CountErrors | backend/src/utils/parsers.js:53-59 | no count error exactly when there are between 1 and 20 tags |
| Parsers.LengthErrors | backend/src/utils/parsers.js:62-66 | no length error exactly when every tag has at most 50 characters |
| Parsers.AppendLengthErrors | backend/src/utils/parsers.js:62-66 | the loop appends exactly the length errors of the tags, in order |
| Parsers.ValidateTags | backend/src/utils/parsers.js:38-73 | a non-array gives the single "Tags must be an array" error; otherwise the sanitised tags and the count errors followed by the length errors; valid exactly when there are 1 to 20 tags of at most 50 characters |
| JsonText.StripCodeFences | backend/src/utils/json.js:1-7 | the stripped text has no white space at either end and is no longer than the input |
| JsonText.OpenFence | backend/src/utils/json.js:4 | dropping the leading fence never lengthens the text |
| JsonText.CloseFence | backend/src/utils/json.js:5 | dropping the trailing fence never lengthens the text |
| JsonText.OpenFenceOf | backend/src/utils/json.js:4 | a fence followed by a `json` tag in any letter case is dropped together with the white space after it |
| JsonText.OpenFenceOfFenced | backend/src/utils/json.js:4 | on a fenced, `json`-tagged body the leading fence, tag and line break are dropped |
| JsonText.CloseFenceOfFenced | backend/src/utils/json.js:5 | the trailing fence and the line break before it are dropped |
| JsonText.StripFencedBody | backend/src/utils/json.js:1-7 | a body wrapped in a `json` code fence comes back exactly |
| JsonText.StripUnfenced | backend/src/utils/json.js:1-7 | unpadded text without fences is left unchanged |
| JsonText.Candidate | backend/src/utils/json.js:20-31 | a candidate is at least two characters long and runs from the opening bracket to the closing one |
| JsonText.CandidateSpans | backend/src/utils/json.js:20-31 | a candidate exists exactly when some opening bracket precedes some closing one, and then it runs from the first opening bracket to the last closing one |
| JsonText.ExtractJsonSubstring | backend/src/utils/json.js:17-35 | the result is bracketed by `{ }` or by `[ ]` |
| JsonText.ExtractJsonSubstringSpans | backend/src/utils/json.js:17-35 | the object span is preferred whenever one exists, the array span is used otherwise, and the result is absent exactly when neither kind of pair exists |
| JsonText.TryParse | backend/src/utils/json.js:9-15 | a thrown parse error and a parsed `null` both give no value; any other parse result is returned as is |
| JsonText.ParseJsonFromText | backend/src/utils/json.js:42-53 | empty text gives no value; a value is never `null`; the parse of the stripped text is taken when there is one, and otherwise the result is exactly the parse of its bracketed span, or nothing when it has none |
| JsonText.ParseJsonDirect | backend/src/utils/json.js:45-47 | when the stripped text parses to a non-null value, that value is the result |
| JsonValue.Get | backend/src/utils/fieldUpdates.js:22-31 | a member lookup finds a member with that key in an object, and nothing when the value is not an object or has no such key |
| MentorSummary.DashDashMatch | backend/src/utils/mentorSummary.js:9 | what follows a match of the `- -` pattern starts with no white space |
| MentorSummary.DoubleDashMatch | backend/src/utils/mentorSummary.js:11 | what follows a match of the `--` pattern starts with no white space |
| MentorSummary.GlyphMatch | backend/src/utils/mentorSummary.js:13 | what follows a match of the glyph pattern starts with no white space |
| MentorSummary.NormalizeLines | backend/src/utils/mentorSummary.js:6-16 | one output line per input line, each rewritten by the three rules in order |
| MentorSummary.AfterDashDash | backend/src/utils/mentorSummary.js:9-13 | once a lead was replaced by `- `, neither the `--` rule nor the glyph rule matches again |
| MentorSummary.DoubleDashRuleDead | backend/src/utils/mentorSummary.js:9-11 | the `--` rule never fires on the output of the `- -` rule |
| MentorSummary.DashDashLine | backend/src/utils/mentorSummary.js:9 | a line led by a hyphen, optional white space and a second hyphen has that lead replaced by `- ` |
| MentorSummary.NoDashLead | backend/src/utils/mentorSummary.js:9-11 | neither hyphen pattern matches a line whose first non-space character is not a hyphen |
| MentorSummary.NoGlyphLead | backend/src/utils/mentorSummary.js:13 | the glyph pattern does not match a line whose first non-space character differs from the glyph's |
| MentorSummary.PlainLine | backend/src/utils/mentorSummary.js:7-15 | a line whose first non-space character is neither a hyphen nor the glyph's is left unchanged |
| MentorSummary.GlyphLine | backend/src/utils/mentorSummary.js:13 | a line led by the glyph, after optional white space, has that lead replaced by `- ` |
| MentorSummary.BulletLine | backend/src/utils/mentorSummary.js:7-15 | an already well-formed `- item` line is left unchanged |
| MentorSummary.NormalizeLineNotIdempotent | backend/src/utils/mentorSummary.js:7-15 | one pass is not enough: `- - - item` becomes `- - item`, which a second pass turns into `- item` |
| MentorSummary.CollapseNewlines | backend/src/utils/mentorSummary.js:17 | the result has no three newlines in a row, and empty text stays empty |
| MentorSummary.CollapseUnchanged | backend/src/utils/mentorSummary.js:17 | text without three newlines in a row is not changed |
| MentorSummary.CollapseKeepsText | backend/src/utils/mentorSummary.js:17 | collapsing removes newlines only: the other characters are kept, all of them and in order |
| MentorSummary.CollapseRun | backend/src/utils/mentorSummary.js:17 | a whole run of three or more newlines becomes exactly two, a run of one or two is kept, and the text after it is collapsed in turn |
| MentorSummary.CollapseBetweenWords | backend/src/utils/mentorSummary.js:17 | three or more newlines between two other characters leave exactly one blank line between them |
| MentorSummary.TrimNoTriple | backend/src/utils/mentorSummary.js:17-18 | trimming keeps a text free of triple newlines |
| MentorSummary.NormalizeWith | backend/src/utils/mentorSummary.js:1-21 | a non-string gives the empty string; blank text comes back as given; other text comes back unpadded and with no triple newline |
| MentorSummary.NormalizeMentorSummaryAsWritten | backend/src/utils/mentorSummary.js:1-21 | with the glyph as the file spells it (the one the service calls): a non-string gives the empty string, blank text comes back as given, other text comes back unpadded and with no triple newline |
| MentorSummary.NormalizeMentorSummary | backend/src/utils/mentorSummary.js:1-21 | with the U+2022 glyph: a non-string gives the empty string, blank text comes back as given, other text comes back unpadded and with no triple newline |
| MentorSummary.NormalizeUnchanged | backend/src/utils/mentorSummary.js:1-21 | trimmed text with no triple newline, whose lines no rule touches, is returned unchanged |
| MentorSummary.ProseUnchanged | backend/src/utils/mentorSummary.js:7-15 | prose lines are left unchanged by either normaliser |
| MentorSummary.MojibakeMissesBullet | backend/src/utils/mentorSummary.js:13 | as written, the glyph rule leaves a line led by the U+2022 bullet unchanged |
| MentorSummary.AsWrittenKeepsBullet | backend/src/utils/mentorSummary.js:1-21 | as written, an intro line followed by a U+2022 bullet line comes back unchanged |
| MentorSummary.BulletConverted | backend/src/utils/mentorSummary.js:13 | with the intended glyph, a U+2022 bullet line becomes `- item` |
| MentorSummary.CorrectedLines | backend/src/utils/mentorSummary.js:6-16 | with the intended glyph, the intro line is kept and the bullet line becomes `- item` |
| MentorSummary.CorrectedConvertsBullet | backend/src/utils/mentorSummary.js:1-21 | with the intended glyph, an intro line and a U+2022 bullet line normalise to the intro line and `- item` |
| PromptBuilder.Clean | backend/src/prompts/promptBuilder.js:1-4 | a missing value becomes empty; a string comes back unpadded, no longer, and empty exactly when it was blank |
| PromptBuilder.PushSection | backend/src/prompts/promptBuilder.js:6-10 | a blank body leaves the parts alone; otherwise exactly one `### title` section with the cleaned body is appended |
| PromptBuilder.PushSectionShape | backend/src/prompts/promptBuilder.js:6-10 | every pushed part starts with `### ` and the title, and is unpadded |
| PromptBuilder.DataPartPush | backend/src/prompts/promptBuilder.js:41-47 | one loop step appends nothing for a missing, untitled or empty entry, and the `DATA: title` section otherwise |
| PromptBuilder.DataPartsStep | backend/src/prompts/promptBuilder.js:41-47 | each loop step extends the parts of the entries before it by the entry's own parts |
| PromptBuilder.PushDataSections | backend/src/prompts/promptBuilder.js:40-48 | the loop appends exactly the parts of the data sections, in order |
| PromptBuilder.AssemblePrompt | backend/src/prompts/promptBuilder.js:25-53 | the prompt is the SYSTEM, TASK, DATA and OUTPUT parts joined by blank lines |
| PromptBuilder.PromptPartsShape | backend/src/prompts/promptBuilder.js:25-53 | every part is a well-formed `### ` section, and only a leading SYSTEM part has `S` after `### ` |
| PromptBuilder.PromptUntrimmed | backend/src/prompts/promptBuilder.js:52 | the closing trim never changes the joined parts |
| PromptBuilder.SystemFirst | backend/src/prompts/promptBuilder.js:34-36 | the prompt opens with the SYSTEM section exactly when the system text is included and not blank |
| PromptBuilder.DataPartsAppend | backend/src/prompts/promptBuilder.js:41-47 | data sections render in input order: the parts of a concatenation are the concatenated parts |
| PromptBuilder.DataPartsSound | backend/src/prompts/promptBuilder.js:41-47 | every data part renders some usable section |
| PromptBuilder.DataPartsComplete | backend/src/prompts/promptBuilder.js:41-47 | every usable section is rendered, between the parts of the sections around it |
| PromptBuilder.DataPartsMembers | backend/src/prompts/promptBuilder.js:41-47 | a part comes from the data sections exactly when it renders some usable section |
| PromptBuilder.PromptEmpty | backend/src/prompts/promptBuilder.js:25-53 | the prompt is empty exactly when every included input is blank or missing |
| TracingConfig.OrElse | backend/src/config/tracing.js:13-16 | an absent or empty variable gives the fallback; any other value is used as it is |
| TracingConfig.Operations | backend/src/config/tracing.js:28-30 | an unset or empty variable lists no operation; otherwise one trimmed, comma-free name per comma-separated piece |
| TracingConfig.LoadTracingConfig | backend/src/config/tracing.js:8-39 | loading fails, with the sample-rate message, exactly when the parsed rate compares below 0 or above 1; otherwise each setting is read as the module spells it, the sample rate included, which is then NaN or lies in [0, 1] |
| TracingConfig.EnabledOnlyByExactTrue | backend/src/config/tracing.js:10 | any value other than the exact text `true` leaves tracing disabled |
| TracingConfig.UnparsableSampleRateAccepted | backend/src/config/tracing.js:33-39 | a sample rate that does not parse is NaN, and NaN passes the range check |
| TracingConfig.DefaultMaxInMemory | backend/src/config/tracing.js:22 | the in-memory bound defaults to 1000 |
| TracingConfig.DefaultSampleRate | backend/src/config/tracing.js:33-39 | the sample rate defaults to 1, which passes the range check |
| AiConfig.OptionalString | backend/src/config/ai.js:16-20 | an absent or blank value is absent; any other value is trimmed and non-empty |
| AiConfig.Between | backend/src/config/ai.js:31 | the range message starts with the variable's name |
| AiConfig.ParseOptionalInt | backend/src/config/ai.js:22-34 | absent or blank gives no value; a value lies in range and is the numeric prefix of the text; an error, naming the variable, exactly when the text has no numeric prefix or it is out of range |
| AiConfig.IntPrefixAccepted | backend/src/config/ai.js:26 | digits followed by other text are accepted as the number the digits spell |
| AiConfig.ParseOptionalFloat | backend/src/config/ai.js:36-48 | absent or blank gives no value; a value lies in range and is the numeric prefix of the text; an error, naming the variable, exactly when the prefix is missing or out of range |
| AiConfig.ParseOptionalUrl | backend/src/config/ai.js:50-61 | absent or blank gives no value; a value is the trimmed text and parses as a URL; an error exactly when the trimmed text does not parse |
| AiConfig.ParseOptionalBoolean | backend/src/config/ai.js:63-72 | true exactly for the lower-cased true words, false exactly for the false words, otherwise an error naming the variable |
| AiConfig.ResolveBaseUrl | backend/src/config/ai.js:74-84 | `AI_BASE_URL` wins when set, then `OLLAMA_URL`, then the default; an invalid URL in the chosen variable is an error |
| AiConfig.BlankBaseUrlIgnored | backend/src/config/ai.js:74-84 | a blank `AI_BASE_URL` counts as absent |
| AiConfig.OllamaUrlShadowed | backend/src/config/ai.js:76-77 | `OLLAMA_URL` is not examined, not even for validity, when `AI_BASE_URL` is set |
| AiConfig.ResolveModel | backend/src/config/ai.js:86-94 | `AI_MODEL` wins when set, then `OLLAMA_MODEL`, then the default; the model is never empty |
| AiConfig.OllamaModelShadowed | backend/src/config/ai.js:87-88 | `OLLAMA_MODEL` is not examined when `AI_MODEL` is set |
| AiConfig.ReadGeneration | backend/src/config/ai.js:111-114 | temperature, token limit and timeout lie in their ranges; each is present exactly when its variable is, and is then the number its text parses to; reading fails exactly when one of the three parses fails, and the error names the first failing variable in source order (`AI_TEMPERATURE` first) |
| AiConfig.ReadRetry | backend/src/config/ai.js:116-126 | the retry settings lie in their ranges; absent variables give the defaults 0, 250 and 2, present ones the number their text parses to; reading fails exactly when one of the three parses fails, and the error names the first failing variable in source order (`AI_MAX_RETRIES`, then `AI_RETRY_INITIAL_DELAY_MS`, then `AI_RETRY_BACKOFF_MULTIPLIER`) |
| AiConfig.IntSetting | backend/src/config/ai.js:159-160 | an integer setting lies in range, falls back when absent, is the integer its text parses to when present, and fails, naming the variable, exactly when its parse fails |
| AiConfig.RealSetting | backend/src/config/ai.js:161 | a number setting lies in range, falls back when absent, is the number its text parses to when present, and fails, naming the variable, exactly when its parse fails |
| AiConfig.ReadFeatures | backend/src/config/ai.js:128-132 | each feature flag is on exactly when its variable reads as true; reading fails exactly when either flag is not a boolean word, and the error names the first failing flag (`AI_USE_OLLAMA_SYSTEM`, then `AI_USE_OLLAMA_JSON_FORMAT`) |
| AiConfig.ReadSettings | backend/src/config/ai.js:104-132 | the provider is `ollama`, the URL, model and key are resolved as above, and generation, timeout, retry and features are what their readers give; every number lies in range and absent variables take the defaults; reading fails exactly when the URL or one of the readers fails, with the first failure's message in source order |
| AiConfig.Assemble | backend/src/config/ai.js:106-161 | the settings are taken in the order the statements read them: the first failure is the result, and with none the record carries `ollama` and the values read |
| AiConfig.SettingsInRange | backend/src/config/ai.js:111-161 | a record assembled from the readers' values has every number in range and the defaults for absent variables |
| AiConfig.ResolveConfig | backend/src/config/ai.js:104-163 | when the settings read, the load fails exactly when `AI_API_KEY` is present but blank, and then with the key message |
| AiConfig.ConfigCache.GetAIConfig | backend/src/config/ai.js:96-166 | a cached record is returned unchanged unless a reload is asked for; otherwise the settings are resolved and a success is cached |
| AiConfig.EmptyEnvironment | backend/src/config/ai.js:1-8 | with no variable set, every setting takes its default |
| AiConfig.TemperatureAboveRangeRefused | backend/src/config/ai.js:104-111 | `AI_TEMPERATURE=3` makes resolution fail with a message naming `AI_TEMPERATURE` whenever the base URL, which is read first, resolves |
| AiConfig.TemperatureRefused | backend/src/config/ai.js:44-46 | the text `3` is out of the 0 to 2 range, so the temperature parse fails |
| AiConfig.TemperatureRead | backend/src/config/ai.js:111 | `AI_TEMPERATURE=0.7` is read as 0.7 whenever the generation settings read |
| AiConfig.TemperatureResolved | backend/src/config/ai.js:104-111 | `AI_TEMPERATURE=0.7` is 0.7 in the resolved record whenever resolution succeeds |
| AiConfig.DecimalFractionRead | backend/src/config/ai.js:40 | `parseFloat` reads the text `0.7` as 0.7 |
| Validators.EmailPattern | backend/src/utils/validators.js:10 | the e-mail pattern matches exactly the texts with no white space, one `@` with text before it, and a dotted domain after it |
| Validators.ValidateEmail | backend/src/utils/validators.js:8-15 | an absent or empty address passes; otherwise it passes exactly when it matches the pattern, and fails with "Invalid email format" |
| Validators.ValidatePhone | backend/src/utils/validators.js:20-29 | an absent or empty number passes; a present one passes exactly when every character is a digit, white space, `-`, `+`, `(` or `)` and at least ten of them are digits; a rejection carries the ten-digit message |
| Validators.PhoneOfDigits | backend/src/utils/validators.js:22-24 | ten or more bare digits pass |
| Validators.PhoneRejectsOtherChars | backend/src/utils/validators.js:22-24 | a number holding a character outside digits, white space, `-`, `+`, `(` and `)` is rejected, however many digits it has |
| Validators.ParseLinkedIn | backend/src/utils/validators.js:36 | an address read by the pattern is well formed and spells the address back |
| Validators.ParseRender | backend/src/utils/validators.js:36 | every well-formed address is read back into the parts that spell it |
| Validators.ValidateLinkedIn | backend/src/utils/validators.js:34-41 | a rejection carries the LinkedIn message; a present address that passes is spelt by some well-formed set of parts |
| Validators.LinkedInAccepts | backend/src/utils/validators.js:34-41 | every well-formed profile address passes |
| Validators.BiographyTextIgnoresCase | backend/src/utils/validators.js:48-69 | the verdict on a text does not depend on letter case |
| Validators.PhraseRejects | backend/src/utils/validators.js:53-68 | a text in which an error phrase occurs, in any case, is rejected |
| Validators.BlankTextRejected | backend/src/utils/validators.js:49-51 | a blank text is rejected |
| Validators.ValidateYear | backend/src/utils/validators.js:74-82 | an absent or zero year passes; any other passes exactly when it lies between 1950 and ten years past the current year; the message names the upper bound |
| Validators.YearStaysValid | backend/src/utils/validators.js:74-82 | a year that passes now passes in every later year |
| Validators.ValidateBusinessFunction | backend/src/utils/validators.js:87-103 | passes exactly for one of the five functions, with a non-blank specification for `Other`; a missing function gets the required message |
| Validators.ContactInfoErrors | backend/src/utils/validators.js:108-132 | at most three errors; none exactly when each format passes; a bad e-mail is reported first |
| Validators.EducationErrors | backend/src/utils/validators.js:137-157 | no error exactly when degree and university are present and not blank and the year passes |
| Validators.ExperienceErrors | backend/src/utils/validators.js:162-177 | no error exactly when title and company are present and not blank |
| Validators.IndexedErrors | backend/src/utils/validators.js:229-252 | at most one error per entry |
| Validators.IndexedErrorsReport | backend/src/utils/validators.js:229-252 | an entry is reported under `name[index]`, with its own messages joined by `, `, exactly when it fails |
| Validators.IndexedErrorsEmpty | backend/src/utils/validators.js:229-252 | no entry error exactly when every entry passes |
| Validators.LeadingErrorsEmpty | backend/src/utils/validators.js:183-226 | no error before the entry lists exactly when every field rule holds |
| Validators.FieldErrorsEmpty | backend/src/utils/validators.js:182-258 | no error is collected exactly when every rule holds, field by field |
| Validators.EducationEntryReported | backend/src/utils/validators.js:229-239 | a failing education entry is reported under its index with its own messages |
| Validators.AppendIndexedErrors | backend/src/utils/validators.js:230-238 | one loop over the entries appends exactly the entry errors, in index order |
| Validators.ValidateBiographyFields | backend/src/utils/validators.js:182-258 | the errors are collected in the source's order, and the result is valid exactly when every rule holds |
| FieldUpdates.SafeTrim | backend/src/utils/fieldUpdates.js:3-7 | a value is kept exactly when it is a non-blank string, and then trimmed |
| FieldUpdates.SafeTrimStable | backend/src/utils/fieldUpdates.js:3-7 | a kept value passes through again unchanged |
| FieldUpdates.StringEntries | backend/src/utils/fieldUpdates.js:30 | the explanations are clean strings, at most one per entry |
| FieldUpdates.StringEntriesAppend | backend/src/utils/fieldUpdates.js:30 | the entries are read in order: a concatenation is read piece by piece |
| FieldUpdates.StringEntriesSingle | backend/src/utils/fieldUpdates.js:30 | a non-string entry and a blank string contribute nothing; any other string contributes itself trimmed |
| FieldUpdates.StringEntriesOfClean | backend/src/utils/fieldUpdates.js:30 | explanations that are already clean strings are kept as they are |
| FieldUpdates.ReadProposal | backend/src/utils/fieldUpdates.js:24-33 | a proposal exactly for an object; its `updates` is the given object, or `{}` when that is not a plain object; the explanations are clean |
| FieldUpdates.ParseFieldUpdatesJson | backend/src/utils/fieldUpdates.js:13-37 | a missing, non-string or empty reply gives nothing; a proposal is read from what the fence-stripped reply parses to |
| FieldUpdates.ParseRefusesNonObject | backend/src/utils/fieldUpdates.js:24-26 | a reply that does not parse, or parses to something other than an object, is refused |
| FieldUpdates.ParseFencedLikeBare | backend/src/utils/fieldUpdates.js:16-22 | a reply fenced as `json` reads exactly like the bare JSON inside the fence |
| FieldUpdates.ParseOfParsed | backend/src/utils/fieldUpdates.js:13-37 | a non-empty reply is read through whatever the parser makes of it without its fences |
| FieldUpdates.ParseProposalOf | backend/src/utils/fieldUpdates.js:13-37 | an object with an `updates` object and clean explanation strings reads back as exactly those |
| FieldUpdates.NormalizedUpdates | backend/src/utils/fieldUpdates.js:39-115 | a value that is not a plain object gives no update; every result is normalised: clean texts, years not negative, a listed business function with its `Other` text, valid non-empty contact details |
| FieldUpdates.NormalizeErrors | backend/src/utils/fieldUpdates.js:39-115 | a value that is not a plain object gives no error; there are at most three errors |
| FieldUpdates.NormalizeYears | backend/src/utils/fieldUpdates.js:56-63 | the years are kept exactly when their number is finite and not negative; a present value that is refused gives "Invalid yearsExperience" |
| FieldUpdates.NormalizeBusinessFunction | backend/src/utils/fieldUpdates.js:65-81 | the function is kept exactly when valid; its `Other` text is kept only for `Other`; a refusal carries the validator's message |
| FieldUpdates.AcceptedFunction | backend/src/utils/fieldUpdates.js:68-77 | an accepted function is one of the five, and `Other` comes with its specification |
| FieldUpdates.NormalizeContact | backend/src/utils/fieldUpdates.js:83-107 | the contact details are kept exactly when they form an object whose present sub-fields are all valid and at least one is present; otherwise "Invalid contactInfo" unless all are blank |
| FieldUpdates.NormalizeProposedFieldUpdates | backend/src/utils/fieldUpdates.js:39-115 | the method builds exactly the normalised update set and the errors in the order of the checks |
| FieldUpdates.YearsOfIntegerText | backend/src/utils/fieldUpdates.js:56-59 | a whole-number string is accepted as that number of years |
| FieldUpdates.ContactAllOrNothing | backend/src/utils/fieldUpdates.js:96-103 | one invalid present sub-field refuses the whole contact block |
| FieldUpdates.ContactBlankDropped | backend/src/utils/fieldUpdates.js:92-100 | a contact block whose sub-fields are all blank or absent is dropped without an error |
| FieldUpdates.HasAnyUpdates | backend/src/utils/fieldUpdates.js:117-128 | true exactly when some field is set, a contact block counting only when it holds a key |
| FieldUpdates.NormalizedHasAny | backend/src/utils/fieldUpdates.js:117-128 | on a normalised set, having any update is being non-empty |
| FieldUpdates.ExplanationLines | backend/src/utils/fieldUpdates.js:133-149 | never more lines than field names |
| FieldUpdates.BuildUpdateExplanations | backend/src/utils/fieldUpdates.js:130-152 | a value that is not a plain object gives no line; never more lines than the explained fields |
| FieldUpdates.ExplanationLinesMember | backend/src/utils/fieldUpdates.js:133-149 | the line for a field with a given text is written exactly when that field holds that text |
| FieldUpdates.ExplanationLinesAbsent | backend/src/utils/fieldUpdates.js:133-149 | no line names a field outside the list |
| FieldUpdates.ExplanationPerField | backend/src/utils/fieldUpdates.js:130-152 | the line for a listed field with a given text is there exactly when that field shows that text |
| FieldUpdates.ExplanationLinesInOrder | backend/src/utils/fieldUpdates.js:133-149 | the lines are, in order, one per set field of the list, each showing that field's text, and there are exactly as many as set fields |
| FieldUpdates.ExplanationsInFixedOrder | backend/src/utils/fieldUpdates.js:130-152 | the explanation has one line per set field, in the fixed order job title to LinkedIn, each showing that field's text, and no other line |
| FieldUpdates.ExplanationLinesEmpty | backend/src/utils/fieldUpdates.js:133-149 | no line is written exactly when no listed field is set |
| FieldUpdates.NormalizedExplained | backend/src/utils/fieldUpdates.js:117-152 | for a normalised set, an explanation is written exactly when there is an update to confirm |
| FieldUpdates.DetectYesNoIntent | backend/src/utils/fieldUpdates.js:154-167 | yes exactly for a text whose trimmed, lower-cased form is a yes-word; no exactly when it is not a yes-word but a no-word |
| FieldUpdates.WordListsDisjoint | backend/src/utils/fieldUpdates.js:158-162 | no word is both a yes-word and a no-word |
| FieldUpdates.IntentNo | backend/src/utils/fieldUpdates.js:154-167 | a reply means no exactly when it is a no-word |
| FieldUpdates.IntentIgnoresPaddingAndCase | backend/src/utils/fieldUpdates.js:155-156 | white space around a word and the case of its letters do not change the intent |
| FieldUpdates.MergeContactProperties | backend/src/utils/fieldUpdates.js:179-185 | the update's keys win, the keys it lacks keep their stored values, and merging again changes nothing |
| FieldUpdates.Override | backend/src/utils/fieldUpdates.js:172-177 | a field the update holds replaces the stored one; an absent one keeps it |
| FieldUpdates.ApplyFieldUpdatesToBiography | backend/src/utils/fieldUpdates.js:169-186 | a missing document or a non-object update changes nothing; otherwise each held field is written, contact details merged, and no other field changes |
| FieldUpdates.WriteUpdates | backend/src/utils/fieldUpdates.js:172-185 | each field becomes its override and the contact details their merge |
| Sequences.Filter | backend/src/utils/parsers.js:15 | every kept element passes and comes from the input, every passing element is kept, and the kept ones are a subsequence of the input |
| Sequences.FilterMultiset | backend/src/utils/parsers.js:15 | each passing value is kept as many times as it occurs, and no other value is kept |
| Sequences.FilterConcat | backend/src/utils/parsers.js:15 | filtering a concatenation is the concatenation of the filtered parts |
| Sequences.Dedup | backend/src/utils/parsers.js:46-50 | every element once, none lost, in order |
| Sequences.DedupOrder | backend/src/utils/parsers.js:46-50 | elements keep the order of their first occurrences |
| Sequences.DedupNoDuplicates | backend/src/utils/parsers.js:46-50 | a list without duplicates is left unchanged |
| Profile.UpdateKeys | backend/src/utils/fieldUpdates.js:119-120 | at most seven keys, and none exactly for the empty update set |
| Profile.BiographyDoc.constructor | backend/src/models/Biography.js:121-200 | a new document starts from the schema defaults: empty lists and history, no optional field, tags not managed by hand |
| Tracing.TruncateText | backend/src/services/tracing.js:161-164 | a string of at most 5000 characters is kept; a longer one keeps its first 5000 followed by `...` |
| Tracing.SanitizedShape | backend/src/services/tracing.js:145-200 | sanitising keeps the kind of every value, the length of every array and the keys of every object in order, and redacts every sensitive key |
| Tracing.SanitizedKind | backend/src/services/tracing.js:145-200 | a sanitised value is an object or an array exactly when the input was |
| Tracing.SanitizedIdempotent | backend/src/services/tracing.js:145-200 | sanitising a sanitised payload changes nothing more |
| Tracing.MemberIdempotent | backend/src/services/tracing.js:173-194 | sanitising an object member twice gives what sanitising it once gives |
| Tracing.HeadersIdempotent | backend/src/services/tracing.js:180-191 | sanitising a `headers` value twice gives what sanitising it once gives |
| Tracing.HeaderIdempotent | backend/src/services/tracing.js:182-188 | sanitising one header twice gives what sanitising it once gives |
| Tracing.SamplingExtremes | backend/src/services/tracing.js:50-52 | a rate of 1 samples every draw; a rate of 0 and a NaN rate sample none |
| Tracing.UnparsableRateSamplesNothing | backend/src/services/tracing.js:50-52 | an unparsable sample rate loads without error and then turns every span off |
| Tracing.TraceIdOf | backend/src/services/tracing.js:68 | a truthy `traceId` in the metadata is kept; otherwise the fresh identifier is used |
| Tracing.EnvironmentName | backend/src/services/tracing.js:75 | a non-empty `NODE_ENV` is used, `development` otherwise; never empty |
| Tracing.OutputSummary | backend/src/services/tracing.js:108-113 | the summary holds the value's type and its length, or `null` when the length is falsy |
| Tracing.SliceEnd | backend/src/services/tracing.js:214 | `slice(0, end)` stops at `end` within bounds, and counts a negative `end` from the back |
| Tracing.KeepNewest | backend/src/services/tracing.js:210-215 | the buffer keeps a prefix: at most `max` spans for a non-negative bound, all of them for a NaN bound |
| Tracing.NewestKept | backend/src/services/tracing.js:210-215 | a bound of at least one keeps the span just saved in front of the older ones |
| Tracing.NegativeBoundDropsFromEnd | backend/src/services/tracing.js:213-215 | a negative bound drops that many spans from the end, the new one included when the buffer is short |
| Tracing.Span.constructor | backend/src/services/tracing.js:67-78 | a new span is in progress with the given identity, time and metadata, and no end, output or error |
| Tracing.TracingService.constructor | backend/src/services/tracing.js:18-33 | the settings come from the tracing configuration and the buffer starts empty |
| Tracing.TracingService.StartSpan | backend/src/services/tracing.js:62-83 | no span unless tracing is on and the draw is sampled; otherwise a fresh in-progress span whose metadata gains the environment name |
| Tracing.TracingService.EndSpan | backend/src/services/tracing.js:94-137 | without a span or with tracing off nothing changes; otherwise the span is ended with its duration, status, output, error and merged metadata, and saved in front of the buffer |
| Tracing.TracingService.SaveTrace | backend/src/services/tracing.js:207-215 | the span goes in front of the buffer, which is cut to the bound |
| Tracing.TracingService.RecentTraces | backend/src/services/tracing.js:310-312 | the newest `limit` spans, in order |
| Tracing.TracingService.SanitizePayload | backend/src/services/tracing.js:145-200 | the loop builds exactly the sanitised payload |
| Tracing.TracingService.SanitizeHeaders | backend/src/services/tracing.js:180-191 | the loop builds exactly the sanitised headers |
| Tracing.CountStatus | backend/src/services/tracing.js:326-327 | a status count never exceeds the number of traces |
| Tracing.StatusCountsBounded | backend/src/services/tracing.js:326-327 | successes and errors together never exceed the number of traces |
| Tracing.OfOperation | backend/src/services/tracing.js:335-355 | the traces of one operation, all of that operation |
| Tracing.FindOperation | backend/src/services/tracing.js:336 | the lookup finds the group of the operation, or reports that there is none |
| Tracing.GroupedAppend | backend/src/services/tracing.js:336-354 | a first trace of an operation appends a group holding its counters, and the grouping invariant holds again |
| Tracing.GroupedUpdate | backend/src/services/tracing.js:346-354 | a trace of a known operation bumps its group's counters in place, and the grouping invariant holds again |
| Tracing.TracingService.GroupByOperation | backend/src/services/tracing.js:335-355 | the loop builds one group per operation, in order of first appearance, each holding that operation's counters |
| Tracing.FirstIndex | backend/src/services/tracing.js:335-355 | the position of an operation's first trace, or the number of traces when it has none |
| Tracing.FirstAppearancesInOrder | backend/src/services/tracing.js:335-355 | the group keys name every operation once, and an operation whose first trace comes earlier comes earlier |
| Tracing.GroupsAveraged | backend/src/services/tracing.js:335-360 | setting each group's mean keeps the groups in first-appearance order, once each, with each operation's own counters, and the counts still add up to the number of traces |
| Tracing.TracingService.FillAverages | backend/src/services/tracing.js:358-360 | each group gains its mean duration, and nothing else changes |
| Tracing.TracingService.GetStatistics | backend/src/services/tracing.js:320-362 | the totals by status and the mean duration are those of the traces; there is one group per operation, in the order of each operation's first trace, each with its own counters and mean, and the group counts add up to the number of traces |
| Ollama.StripTrailingSlash | backend/src/services/ollama.js:19 | at most one trailing slash is removed, and nothing else |
| Ollama.JoinUrl | backend/src/services/ollama.js:18-22 | the URL is the base without its trailing slash, then the path, with exactly one slash inserted when the path has none |
| Ollama.JoinUrlBaseSlash | backend/src/services/ollama.js:18-22 | one trailing slash on the base does not change the URL |
| Ollama.JoinUrlInsertsSlash | backend/src/services/ollama.js:18-22 | with neither slash present, exactly one is inserted |
| Ollama.JoinUrlPathSlash | backend/src/services/ollama.js:18-22 | a leading slash on the path does not change the URL |
| Ollama.BuildGenerateBody | backend/src/services/ollama.js:24-46 | model and prompt are passed through, streaming is off, and `options` is present exactly when a temperature or a token limit is given, carrying both |
| Ollama.RetryClassification | backend/src/services/ollama.js:48-54 | no error is not retried, a missing response is, and a response is retried exactly when its status is at least 500 |
| Ollama.Transport.Post | backend/src/services/ollama.js:65-68 | a POST is recorded with its URL, body and timeout, and returns the client's next outcome |
| Ollama.Transport.Sleep | backend/src/services/ollama.js:16 | a sleep is recorded with its delay |
| Ollama.AttemptsFrom | backend/src/services/ollama.js:61-78 | the loop makes between one POST and one more than the retries left, and stops at the first attempt at which it stops |
| Ollama.AttemptsAt | backend/src/services/ollama.js:61-78 | the loop runs until the first attempt at which it stops |
| Ollama.Attempts | backend/src/services/ollama.js:56-79 | a call makes at least one POST and at most one more than `maxRetries` |
| Ollama.BackoffDelays | backend/src/services/ollama.js:74-76 | the delay before retry `k + 1` is the rounded initial delay times the multiplier to the power `k` |
| Ollama.BackoffNondecreasing | backend/src/services/ollama.js:75 | with a non-negative first delay and a multiplier of at least one, the delays never shrink |
| Ollama.PostWithRetry | backend/src/services/ollama.js:56-79 | the call makes exactly `Attempts` identical POSTs with the back-off sleeps between them, and returns the last outcome |
| Ollama.DefaultsPostOnce | backend/src/services/ollama.js:57-59 | with the default settings exactly one POST is made and nothing sleeps |
| Ollama.NonRetryableStopsAtOnce | backend/src/services/ollama.js:69-72 | a non-retryable failure ends the loop at once |
| Ollama.PersistentFailureUsesAllRetries | backend/src/services/ollama.js:69-77 | retryable failures all the way use every retry |
| Ollama.ResponseText | backend/src/services/ollama.js:122 | a text is the string `response` member of an answered request |
| Ollama.BiographyResult | backend/src/services/ollama.js:120-149 | the trimmed reply text, or the fixed failure message exactly when there is no reply text |
| Ollama.MentorSummaryResult | backend/src/services/ollama.js:190-218 | the reply normalised as the source spells the glyph, an absent text normalising to empty, or the fixed failure message exactly when the request failed or `data` is null |
| Ollama.KeywordsResult | backend/src/services/ollama.js:260-293 | the keywords of the reply, or the fixed failure message exactly when there is no reply text |
| Ollama.RefineResult | backend/src/services/ollama.js:402-441 | the trimmed reply exactly when it is a valid biography text, the fixed failure message otherwise |
| Ollama.ProposalResult | backend/src/services/ollama.js:337-354 | the trimmed reply text, empty for a falsy reply, and `null` exactly when the request failed or `data` is null |
| Ollama.OllamaService.Send | backend/src/services/ollama.js:83-120 | the settings come from the cache; when they fail nothing is sent; otherwise the generate request is sent with retries and the last outcome returned |
| Ollama.OllamaService.GenerateBiography | backend/src/services/ollama.js:82-150 | a settings failure escapes unchanged and sends nothing; otherwise the biography request is sent with retries and answered by its result |
| Ollama.OllamaService.GenerateMentorSummary | backend/src/services/ollama.js:152-220 | a settings failure escapes unchanged; otherwise the mentor-summary request is sent and answered by its result |
| Ollama.OllamaService.ExtractKeywords | backend/src/services/ollama.js:222-295 | a settings failure escapes unchanged; otherwise the keywords request is sent and answered by its result |
| Ollama.OllamaService.ProposeFieldUpdates | backend/src/services/ollama.js:297-356 | a settings failure escapes; otherwise the proposal request is sent at temperature 0 with at most 400 tokens and never fails |
| Ollama.OllamaService.RefineBiography | backend/src/services/ollama.js:358-443 | a settings failure escapes; otherwise the refinement request is sent and answered by its result |
| Chat.MessageLog.constructor | backend/src/routes/chat.js:172-174 | a new log holds no messages |
| Chat.MessageLog.Save | backend/src/routes/chat.js:40-45 | saving appends exactly that message at the end of the log |
| Chat.MessageLog.Oldest | backend/src/routes/chat.js:172-174 | the conversation context is the first min(n, 20) stored messages, oldest first: a prefix of the log |
| Chat.ModelGateway.constructor | backend/src/routes/chat.js:180-215 | the gateway answers with the given functions and has recorded no call |
| Chat.ModelGateway.Refine | backend/src/routes/chat.js:180-184 | the refine call is recorded with its text, message and history, and answers what the model answers |
| Chat.ModelGateway.Extract | backend/src/routes/chat.js:189 | the keyword call is recorded with the refined text, and answers what the keyword service answers |
| Chat.ModelGateway.Propose | backend/src/routes/chat.js:207-215 | the proposal call is recorded with the current fields and the message, and answers what the model answers |
| Chat.NextPending | backend/src/routes/chat.js:48-155 | a pending proposal is kept exactly when the reply is neither yes nor no, and is otherwise cleared; with nothing pending, a proposal appears exactly when the model proposed at least one update, and it holds those updates |
| Chat.ProposalExplained | backend/src/routes/chat.js:223-228 | a new proposal built from normalised updates always carries at least one explanation line |
| Chat.ProposedUpdates | backend/src/routes/chat.js:219-221 | a missing or empty proposal reply yields no updates, and the result is always normalised |
| Chat.UnparsableProposalIgnored | backend/src/routes/chat.js:219-232 | a proposal reply that does not parse to field updates leaves nothing pending |
| Chat.AppliedMessage | backend/src/routes/chat.js:126-128 | with no lines the acknowledgement is the fixed sentence, otherwise it opens with the bulleted list header |
| Chat.AppliedLines | backend/src/routes/chat.js:122-124 | the acknowledged lines are the stored explanations when there are any, else the explanations built from the pending updates |
| Chat.FieldEntries | backend/src/routes/chat.js:107-117 | one `field-update` history entry per updated key, in key order, each naming its key and carrying the summary, the tags and the time given, with no user-added tags; the `skills` the route passes are not a key of the history schema and are not stored |
| Chat.AppendFieldHistory | backend/src/routes/chat.js:107-117 | the history grows by exactly those per-key entries and nothing else changes |
| Chat.ApplyPending | backend/src/routes/chat.js:100-124 | on yes every pending field is written over the old value (contact details merged), one history entry per updated field is added, the proposal is cleared, and the lines to acknowledge are returned |
| Chat.AnswerPending | backend/src/routes/chat.js:48-155 | on a pending proposal: yes applies it, no clears it without touching any profile field, anything else changes nothing; the answer carries the current text and the matching assistant message, which is stored |
| Chat.CurrentFields | backend/src/routes/chat.js:207-215 | the fields shown to the proposal prompt always carry contact details, defaulting to an empty object |
| Chat.RecordRefinement | backend/src/routes/chat.js:186-204 | the refined text becomes both current biography and summary, skills are replaced only when new ones were extracted, and exactly one `chat` history entry is added |
| Chat.ReadProposedUpdates | backend/src/routes/chat.js:219-221 | the updates read from the model's reply are the normalised `updates` of the parsed reply, and none when the reply is missing or empty |
| Chat.ProposeUpdates | backend/src/routes/chat.js:206-232 | the model is asked with the current fields and the message; a proposal becomes pending exactly when it holds updates, and the assistant's message offers it or reports only the text update |
| Chat.RefineCalls | backend/src/routes/chat.js:180-215 | a successful turn calls refine first and propose last, with the keyword call between them exactly when tags are not managed by hand |
| Chat.RefineAndExtract | backend/src/routes/chat.js:180-191 | refine is called first; extract is called with the refined text only when tags are not managed by hand and refinement succeeded |
| Chat.RefineValidText | backend/src/routes/chat.js:171-257 | a failed model call answers 500 and changes nothing stored; otherwise the turn leaves the refined text, its history entry, keywords, the call sequence, the proposal and the assistant's message as the route does |
| Chat.RecordAndPropose | backend/src/routes/chat.js:193-241 | the refinement is recorded, the proposal asked for and made pending when it holds updates, and the assistant's message stored |
| Chat.RefineTurn | backend/src/routes/chat.js:157-257 | a current text that fails validation answers 400 before any model call and changes nothing; a refusal changes nothing stored; success leaves exactly the refined-turn state |
| Chat.PendingTurn | backend/src/routes/chat.js:37-155 | with a proposal pending, the user message is stored first; the proposal then moves as the reply's intent says, a yes writes the fields and their history entries, a no or an unclear reply leaves the profile as it was, and the assistant's answer is stored after the user's |
| Chat.FreshTurn | backend/src/routes/chat.js:37-257 | with nothing pending, the user message is stored first; an invalid current text answers 400 before any model call, a refusal changes no document and stores only the user's message, and success leaves the refined-turn state with the assistant's answer stored after the user's |
| Chat.HandleRefine | backend/src/routes/chat.js:22-262 | a blank message answers 400 with nothing stored or called, a non-string one 500, a missing biography 404; otherwise the user message is stored first. With a proposal pending no model call is made, the proposal moves as the reply's intent says, a yes writes the fields and their history entries, a no or an unclear reply leaves the profile as it was, and the assistant's answer is stored. With none pending, an invalid current text answers 400 and changes nothing, a failed model call answers 500 with only the user message stored, and success leaves the refined-turn state with the assistant's message stored after the user's |
| StructuredDisplay.DisplayOfValid | frontend/src/components/StructuredBiographyDisplay.jsx:21-23 | for a business function that passes validation, the displayed value is never blank: the free text for `Other`, else the listed function itself |
| StructuredDisplay.SummaryLines | frontend/src/components/StructuredBiographyDisplay.jsx:80-86 | every line classified is non-empty, trimmed and holds no line break |
| StructuredDisplay.BlankSummaryLines | frontend/src/components/StructuredBiographyDisplay.jsx:80-81 | missing or blank text has no lines to classify |
| StructuredDisplay.BulletsTrimmed | frontend/src/components/StructuredBiographyDisplay.jsx:92-94 | every bullet kept is non-empty and trimmed |
| StructuredDisplay.IntroLinesPlain | frontend/src/components/StructuredBiographyDisplay.jsx:91-97 | no line that goes into the intro starts with `- ` |
| StructuredDisplay.LinesStep | frontend/src/components/StructuredBiographyDisplay.jsx:91-97 | one more line adds its trimmed remainder to the bullets when it is a bullet with text, adds itself to the intro when it is not a bullet, and otherwise nothing |
| StructuredDisplay.ClassifyLines | frontend/src/components/StructuredBiographyDisplay.jsx:88-103 | the loop yields the non-bullet lines joined by single spaces as the intro and the non-empty bullet texts as the bullets, both in input order |
| StructuredDisplay.ParseMentorSummary | frontend/src/components/StructuredBiographyDisplay.jsx:79-104 | the intro and bullets are those of the trimmed non-empty lines, and blank or missing text gives an empty intro and no bullets |
| StructuredDisplay.BulletsOfLines | frontend/src/components/StructuredBiographyDisplay.jsx:91-97 | lines `- item` for clean items parse back to exactly those items and contribute no intro |
| StructuredDisplay.CleanLinesRecovered | frontend/src/components/StructuredBiographyDisplay.jsx:80-86 | clean lines joined by line breaks split, trim and filter back to themselves |
| StructuredDisplay.ParseRendered | frontend/src/components/StructuredBiographyDisplay.jsx:79-104 | a summary in the normalised shape (an optional intro line, then one `- item` line per bullet) parses back to that intro and those items |
| BiographyContext.Lines | backend/src/routes/biography.js:41-44 | one line per item, in order |
| BiographyContext.ConcatAppend | backend/src/routes/biography.js:41-44 | appending one more part appends its text at the end |
| BiographyContext.AppendLines | backend/src/routes/biography.js:41-44 | the `forEach` loop leaves the text followed by each item's line in order |
| BiographyContext.AppendLocation | backend/src/routes/biography.js:31-33 | the location line is appended exactly when a location is present and non-empty |
| BiographyContext.AppendYears | backend/src/routes/biography.js:35-37 | the years line is appended as the years test of the route decides (truthy for `/generate`, defined for the rebuilt contexts) |
| BiographyContext.AppendExperience | backend/src/routes/biography.js:39-45 | an `Experience:` heading then one line per entry (with years and description when present) is appended when there is experience |
| BiographyContext.AppendSkills | backend/src/routes/biography.js:47-49 | the skills joined with `, ` are appended when there are skills |
| BiographyContext.AppendEducation | backend/src/routes/biography.js:51-56 | an `Education:` heading then one line per entry is appended when there is education |
| BiographyContext.AppendCertifications | backend/src/routes/biography.js:58-60 | the certifications joined with `, ` are appended when there are certifications |
| BiographyContext.AppendAchievements | backend/src/routes/biography.js:62-67 | a `Notable Achievements:` heading then one line per achievement is appended when there are achievements |
| BiographyContext.AppendAdditional | backend/src/routes/biography.js:70-72 | the trimmed user summary is appended as additional context exactly when it is not blank |
| BiographyContext.BuildContext | backend/src/routes/biography.js:29-72 | the context built section by section is the header followed by each optional section in the route's fixed order |
| BiographyContext.StoredOrRebuilt | backend/src/routes/biography.js:292-294 | a stored raw input that is not blank is used as it is, otherwise the rebuilt context |
| BiographyContext.GenerateDropsZeroYears | backend/src/routes/biography.js:35-37 | `/generate` treats a years-of-experience of 0 exactly as an absent one |
| BiographyContext.RegenerateKeepsZeroYears | backend/src/routes/biography.js:300-302 | the rebuilt contexts print `Years of Experience: 0` for a value of 0, so that context is longer by that line |
| BiographyContext.RebuiltContextsDiffer | backend/src/routes/biography.js:292-413 | the rebuilt summary context never depends on the stored summary, and the rebuilt mentor-summary context is it followed by the additional-context section |
| BiographyContext.FallbackSummary | backend/src/routes/biography.js:85-86 | the trimmed user summary when it is not blank, otherwise a sentence that opens with the job title and ends with the department |
| BiographyContext.GeneratedSummary | backend/src/routes/biography.js:75-87 | the model's answer when there is one, else the fallback, which is never empty |
| BiographyContext.FallbackZeroYears | backend/src/routes/biography.js:86 | a years value of 0 reads as `several`, exactly as an absent one |
| BiographyContext.BuildExtractionText | backend/src/routes/biography.js:228-253 | the text built piece by piece is the summary, experience facts, education facts and achievements in that order, each only when present |
| BiographyContext.CleanKeywords | backend/src/routes/biography.js:259 | every cleaned keyword is non-empty and trimmed, and there are no more than extracted; `CleanKeywordsTrimsThenFilters` gives the exact list |
| BiographyContext.CleanKeywordsKeeps | backend/src/routes/biography.js:259 | every keyword that is not blank survives trimmed, and every cleaned keyword is the trim of an extracted one |
| BiographyContext.CleanKeywordsTrimsThenFilters | backend/src/routes/biography.js:259 | the cleaned keywords are exactly the trimmed keywords with the empty ones dropped, in order and with repeats |
| BiographyRoutes.CheckRegenerateKey | backend/src/routes/biography.js:205-218 | the key is accepted exactly when it is a schema path and one of `summary`, `mentorSummary`, `skills`; a non-path answers 400 `Invalid key` first, a path outside the list 400 `Key is not regeneratable` |
| BiographyRoutes.RegeneratableIffAllowed | backend/src/routes/biography.js:205-218 | with the three keys on the schema, a key is accepted exactly when it is one of them |
| BiographyRoutes.FieldHistory | backend/src/routes/biography.js:729-736 | the entry carries the summary text (empty when absent), the tags, no user tags, the source, the field and the time |
| BiographyRoutes.Regenerate | backend/src/routes/biography.js:201-453 | a refused key answers its 400 and a missing biography 404, and neither changes anything; each accepted key runs its own branch with the effects that branch states |
| BiographyRoutes.RegenerateSkills | backend/src/routes/biography.js:226-288 | a failed extraction answers 500 and changes nothing; otherwise the skills become the cleaned keywords of the extraction text and one `regenerate-keywords` entry is pushed |
| BiographyRoutes.ChooseContext | backend/src/routes/biography.js:292-337 | the context is the stored raw input when it is not blank, else the context rebuilt from the fields with years shown whenever defined |
| BiographyRoutes.RegenerateMentorSummary | backend/src/routes/biography.js:290-367 | a failed model call answers 500 and changes nothing; otherwise the answer becomes the mentor summary and one `field-update` entry naming `mentorSummary` is pushed |
| BiographyRoutes.RegenerateSummary | backend/src/routes/biography.js:369-445 | a failed model call answers 500 and changes nothing; otherwise the answer becomes both summary and current biography and one `field-update` entry naming `summary` is pushed |
| BiographyRoutes.TagArray | backend/src/utils/parsers.js:38-42 | the tags are read exactly when the body is an array, one element per item, a string element as itself and any other as absent |
| BiographyRoutes.AiTags | backend/src/routes/biography.js:490 | a tag is kept as an AI tag exactly when it is sanitised and was an AI tag before, in sanitised order |
| BiographyRoutes.NewUserTags | backend/src/routes/biography.js:485-487 | a tag is new exactly when it is sanitised and was neither an AI nor a user tag |
| BiographyRoutes.UserTags | backend/src/routes/biography.js:491-493 | a tag is a user tag exactly when it is sanitised and was a user tag before or is new, in sanitised order |
| BiographyRoutes.TagsPartitioned | backend/src/routes/biography.js:480-493 | every sanitised tag lands in at least one list and nothing else does; it lands in both exactly when it was both an AI and a user tag before |
| BiographyRoutes.UpdateTags | backend/src/routes/biography.js:456-525 | missing tags answer 400, invalid tags 400, a missing biography 404, each before the next check and with nothing changed; otherwise the tags are split into AI and user tags, marked as managed by hand, and one `manual` entry is pushed |
| BiographyRoutes.ReplaceTags | backend/src/routes/biography.js:495-507 | the new AI and user tag lists, the manual flag and the one `manual` history entry |
| BiographyRoutes.SetText | backend/src/routes/biography.js:726 | the named text field takes the value and every other one keeps its own |
| BiographyRoutes.SetList | backend/src/routes/biography.js:726 | the named list field takes the value and every other one keeps its own |
| BiographyRoutes.UpdateField | backend/src/routes/biography.js:708-747 | a missing biography answers 404 and a field outside the allowed list 400, before any change; a value of the wrong type fails with 500 and no change; otherwise exactly the named field takes the value and one `field-update` entry naming it is pushed |
| BiographyRoutes.AssignField | backend/src/routes/biography.js:726 | the named field, and only it, takes the value |
| BiographyRoutes.AssignText | backend/src/routes/biography.js:726 | the named text field, and only it, takes the value |
| BiographyRoutes.AssignList | backend/src/routes/biography.js:726 | the named list field, and only it, takes the value |
| BiographyRoutes.CheckIndex | backend/src/routes/biography.js:809-812 | the index is not a number exactly when `parseInt` finds none, and in range exactly when the parsed number lies between 0 and the length, in which case it is that number |
| BiographyRoutes.Replaced | backend/src/routes/biography.js:813 | the list keeps its length, holds the entry at the index and every other entry where it was |
| BiographyRoutes.Removed | backend/src/routes/biography.js:832 | the list is one shorter, with the entries before the index in place and those after it shifted down by one |
| BiographyRoutes.RemovedRestored | backend/src/routes/biography.js:832 | putting the removed entry back gives the list again, nothing else is lost (as a multiset), and replacing an entry by itself changes nothing |
| BiographyRoutes.AddEducation | backend/src/routes/biography.js:785-801 | a missing biography answers 404; otherwise the entry is appended at the end |
| BiographyRoutes.ReplaceEducation | backend/src/routes/biography.js:803-821 | a missing biography answers 404; with the guard as written, an index the guard refuses answers 400 and changes nothing, and any other index answers 200 with the as-written assignment (a non-numeric one changes no entry); an index in range replaces that entry and no other, and one out of range is refused |
| BiographyRoutes.DeleteEducation | backend/src/routes/biography.js:823-840 | a missing biography answers 404; with the guard as written, an index the guard refuses answers 400 and changes nothing, and any other index answers 200 with the as-written splice (a non-numeric one removes the first entry); an index in range removes that entry and the others keep their order, and one out of range is refused |
| BiographyRoutes.AddExperience | backend/src/routes/biography.js:843-857 | a missing biography answers 404; otherwise the entry is appended at the end |
| BiographyRoutes.ReplaceExperience | backend/src/routes/biography.js:859-877 | a missing biography answers 404; with the guard as written, an index the guard refuses answers 400 and changes nothing, and any other index answers 200 with the as-written assignment (a non-numeric one changes no entry); an index in range replaces that entry and no other, and one out of range is refused |
| BiographyRoutes.DeleteExperience | backend/src/routes/biography.js:879-896 | a missing biography answers 404; with the guard as written, an index the guard refuses answers 400 and changes nothing, and any other index answers 200 with the as-written splice (a non-numeric one removes the first entry); an index in range removes that entry and the others keep their order, and one out of range is refused |
| BiographyRoutes.LetterIndexIsNaN | backend/src/routes/biography.js:828 | an index that starts with a letter parses to no number |
| BiographyRoutes.NonNumericIndexAsWritten | backend/src/routes/biography.js:828-832 | as written, a non-numeric index passes the guard; the delete then removes the first entry and the replace changes no entry |
| BiographyRoutes.DeleteAtLetterIndexAsWritten | backend/src/routes/biography.js:823-832 | as written, deleting at index `abc` from a non-empty list removes its first entry |
| BiographyRoutes.NonNumericIndexRefused | backend/src/routes/biography.js:828-831 | the corrected guard refuses every non-numeric index |
| BiographyRoutes.AsWrittenAgreesOnNumbers | backend/src/routes/biography.js:809-813 | on a numeric index the guard as written refuses exactly the indexes out of range, and in range its splice removes and its assignment replaces that entry |
| JsNumber.ParseIntRoundTrip | backend/src/routes/biography.js:809 | `parseInt` reads back the decimal text of every integer, whatever non-digit text follows it |
| JsText.SplitOfJoin | frontend/src/components/StructuredBiographyDisplay.jsx:83-84 | pieces free of the separator, joined and split again, come back unchanged |

## Left out

- Persistence is not modelled: MongoDB models and queries, `Biography.save`, `ChatMessage.save`, `Trace.create`, `queryTraces`, and the trace-file output. Documents are objects whose fields the routes assign in place; the chat log is a sequence of messages.
- HTTP is not modelled: the axios POST and `sleep` are a recording `Transport` whose answers are given. The Express `res.status().json()` plumbing is reduced to a reply value.
- `traced()`, the service spans opened inside each Ollama operation, and all logging are left out. They do not change any result.
- `backend/src/services/keywords.js` is a pass-through to `extractKeywords`, so the model calls the gateway directly.
- Prompt templates are fixed text with interpolation. Each template is an uninterpreted string parameter; only how sections are assembled is modelled.
- Numbers are exact reals: IEEE-754 rounding, overflow to `Infinity`, `-0`, and exponent notation in number-to-text are not modelled. Fractions print with at most twenty digits.
- `toLowerCase` is modelled on ASCII letters only.
- The JavaScript regex engine is not modelled. Each regex is a hand-written character predicate.
- The key order of objects built by `buildOllamaGenerateBody` and the sanitiser is not modelled. Duplicate member names in a parsed object are read as the last one wins.
- Mongoose casting, trim setters, schema validators and `required` checks are left out: a value is stored as given. `PUT /:id/field/:fieldName` with a value of the wrong type is modelled as the save failing with 500. An absent `value` in that route is not modelled.
- The schema's path list (`Biography.schema.path`) is a parameter of the regenerate route.
- `POST /generate` is modelled through its context and its fallback summary only. Its validation call, the mentor-summary generation, creating the document and the response body are left out.
- `PUT /:id/contact`, `PUT /:id/edit`, `PUT /:id/title`, the read-only routes, `DELETE /:id`, and the chat routes `GET /:biographyId/messages` and `DELETE /:biographyId/clear` are outside this model.
- LengthErrors (`Parsers.LengthErrors`): counts a tag's length in Unicode code points, while JavaScript's `.length` counts UTF-16 code units; a tag of 26 "😀" is 52 units and is refused by the source but passes here.
- ValidateTags (`Parsers.ValidateTags`): the 50-character limit counts code points, not UTF-16 code units, as for `LengthErrors`.
- LeadingErrorsEmpty (`Validators.LeadingErrorsEmpty`): the 500- and 2000-character limits on the summary and the mentor summary count code points, not UTF-16 code units; `Validators.LeadingErrors` and `Validators.ValidateBiographyFields` count the same way.
- TruncateText (`Tracing.TruncateText`): the 5000-character limit and the cut point count code points, not UTF-16 code units, so a cut never splits a surrogate pair here.
- SanitizePayload (`Tracing.TracingService.SanitizePayload`): strings are truncated as `TruncateText` does, in code points rather than UTF-16 code units.
- Chat.Reply: a successful refine answer carries the biography, the summary and the message only; the profile fields the route echoes back are not part of the reply value, and the 400 answer for an invalid biography carries its `error` but not the `suggestion` text the route adds beside it (backend/src/routes/chat.js:167).
- GetStatistics (`Tracing.TracingService.GetStatistics`): `stats.operations` is a plain object in the source, so an operation named `constructor` or `__proto__` meets inherited properties there, and an operation named like an array index (`"7"`) would be listed before the others; the model keys groups by name with no prototype, in first-appearance order.
- Concurrent requests on one document are not modelled; the code does nothing to handle them.
- Frontend code other than `parseMentorSummary` and the displayed business function is not part of this model.

## Findings

| source | as written | input that shows it | evidently intended | confidence | as-written member | corrected member |
|---|---|---|---|---|---|---|
| backend/src/utils/mentorSummary.js:13 | the bullet regex spells the glyph as the three characters `â€¢` (U+2022 decoded as Windows-1252) | `"Intro\n• item"` comes back unchanged | a `•` bullet becomes `- item`, as `backend/__tests__/mentorSummary.test.js` expects | high, not executed | `MentorSummary.AsWrittenKeepsBullet` | `MentorSummary.CorrectedConvertsBullet` |
| backend/src/routes/biography.js:828-832 | `parseInt("abc")` is `NaN`; `NaN < 0` and `NaN >= length` are both false, so the guard lets it through, and `splice(NaN, 1)` removes entry 0 (the same at lines 884-888 for experience) | `DELETE /:id/education/abc` on a profile with one or more entries | a non-numeric index is refused with 400 `Invalid education index` | high, not executed | `BiographyRoutes.DeleteAtLetterIndexAsWritten` | `BiographyRoutes.NonNumericIndexRefused` |

=== FILE: ai_config.dfy ===
/** Resolution of the inference-gateway settings from the process environment:
    optional strings, ranged integers and numbers, URLs and flags, each read
    from one variable, with `AI_*` names taking precedence over the older
    `OLLAMA_*` ones, and a module-level cache of the resolved record. */
module AiConfig {
  import opened Wrappers
  import opened JsText
  import opened JsNumber

  /** `process.env`: a variable is either absent or holds a string. */
  type Env = map<string, string>

  const DefaultBaseUrl := "http://localhost:11434"
  const DefaultModel := "llama3.1"
  const DefaultMaxRetries := 0
  const DefaultInitialDelayMs := 250
  const DefaultBackoffMultiplier := 2.0

  const ApiKeyEmpty := "AI_API_KEY is set but empty"

  /** The settings the service methods read. Absent optional settings stay `None`. */
  datatype AIConfig = AIConfig(
    provider: string,
    baseUrl: string,
    model: string,
    apiKey: Option<string>,
    features: Features,
    generation: Generation,
    http: Http,
    retry: RetryConfig)

  datatype Features = Features(useOllamaSystem: bool, useOllamaJsonFormat: bool)
  datatype Generation = Generation(temperature: Option<real>, maxTokens: Option<int>)
  datatype Http = Http(timeoutMs: Option<int>)
  datatype RetryConfig = RetryConfig(maxRetries: int, initialDelayMs: int, backoffMultiplier: real)

  function Lookup(env: Env, name: string): Option<string> {
    if name in env then Some(env[name]) else None
  }

  /** `optionalString`: an absent or blank value is absent, any other is trimmed. */
  function OptionalString(value: Option<string>): (r: Option<string>)
    ensures r.None? <==> value.None? || IsBlank(value.value)
    ensures r.Some? ==> r.value == Trim(value.value) && r.value != "" && Unpadded(r.value)
  {
    if value.None? then None
    else
      var trimmed := Trim(value.value);
      if |trimmed| > 0 then Some(trimmed) else None
  }

  function Between(name: string, min: int, max: int): (r: string)
    ensures StartsWith(r, name)
  {
    var bounds := " must be between " + IntToString(min) + " and " + IntToString(max);
    StartsWithConcat(name, bounds);
    name + bounds
  }

  /** `parseOptionalInt` with both bounds given: `Number.parseInt(text, 10)`
      reads a numeric prefix, so `"12abc"` is 12. */
  function ParseOptionalInt(name: string, value: Option<string>, min: int, max: int): (r: Result<Option<int>, string>)
    ensures OptionalString(value).None? ==> r == Success(None)
    ensures r.Success? && r.value.Some? ==>
      && min <= r.value.value <= max
      && ParseInt(OptionalString(value).value, true) == Some(r.value.value)
    ensures r.Failure? <==>
      && OptionalString(value).Some?
      && var parsed := ParseInt(OptionalString(value).value, true);
         parsed.None? || parsed.value < min || parsed.value > max
    ensures r.Failure? ==> StartsWith(r.error, name)
  {
    match OptionalString(value)
    case None => Success(None)
    case Some(text) =>
      match ParseInt(text, true)
      case None => StartsWithConcat(name, " must be an integer"); Failure(name + " must be an integer")
      case Some(parsed) =>
        if parsed < min || parsed > max then Failure(Between(name, min, max)) else Success(Some(parsed))
  }

  /** `parseOptionalFloat` with both bounds given: `Number.parseFloat` reads a
      decimal prefix; `Infinity` and NaN are refused. */
  function ParseOptionalFloat(name: string, value: Option<string>, min: int, max: int): (r: Result<Option<real>, string>)
    ensures OptionalString(value).None? ==> r == Success(None)
    ensures r.Success? && r.value.Some? ==>
      && min as real <= r.value.value <= max as real
      && ParseFloat(OptionalString(value).value) == Finite(r.value.value)
    ensures r.Failure? <==>
      && OptionalString(value).Some?
      && var parsed := ParseFloat(OptionalString(value).value);
         !parsed.Finite? || parsed.value < min as real || parsed.value > max as real
    ensures r.Failure? ==> StartsWith(r.error, name)
  {
    match OptionalString(value)
    case None => Success(None)
    case Some(text) =>
      match ParseFloat(text)
      case Finite(parsed) =>
        if parsed < min as real || parsed > max as real then Failure(Between(name, min, max))
        else Success(Some(parsed))
      case _ => StartsWithConcat(name, " must be a number"); Failure(name + " must be a number")
  }

  /** `parseOptionalUrl`: `urlParses` stands for the `URL` constructor not throwing. */
  function ParseOptionalUrl(name: string, value: Option<string>, urlParses: string -> bool): (r: Result<Option<string>, string>)
    ensures OptionalString(value).None? ==> r == Success(None)
    ensures r.Success? && r.value.Some? ==> OptionalString(value) == r.value && urlParses(r.value.value)
    ensures r.Failure? <==> OptionalString(value).Some? && !urlParses(OptionalString(value).value)
    ensures r.Failure? ==> r.error == InvalidUrl(name)
  {
    match OptionalString(value)
    case None => Success(None)
    case Some(text) => if urlParses(text) then Success(Some(text)) else Failure(InvalidUrl(name))
  }

  function InvalidUrl(name: string): string {
    name + " must be a valid URL"
  }

  const TrueWords: seq<string> := ["true", "1", "yes", "y", "on"]
  const FalseWords: seq<string> := ["false", "0", "no", "n", "off"]

  /** `parseOptionalBoolean`: the trimmed, lower-cased text is looked up in the
      words for true, then in the words for false; anything else is an error. */
  function ParseOptionalBoolean(name: string, value: Option<string>): (r: Result<Option<bool>, string>)
    ensures OptionalString(value).None? ==> r == Success(None)
    ensures r == Success(Some(true)) <==>
      OptionalString(value).Some? && ToLower(OptionalString(value).value) in TrueWords
    ensures r == Success(Some(false)) <==>
      && OptionalString(value).Some?
      && ToLower(OptionalString(value).value) !in TrueWords
      && ToLower(OptionalString(value).value) in FalseWords
    ensures r.Failure? <==>
      OptionalString(value).Some? && ToLower(OptionalString(value).value) !in TrueWords + FalseWords
    ensures r.Failure? ==> StartsWith(r.error, name)
  {
    match OptionalString(value)
    case None => Success(None)
    case Some(text) =>
      var normalized := ToLower(text);
      if normalized in TrueWords then Success(Some(true))
      else if normalized in FalseWords then Success(Some(false))
      else StartsWithConcat(name, " must be a boolean (true/false)"); Failure(name + " must be a boolean (true/false)")
  }

  /** `resolveBaseUrl`: `AI_BASE_URL`, else `OLLAMA_URL`, else the default;
      the second variable is read only when the first is absent or blank. */
  function ResolveBaseUrl(env: Env, urlParses: string -> bool): (r: Result<string, string>)
    ensures OptionalString(Lookup(env, "AI_BASE_URL")).Some? ==>
      var url := OptionalString(Lookup(env, "AI_BASE_URL")).value;
      r == if urlParses(url) then Success(url) else Failure(InvalidUrl("AI_BASE_URL"))
    ensures OptionalString(Lookup(env, "AI_BASE_URL")).None? && OptionalString(Lookup(env, "OLLAMA_URL")).Some? ==>
      var url := OptionalString(Lookup(env, "OLLAMA_URL")).value;
      r == if urlParses(url) then Success(url) else Failure(InvalidUrl("OLLAMA_URL"))
    ensures OptionalString(Lookup(env, "AI_BASE_URL")).None? && OptionalString(Lookup(env, "OLLAMA_URL")).None? ==>
      r == Success(DefaultBaseUrl)
  {
    var aiBaseUrl :- ParseOptionalUrl("AI_BASE_URL", Lookup(env, "AI_BASE_URL"), urlParses);
    if aiBaseUrl.Some? then Success(aiBaseUrl.value)
    else
      var ollamaUrl :- ParseOptionalUrl("OLLAMA_URL", Lookup(env, "OLLAMA_URL"), urlParses);
      if ollamaUrl.Some? then Success(ollamaUrl.value) else Success(DefaultBaseUrl)
  }

  /** `resolveModel`: `AI_MODEL`, else `OLLAMA_MODEL`, else the default. */
  function ResolveModel(env: Env): (r: string)
    ensures r != "" && Unpadded(r)
    ensures OptionalString(Lookup(env, "AI_MODEL")).Some? ==> Some(r) == OptionalString(Lookup(env, "AI_MODEL"))
    ensures OptionalString(Lookup(env, "AI_MODEL")).None? && OptionalString(Lookup(env, "OLLAMA_MODEL")).Some? ==>
      Some(r) == OptionalString(Lookup(env, "OLLAMA_MODEL"))
    ensures OptionalString(Lookup(env, "AI_MODEL")).None? && OptionalString(Lookup(env, "OLLAMA_MODEL")).None? ==>
      r == DefaultModel
  {
    match OptionalString(Lookup(env, "AI_MODEL"))
    case Some(model) => model
    case None =>
      match OptionalString(Lookup(env, "OLLAMA_MODEL"))
      case Some(model) => model
      case None => DefaultModel
  }

  /** `hasAnyAIEnv`: some variable name starts with `AI_`. */
  predicate HasAnyAIEnv(env: Env) {
    exists name | name in env :: StartsWith(name, "AI_")
  }

  /** Every setting read and checked in the source's order, before the key check. */
  function ReadSettings(env: Env, urlParses: string -> bool): (r: Result<AIConfig, string>)
    ensures r.Success? ==> ResolveBaseUrl(env, urlParses).Success?
    ensures r.Success? ==>
      && r.value.provider == "ollama"
      && r.value.baseUrl == ResolveBaseUrl(env, urlParses).value
      && r.value.model == ResolveModel(env)
      && r.value.apiKey == OptionalString(Lookup(env, "AI_API_KEY"))
    ensures r.Success? ==> InRanges(r.value) && Defaults(env, r.value)
    ensures r.Failure? <==>
      || ResolveBaseUrl(env, urlParses).Failure?
      || ReadGeneration(env).Failure?
      || ReadRetry(env).Failure?
      || ReadFeatures(env).Failure?
    ensures r.Success? ==>
      && (r.value.generation, r.value.http) == ReadGeneration(env).value
      && r.value.retry == ReadRetry(env).value
      && r.value.features == ReadFeatures(env).value
    ensures ResolveBaseUrl(env, urlParses).Failure? ==> r.Failure? && r.error == ResolveBaseUrl(env, urlParses).error
    ensures ResolveBaseUrl(env, urlParses).Success? && ReadGeneration(env).Failure? ==>
      r.Failure? && r.error == ReadGeneration(env).error
    ensures ResolveBaseUrl(env, urlParses).Success? && ReadGeneration(env).Success? && ReadRetry(env).Failure? ==>
      r.Failure? && r.error == ReadRetry(env).error
    ensures
      && ResolveBaseUrl(env, urlParses).Success? && ReadGeneration(env).Success? && ReadRetry(env).Success?
      && ReadFeatures(env).Failure?
      ==> r.Failure? && r.error == ReadFeatures(env).error
  {
    var r := Assemble(ResolveBaseUrl(env, urlParses), ResolveModel(env), OptionalString(Lookup(env, "AI_API_KEY")),
      ReadGeneration(env), ReadRetry(env), ReadFeatures(env));
    SettingsInRange(env, r);
    r
  }

  /** The record from the settings read in order; the first failure wins. */
  function Assemble(baseUrl: Result<string, string>, model: string, apiKey: Option<string>,
                    generation: Result<(Generation, Http), string>, retry: Result<RetryConfig, string>,
                    features: Result<Features, string>): (r: Result<AIConfig, string>)
    ensures r.Failure? <==> baseUrl.Failure? || generation.Failure? || retry.Failure? || features.Failure?
    ensures r.Success? ==>
      r.value == AIConfig("ollama", baseUrl.value, model, apiKey, features.value, generation.value.0, generation.value.1, retry.value)
    ensures baseUrl.Failure? ==> r.Failure? && r.error == baseUrl.error
    ensures baseUrl.Success? && generation.Failure? ==> r.Failure? && r.error == generation.error
    ensures baseUrl.Success? && generation.Success? && retry.Failure? ==> r.Failure? && r.error == retry.error
    ensures baseUrl.Success? && generation.Success? && retry.Success? && features.Failure? ==>
      r.Failure? && r.error == features.error
  {
    if baseUrl.Failure? then Failure(baseUrl.error)
    else if generation.Failure? then Failure(generation.error)
    else if retry.Failure? then Failure(retry.error)
    else if features.Failure? then Failure(features.error)
    else Success(AIConfig("ollama", baseUrl.value, model, apiKey, features.value, generation.value.0, generation.value.1, retry.value))
  }

  /** What the three readers promise carries over to the assembled record. */
  lemma SettingsInRange(env: Env, r: Result<AIConfig, string>)
    requires r.Success? ==>
      && ReadGeneration(env).Success? && ReadRetry(env).Success? && ReadFeatures(env).Success?
      && (r.value.generation, r.value.http) == ReadGeneration(env).value
      && r.value.retry == ReadRetry(env).value && r.value.features == ReadFeatures(env).value
    ensures r.Success? ==> InRanges(r.value) && Defaults(env, r.value)
  {
  }

  /** `AI_TEMPERATURE`, `AI_MAX_TOKENS` and `AI_TIMEOUT_MS`, read in that order. */
  function ReadGeneration(env: Env): (r: Result<(Generation, Http), string>)
    ensures r.Success? ==>
      && (r.value.0.temperature.Some? ==> 0.0 <= r.value.0.temperature.value <= 2.0)
      && (r.value.0.maxTokens.Some? ==> 1 <= r.value.0.maxTokens.value <= 1000000)
      && (r.value.1.timeoutMs.Some? ==> 1 <= r.value.1.timeoutMs.value <= 600000)
    ensures r.Success? ==>
      && (OptionalString(Lookup(env, "AI_TEMPERATURE")).None? ==> r.value.0.temperature.None?)
      && (OptionalString(Lookup(env, "AI_MAX_TOKENS")).None? ==> r.value.0.maxTokens.None?)
      && (OptionalString(Lookup(env, "AI_TIMEOUT_MS")).None? ==> r.value.1.timeoutMs.None?)
    ensures r.Success? ==>
      && (r.value.0.temperature.Some? ==>
            ParseFloat(OptionalString(Lookup(env, "AI_TEMPERATURE")).value) == Finite(r.value.0.temperature.value))
      && (r.value.0.maxTokens.Some? ==>
            ParseInt(OptionalString(Lookup(env, "AI_MAX_TOKENS")).value, true) == Some(r.value.0.maxTokens.value))
      && (r.value.1.timeoutMs.Some? ==>
            ParseInt(OptionalString(Lookup(env, "AI_TIMEOUT_MS")).value, true) == Some(r.value.1.timeoutMs.value))
    ensures r.Success? ==>
      && (OptionalString(Lookup(env, "AI_TEMPERATURE")).Some? ==> r.value.0.temperature.Some?)
      && (OptionalString(Lookup(env, "AI_MAX_TOKENS")).Some? ==> r.value.0.maxTokens.Some?)
      && (OptionalString(Lookup(env, "AI_TIMEOUT_MS")).Some? ==> r.value.1.timeoutMs.Some?)
    ensures r.Failure? <==>
      || ParseOptionalFloat("AI_TEMPERATURE", Lookup(env, "AI_TEMPERATURE"), 0, 2).Failure?
      || ParseOptionalInt("AI_MAX_TOKENS", Lookup(env, "AI_MAX_TOKENS"), 1, 1000000).Failure?
      || ParseOptionalInt("AI_TIMEOUT_MS", Lookup(env, "AI_TIMEOUT_MS"), 1, 600000).Failure?
    ensures ParseOptionalFloat("AI_TEMPERATURE", Lookup(env, "AI_TEMPERATURE"), 0, 2).Failure? ==>
      r.Failure? && StartsWith(r.error, "AI_TEMPERATURE")
    ensures
      && ParseOptionalFloat("AI_TEMPERATURE", Lookup(env, "AI_TEMPERATURE"), 0, 2).Success?
      && ParseOptionalInt("AI_MAX_TOKENS", Lookup(env, "AI_MAX_TOKENS"), 1, 1000000).Failure?
      ==> r.Failure? && StartsWith(r.error, "AI_MAX_TOKENS")
    ensures
      && ParseOptionalFloat("AI_TEMPERATURE", Lookup(env, "AI_TEMPERATURE"), 0, 2).Success?
      && ParseOptionalInt("AI_MAX_TOKENS", Lookup(env, "AI_MAX_TOKENS"), 1, 1000000).Success?
      && ParseOptionalInt("AI_TIMEOUT_MS", Lookup(env, "AI_TIMEOUT_MS"), 1, 600000).Failure?
      ==> r.Failure? && StartsWith(r.error, "AI_TIMEOUT_MS")
    ensures r.Failure? ==>
      StartsWith(r.error, "AI_TEMPERATURE") || StartsWith(r.error, "AI_MAX_TOKENS") || StartsWith(r.error, "AI_TIMEOUT_MS")
  {
    var temperature :- ParseOptionalFloat("AI_TEMPERATURE", Lookup(env, "AI_TEMPERATURE"), 0, 2);
    var maxTokens :- ParseOptionalInt("AI_MAX_TOKENS", Lookup(env, "AI_MAX_TOKENS"), 1, 1000000);
    var timeoutMs :- ParseOptionalInt("AI_TIMEOUT_MS", Lookup(env, "AI_TIMEOUT_MS"), 1, 600000);
    Success((Generation(temperature, maxTokens), Http(timeoutMs)))
  }

  /** The three retry settings, each defaulting when absent or blank. */
  function ReadRetry(env: Env): (r: Result<RetryConfig, string>)
    ensures r.Success? ==>
      && 0 <= r.value.maxRetries <= 20
      && 0 <= r.value.initialDelayMs <= 600000
      && 1.0 <= r.value.backoffMultiplier <= 10.0
    ensures r.Success? ==>
      && (OptionalString(Lookup(env, "AI_MAX_RETRIES")).None? ==> r.value.maxRetries == DefaultMaxRetries)
      && (OptionalString(Lookup(env, "AI_RETRY_INITIAL_DELAY_MS")).None? ==>
            r.value.initialDelayMs == DefaultInitialDelayMs)
      && (OptionalString(Lookup(env, "AI_RETRY_BACKOFF_MULTIPLIER")).None? ==>
            r.value.backoffMultiplier == DefaultBackoffMultiplier)
    ensures r.Success? ==>
      && (OptionalString(Lookup(env, "AI_MAX_RETRIES")).Some? ==>
            ParseInt(OptionalString(Lookup(env, "AI_MAX_RETRIES")).value, true) == Some(r.value.maxRetries))
      && (OptionalString(Lookup(env, "AI_RETRY_INITIAL_DELAY_MS")).Some? ==>
            ParseInt(OptionalString(Lookup(env, "AI_RETRY_INITIAL_DELAY_MS")).value, true) == Some(r.value.initialDelayMs))
      && (OptionalString(Lookup(env, "AI_RETRY_BACKOFF_MULTIPLIER")).Some? ==>
            ParseFloat(OptionalString(Lookup(env, "AI_RETRY_BACKOFF_MULTIPLIER")).value) == Finite(r.value.backoffMultiplier))
    ensures r.Failure? <==>
      || ParseOptionalInt("AI_MAX_RETRIES", Lookup(env, "AI_MAX_RETRIES"), 0, 20).Failure?
      || ParseOptionalInt("AI_RETRY_INITIAL_DELAY_MS", Lookup(env, "AI_RETRY_INITIAL_DELAY_MS"), 0, 600000).Failure?
      || ParseOptionalFloat("AI_RETRY_BACKOFF_MULTIPLIER", Lookup(env, "AI_RETRY_BACKOFF_MULTIPLIER"), 1, 10).Failure?
    ensures ParseOptionalInt("AI_MAX_RETRIES", Lookup(env, "AI_MAX_RETRIES"), 0, 20).Failure? ==>
      r.Failure? && StartsWith(r.error, "AI_MAX_RETRIES")
    ensures
      && ParseOptionalInt("AI_MAX_RETRIES", Lookup(env, "AI_MAX_RETRIES"), 0, 20).Success?
      && ParseOptionalInt("AI_RETRY_INITIAL_DELAY_MS", Lookup(env, "AI_RETRY_INITIAL_DELAY_MS"), 0, 600000).Failure?
      ==> r.Failure? && StartsWith(r.error, "AI_RETRY_INITIAL_DELAY_MS")
    ensures
      && ParseOptionalInt("AI_MAX_RETRIES", Lookup(env, "AI_MAX_RETRIES"), 0, 20).Success?
      && ParseOptionalInt("AI_RETRY_INITIAL_DELAY_MS", Lookup(env, "AI_RETRY_INITIAL_DELAY_MS"), 0, 600000).Success?
      && ParseOptionalFloat("AI_RETRY_BACKOFF_MULTIPLIER", Lookup(env, "AI_RETRY_BACKOFF_MULTIPLIER"), 1, 10).Failure?
      ==> r.Failure? && StartsWith(r.error, "AI_RETRY_BACKOFF_MULTIPLIER")
    ensures r.Failure? ==>
      || StartsWith(r.error, "AI_MAX_RETRIES")
      || StartsWith(r.error, "AI_RETRY_INITIAL_DELAY_MS")
      || StartsWith(r.error, "AI_RETRY_BACKOFF_MULTIPLIER")
  {
    var maxRetries := IntSetting(env, "AI_MAX_RETRIES", 0, 20, DefaultMaxRetries);
    var initialDelayMs := IntSetting(env, "AI_RETRY_INITIAL_DELAY_MS", 0, 600000, DefaultInitialDelayMs);
    var multiplier := RealSetting(env, "AI_RETRY_BACKOFF_MULTIPLIER", 1, 10, DefaultBackoffMultiplier);
    if maxRetries.Failure? then Failure(maxRetries.error)
    else if initialDelayMs.Failure? then Failure(initialDelayMs.error)
    else if multiplier.Failure? then Failure(multiplier.error)
    else Success(RetryConfig(maxRetries.value, initialDelayMs.value, multiplier.value))
  }

  /** An integer setting, or `fallback` (the `??` default) when absent or blank. */
  function IntSetting(env: Env, name: string, min: int, max: int, fallback: int): (r: Result<int, string>)
    requires min <= fallback <= max
    ensures r.Success? ==> min <= r.value <= max
    ensures r.Success? && OptionalString(Lookup(env, name)).None? ==> r.value == fallback
    ensures r.Success? && OptionalString(Lookup(env, name)).Some? ==>
      ParseInt(OptionalString(Lookup(env, name)).value, true) == Some(r.value)
    ensures r.Failure? <==> ParseOptionalInt(name, Lookup(env, name), min, max).Failure?
    ensures r.Failure? ==> StartsWith(r.error, name)
  {
    var value :- ParseOptionalInt(name, Lookup(env, name), min, max);
    Success(value.GetOr(fallback))
  }

  /** A number setting, or `fallback` when absent or blank. */
  function RealSetting(env: Env, name: string, min: int, max: int, fallback: real): (r: Result<real, string>)
    requires min as real <= fallback <= max as real
    ensures r.Success? ==> min as real <= r.value <= max as real
    ensures r.Success? && OptionalString(Lookup(env, name)).None? ==> r.value == fallback
    ensures r.Success? && OptionalString(Lookup(env, name)).Some? ==>
      ParseFloat(OptionalString(Lookup(env, name)).value) == Finite(r.value)
    ensures r.Failure? <==> ParseOptionalFloat(name, Lookup(env, name), min, max).Failure?
    ensures r.Failure? ==> StartsWith(r.error, name)
  {
    var value :- ParseOptionalFloat(name, Lookup(env, name), min, max);
    Success(value.GetOr(fallback))
  }

  /** The two feature flags; an absent flag is false. */
  function ReadFeatures(env: Env): (r: Result<Features, string>)
    ensures r.Success? ==>
      && (r.value.useOllamaSystem <==>
            ParseOptionalBoolean("AI_USE_OLLAMA_SYSTEM", Lookup(env, "AI_USE_OLLAMA_SYSTEM")) == Success(Some(true)))
      && (r.value.useOllamaJsonFormat <==>
            ParseOptionalBoolean("AI_USE_OLLAMA_JSON_FORMAT", Lookup(env, "AI_USE_OLLAMA_JSON_FORMAT")) == Success(Some(true)))
    ensures r.Failure? <==>
      || ParseOptionalBoolean("AI_USE_OLLAMA_SYSTEM", Lookup(env, "AI_USE_OLLAMA_SYSTEM")).Failure?
      || ParseOptionalBoolean("AI_USE_OLLAMA_JSON_FORMAT", Lookup(env, "AI_USE_OLLAMA_JSON_FORMAT")).Failure?
    ensures ParseOptionalBoolean("AI_USE_OLLAMA_SYSTEM", Lookup(env, "AI_USE_OLLAMA_SYSTEM")).Failure? ==>
      r.Failure? && StartsWith(r.error, "AI_USE_OLLAMA_SYSTEM")
    ensures
      && ParseOptionalBoolean("AI_USE_OLLAMA_SYSTEM", Lookup(env, "AI_USE_OLLAMA_SYSTEM")).Success?
      && ParseOptionalBoolean("AI_USE_OLLAMA_JSON_FORMAT", Lookup(env, "AI_USE_OLLAMA_JSON_FORMAT")).Failure?
      ==> r.Failure? && StartsWith(r.error, "AI_USE_OLLAMA_JSON_FORMAT")
    ensures r.Failure? ==>
      StartsWith(r.error, "AI_USE_OLLAMA_SYSTEM") || StartsWith(r.error, "AI_USE_OLLAMA_JSON_FORMAT")
  {
    var useSystem :- ParseOptionalBoolean("AI_USE_OLLAMA_SYSTEM", Lookup(env, "AI_USE_OLLAMA_SYSTEM"));
    var useJsonFormat :- ParseOptionalBoolean("AI_USE_OLLAMA_JSON_FORMAT", Lookup(env, "AI_USE_OLLAMA_JSON_FORMAT"));
    Success(Features(useSystem == Some(true), useJsonFormat == Some(true)))
  }

  /** Every numeric setting lies in the range its variable allows. */
  predicate InRanges(config: AIConfig) {
    && (config.generation.temperature.Some? ==> 0.0 <= config.generation.temperature.value <= 2.0)
    && (config.generation.maxTokens.Some? ==> 1 <= config.generation.maxTokens.value <= 1000000)
    && (config.http.timeoutMs.Some? ==> 1 <= config.http.timeoutMs.value <= 600000)
    && 0 <= config.retry.maxRetries <= 20
    && 0 <= config.retry.initialDelayMs <= 600000
    && 1.0 <= config.retry.backoffMultiplier <= 10.0
  }

  /** Absent or blank retry variables give the defaults 0, 250 and 2. */
  predicate Defaults(env: Env, config: AIConfig) {
    && (OptionalString(Lookup(env, "AI_MAX_RETRIES")).None? ==> config.retry.maxRetries == DefaultMaxRetries)
    && (OptionalString(Lookup(env, "AI_RETRY_INITIAL_DELAY_MS")).None? ==>
          config.retry.initialDelayMs == DefaultInitialDelayMs)
    && (OptionalString(Lookup(env, "AI_RETRY_BACKOFF_MULTIPLIER")).None? ==>
          config.retry.backoffMultiplier == DefaultBackoffMultiplier)
    && (OptionalString(Lookup(env, "AI_TEMPERATURE")).None? ==> config.generation.temperature.None?)
    && (OptionalString(Lookup(env, "AI_MAX_TOKENS")).None? ==> config.generation.maxTokens.None?)
    && (OptionalString(Lookup(env, "AI_TIMEOUT_MS")).None? ==> config.http.timeoutMs.None?)
    && (OptionalString(Lookup(env, "AI_USE_OLLAMA_SYSTEM")).None? ==> !config.features.useOllamaSystem)
    && (OptionalString(Lookup(env, "AI_USE_OLLAMA_JSON_FORMAT")).None? ==> !config.features.useOllamaJsonFormat)
  }

  /** The body of `getAIConfig` after the cache test: the settings, then the
      rule that an `AI_API_KEY` present but blank is refused whenever any
      `AI_*` variable is set. */
  function ResolveConfig(env: Env, urlParses: string -> bool): (r: Result<AIConfig, string>)
    ensures ReadSettings(env, urlParses).Failure? ==> r == ReadSettings(env, urlParses)
    ensures ReadSettings(env, urlParses).Success? ==>
      (r.Failure? <==> "AI_API_KEY" in env && IsBlank(env["AI_API_KEY"]))
    ensures r.Success? ==> r == ReadSettings(env, urlParses)
    ensures r.Failure? && ReadSettings(env, urlParses).Success? ==> r.error == ApiKeyEmpty
  {
    var config :- ReadSettings(env, urlParses);
    if HasAnyAIEnv(env) && "AI_API_KEY" in env && config.apiKey.None? then Failure(ApiKeyEmpty)
    else
      assert "AI_API_KEY" in env ==> HasAnyAIEnv(env) by {
        assert StartsWith("AI_API_KEY", "AI_");
      }
      Success(config)
  }

  /** Holder of `cachedConfig`. */
  class ConfigCache {
    var cached: Option<AIConfig>

    constructor()
      ensures cached.None?
    {
      cached := None;
    }

    /** `getAIConfig({reload})`: a cached record is returned as it is, whatever
        the environment now holds; otherwise the settings are resolved, and the
        cache is written only when resolution succeeds. */
    method GetAIConfig(env: Env, urlParses: string -> bool, reload: bool) returns (r: Result<AIConfig, string>)
      modifies this
      ensures old(cached).Some? && !reload ==> r == Success(old(cached).value) && cached == old(cached)
      ensures old(cached).None? || reload ==> r == ResolveConfig(env, urlParses)
      ensures r.Success? ==> cached == Some(r.value)
      ensures r.Failure? ==> cached == old(cached)
    {
      if cached.Some? && !reload {
        return Success(cached.value);
      }
      r := ResolveConfig(env, urlParses);
      if r.Success? {
        cached := Some(r.value);
      }
    }
  }

  /** A blank `AI_BASE_URL` counts as absent. */
  lemma BlankBaseUrlIgnored(env: Env, urlParses: string -> bool, blank: string)
    requires IsBlank(blank)
    ensures ResolveBaseUrl(env["AI_BASE_URL" := blank], urlParses) == ResolveBaseUrl(env - {"AI_BASE_URL"}, urlParses)
  {
    var with := env["AI_BASE_URL" := blank];
    var without := env - {"AI_BASE_URL"};
    assert Lookup(with, "OLLAMA_URL") == Lookup(without, "OLLAMA_URL") by {
      assert "OLLAMA_URL" != "AI_BASE_URL";
    }
  }

  /** `OLLAMA_URL` is not examined, not even for validity, when `AI_BASE_URL` is set. */
  lemma OllamaUrlShadowed(env: Env, urlParses: string -> bool, other: string)
    requires OptionalString(Lookup(env, "AI_BASE_URL")).Some?
    ensures ResolveBaseUrl(env["OLLAMA_URL" := other], urlParses) == ResolveBaseUrl(env, urlParses)
  {
    assert Lookup(env["OLLAMA_URL" := other], "AI_BASE_URL") == Lookup(env, "AI_BASE_URL") by {
      assert "OLLAMA_URL" != "AI_BASE_URL";
    }
  }

  /** `OLLAMA_MODEL` is not examined when `AI_MODEL` is set. */
  lemma OllamaModelShadowed(env: Env, other: string)
    requires OptionalString(Lookup(env, "AI_MODEL")).Some?
    ensures ResolveModel(env["OLLAMA_MODEL" := other]) == ResolveModel(env)
  {
    assert Lookup(env["OLLAMA_MODEL" := other], "AI_MODEL") == Lookup(env, "AI_MODEL") by {
      assert "OLLAMA_MODEL" != "AI_MODEL";
    }
  }

  /** With no variable set at all, every setting takes its default. */
  lemma EmptyEnvironment(urlParses: string -> bool)
    ensures ResolveConfig(map[], urlParses) == Success(AIConfig(
      "ollama", DefaultBaseUrl, DefaultModel, None, Features(false, false),
      Generation(None, None), Http(None), RetryConfig(0, 250, 2.0)))
  {
  }

  /** `AI_TEMPERATURE=3` is out of range: resolution fails, naming the variable. */
  lemma TemperatureAboveRangeRefused(env: Env, urlParses: string -> bool)
    requires "AI_TEMPERATURE" in env && env["AI_TEMPERATURE"] == "3"
    requires ResolveBaseUrl(env, urlParses).Success?
    ensures ResolveConfig(env, urlParses).Failure?
    ensures StartsWith(ResolveConfig(env, urlParses).error, "AI_TEMPERATURE")
  {
    TemperatureRefused(env);
  }

  lemma TemperatureRefused(env: Env)
    requires "AI_TEMPERATURE" in env && env["AI_TEMPERATURE"] == "3"
    ensures ParseOptionalFloat("AI_TEMPERATURE", Lookup(env, "AI_TEMPERATURE"), 0, 2).Failure?
  {
    WholeNumberRead();
    assert OptionalString(Lookup(env, "AI_TEMPERATURE")) == Some("3");
  }

  lemma WholeNumberRead()
    ensures Trim("3") == "3" && ParseFloat("3") == Finite(3.0)
  {
    TrimUnpadded("3");
    assert TrimStart("3") == "3";
    assert SplitSign("3") == (false, "3");
    DecimalPrefixOfDigits("3");
    assert DigitsValue("3", 10) == 3;
  }

  /** `AI_TEMPERATURE=0.7` is read as 0.7 whenever the generation settings read. */
  lemma TemperatureRead(env: Env)
    requires "AI_TEMPERATURE" in env && env["AI_TEMPERATURE"] == "0.7"
    ensures ReadGeneration(env).Success? ==> ReadGeneration(env).value.0.temperature == Some(0.7)
  {
    DecimalFractionRead();
    var text := OptionalString(Lookup(env, "AI_TEMPERATURE"));
    assert text == Some("0.7");
    if ReadGeneration(env).Success? {
      var temperature := ReadGeneration(env).value.0.temperature;
      assert temperature.Some? && ParseFloat(text.value) == Finite(temperature.value);
    }
  }

  /** ... and so in the resolved record whenever resolution succeeds. */
  lemma TemperatureResolved(env: Env, urlParses: string -> bool)
    requires "AI_TEMPERATURE" in env && env["AI_TEMPERATURE"] == "0.7"
    ensures ResolveConfig(env, urlParses).Success? ==> ResolveConfig(env, urlParses).value.generation.temperature == Some(0.7)
  {
    TemperatureRead(env);
  }

  lemma DecimalFractionRead()
    ensures Trim("0.7") == "0.7" && ParseFloat("0.7") == Finite(0.7)
  {
    TrimUnpadded("0.7");
    assert TrimStart("0.7") == "0.7";
    assert SplitSign("0.7") == (false, "0.7");
    DecimalFractionPrefix();
  }

  lemma DecimalFractionPrefix()
    ensures UnsignedDecimalPrefix("0.7") == Some((3, 0.7))
  {
    assert DigitRunLength("0.7", 10) == 1;
    assert DigitRunLength("7", 10) == 1;
    assert "0.7"[..1] == "0" && "0.7"[2..][..1] == "7";
    assert DigitsValue("0", 10) == 0 && DigitsValue("7", 10) == 7 && Pow10(1) == 10;
    assert Mantissa("0", "7") == 0.7;
  }

  /** `Number.parseInt` is not a strict parse: digits followed by other text are read. */
  lemma IntPrefixAccepted(name: string, i: int, tail: string, min: int, max: int)
    requires min <= i <= max
    requires tail == [] || (!IsDigitIn(tail[0], 10) && !IsSpace(tail[|tail| - 1]))
    ensures ParseOptionalInt(name, Some(IntToString(i) + tail), min, max) == Success(Some(i))
  {
    var s := IntToString(i) + tail;
    ParseIntRoundTrip(i, tail, true);
    UnpaddedIntText(i, tail);
    TrimUnpadded(s);
  }

  lemma UnpaddedIntText(i: int, tail: string)
    requires tail == [] || !IsSpace(tail[|tail| - 1])
    ensures Unpadded(IntToString(i) + tail) && IntToString(i) + tail != ""
  {
    var s := IntToString(i) + tail;
    var digits := NatToString(if i < 0 then -i else i);
    DigitIsNotSpace(digits[0]);
    assert s[0] == (if i < 0 then '-' else digits[0]);
    if tail == [] {
      assert s == IntToString(i);
      DigitIsNotSpace(s[|s| - 1]);
    } else {
      assert s[|s| - 1] == tail[|tail| - 1];
    }
  }
}

=== FILE: biography_context.dfy ===
/** The prompt contexts the biography routes assemble from profile fields:
    the `/generate` context, the two contexts rebuilt when a summary is
    regenerated, the text keywords are extracted from, and the summary used
    when generation fails. */
module BiographyContext {
  import opened Wrappers
  import opened JsText
  import opened JsNumber
  import opened Sequences
  import opened Profile
  import Parsers

  /** `${value}` of an optional string: an absent value prints as `undefined`. */
  function Show(value: Option<string>): string {
    if value.Some? then value.value else "undefined"
  }

  /** `value || ''`. */
  function OrEmpty(value: Option<string>): string {
    if value.Some? then value.value else ""
  }

  /** Whether an optional string is truthy: present and non-empty. */
  predicate Filled(value: Option<string>) {
    value.Some? && value.value != ""
  }

  /** How a context decides whether to print the years of experience: `/generate`
      tests truthiness, so 0 is dropped; the regenerate paths test
      `!== undefined && !== null`. */
  datatype YearsTest = TruthyYears | DefinedYears

  predicate ShowsYears(years: Option<real>, test: YearsTest) {
    match test
    case TruthyYears => years.Some? && years.value != 0.0
    case DefinedYears => years.Some?
  }

  /** The profile fields a context is assembled from. */
  datatype ContextFields = ContextFields(
    jobTitle: string,
    department: string,
    location: Option<string>,
    yearsExperience: Option<real>,
    experience: seq<Experience>,
    skills: seq<string>,
    education: seq<Education>,
    certifications: seq<string>,
    notableAchievements: seq<string>,
    summary: Option<string>)

  /** The fields of a stored document, absent job title and department printed as empty. */
  function DocFields(doc: BiographyDoc): (f: ContextFields)
    reads doc
  {
    ContextFields(OrEmpty(doc.jobTitle), OrEmpty(doc.department), doc.location, doc.yearsExperience,
                  doc.experience, doc.skills, doc.education, doc.certifications, doc.notableAchievements,
                  doc.summary)
  }

  function Concat(parts: seq<string>): string {
    if parts == [] then "" else Concat(parts[..|parts| - 1]) + parts[|parts| - 1]
  }

  function Lines<T>(items: seq<T>, line: T -> string): (r: seq<string>)
    ensures |r| == |items|
  {
    seq(|items|, i requires 0 <= i < |items| => line(items[i]))
  }

  function ExperienceLine(exp: Experience): string {
    "- " + Show(exp.title) + " at " + Show(exp.company)
    + (if Filled(exp.years) then " (" + exp.years.value + ")" else "") + "\n"
    + (if Filled(exp.description) then "  " + exp.description.value + "\n" else "")
  }

  function EducationLine(edu: Education): string {
    "- " + Show(edu.degree) + " from " + Show(edu.university)
    + (if edu.year.Some? && edu.year.value != 0.0 then " (" + NumberToString(edu.year.value) + ")" else "") + "\n"
  }

  function AchievementLine(achievement: string): string {
    "- " + achievement + "\n"
  }

  function Header(jobTitle: string, department: string): string {
    "Job Title: " + jobTitle + "\nDepartment: " + department + "\n"
  }

  function LocationSection(location: Option<string>): string {
    if Filled(location) then "Location: " + location.value + "\n" else ""
  }

  function YearsSection(years: Option<real>, test: YearsTest): string {
    if ShowsYears(years, test) then "Years of Experience: " + NumberToString(years.value) + "\n" else ""
  }

  function ExperienceSection(experience: seq<Experience>): string {
    if |experience| > 0 then "\nExperience:\n" + Concat(Lines(experience, ExperienceLine)) else ""
  }

  function SkillsSection(skills: seq<string>): string {
    if |skills| > 0 then "\nSkills: " + Join(skills, ", ") + "\n" else ""
  }

  function EducationSection(education: seq<Education>): string {
    if |education| > 0 then "\nEducation:\n" + Concat(Lines(education, EducationLine)) else ""
  }

  function CertificationsSection(certifications: seq<string>): string {
    if |certifications| > 0 then "\nCertifications: " + Join(certifications, ", ") + "\n" else ""
  }

  function AchievementsSection(achievements: seq<string>): string {
    if |achievements| > 0 then "\nNotable Achievements:\n" + Concat(Lines(achievements, AchievementLine)) else ""
  }

  /** The user's own summary, trimmed, when it is not blank. */
  function AdditionalSection(summary: Option<string>): string {
    if summary.Some? && Trim(summary.value) != "" then "\nAdditional Context: " + Trim(summary.value) + "\n" else ""
  }

  /** A context: the header, then each optional section in a fixed order, each
      only when its field is present and non-empty. */
  function Context(f: ContextFields, test: YearsTest, additional: bool): string {
    Header(f.jobTitle, f.department) + LocationSection(f.location) + YearsSection(f.yearsExperience, test)
    + ExperienceSection(f.experience) + SkillsSection(f.skills) + EducationSection(f.education)
    + CertificationsSection(f.certifications) + AchievementsSection(f.notableAchievements)
    + (if additional then AdditionalSection(f.summary) else "")
  }

  /** A stored `rawInput` that is not blank is used as it is; otherwise the rebuilt context. */
  function StoredOrRebuilt(rawInput: Option<string>, rebuilt: string): (r: string)
    ensures rawInput.Some? && !IsBlank(rawInput.value) ==> r == rawInput.value
    ensures rawInput.None? || IsBlank(rawInput.value) ==> r == rebuilt
  {
    if rawInput.Some? && Trim(rawInput.value) != "" then rawInput.value else rebuilt
  }

  lemma {:induction false} ConcatAppend(parts: seq<string>, last: string)
    ensures Concat(parts + [last]) == Concat(parts) + last
  {
    assert (parts + [last])[..|parts|] == parts;
  }

  lemma LinesPrefix<T>(items: seq<T>, line: T -> string, i: int)
    requires 0 <= i < |items|
    ensures Lines(items[..i + 1], line) == Lines(items[..i], line) + [line(items[i])]
  {
  }

  /** The `forEach` that appends one line per item. */
  method AppendLines<T>(text: string, items: seq<T>, line: T -> string) returns (r: string)
    ensures r == text + Concat(Lines(items, line))
  {
    r := text;
    for i := 0 to |items|
      invariant r == text + Concat(Lines(items[..i], line))
    {
      LinesPrefix(items, line, i);
      ConcatAppend(Lines(items[..i], line), line(items[i]));
      ConcatAssoc(text, Concat(Lines(items[..i], line)), line(items[i]));
      r := r + line(items[i]);
    }
    assert items[..|items|] == items;
  }

  /** A context built section by section, as the route handlers build `contextForAI`. */
  method BuildContext(f: ContextFields, test: YearsTest, additional: bool) returns (context: string)
    ensures context == Context(f, test, additional)
  {
    context := "Job Title: " + f.jobTitle + "\nDepartment: " + f.department + "\n";
    context := AppendLocation(context, f.location);
    context := AppendYears(context, f.yearsExperience, test);
    context := AppendExperience(context, f.experience);
    context := AppendSkills(context, f.skills);
    context := AppendEducation(context, f.education);
    context := AppendCertifications(context, f.certifications);
    context := AppendAchievements(context, f.notableAchievements);
    if additional {
      context := AppendAdditional(context, f.summary);
    }
  }

  method AppendLocation(text: string, location: Option<string>) returns (r: string)
    ensures r == text + LocationSection(location)
  {
    r := text;
    if location.Some? && location.value != "" {
      r := r + ("Location: " + location.value + "\n");
    }
  }

  method AppendYears(text: string, years: Option<real>, test: YearsTest) returns (r: string)
    ensures r == text + YearsSection(years, test)
  {
    r := text;
    if ShowsYears(years, test) {
      r := r + ("Years of Experience: " + NumberToString(years.value) + "\n");
    }
  }

  method AppendSkills(text: string, skills: seq<string>) returns (r: string)
    ensures r == text + SkillsSection(skills)
  {
    r := text;
    if |skills| > 0 {
      r := r + ("\nSkills: " + Join(skills, ", ") + "\n");
    }
  }

  method AppendCertifications(text: string, certifications: seq<string>) returns (r: string)
    ensures r == text + CertificationsSection(certifications)
  {
    r := text;
    if |certifications| > 0 {
      r := r + ("\nCertifications: " + Join(certifications, ", ") + "\n");
    }
  }

  method AppendAdditional(text: string, summary: Option<string>) returns (r: string)
    ensures r == text + AdditionalSection(summary)
  {
    r := text;
    if summary.Some? && Trim(summary.value) != "" {
      r := r + ("\nAdditional Context: " + Trim(summary.value) + "\n");
    }
  }

  method AppendExperience(text: string, experience: seq<Experience>) returns (r: string)
    ensures r == text + ExperienceSection(experience)
  {
    r := text;
    if |experience| > 0 {
      r := AppendLines(r + "\nExperience:\n", experience, ExperienceLine);
    }
  }

  method AppendEducation(text: string, education: seq<Education>) returns (r: string)
    ensures r == text + EducationSection(education)
  {
    r := text;
    if |education| > 0 {
      r := AppendLines(r + "\nEducation:\n", education, EducationLine);
    }
  }

  method AppendAchievements(text: string, achievements: seq<string>) returns (r: string)
    ensures r == text + AchievementsSection(achievements)
  {
    r := text;
    if |achievements| > 0 {
      r := AppendLines(r + "\nNotable Achievements:\n", achievements, AchievementLine);
    }
  }

  /** `/generate` drops a years-of-experience of 0, exactly as if it were absent. */
  lemma GenerateDropsZeroYears(f: ContextFields)
    ensures Context(f.(yearsExperience := Some(0.0)), TruthyYears, true) == Context(f.(yearsExperience := None), TruthyYears, true)
  {
  }

  /** The rebuilt contexts keep a years-of-experience of 0: the line `Years of Experience: 0` is added. */
  lemma RegenerateKeepsZeroYears(f: ContextFields, additional: bool)
    ensures YearsSection(Some(0.0), DefinedYears) == "Years of Experience: 0\n"
    ensures |Context(f.(yearsExperience := Some(0.0)), DefinedYears, additional)|
         == |Context(f.(yearsExperience := None), DefinedYears, additional)| + 23
  {
    NumberToStringInt(0);
    assert NumberToString(0.0) == "0";
  }

  /** The rebuilt summary context never reads the stored summary, and the
      mentor-summary context is the same text with the additional-context section after it. */
  lemma RebuiltContextsDiffer(f: ContextFields, other: Option<string>)
    ensures Context(f, DefinedYears, false) == Context(f.(summary := other), DefinedYears, false)
    ensures Context(f, DefinedYears, true) == Context(f, DefinedYears, false) + AdditionalSection(f.summary)
  {
  }

  /** `yearsExperience || 'several'`. */
  function YearsText(years: Option<real>): string {
    if years.Some? && years.value != 0.0 then NumberToString(years.value) else "several"
  }

  /** The summary stored when generation fails: the trimmed user summary when
      it is not blank, else a sentence built from the title, years and department. */
  function FallbackSummary(summary: Option<string>, jobTitle: string, years: Option<real>, department: string): (r: string)
    ensures summary.Some? && Trim(summary.value) != "" ==> r == Trim(summary.value)
    ensures !(summary.Some? && Trim(summary.value) != "") ==>
      StartsWith(r, jobTitle + " with ") && EndsWith(r, " years of experience in " + department + ".")
  {
    if summary.Some? && Trim(summary.value) != "" then Trim(summary.value)
    else
      Affixes(jobTitle + " with ", YearsText(years), " years of experience in " + department + ".");
      jobTitle + " with " + YearsText(years) + (" years of experience in " + department + ".")
  }

  /** The generated summary when the model answered, else the fallback; never empty. */
  function GeneratedSummary(generated: Option<string>, summary: Option<string>, jobTitle: string,
                            years: Option<real>, department: string): (r: string)
    ensures generated.Some? ==> r == generated.value
    ensures generated.None? ==> r == FallbackSummary(summary, jobTitle, years, department) && r != ""
  {
    if generated.Some? then generated.value else FallbackSummary(summary, jobTitle, years, department)
  }

  /** A years value of 0 reads as `several` in the fallback sentence. */
  lemma FallbackZeroYears(summary: Option<string>, jobTitle: string, department: string)
    ensures FallbackSummary(summary, jobTitle, Some(0.0), department) == FallbackSummary(summary, jobTitle, None, department)
  {
  }

  function ExperienceFact(exp: Experience): string {
    Show(exp.title) + " at " + Show(exp.company) + ". " + (if Filled(exp.description) then exp.description.value + " " else "")
  }

  function EducationFact(edu: Education): string {
    Show(edu.degree) + " from " + Show(edu.university) + ". "
  }

  function SummaryPart(summary: Option<string>): string {
    if Filled(summary) then summary.value + "\n\n" else ""
  }

  function ExperiencePart(experience: seq<Experience>): string {
    if |experience| > 0 then Concat(Lines(experience, ExperienceFact)) + "\n\n" else ""
  }

  function EducationPart(education: seq<Education>): string {
    if |education| > 0 then Concat(Lines(education, EducationFact)) + "\n\n" else ""
  }

  function AchievementsPart(achievements: seq<string>): string {
    if |achievements| > 0 then Join(achievements, ". ") + "." else ""
  }

  /** The text keywords are extracted from when skills are regenerated. */
  function ExtractionText(f: ContextFields): string {
    SummaryPart(f.summary) + ExperiencePart(f.experience) + EducationPart(f.education)
    + AchievementsPart(f.notableAchievements)
  }

  /** The extraction text built piece by piece, as the skills branch builds it. */
  method BuildExtractionText(f: ContextFields) returns (text: string)
    ensures text == ExtractionText(f)
  {
    text := "";
    if Filled(f.summary) {
      text := text + f.summary.value + "\n\n";
    }
    ghost var built := SummaryPart(f.summary);
    assert text == built;
    if |f.experience| > 0 {
      text := AppendLines(text, f.experience, ExperienceFact);
      text := text + "\n\n";
      ConcatAssoc(built, Concat(Lines(f.experience, ExperienceFact)), "\n\n");
    }
    built := built + ExperiencePart(f.experience);
    assert text == built;
    if |f.education| > 0 {
      text := AppendLines(text, f.education, EducationFact);
      text := text + "\n\n";
      ConcatAssoc(built, Concat(Lines(f.education, EducationFact)), "\n\n");
    }
    built := built + EducationPart(f.education);
    assert text == built;
    if |f.notableAchievements| > 0 {
      text := text + (Join(f.notableAchievements, ". ") + ".");
    }
    built := built + AchievementsPart(f.notableAchievements);
    assert text == built;
  }

  /** `keywords.map(k => k.trim()).filter(k => k.length > 0)`. */
  function CleanKeywords(keywords: seq<string>): (r: seq<string>)
    ensures forall i | 0 <= i < |r| :: r[i] != "" && Unpadded(r[i])
    ensures |r| <= |keywords|
  {
    if keywords == [] then []
    else
      var rest := CleanKeywords(keywords[..|keywords| - 1]);
      var last := Trim(keywords[|keywords| - 1]);
      if last == "" then rest else rest + [last]
  }

  /** Cleaning is the trim of every keyword followed by the filter that drops the
      empty ones: order and repeats are those of the extracted list. */
  lemma {:induction false} CleanKeywordsTrimsThenFilters(keywords: seq<string>)
    ensures CleanKeywords(keywords) == Filter(Parsers.TrimAll(keywords), Parsers.NonEmpty)
  {
    if keywords != [] {
      var init := keywords[..|keywords| - 1];
      var trimmed := Parsers.TrimAll(keywords);
      CleanKeywordsTrimsThenFilters(init);
      assert trimmed[..|trimmed| - 1] == Parsers.TrimAll(init);
    }
  }

  /** Every keyword that is not blank survives, trimmed, and nothing else comes in. */
  lemma {:induction false} CleanKeywordsKeeps(keywords: seq<string>)
    ensures forall k | k in keywords && Trim(k) != "" :: Trim(k) in CleanKeywords(keywords)
    ensures forall t | t in CleanKeywords(keywords) :: exists k | k in keywords :: t == Trim(k)
  {
    if keywords != [] {
      var init := keywords[..|keywords| - 1];
      CleanKeywordsKeeps(init);
      assert keywords == init + [keywords[|keywords| - 1]];
    }
  }

}

=== FILE: biography_routes.dfy ===
/** The biography routes that change a stored document: regenerating the
    summary, the mentor summary or the skills; replacing the tags by hand;
    setting one profile field; and adding, replacing or removing an education
    or experience entry by index. The model service is a set of given
    answers, and saving is left out: the document's fields are assigned in place. Each
    route takes the document `doc` together with `found`, whether
    `Biography.findById` found it; when it did not, `doc` is not touched. */
module BiographyRoutes {
  import opened Wrappers
  import opened JsText
  import opened JsNumber
  import opened JsonValue
  import opened Sequences
  import opened Profile
  import opened Parsers
  import opened BiographyContext

  /** What a route answers: success (its body is the field it changed), or an
      error status with its message. */
  datatype Reply = Done | Refused(status: int, error: string)

  const BiographyNotFound := "Biography not found"
  const InvalidKey := "Invalid key"
  const NotRegeneratable := "Key is not regeneratable"
  const ExtractFailed := "Failed to extract keywords"
  const MentorSummaryFailed := "Failed to regenerate mentor summary"
  const SummaryFailed := "Failed to regenerate summary"
  const TagsRequired := "Tags array is required"
  const InvalidTags := "Invalid tags"
  const InvalidFieldName := "Invalid field name"
  const FieldUpdateFailed := "Failed to update field"
  const InvalidEducationIndex := "Invalid education index"
  const InvalidExperienceIndex := "Invalid experience index"

  // ---------------------------------------------------------------- regenerate

  const RegeneratableKeys: seq<string> := ["summary", "mentorSummary", "skills"]

  datatype RegenerateKey = SummaryKey | MentorSummaryKey | SkillsKey {
    function Name(): string {
      match this
      case SummaryKey => "summary"
      case MentorSummaryKey => "mentorSummary"
      case SkillsKey => "skills"
    }
  }

  /** The two checks on `:key`: it must name a path of the document schema
      (`schemaPaths`), and then be one of the three regeneratable keys. */
  function CheckRegenerateKey(key: string, schemaPaths: set<string>): (r: Result<RegenerateKey, Reply>)
    ensures r.Success? <==> key in schemaPaths && key in RegeneratableKeys
    ensures r.Success? ==> r.value.Name() == key
    ensures key !in schemaPaths ==> r == Failure(Refused(400, InvalidKey))
    ensures key in schemaPaths && key !in RegeneratableKeys ==> r == Failure(Refused(400, NotRegeneratable))
  {
    if key !in schemaPaths then Failure(Refused(400, InvalidKey))
    else if key == "summary" then Success(SummaryKey)
    else if key == "mentorSummary" then Success(MentorSummaryKey)
    else if key == "skills" then Success(SkillsKey)
    else Failure(Refused(400, NotRegeneratable))
  }

  /** With the three keys among the schema's paths, as they are, the first
      check refuses only keys the second would refuse too. */
  lemma RegeneratableIffAllowed(key: string, schemaPaths: set<string>)
    requires forall k | k in RegeneratableKeys :: k in schemaPaths
    ensures CheckRegenerateKey(key, schemaPaths).Success? <==> key in RegeneratableKeys
  {
  }

  /** The context the mentor summary is regenerated from: the stored input, or
      the profile with its own summary as additional context. */
  function MentorSummaryContext(doc: BiographyDoc): string
    reads doc
  {
    StoredOrRebuilt(doc.rawInput, Context(DocFields(doc), DefinedYears, true))
  }

  /** The context the summary is regenerated from: the stored input, or the
      profile without its summary. */
  function SummaryContext(doc: BiographyDoc): string
    reads doc
  {
    StoredOrRebuilt(doc.rawInput, Context(DocFields(doc), DefinedYears, false))
  }

  /** The history entry the regenerate and field routes push: the summary text
      and the AI tags at that point. */
  function FieldHistory(summary: Option<string>, tags: seq<string>, source: HistorySource, field: Option<string>, now: int): (e: HistoryEntry)
    ensures e.biography == (if summary.Some? then summary.value else "")
    ensures e.tags == tags && e.userAddedTags == [] && e.source == source && e.field == field && e.timestamp == now
  {
    HistoryEntry(if summary.Some? then summary.value else "", tags, [], source, field, now)
  }

  /** The skills branch: the extracted keywords, trimmed with empties dropped,
      replace the skills, and a `regenerate-keywords` entry is pushed. */
  twostate predicate SkillsRegenerated(doc: BiographyDoc, extract: string -> Option<seq<string>>, now: int, reply: Reply)
    reads doc
  {
    var keywords := extract(ExtractionText(old(DocFields(doc))));
    && (keywords.None? ==> reply == Refused(500, ExtractFailed) && unchanged(doc))
    && (keywords.Some? ==>
          && reply == Done
          && doc.skills == CleanKeywords(keywords.value)
          && doc.history == old(doc.history) + [FieldHistory(doc.summary, doc.tags, RegenerateKeywords, None, now)])
  }

  /** The mentor-summary branch: the answer replaces the mentor summary, and a
      `field-update` entry naming `mentorSummary` is pushed. */
  twostate predicate MentorSummaryRegenerated(doc: BiographyDoc, generate: string -> Option<string>, now: int, reply: Reply)
    reads doc
  {
    var answer := generate(old(MentorSummaryContext(doc)));
    && (answer.None? ==> reply == Refused(500, MentorSummaryFailed) && unchanged(doc))
    && (answer.Some? ==>
          && reply == Done
          && doc.mentorSummary == answer
          && doc.history == old(doc.history) + [FieldHistory(doc.summary, doc.tags, FieldUpdate, Some("mentorSummary"), now)])
  }

  /** The summary branch: the answer replaces both the summary and the current
      biography text, and a `field-update` entry naming `summary` is pushed. */
  twostate predicate SummaryRegenerated(doc: BiographyDoc, generate: string -> Option<string>, now: int, reply: Reply)
    reads doc
  {
    var answer := generate(old(SummaryContext(doc)));
    && (answer.None? ==> reply == Refused(500, SummaryFailed) && unchanged(doc))
    && (answer.Some? ==>
          && reply == Done
          && doc.summary == answer && doc.currentBiography == answer.value
          && doc.history == old(doc.history) + [FieldHistory(answer, doc.tags, FieldUpdate, Some("summary"), now)])
  }

  /** `POST /:id/regenerate/:key`. `extract`, `generateMentorSummary` and
      `generateBiography` give the model service's answers, `None` when the call throws. */
  method Regenerate(doc: BiographyDoc, found: bool, key: string, schemaPaths: set<string>,
                    extract: string -> Option<seq<string>>, generateMentorSummary: string -> Option<string>,
                    generateBiography: string -> Option<string>, now: int) returns (reply: Reply)
    modifies doc`skills, doc`mentorSummary, doc`summary, doc`currentBiography, doc`history
    ensures CheckRegenerateKey(key, schemaPaths).Failure? ==> reply == CheckRegenerateKey(key, schemaPaths).error
    ensures CheckRegenerateKey(key, schemaPaths).Success? && !found ==> reply == Refused(404, BiographyNotFound)
    ensures CheckRegenerateKey(key, schemaPaths).Failure? || !found ==> unchanged(doc)
    ensures CheckRegenerateKey(key, schemaPaths) == Success(SkillsKey) && found ==>
      SkillsRegenerated(doc, extract, now, reply)
    ensures CheckRegenerateKey(key, schemaPaths) == Success(MentorSummaryKey) && found ==>
      MentorSummaryRegenerated(doc, generateMentorSummary, now, reply)
    ensures CheckRegenerateKey(key, schemaPaths) == Success(SummaryKey) && found ==>
      SummaryRegenerated(doc, generateBiography, now, reply)
  {
    var checked := CheckRegenerateKey(key, schemaPaths);
    if checked.Failure? {
      return checked.error;
    }
    if !found {
      return Refused(404, BiographyNotFound);
    }
    match checked.value
    case SkillsKey =>
      reply := RegenerateSkills(doc, extract, now);
    case MentorSummaryKey =>
      reply := RegenerateMentorSummary(doc, generateMentorSummary, now);
    case SummaryKey =>
      reply := RegenerateSummary(doc, generateBiography, now);
  }

  method RegenerateSkills(doc: BiographyDoc, extract: string -> Option<seq<string>>, now: int) returns (reply: Reply)
    modifies doc`skills, doc`history
    ensures SkillsRegenerated(doc, extract, now, reply)
  {
    var text := BuildExtractionText(DocFields(doc));
    var keywords := extract(text);
    if keywords.None? {
      return Refused(500, ExtractFailed);
    }
    doc.skills := CleanKeywords(keywords.value);
    doc.history := doc.history + [FieldHistory(doc.summary, doc.tags, RegenerateKeywords, None, now)];
    reply := Done;
  }

  /** `rawInput` when it is not blank, else the context rebuilt from the fields. */
  method ChooseContext(rawInput: Option<string>, f: ContextFields, additional: bool) returns (context: string)
    ensures context == StoredOrRebuilt(rawInput, Context(f, DefinedYears, additional))
  {
    if rawInput.None? || Trim(rawInput.value) == "" {
      context := BuildContext(f, DefinedYears, additional);
    } else {
      context := rawInput.value;
    }
  }

  method RegenerateMentorSummary(doc: BiographyDoc, generate: string -> Option<string>, now: int) returns (reply: Reply)
    modifies doc`mentorSummary, doc`history
    ensures MentorSummaryRegenerated(doc, generate, now, reply)
  {
    var context := ChooseContext(doc.rawInput, DocFields(doc), true);
    var answer := generate(context);
    if answer.None? {
      return Refused(500, MentorSummaryFailed);
    }
    doc.mentorSummary := answer;
    doc.history := doc.history + [FieldHistory(doc.summary, doc.tags, FieldUpdate, Some("mentorSummary"), now)];
    reply := Done;
  }

  method RegenerateSummary(doc: BiographyDoc, generate: string -> Option<string>, now: int) returns (reply: Reply)
    modifies doc`summary, doc`currentBiography, doc`history
    ensures SummaryRegenerated(doc, generate, now, reply)
  {
    var context := ChooseContext(doc.rawInput, DocFields(doc), false);
    var answer := generate(context);
    if answer.None? {
      return Refused(500, SummaryFailed);
    }
    doc.summary := answer;
    doc.currentBiography := answer.value;
    doc.history := doc.history + [FieldHistory(doc.summary, doc.tags, FieldUpdate, Some("summary"), now)];
    reply := Done;
  }

  // ---------------------------------------------------------------- tags

  /** `Array.isArray(tags)` and its elements, a non-string element as `None`. */
  function TagArray(tags: Json): (r: Option<seq<Option<string>>>)
    ensures r.Some? <==> tags.JArray?
    ensures r.Some? ==> |r.value| == |tags.items|
    ensures r.Some? ==> forall i | 0 <= i < |r.value| ::
      && (r.value[i].Some? <==> tags.items[i].JString?)
      && (r.value[i].Some? ==> r.value[i].value == tags.items[i].s)
  {
    match tags
    case JArray(items) =>
      Some(seq(|items|, i requires 0 <= i < |items| => if items[i].JString? then Some(items[i].s) else None))
    case _ => None
  }

  /** The sanitised tags that were AI tags before. */
  function AiTags(sanitized: seq<string>, oldAi: seq<string>): (r: seq<string>)
    ensures forall t :: t in r <==> t in sanitized && t in oldAi
    ensures IsSubsequence(r, sanitized)
  {
    Filter(sanitized, t => t in oldAi)
  }

  /** The sanitised tags that were neither AI nor user tags before. */
  function NewUserTags(sanitized: seq<string>, oldAi: seq<string>, oldUser: seq<string>): (r: seq<string>)
    ensures forall t :: t in r <==> t in sanitized && t !in oldAi && t !in oldUser
  {
    Filter(sanitized, t => t !in oldAi && t !in oldUser)
  }

  /** The sanitised tags that were user tags before or are new. */
  function UserTags(sanitized: seq<string>, oldAi: seq<string>, oldUser: seq<string>): (r: seq<string>)
    ensures forall t :: t in r <==> t in sanitized && (t in oldUser || t !in oldAi)
    ensures IsSubsequence(r, sanitized)
  {
    var newTags := NewUserTags(sanitized, oldAi, oldUser);
    Filter(sanitized, t => t in oldUser || t in newTags)
  }

  /** Every sanitised tag lands in at least one list, nothing else does, and a
      tag lands in both exactly when it was both an AI and a user tag before. */
  lemma TagsPartitioned(sanitized: seq<string>, oldAi: seq<string>, oldUser: seq<string>, t: string)
    ensures t in sanitized <==> t in AiTags(sanitized, oldAi) || t in UserTags(sanitized, oldAi, oldUser)
    ensures t in AiTags(sanitized, oldAi) && t in UserTags(sanitized, oldAi, oldUser)
       <==> t in sanitized && t in oldAi && t in oldUser
  {
  }

  /** The tag route's changes: the partition, the manual flag, and one `manual` history entry. */
  twostate predicate TagsReplaced(doc: BiographyDoc, sanitized: seq<string>, now: int)
    reads doc
  {
    && doc.tags == AiTags(sanitized, old(doc.tags))
    && doc.userAddedTags == UserTags(sanitized, old(doc.tags), old(doc.userAddedTags))
    && doc.manuallyManagedTags
    && doc.history == old(doc.history) + [HistoryEntry(doc.currentBiography, doc.tags, [], Manual, None, now)]
  }

  /** What `validateTags` accepts: an array whose sanitised tags number 1 to 20,
      each at most 50 characters long. */
  predicate TagsValid(tags: Json) {
    && TagArray(tags).Some?
    && var sanitized := SanitizeTags(TagArray(tags).value);
       1 <= |sanitized| <= 20 && forall i | 0 <= i < |sanitized| :: |sanitized[i]| <= 50
  }

  /** `PUT /:id/tags`. The body is checked before the document is looked up. */
  method UpdateTags(doc: BiographyDoc, found: bool, tags: Option<Json>, now: int) returns (reply: Reply)
    modifies doc`tags, doc`userAddedTags, doc`manuallyManagedTags, doc`history
    ensures !Truthy(tags) ==> reply == Refused(400, TagsRequired)
    ensures Truthy(tags) && !TagsValid(tags.value) ==> reply == Refused(400, InvalidTags)
    ensures Truthy(tags) && TagsValid(tags.value) && !found ==> reply == Refused(404, BiographyNotFound)
    ensures Truthy(tags) && TagsValid(tags.value) && found ==>
      reply == Done && TagsReplaced(doc, SanitizeTags(TagArray(tags.value).value), now)
    ensures reply.Refused? ==> unchanged(doc)
  {
    if !Truthy(tags) {
      return Refused(400, TagsRequired);
    }
    var valid, sanitized, errors := ValidateTags(TagArray(tags.value));
    if !valid {
      return Refused(400, InvalidTags);
    }
    if !found {
      return Refused(404, BiographyNotFound);
    }
    ReplaceTags(doc, sanitized, now);
    reply := Done;
  }

  method ReplaceTags(doc: BiographyDoc, sanitized: seq<string>, now: int)
    modifies doc`tags, doc`userAddedTags, doc`manuallyManagedTags, doc`history
    ensures TagsReplaced(doc, sanitized, now)
  {
    var aiTags := AiTags(sanitized, doc.tags);
    var userTags := UserTags(sanitized, doc.tags, doc.userAddedTags);
    doc.tags := aiTags;
    doc.userAddedTags := userTags;
    doc.manuallyManagedTags := true;
    doc.history := doc.history + [HistoryEntry(doc.currentBiography, aiTags, [], Manual, None, now)];
  }

  // ---------------------------------------------------------------- one field

  const AllowedFields: seq<string> :=
    ["jobTitle", "department", "businessFunction", "businessFunctionOther", "location", "yearsExperience",
     "summary", "mentorSummary", "skills", "certifications", "notableAchievements"]

  /** A value for one field: a string, a number or a list of strings. */
  datatype FieldValue = TextValue(text: string) | NumberValue(number: real) | ListValue(items: seq<string>)

  predicate IsListField(name: string) {
    name == "skills" || name == "certifications" || name == "notableAchievements"
  }

  /** Whether the value has the type the schema gives the field. */
  predicate Fits(name: string, value: FieldValue) {
    if name == "yearsExperience" then value.NumberValue?
    else if IsListField(name) then value.ListValue?
    else value.TextValue?
  }

  /** A text field after the update: the value when it is the field named, else as before. */
  function SetText(field: string, name: string, value: FieldValue, before: Option<string>): (r: Option<string>)
    ensures field == name && value.TextValue? ==> r == Some(value.text)
    ensures field != name ==> r == before
  {
    if field == name && value.TextValue? then Some(value.text) else before
  }

  function SetList(field: string, name: string, value: FieldValue, before: seq<string>): (r: seq<string>)
    ensures field == name && value.ListValue? ==> r == value.items
    ensures field != name ==> r == before
  {
    if field == name && value.ListValue? then value.items else before
  }

  /** The text fields after the update: the one named takes the value, the others keep theirs. */
  twostate predicate TextFieldsSet(doc: BiographyDoc, name: string, value: FieldValue)
    reads doc
  {
    && doc.jobTitle == SetText("jobTitle", name, value, old(doc.jobTitle))
    && doc.department == SetText("department", name, value, old(doc.department))
    && doc.businessFunction == SetText("businessFunction", name, value, old(doc.businessFunction))
    && doc.businessFunctionOther == SetText("businessFunctionOther", name, value, old(doc.businessFunctionOther))
    && doc.location == SetText("location", name, value, old(doc.location))
    && doc.summary == SetText("summary", name, value, old(doc.summary))
    && doc.mentorSummary == SetText("mentorSummary", name, value, old(doc.mentorSummary))
  }

  /** The list fields after the update. */
  twostate predicate ListFieldsSet(doc: BiographyDoc, name: string, value: FieldValue)
    reads doc
  {
    && doc.skills == SetList("skills", name, value, old(doc.skills))
    && doc.certifications == SetList("certifications", name, value, old(doc.certifications))
    && doc.notableAchievements == SetList("notableAchievements", name, value, old(doc.notableAchievements))
  }

  /** The single-field route's changes: the named field takes the value, every
      other allowed field keeps its value, and one `field-update` entry naming
      the field is pushed with the summary as it is after the update. */
  twostate predicate FieldSet(doc: BiographyDoc, name: string, value: FieldValue, now: int)
    reads doc
  {
    && TextFieldsSet(doc, name, value)
    && doc.yearsExperience == (if name == "yearsExperience" && value.NumberValue? then Some(value.number) else old(doc.yearsExperience))
    && ListFieldsSet(doc, name, value)
    && doc.history == old(doc.history) + [FieldHistory(doc.summary, doc.tags, FieldUpdate, Some(name), now)]
  }

  /** `PUT /:id/field/:fieldName`. The document is looked up first; a value of
      the wrong type fails when the document is cast and nothing is stored. */
  method UpdateField(doc: BiographyDoc, found: bool, name: string, value: FieldValue, now: int) returns (reply: Reply)
    modifies doc`jobTitle, doc`department, doc`businessFunction, doc`businessFunctionOther, doc`location,
             doc`yearsExperience, doc`summary, doc`mentorSummary, doc`skills, doc`certifications,
             doc`notableAchievements, doc`history
    ensures !found ==> reply == Refused(404, BiographyNotFound)
    ensures found && name !in AllowedFields ==> reply == Refused(400, InvalidFieldName)
    ensures found && name in AllowedFields && !Fits(name, value) ==> reply == Refused(500, FieldUpdateFailed)
    ensures found && name in AllowedFields && Fits(name, value) ==> reply == Done && FieldSet(doc, name, value, now)
    ensures reply.Refused? ==> unchanged(doc)
  {
    if !found {
      return Refused(404, BiographyNotFound);
    }
    if name !in AllowedFields {
      return Refused(400, InvalidFieldName);
    }
    if !Fits(name, value) {
      return Refused(500, FieldUpdateFailed);
    }
    AssignField(doc, name, value);
    doc.history := doc.history + [FieldHistory(doc.summary, doc.tags, FieldUpdate, Some(name), now)];
    reply := Done;
  }

  /** `biography[fieldName] = value` for an allowed field and a value of its type. */
  method AssignField(doc: BiographyDoc, name: string, value: FieldValue)
    requires name in AllowedFields && Fits(name, value)
    modifies doc`jobTitle, doc`department, doc`businessFunction, doc`businessFunctionOther, doc`location,
             doc`yearsExperience, doc`summary, doc`mentorSummary, doc`skills, doc`certifications,
             doc`notableAchievements
    ensures TextFieldsSet(doc, name, value) && ListFieldsSet(doc, name, value)
    ensures doc.yearsExperience == (if name == "yearsExperience" && value.NumberValue? then Some(value.number) else old(doc.yearsExperience))
  {
    match value {
      case TextValue(text) =>
        AssignText(doc, name, value);
      case NumberValue(number) =>
        doc.yearsExperience := Some(number);
      case ListValue(items) =>
        AssignList(doc, name, value);
    }
  }

  method AssignText(doc: BiographyDoc, name: string, value: FieldValue)
    requires value.TextValue?
    requires name in AllowedFields && name != "yearsExperience" && !IsListField(name)
    modifies doc`jobTitle, doc`department, doc`businessFunction, doc`businessFunctionOther, doc`location,
             doc`summary, doc`mentorSummary
    ensures TextFieldsSet(doc, name, value)
  {
    var text := Some(value.text);
    if name == "jobTitle" { doc.jobTitle := text; }
    else if name == "department" { doc.department := text; }
    else if name == "businessFunction" { doc.businessFunction := text; }
    else if name == "businessFunctionOther" { doc.businessFunctionOther := text; }
    else if name == "location" { doc.location := text; }
    else if name == "summary" { doc.summary := text; }
    else { doc.mentorSummary := text; }
  }

  method AssignList(doc: BiographyDoc, name: string, value: FieldValue)
    requires value.ListValue? && IsListField(name)
    modifies doc`skills, doc`certifications, doc`notableAchievements
    ensures ListFieldsSet(doc, name, value)
  {
    if name == "skills" { doc.skills := value.items; }
    else if name == "certifications" { doc.certifications := value.items; }
    else { doc.notableAchievements := value.items; }
  }

  // ---------------------------------------------------------------- entries by index

  /** `parseInt(index)` checked against the length: an index in range, one out
      of range, or text that is not a number at all. */
  datatype IndexCheck = InRange(i: nat) | OutOfRange | NotANumber

  function CheckIndex(index: string, length: nat): (r: IndexCheck)
    ensures r == NotANumber <==> ParseInt(index, false).None?
    ensures r.InRange? <==> ParseInt(index, false).Some? && 0 <= ParseInt(index, false).value < length
    ensures r.InRange? ==> r.i == ParseInt(index, false).value
  {
    match ParseInt(index, false)
    case None => NotANumber
    case Some(idx) => if idx < 0 || idx >= length then OutOfRange else InRange(idx)
  }

  /** The list with the entry at `i` replaced. */
  function Replaced<T>(list: seq<T>, i: nat, entry: T): (r: seq<T>)
    requires i < |list|
    ensures |r| == |list| && r[i] == entry
    ensures forall j | 0 <= j < |list| && j != i :: r[j] == list[j]
  {
    list[i := entry]
  }

  /** The list with the entry at `i` removed, the others in order. */
  function Removed<T>(list: seq<T>, i: nat): (r: seq<T>)
    requires i < |list|
    ensures |r| == |list| - 1
    ensures forall j | 0 <= j < i :: r[j] == list[j]
    ensures forall j | i <= j < |r| :: r[j] == list[j + 1]
  {
    list[..i] + list[i + 1..]
  }

  /** Putting the removed entry back where it was gives the list again, and
      replacing an entry by itself changes nothing. */
  lemma RemovedRestored<T>(list: seq<T>, i: nat)
    requires i < |list|
    ensures Removed(list, i)[..i] + [list[i]] + Removed(list, i)[i..] == list
    ensures multiset(Removed(list, i)) + multiset{list[i]} == multiset(list)
    ensures Replaced(list, i, list[i]) == list
  {
    var r := Removed(list, i);
    assert r[..i] == list[..i];
    assert r[i..] == list[i + 1..];
    assert list == list[..i] + [list[i]] + list[i + 1..];
  }

  /** `POST /:id/education`. */
  method AddEducation(doc: BiographyDoc, found: bool, entry: Education) returns (reply: Reply)
    modifies doc`education
    ensures !found ==> reply == Refused(404, BiographyNotFound)
    ensures found ==> reply == Done && doc.education == old(doc.education) + [entry]
  {
    if !found {
      return Refused(404, BiographyNotFound);
    }
    doc.education := doc.education + [entry];
    reply := Done;
  }

  /** `PUT /:id/education/:index`, with the guard as written. */
  method ReplaceEducation(doc: BiographyDoc, found: bool, index: string, entry: Education) returns (reply: Reply)
    modifies doc`education
    ensures !found ==> reply == Refused(404, BiographyNotFound) && doc.education == old(doc.education)
    ensures found && GuardRefusesAsWritten(ParseInt(index, false), |old(doc.education)|) ==>
      reply == Refused(400, InvalidEducationIndex) && doc.education == old(doc.education)
    ensures found && !GuardRefusesAsWritten(ParseInt(index, false), |old(doc.education)|) ==>
      reply == Done && doc.education == AssignAsWritten(old(doc.education), ParseInt(index, false), entry)
    ensures found && CheckIndex(index, |old(doc.education)|) == OutOfRange ==>
      reply == Refused(400, InvalidEducationIndex) && doc.education == old(doc.education)
    ensures found && CheckIndex(index, |old(doc.education)|).InRange? ==>
      reply == Done && doc.education == Replaced(old(doc.education), CheckIndex(index, |old(doc.education)|).i, entry)
  {
    if !found {
      return Refused(404, BiographyNotFound);
    }
    var idx := ParseInt(index, false);
    if GuardRefusesAsWritten(idx, |doc.education|) {
      return Refused(400, InvalidEducationIndex);
    }
    if idx.Some? {
      AsWrittenAgreesOnNumbers(doc.education, idx, CheckIndex(index, |doc.education|), entry);
    }
    doc.education := AssignAsWritten(doc.education, idx, entry);
    reply := Done;
  }

  /** `DELETE /:id/education/:index`, with the guard as written. */
  method DeleteEducation(doc: BiographyDoc, found: bool, index: string) returns (reply: Reply)
    modifies doc`education
    ensures !found ==> reply == Refused(404, BiographyNotFound) && doc.education == old(doc.education)
    ensures found && GuardRefusesAsWritten(ParseInt(index, false), |old(doc.education)|) ==>
      reply == Refused(400, InvalidEducationIndex) && doc.education == old(doc.education)
    ensures found && !GuardRefusesAsWritten(ParseInt(index, false), |old(doc.education)|) ==>
      reply == Done && doc.education == SpliceAsWritten(old(doc.education), ParseInt(index, false))
    ensures found && CheckIndex(index, |old(doc.education)|) == OutOfRange ==>
      reply == Refused(400, InvalidEducationIndex) && doc.education == old(doc.education)
    ensures found && CheckIndex(index, |old(doc.education)|).InRange? ==>
      reply == Done && doc.education == Removed(old(doc.education), CheckIndex(index, |old(doc.education)|).i)
  {
    if !found {
      return Refused(404, BiographyNotFound);
    }
    var idx := ParseInt(index, false);
    if GuardRefusesAsWritten(idx, |doc.education|) {
      return Refused(400, InvalidEducationIndex);
    }
    if idx.Some? {
      AsWrittenAgreesOnNumbers(doc.education, idx, CheckIndex(index, |doc.education|), doc.education[0]);
    }
    doc.education := SpliceAsWritten(doc.education, idx);
    reply := Done;
  }

  /** `POST /:id/experience`. */
  method AddExperience(doc: BiographyDoc, found: bool, entry: Experience) returns (reply: Reply)
    modifies doc`experience
    ensures !found ==> reply == Refused(404, BiographyNotFound)
    ensures found ==> reply == Done && doc.experience == old(doc.experience) + [entry]
  {
    if !found {
      return Refused(404, BiographyNotFound);
    }
    doc.experience := doc.experience + [entry];
    reply := Done;
  }

  /** `PUT /:id/experience/:index`, with the guard as written. */
  method ReplaceExperience(doc: BiographyDoc, found: bool, index: string, entry: Experience) returns (reply: Reply)
    modifies doc`experience
    ensures !found ==> reply == Refused(404, BiographyNotFound) && doc.experience == old(doc.experience)
    ensures found && GuardRefusesAsWritten(ParseInt(index, false), |old(doc.experience)|) ==>
      reply == Refused(400, InvalidExperienceIndex) && doc.experience == old(doc.experience)
    ensures found && !GuardRefusesAsWritten(ParseInt(index, false), |old(doc.experience)|) ==>
      reply == Done && doc.experience == AssignAsWritten(old(doc.experience), ParseInt(index, false), entry)
    ensures found && CheckIndex(index, |old(doc.experience)|) == OutOfRange ==>
      reply == Refused(400, InvalidExperienceIndex) && doc.experience == old(doc.experience)
    ensures found && CheckIndex(index, |old(doc.experience)|).InRange? ==>
      reply == Done && doc.experience == Replaced(old(doc.experience), CheckIndex(index, |old(doc.experience)|).i, entry)
  {
    if !found {
      return Refused(404, BiographyNotFound);
    }
    var idx := ParseInt(index, false);
    if GuardRefusesAsWritten(idx, |doc.experience|) {
      return Refused(400, InvalidExperienceIndex);
    }
    if idx.Some? {
      AsWrittenAgreesOnNumbers(doc.experience, idx, CheckIndex(index, |doc.experience|), entry);
    }
    doc.experience := AssignAsWritten(doc.experience, idx, entry);
    reply := Done;
  }

  /** `DELETE /:id/experience/:index`, with the guard as written. */
  method DeleteExperience(doc: BiographyDoc, found: bool, index: string) returns (reply: Reply)
    modifies doc`experience
    ensures !found ==> reply == Refused(404, BiographyNotFound) && doc.experience == old(doc.experience)
    ensures found && GuardRefusesAsWritten(ParseInt(index, false), |old(doc.experience)|) ==>
      reply == Refused(400, InvalidExperienceIndex) && doc.experience == old(doc.experience)
    ensures found && !GuardRefusesAsWritten(ParseInt(index, false), |old(doc.experience)|) ==>
      reply == Done && doc.experience == SpliceAsWritten(old(doc.experience), ParseInt(index, false))
    ensures found && CheckIndex(index, |old(doc.experience)|) == OutOfRange ==>
      reply == Refused(400, InvalidExperienceIndex) && doc.experience == old(doc.experience)
    ensures found && CheckIndex(index, |old(doc.experience)|).InRange? ==>
      reply == Done && doc.experience == Removed(old(doc.experience), CheckIndex(index, |old(doc.experience)|).i)
  {
    if !found {
      return Refused(404, BiographyNotFound);
    }
    var idx := ParseInt(index, false);
    if GuardRefusesAsWritten(idx, |doc.experience|) {
      return Refused(400, InvalidExperienceIndex);
    }
    if idx.Some? {
      AsWrittenAgreesOnNumbers(doc.experience, idx, CheckIndex(index, |doc.experience|), doc.experience[0]);
    }
    doc.experience := SpliceAsWritten(doc.experience, idx);
    reply := Done;
  }

  // ---------------------------------------------------------------- the index guard as written

  /** The guard as written, `idx < 0 || idx >= length`: both comparisons are
      false for NaN (`None`), so NaN is let through. */
  predicate GuardRefusesAsWritten(idx: Option<int>, length: nat) {
    idx.Some? && (idx.value < 0 || idx.value >= length)
  }

  /** `splice(idx, 1)` after that guard: a NaN start counts as 0. */
  function SpliceAsWritten<T>(list: seq<T>, idx: Option<int>): seq<T>
    requires !GuardRefusesAsWritten(idx, |list|)
  {
    var start := if idx.Some? then idx.value else 0;
    if start < |list| then list[..start] + list[start + 1..] else list
  }

  /** `list[idx] = entry` after that guard: with NaN it sets a property named
      `NaN`, and no entry changes. */
  function AssignAsWritten<T>(list: seq<T>, idx: Option<int>, entry: T): seq<T>
    requires !GuardRefusesAsWritten(idx, |list|)
  {
    if idx.Some? then list[idx.value := entry] else list
  }

  /** An index that starts with a letter is not a number. */
  lemma LetterIndexIsNaN(index: string)
    requires |index| > 0 && 'a' <= index[0] <= 'z'
    ensures ParseInt(index, false).None?
  {
    assert TrimStart(index) == index by {
      assert !IsSpace(index[0]);
    }
    assert SplitSign(index) == (false, index);
    assert !IsDigitIn(index[0], 10);
  }

  /** As written, deleting at a non-numeric index passes the guard and removes
      the first entry, and replacing at one passes the guard and changes nothing. */
  lemma NonNumericIndexAsWritten<T>(list: seq<T>, index: string, entry: T)
    requires |list| > 0 && ParseInt(index, false).None?
    ensures !GuardRefusesAsWritten(ParseInt(index, false), |list|)
    ensures SpliceAsWritten(list, ParseInt(index, false)) == list[1..]
    ensures AssignAsWritten(list, ParseInt(index, false), entry) == list
  {
  }

  /** `DELETE /:id/education/abc` on a profile with entries removes the first one as written. */
  lemma DeleteAtLetterIndexAsWritten(education: seq<Education>)
    requires |education| > 0
    ensures var idx := ParseInt("abc", false); idx.None? && SpliceAsWritten(education, idx) == education[1..]
  {
    LetterIndexIsNaN("abc");
    NonNumericIndexAsWritten(education, "abc", education[0]);
  }

  /** On a numeric index the guard as written and the corrected one agree:
      both refuse exactly the indexes out of range, and in range the splice is
      `Removed` and the assignment `Replaced`. */
  lemma AsWrittenAgreesOnNumbers<T>(list: seq<T>, idx: Option<int>, check: IndexCheck, entry: T)
    requires idx.Some? && check != NotANumber
    requires check.InRange? <==> 0 <= idx.value < |list|
    requires check.InRange? ==> check.i == idx.value
    ensures GuardRefusesAsWritten(idx, |list|) <==> check == OutOfRange
    ensures check.InRange? ==>
      && SpliceAsWritten(list, idx) == Removed(list, check.i)
      && AssignAsWritten(list, idx, entry) == Replaced(list, check.i, entry)
  {
  }

  /** The corrected guard refuses every non-numeric index and leaves the list as it was. */
  lemma NonNumericIndexRefused<T>(list: seq<T>, index: string)
    requires ParseInt(index, false).None?
    ensures CheckIndex(index, |list|) == NotANumber
    ensures !CheckIndex(index, |list|).InRange?
  {
  }
}

=== FILE: chat.dfy ===
/** The chat refinement route `POST /:biographyId/refine`. A turn either
    answers a pending profile-update proposal (yes applies it, no discards it,
    anything else asks again) or, when none is pending, refines the biography
    text and may leave a new proposal pending. The document store, the message
    store and the model service are objects whose state the route changes. */
module Chat {
  import opened Wrappers
  import opened JsText
  import opened JsonValue
  import opened Profile
  import opened Validators
  import opened FieldUpdates
  import opened Sequences

  /** What the route answers: an error status with its message, or the
      biography texts together with the assistant's message. */
  datatype Reply =
    | Refused(status: int, error: string)
    | Answered(biography: string, summary: string, message: string)

  const MessageRequired := "Message is required"
  const BiographyNotFound := "Biography not found"
  const NoValidContent := "Biography has no valid content. Please generate a biography first."
  const RefineFailed := "Failed to refine biography"
  const AskAgain := "Please reply with \U{201C}yes\U{201D} to apply the proposed profile updates, or \U{201C}no\U{201D} to cancel."
  const Canceled := "Canceled \U{2014} no profile fields were changed."
  const Applied := "Applied profile updates."
  const TextUpdated := "Updated the biography text based on your request."

  /** How many stored messages the conversation context takes. */
  const HistoryLimit := 20

  function Min(a: int, b: int): int {
    if a <= b then a else b
  }

  /** The stored chat messages of one biography, oldest first. */
  class MessageLog {
    var messages: seq<ChatMessage>

    constructor()
      ensures messages == []
    {
      messages := [];
    }

    /** `new ChatMessage(...).save()`. */
    method Save(m: ChatMessage)
      modifies this
      ensures messages == old(messages) + [m]
    {
      messages := messages + [m];
    }

    /** `ChatMessage.find({ biographyId }).sort({ timestamp: 1 }).limit(20)`: the
        oldest twenty messages. */
    function Oldest(): (r: seq<ChatMessage>)
      reads this
      ensures |r| == Min(|messages|, HistoryLimit)
      ensures r == messages[..|r|]
    {
      messages[..Min(|messages|, HistoryLimit)]
    }
  }

  /** A call the route makes to the model service. */
  datatype ModelCall =
    | RefineCall(text: string, message: string, history: seq<ChatMessage>)
    | ExtractCall(text: string)
    | ProposeCall(fields: Updates, message: string)

  /** The model service as the route sees it: what each call answers is given,
      `None` standing for a call that throws (refinement, keyword extraction) or
      answers `null` (a proposal); the calls made are recorded in order. */
  class ModelGateway {
    const refine: (string, string, seq<ChatMessage>) -> Option<string>
    const extract: string -> Option<seq<string>>
    const propose: (Updates, string) -> Option<string>
    var calls: seq<ModelCall>

    constructor(refine: (string, string, seq<ChatMessage>) -> Option<string>, extract: string -> Option<seq<string>>,
                propose: (Updates, string) -> Option<string>)
      ensures this.refine == refine && this.extract == extract && this.propose == propose && calls == []
    {
      this.refine := refine;
      this.extract := extract;
      this.propose := propose;
      calls := [];
    }

    /** `ollamaService.refineBiography(currentText, message, conversationHistory)`. */
    method Refine(text: string, message: string, history: seq<ChatMessage>) returns (r: Option<string>)
      modifies this
      ensures calls == old(calls) + [RefineCall(text, message, history)]
      ensures r == refine(text, message, history)
    {
      calls := calls + [RefineCall(text, message, history)];
      r := refine(text, message, history);
    }

    /** `keywordService.extractFromText(refinedBio)`. */
    method Extract(text: string) returns (r: Option<seq<string>>)
      modifies this
      ensures calls == old(calls) + [ExtractCall(text)]
      ensures r == extract(text)
    {
      calls := calls + [ExtractCall(text)];
      r := extract(text);
    }

    /** `ollamaService.proposeBiographyFieldUpdates(currentFields, message)`. */
    method Propose(fields: Updates, message: string) returns (r: Option<string>)
      modifies this
      ensures calls == old(calls) + [ProposeCall(fields, message)]
      ensures r == propose(fields, message)
    {
      calls := calls + [ProposeCall(fields, message)];
      r := propose(fields, message);
    }
  }

  // ---------------------------------------------------------------- the pending-update machine

  /** The pending proposal after one turn. A pending proposal waits through
      unclear replies and is dropped by a yes or a no; only a turn that found
      none pending can leave a new one, and only when the model proposed some
      update. */
  function NextPending(pending: Option<PendingUpdate>, intent: Intent, proposed: Updates, now: int): (r: Option<PendingUpdate>)
    ensures pending.Some? ==> r == pending || r.None?
    ensures pending.Some? ==> (r.None? <==> intent != Unknown)
    ensures pending.None? ==> (r.Some? <==> HasAnyUpdates(Some(proposed)))
    ensures pending.None? && r.Some? ==> r.value.updates == proposed
  {
    if pending.Some? then
      if intent == Unknown then pending else None
    else if HasAnyUpdates(Some(proposed)) then
      Some(PendingUpdate(proposed, BuildUpdateExplanations(Some(proposed)), now))
    else None
  }

  /** A new proposal from a normalised update set always carries explanation
      lines, so the offer the assistant makes is never an empty list. */
  lemma ProposalExplained(proposed: Updates, now: int)
    requires Normalized(proposed)
    ensures var r := NextPending(None, Unknown, proposed, now); r.Some? ==> r.value.explanations != []
  {
    NormalizedExplained(proposed);
  }

  /** The update set a proposal reply yields: nothing unless the reply is a
      non-empty text that parses to a proposal. */
  function ProposedUpdates(parse: string -> Option<Json>, reply: Option<string>): (u: Updates)
    ensures reply.None? || reply == Some("") ==> u == NoUpdates
    ensures Normalized(u)
  {
    if reply.None? || reply.value == "" then NoUpdates
    else
      var parsed := ParseFieldUpdatesJson(parse, Some(JString(reply.value)));
      NormalizedUpdates(if parsed.Some? then Some(parsed.value.updates) else None)
  }

  /** A proposal the model answers with nothing usable leaves nothing pending. */
  lemma UnparsableProposalIgnored(parse: string -> Option<Json>, reply: string)
    requires reply != "" && ParseFieldUpdatesJson(parse, Some(JString(reply))).None?
    ensures NextPending(None, Unknown, ProposedUpdates(parse, Some(reply)), 0).None?
  {
  }

  // ---------------------------------------------------------------- messages

  /** The acknowledgement after a yes: the applied lines as a list, or a fixed sentence. */
  function AppliedMessage(lines: seq<string>): (m: string)
    ensures lines == [] ==> m == Applied
    ensures lines != [] ==> StartsWith(m, "Applied profile updates:\n- ")
  {
    if |lines| > 0 then "Applied profile updates:\n- " + Join(lines, "\n- ") else Applied
  }

  /** The lines a yes acknowledges: the stored explanations, else those built from the updates. */
  function AppliedLines(pending: PendingUpdate): (lines: seq<string>)
    ensures pending.explanations != [] ==> lines == pending.explanations
    ensures pending.explanations == [] ==> lines == BuildUpdateExplanations(Some(pending.updates))
  {
    if |pending.explanations| > 0 then pending.explanations else BuildUpdateExplanations(Some(pending.updates))
  }

  /** The assistant's message offering a proposal. */
  function ProposalMessage(explanations: seq<string>): string {
    "I can also update your profile fields:\n- " + Join(explanations, "\n- ")
      + "\n\nReply \U{201C}yes\U{201D} to apply these updates, or \U{201C}no\U{201D} to cancel."
  }

  // ---------------------------------------------------------------- history

  /** One `field-update` history entry per key, in key order. */
  function FieldEntries(keys: seq<string>, biography: string, tags: seq<string>, now: int): (r: seq<HistoryEntry>)
    ensures |r| == |keys|
    ensures forall i | 0 <= i < |r| ::
      && r[i].source == FieldUpdate && r[i].field == Some(keys[i]) && r[i].biography == biography && r[i].tags == tags
      && r[i].userAddedTags == [] && r[i].timestamp == now
  {
    if keys == [] then []
    else FieldEntries(keys[..|keys| - 1], biography, tags, now) + [HistoryEntry(biography, tags, [], FieldUpdate, Some(keys[|keys| - 1]), now)]
  }

  // ---------------------------------------------------------------- the turn answering a proposal

  /** Appends one `field-update` entry per key (`topLevelFields.forEach`). */
  method AppendFieldHistory(doc: BiographyDoc, keys: seq<string>, now: int)
    modifies doc`history
    ensures doc.history == old(doc.history) + FieldEntries(keys, doc.SummaryText(), doc.tags, now)
  {
    var biography := doc.SummaryText();
    for i := 0 to |keys|
      invariant doc.history == old(doc.history) + FieldEntries(keys[..i], biography, doc.tags, now)
    {
      assert keys[..i + 1][..i] == keys[..i];
      doc.history := doc.history + [HistoryEntry(biography, doc.tags, [], FieldUpdate, Some(keys[i]), now)];
    }
    assert keys[..|keys|] == keys;
  }

  /** What a yes does to the document: the pending updates are written, one
      `field-update` history entry per updated field is added, and the proposal
      is cleared. */
  twostate predicate PendingApplied(doc: BiographyDoc, now: int)
    reads doc
  {
    && old(doc.pendingUpdate).Some?
    && var u := old(doc.pendingUpdate).value.updates;
    && doc.jobTitle == Override(u.jobTitle, old(doc.jobTitle))
    && doc.department == Override(u.department, old(doc.department))
    && doc.businessFunction == Override(u.businessFunction, old(doc.businessFunction))
    && doc.businessFunctionOther == Override(u.businessFunctionOther, old(doc.businessFunctionOther))
    && doc.location == Override(u.location, old(doc.location))
    && doc.yearsExperience == Override(u.yearsExperience, old(doc.yearsExperience))
    && doc.contactInfo == (if u.contactInfo.Some? then Some(MergeContact(ExistingContact(old(doc.contactInfo)), u.contactInfo.value)) else old(doc.contactInfo))
    && doc.history == old(doc.history) + FieldEntries(UpdateKeys(u), doc.SummaryText(), doc.tags, now)
    && doc.pendingUpdate.None?
  }

  /** A yes: `applyFieldUpdatesToBiography`, the history entries, and clearing the proposal. */
  method ApplyPending(doc: BiographyDoc, now: int) returns (lines: seq<string>)
    requires doc.pendingUpdate.Some?
    modifies doc`jobTitle, doc`department, doc`businessFunction, doc`businessFunctionOther, doc`location,
      doc`yearsExperience, doc`contactInfo, doc`history, doc`pendingUpdate
    ensures PendingApplied(doc, now)
    ensures lines == AppliedLines(old(doc.pendingUpdate.value))
  {
    var pending := doc.pendingUpdate.value;
    WriteUpdates(doc, pending.updates);
    AppendFieldHistory(doc, UpdateKeys(pending.updates), now);
    doc.pendingUpdate := None;
    lines := AppliedLines(pending);
  }

  /** The assistant's answer to a reply while a proposal is pending. */
  function PendingAnswer(intent: Intent, pending: PendingUpdate): string {
    if intent == Unknown then AskAgain
    else if intent == No then Canceled
    else AppliedMessage(AppliedLines(pending))
  }

  /** A turn while a proposal is pending: the reply, read as yes, no or
      neither, applies, discards or keeps the proposal; the model is not called. */
  method AnswerPending(doc: BiographyDoc, log: MessageLog, intent: Intent, now: int) returns (reply: Reply)
    requires doc.pendingUpdate.Some?
    modifies doc`jobTitle, doc`department, doc`businessFunction, doc`businessFunctionOther, doc`location,
      doc`yearsExperience, doc`contactInfo, doc`history, doc`pendingUpdate, log
    ensures doc.pendingUpdate == NextPending(old(doc.pendingUpdate), intent, NoUpdates, now)
    ensures intent == Yes ==> PendingApplied(doc, now)
    ensures intent != Yes ==> unchanged(doc`jobTitle, doc`department, doc`businessFunction, doc`businessFunctionOther,
      doc`location, doc`yearsExperience, doc`contactInfo, doc`history)
    ensures intent == Unknown ==> unchanged(doc)
    ensures reply == Answered(doc.BiographyText(), doc.SummaryText(), PendingAnswer(intent, old(doc.pendingUpdate.value)))
    ensures log.messages == old(log.messages) + [ChatMessage("assistant", reply.message)]
  {
    var content := PendingAnswer(intent, doc.pendingUpdate.value);
    if intent == No {
      doc.pendingUpdate := None;
    } else if intent == Yes {
      var lines := ApplyPending(doc, now);
    }
    log.Save(ChatMessage("assistant", content));
    reply := Answered(doc.BiographyText(), doc.SummaryText(), content);
  }

  // ---------------------------------------------------------------- the turn refining the text

  /** The profile fields the proposal prompt shows, contact details defaulting to `{}`. */
  function CurrentFields(jobTitle: Option<string>, department: Option<string>, location: Option<string>,
                         yearsExperience: Option<real>, businessFunction: Option<string>,
                         businessFunctionOther: Option<string>, contactInfo: Option<ContactInfo>): (u: Updates)
    ensures u.contactInfo.Some?
  {
    Updates(jobTitle, department, location, yearsExperience, businessFunction, businessFunctionOther,
      Some(ExistingContact(contactInfo)))
  }

  /** The refined text becomes both the current biography and the summary, and one `chat` entry is added. */
  method RecordRefinement(doc: BiographyDoc, refined: string, skills: Option<seq<string>>, now: int)
    modifies doc`skills, doc`currentBiography, doc`summary, doc`history
    ensures doc.currentBiography == refined && doc.summary == Some(refined)
    ensures doc.skills == if skills.Some? then skills.value else old(doc.skills)
    ensures doc.history == old(doc.history) + [HistoryEntry(refined, doc.tags, [], Chat, None, now)]
  {
    if skills.Some? {
      doc.skills := skills.value;
    }
    doc.currentBiography := refined;
    doc.summary := Some(refined);
    doc.history := doc.history + [HistoryEntry(refined, doc.tags, [], Chat, None, now)];
  }

  /** Reads the model's proposal reply: `parseFieldUpdatesJson`, then the normaliser on its `updates`. */
  method ReadProposedUpdates(parse: string -> Option<Json>, proposalRaw: Option<string>) returns (u: Updates)
    ensures u == ProposedUpdates(parse, proposalRaw)
  {
    u := NoUpdates;
    if proposalRaw.Some? && proposalRaw.value != "" {
      var parsed := ParseFieldUpdatesJson(parse, Some(JString(proposalRaw.value)));
      var errors;
      u, errors := NormalizeProposedFieldUpdates(if parsed.Some? then Some(parsed.value.updates) else None);
    }
  }

  /** Asks the model for field updates after the refinement; a usable proposal becomes pending. */
  method ProposeUpdates(doc: BiographyDoc, gateway: ModelGateway, parse: string -> Option<Json>, message: string, now: int)
    returns (content: string)
    requires doc.pendingUpdate.None?
    modifies doc`pendingUpdate, gateway
    ensures var fields := CurrentFields(doc.jobTitle, doc.department, doc.location, doc.yearsExperience,
      doc.businessFunction, doc.businessFunctionOther, doc.contactInfo);
      && gateway.calls == old(gateway.calls) + [ProposeCall(fields, message)]
      && doc.pendingUpdate == NextPending(None, Unknown, ProposedUpdates(parse, gateway.propose(fields, message)), now)
    ensures content == if doc.pendingUpdate.Some? then ProposalMessage(doc.pendingUpdate.value.explanations) else TextUpdated
  {
    var fields := CurrentFields(doc.jobTitle, doc.department, doc.location, doc.yearsExperience,
      doc.businessFunction, doc.businessFunctionOther, doc.contactInfo);
    var proposalRaw := gateway.Propose(fields, message);
    var normalized := ReadProposedUpdates(parse, proposalRaw);
    content := TextUpdated;
    if HasAnyUpdates(Some(normalized)) {
      var explanations := BuildUpdateExplanations(Some(normalized));
      doc.pendingUpdate := Some(PendingUpdate(normalized, explanations, now));
      content := ProposalMessage(explanations);
    }
  }

  /** The model calls a successful refinement turn makes, in order: refine,
      extract keywords unless the tags are managed by hand, then propose. */
  function RefineCalls(text: string, message: string, history: seq<ChatMessage>, refined: string,
                       manual: bool, fields: Updates): (r: seq<ModelCall>)
    ensures |r| == if manual then 2 else 3
    ensures r[0] == RefineCall(text, message, history) && r[|r| - 1] == ProposeCall(fields, message)
  {
    [RefineCall(text, message, history)] + (if manual then [] else [ExtractCall(refined)]) + [ProposeCall(fields, message)]
  }

  lemma RefineCallsAfter(before: seq<ModelCall>, text: string, message: string, history: seq<ChatMessage>,
                         refined: string, manual: bool, fields: Updates)
    ensures before + [RefineCall(text, message, history)] + (if manual then [] else [ExtractCall(refined)])
              + [ProposeCall(fields, message)]
         == before + RefineCalls(text, message, history, refined, manual, fields)
  {
    var middle := if manual then [] else [ExtractCall(refined)];
    var r := [RefineCall(text, message, history)];
    var p := [ProposeCall(fields, message)];
    ConcatAssoc(before + r, middle, p);
    ConcatAssoc(before, r, middle + p);
    ConcatAssoc(r, middle, p);
  }

  /** What a successful refinement turn does to the document and the model:
      the refined text as both current biography and summary, one `chat`
      history entry, keywords regenerated unless managed by hand, the model
      called to refine, extract and propose in that order, a proposal pending
      exactly when the model proposed some update, and the reply built from them. */
  twostate predicate RefinedDoc(doc: BiographyDoc, gateway: ModelGateway, parse: string -> Option<Json>,
                                text: string, message: string, history: seq<ChatMessage>, now: int, reply: Reply)
    reads doc, gateway
  {
    && reply.Answered?
    && var refined := doc.currentBiography;
    && Some(refined) == gateway.refine(text, message, history)
    && doc.summary == Some(refined)
    && doc.history == old(doc.history) + [HistoryEntry(refined, doc.tags, [], Chat, None, now)]
    && (doc.manuallyManagedTags ==> doc.skills == old(doc.skills))
    && (!doc.manuallyManagedTags ==> Some(doc.skills) == gateway.extract(refined))
    && var fields := CurrentFields(doc.jobTitle, doc.department, doc.location, doc.yearsExperience,
         doc.businessFunction, doc.businessFunctionOther, doc.contactInfo);
    && gateway.calls == old(gateway.calls) + RefineCalls(text, message, history, refined, doc.manuallyManagedTags, fields)
    && doc.pendingUpdate == NextPending(None, Unknown, ProposedUpdates(parse, gateway.propose(fields, message)), now)
    && reply == Answered(refined, refined,
         if doc.pendingUpdate.Some? then ProposalMessage(doc.pendingUpdate.value.explanations) else TextUpdated)
  }

  /** What a successful refinement turn leaves behind: the document and model
      as `RefinedDoc` says, and the assistant's message stored. */
  twostate predicate RefinedTurn(doc: BiographyDoc, log: MessageLog, gateway: ModelGateway, parse: string -> Option<Json>,
                                 text: string, message: string, history: seq<ChatMessage>, now: int, reply: Reply)
    reads doc, log, gateway
  {
    && RefinedDoc(doc, gateway, parse, text, message, history, now, reply)
    && log.messages == old(log.messages) + [ChatMessage("assistant", reply.message)]
  }

  /** A turn with nothing pending: the current text is checked, refined, its
      keywords regenerated unless managed by hand, and a proposal requested. */
  method RefineTurn(doc: BiographyDoc, log: MessageLog, gateway: ModelGateway, parse: string -> Option<Json>,
                    message: string, now: int) returns (reply: Reply)
    requires doc.pendingUpdate.None?
    modifies doc`skills, doc`currentBiography, doc`summary, doc`history, doc`pendingUpdate, log, gateway
    ensures !IsValidBiographyText(old(doc.BiographyText())) ==>
      reply == Refused(400, NoValidContent) && unchanged(doc, log, gateway)
    ensures reply.Refused? ==> unchanged(doc, log)
    ensures reply.Refused? ==> reply == Refused(400, NoValidContent) || reply == Refused(500, RefineFailed)
    ensures reply.Answered? ==>
      IsValidBiographyText(old(doc.BiographyText())) &&
      RefinedTurn(doc, log, gateway, parse, old(doc.BiographyText()), message, old(log.Oldest()), now, reply)
  {
    var text := doc.BiographyText();
    if text == "" || !IsValidBiographyText(text) {
      return Refused(400, NoValidContent);
    }
    reply := RefineValidText(doc, log, gateway, parse, text, message, log.Oldest(), now);
  }

  /** The refinement call, then the keyword call unless the tags are managed
      by hand; `None` when the call that was needed failed. */
  method RefineAndExtract(gateway: ModelGateway, text: string, message: string, history: seq<ChatMessage>, manual: bool)
    returns (refined: Option<string>, skills: Option<seq<string>>)
    modifies gateway
    ensures refined == gateway.refine(text, message, history)
    ensures manual || refined.None? ==> skills.None?
    ensures !manual && refined.Some? ==> skills == gateway.extract(refined.value)
    ensures refined.None? ==> gateway.calls == old(gateway.calls) + [RefineCall(text, message, history)]
    ensures refined.Some? ==>
      gateway.calls == old(gateway.calls) + [RefineCall(text, message, history)] +
      (if manual then [] else [ExtractCall(refined.value)])
  {
    refined := gateway.Refine(text, message, history);
    skills := None;
    if refined.Some? && !manual {
      skills := gateway.Extract(refined.value);
    }
  }

  /** The refinement turn once the current text has passed the check. */
  method RefineValidText(doc: BiographyDoc, log: MessageLog, gateway: ModelGateway, parse: string -> Option<Json>,
                         text: string, message: string, history: seq<ChatMessage>, now: int) returns (reply: Reply)
    requires doc.pendingUpdate.None?
    modifies doc`skills, doc`currentBiography, doc`summary, doc`history, doc`pendingUpdate, log, gateway
    ensures reply.Refused? ==> reply == Refused(500, RefineFailed) && unchanged(doc, log)
    ensures reply.Answered? ==> RefinedTurn(doc, log, gateway, parse, text, message, history, now, reply)
  {
    var refined, skills := RefineAndExtract(gateway, text, message, history, doc.manuallyManagedTags);
    if refined.None? || (!doc.manuallyManagedTags && skills.None?) {
      return Refused(500, RefineFailed);
    }
    ghost var middle := if doc.manuallyManagedTags then [] else [ExtractCall(refined.value)];
    ghost var called := gateway.calls;
    var content := RecordAndPropose(doc, log, gateway, parse, refined.value, skills, message, now);
    ghost var fields := CurrentFields(doc.jobTitle, doc.department, doc.location, doc.yearsExperience,
      doc.businessFunction, doc.businessFunctionOther, doc.contactInfo);
    RefineCallsAfter(old(gateway.calls), text, message, history, refined.value, doc.manuallyManagedTags, fields);
    reply := Answered(refined.value, refined.value, content);
  }

  /** Records the refined text, asks for a proposal and stores the assistant's message. */
  method RecordAndPropose(doc: BiographyDoc, log: MessageLog, gateway: ModelGateway, parse: string -> Option<Json>,
                          refined: string, skills: Option<seq<string>>, message: string, now: int) returns (content: string)
    requires doc.pendingUpdate.None?
    modifies doc`skills, doc`currentBiography, doc`summary, doc`history, doc`pendingUpdate, log, gateway
    ensures doc.currentBiography == refined && doc.summary == Some(refined)
    ensures doc.skills == if skills.Some? then skills.value else old(doc.skills)
    ensures doc.history == old(doc.history) + [HistoryEntry(refined, doc.tags, [], Chat, None, now)]
    ensures var fields := CurrentFields(doc.jobTitle, doc.department, doc.location, doc.yearsExperience,
      doc.businessFunction, doc.businessFunctionOther, doc.contactInfo);
      && gateway.calls == old(gateway.calls) + [ProposeCall(fields, message)]
      && doc.pendingUpdate == NextPending(None, Unknown, ProposedUpdates(parse, gateway.propose(fields, message)), now)
    ensures content == if doc.pendingUpdate.Some? then ProposalMessage(doc.pendingUpdate.value.explanations) else TextUpdated
    ensures log.messages == old(log.messages) + [ChatMessage("assistant", content)]
  {
    RecordRefinement(doc, refined, skills, now);
    content := ProposeUpdates(doc, gateway, parse, message, now);
    log.Save(ChatMessage("assistant", content));
  }

  // ---------------------------------------------------------------- the route

  /** The message is missing, falsy or only white space: refused with 400. */
  predicate BlankMessage(message: Option<Json>) {
    !Truthy(message) || (message.value.JString? && IsBlank(message.value.s))
  }

  /** What the route's turn with a proposal pending leaves behind: the
      proposal moves as the reply's intent says, a yes writes the fields and
      their history, a no or an unclear reply leaves the profile as it was,
      and the user's message and the assistant's answer are stored in order. */
  twostate predicate PendingTurnDone(doc: BiographyDoc, log: MessageLog, text: string, now: int, reply: Reply)
    reads doc, log
  {
    && old(doc.pendingUpdate).Some?
    && var intent := DetectYesNoIntent(Some(JString(text)));
    && doc.pendingUpdate == NextPending(old(doc.pendingUpdate), intent, NoUpdates, now)
    && (intent == Yes ==> PendingApplied(doc, now))
    && (intent != Yes ==> unchanged(doc`jobTitle, doc`department, doc`businessFunction, doc`businessFunctionOther,
          doc`location, doc`yearsExperience, doc`contactInfo, doc`history))
    && (intent == Unknown ==> unchanged(doc))
    && reply == Answered(doc.BiographyText(), doc.SummaryText(), PendingAnswer(intent, old(doc.pendingUpdate.value)))
    && log.messages == old(log.messages) + [ChatMessage("user", text), ChatMessage("assistant", reply.message)]
  }

  /** What the route's turn with nothing pending leaves behind: an invalid
      current text is refused with 400 before any model call; a refusal
      changes no document and stores only the user's message; success leaves
      the refined-turn state, the history read after the user's message was
      stored, and the assistant's answer stored after it. */
  twostate predicate FreshTurnDone(doc: BiographyDoc, log: MessageLog, gateway: ModelGateway, parse: string -> Option<Json>,
                                   text: string, now: int, reply: Reply)
    reads doc, log, gateway
  {
    var saved := old(log.messages) + [ChatMessage("user", text)];
    && (!IsValidBiographyText(old(doc.BiographyText())) ==>
          reply == Refused(400, NoValidContent) && unchanged(doc, gateway))
    && (reply.Refused? ==>
          && (reply == Refused(400, NoValidContent) || reply == Refused(500, RefineFailed))
          && unchanged(doc) && log.messages == saved)
    && (reply.Answered? ==>
          && IsValidBiographyText(old(doc.BiographyText()))
          && RefinedDoc(doc, gateway, parse, old(doc.BiographyText()), text,
               saved[..Min(|saved|, HistoryLimit)], now, reply)
          && log.messages == saved + [ChatMessage("assistant", reply.message)])
  }

  /** The route's turn with a proposal pending, after the checks: the user
      message is stored, then the reply is read as yes, no or neither. */
  method PendingTurn(doc: BiographyDoc, log: MessageLog, text: string, now: int) returns (reply: Reply)
    requires doc.pendingUpdate.Some?
    modifies doc, log
    ensures PendingTurnDone(doc, log, text, now, reply)
    ensures |log.messages| >= |old(log.messages)| + 1
    ensures log.messages[..|old(log.messages)| + 1] == old(log.messages) + [ChatMessage("user", text)]
  {
    log.Save(ChatMessage("user", text));
    reply := AnswerPending(doc, log, DetectYesNoIntent(Some(JString(text))), now);
  }

  /** The route's turn with nothing pending, after the checks: the user
      message is stored, then the text is refined. */
  method FreshTurn(doc: BiographyDoc, log: MessageLog, gateway: ModelGateway, parse: string -> Option<Json>,
                   text: string, now: int) returns (reply: Reply)
    requires doc.pendingUpdate.None?
    modifies doc, log, gateway
    ensures FreshTurnDone(doc, log, gateway, parse, text, now, reply)
    ensures |log.messages| >= |old(log.messages)| + 1
    ensures log.messages[..|old(log.messages)| + 1] == old(log.messages) + [ChatMessage("user", text)]
  {
    log.Save(ChatMessage("user", text));
    reply := RefineTurn(doc, log, gateway, parse, text, now);
  }

  /** `POST /:biographyId/refine`. `doc` is what `Biography.findById` found
      (`null` when nothing); `parse` is `JSON.parse`; `now` is the clock. */
  method HandleRefine(doc: BiographyDoc?, log: MessageLog, gateway: ModelGateway, parse: string -> Option<Json>,
                      message: Option<Json>, now: int) returns (reply: Reply)
    modifies doc, log, gateway
    ensures BlankMessage(message) ==>
      reply == Refused(400, MessageRequired) && unchanged(log, gateway) && (doc != null ==> unchanged(doc))
    ensures !BlankMessage(message) && !message.value.JString? ==>
      reply == Refused(500, RefineFailed) && unchanged(log, gateway) && (doc != null ==> unchanged(doc))
    ensures !BlankMessage(message) && message.value.JString? && doc == null ==>
      reply == Refused(404, BiographyNotFound) && unchanged(log, gateway)
    ensures !BlankMessage(message) && message.value.JString? && doc != null ==>
      && |log.messages| >= |old(log.messages)| + 1
      && log.messages[..|old(log.messages)| + 1] == old(log.messages) + [ChatMessage("user", message.value.s)]
    ensures !BlankMessage(message) && message.value.JString? && doc != null && old(doc.pendingUpdate).Some? ==>
      unchanged(gateway) && PendingTurnDone(doc, log, message.value.s, now, reply)
    ensures !BlankMessage(message) && message.value.JString? && doc != null && old(doc.pendingUpdate).None? ==>
      FreshTurnDone(doc, log, gateway, parse, message.value.s, now, reply)
  {
    if BlankMessage(message) {
      return Refused(400, MessageRequired);
    }
    if !message.value.JString? {
      return Refused(500, RefineFailed);
    }
    if doc == null {
      return Refused(404, BiographyNotFound);
    }
    if doc.pendingUpdate.Some? {
      reply := PendingTurn(doc, log, message.value.s, now);
    } else {
      reply := FreshTurn(doc, log, gateway, parse, message.value.s, now);
    }
  }
}

=== FILE: field_updates.dfy ===
/** The profile-field update flow: reading a model's JSON proposal, normalising
    it into a validated update set, testing that set for emptiness, rendering
    one explanation line per field, reading a yes/no reply, and merging the
    updates into a stored document. A JavaScript value of unknown type is an
    `Option<Json>`, `None` standing for `undefined`. */
module FieldUpdates {
  import opened Wrappers
  import opened JsText
  import opened JsNumber
  import opened JsonValue
  import opened JsonText
  import opened Profile
  import opened Validators
  import opened Sequences

  /** A non-empty string with no white space at either end. */
  predicate Clean(s: string) {
    s != "" && Unpadded(s)
  }

  /** `safeTrim`: a string, trimmed; `undefined` for a non-string or a blank string. */
  function SafeTrim(value: Option<Json>): (r: Option<string>)
    ensures r.Some? <==> value.Some? && value.value.JString? && !IsBlank(value.value.s)
    ensures r.Some? ==> Clean(r.value) && r.value == Trim(value.value.s)
  {
    if value.Some? && value.value.JString? && Trim(value.value.s) != "" then Some(Trim(value.value.s)) else None
  }

  /** A value `safeTrim` kept comes back unchanged. */
  lemma SafeTrimStable(value: Option<Json>)
    requires SafeTrim(value).Some?
    ensures SafeTrim(Some(JString(SafeTrim(value).value))) == SafeTrim(value)
  {
    TrimUnpadded(SafeTrim(value).value);
  }

  // ---------------------------------------------------------------- parseFieldUpdatesJson

  /** What `parseFieldUpdatesJson` returns: the raw `updates` object and the explanations. */
  datatype Proposal = Proposal(updates: Json, explanations: seq<string>)

  /** The string entries of an explanations array, trimmed, empties dropped, in order. */
  function StringEntries(items: seq<Json>): (r: seq<string>)
    ensures |r| <= |items|
    ensures forall i | 0 <= i < |r| :: Clean(r[i])
  {
    if items == [] then []
    else
      var prefix := StringEntries(items[..|items| - 1]);
      var last := items[|items| - 1];
      if last.JString? && Trim(last.s) != "" then prefix + [Trim(last.s)] else prefix
  }

  /** Entries are read in order: a concatenation is read piece by piece. */
  lemma {:induction false} StringEntriesAppend(a: seq<Json>, b: seq<Json>)
    ensures StringEntries(a + b) == StringEntries(a) + StringEntries(b)
    decreases |b|
  {
    if b == [] {
      assert a + b == a;
    } else {
      assert (a + b)[..|a + b| - 1] == a + b[..|b| - 1];
      assert (a + b)[|a + b| - 1] == b[|b| - 1];
      StringEntriesAppend(a, b[..|b| - 1]);
    }
  }

  /** A non-string entry, and a blank string, contribute nothing. */
  lemma StringEntriesSingle(item: Json)
    ensures StringEntries([item]) == if item.JString? && !IsBlank(item.s) then [Trim(item.s)] else []
  {
    assert [item][..0] == [];
  }

  /** Explanations that are already clean strings are kept as they are. */
  lemma {:induction false} StringEntriesOfClean(items: seq<Json>, texts: seq<string>)
    requires |items| == |texts|
    requires forall i | 0 <= i < |items| :: items[i] == JString(texts[i]) && Clean(texts[i])
    ensures StringEntries(items) == texts
  {
    if items != [] {
      var n := |items| - 1;
      StringEntriesOfClean(items[..n], texts[..n]);
      assert items[n] == JString(texts[n]);
      TrimUnpadded(texts[n]);
      LastSplit(texts);
    }
  }

  /** What `parseFieldUpdatesJson` makes of the parsed value: `null` unless it is an
      object; `updates` defaults to `{}`, `explanations` to `[]`. */
  function ReadProposal(parsed: Json): (r: Option<Proposal>)
    ensures r.Some? <==> parsed.JObject?
    ensures r.Some? ==> r.value.updates.JObject?
    ensures r.Some? && IsPlainObject(Get(parsed, "updates")) ==> r.value.updates == Get(parsed, "updates").value
    ensures r.Some? && !IsPlainObject(Get(parsed, "updates")) ==> r.value.updates == JObject([])
    ensures r.Some? ==> forall i | 0 <= i < |r.value.explanations| :: Clean(r.value.explanations[i])
  {
    if !parsed.JObject? then None
    else
      var updates := Get(parsed, "updates");
      var explanations := Get(parsed, "explanations");
      Some(Proposal(
        if IsPlainObject(updates) then updates.value else JObject([]),
        if explanations.Some? && explanations.value.JArray? then StringEntries(explanations.value.items) else []))
  }

  /** `parseFieldUpdatesJson`. `parse` is `JSON.parse`: `None` when it throws. */
  function ParseFieldUpdatesJson(parse: string -> Option<Json>, text: Option<Json>): (r: Option<Proposal>)
    ensures text.None? || !text.value.JString? || text.value.s == "" ==> r.None?
    ensures r.Some? ==> var parsed := parse(StripCodeFences(text.value.s));
      parsed.Some? && parsed.value.JObject? && ReadProposal(parsed.value) == r
  {
    if text.None? || !text.value.JString? || text.value.s == "" then None
    else
      match parse(StripCodeFences(text.value.s))
      case None => None
      case Some(parsed) => ReadProposal(parsed)
  }

  /** A reply that does not parse, or parses to something other than an object, is refused. */
  lemma ParseRefusesNonObject(parse: string -> Option<Json>, text: string)
    requires var parsed := parse(StripCodeFences(text)); parsed.None? || !parsed.value.JObject?
    ensures ParseFieldUpdatesJson(parse, Some(JString(text))).None?
  {
  }

  /** A fenced reply reads exactly like the bare JSON inside the fence. */
  lemma ParseFencedLikeBare(parse: string -> Option<Json>, body: string)
    requires Clean(body) && !StartsWith(body, Fence) && !EndsWith(body, Fence)
    ensures ParseFieldUpdatesJson(parse, Some(JString(Fence + "json\n" + body + "\n" + Fence)))
         == ParseFieldUpdatesJson(parse, Some(JString(body)))
  {
    var fenced := Fence + "json\n" + body + "\n" + Fence;
    FencedBare(parse, fenced, body);
  }

  lemma FencedBare(parse: string -> Option<Json>, fenced: string, body: string)
    requires fenced == Fence + "json\n" + body + "\n" + Fence
    requires Clean(body) && !StartsWith(body, Fence) && !EndsWith(body, Fence)
    ensures StripCodeFences(fenced) == StripCodeFences(body) && fenced != ""
  {
    StripFencedBody(body);
    StripUnfenced(body);
  }

  /** An object with an `updates` object and an array of clean explanation strings reads back as exactly those. */
  lemma ParseProposalOf(parse: string -> Option<Json>, text: string, parsed: Json, updates: seq<(string, Json)>, items: seq<Json>, texts: seq<string>)
    requires text != "" && parse(StripCodeFences(text)) == Some(parsed) && parsed.JObject?
    requires Get(parsed, "updates") == Some(JObject(updates)) && Get(parsed, "explanations") == Some(JArray(items))
    requires |items| == |texts| && forall i | 0 <= i < |items| :: items[i] == JString(texts[i]) && Clean(texts[i])
    ensures ParseFieldUpdatesJson(parse, Some(JString(text))) == Some(Proposal(JObject(updates), texts))
  {
    ReadProposalOf(parsed, updates, items, texts);
    ParseOfParsed(parse, text, parsed);
  }

  /** A non-empty reply is read through whatever `JSON.parse` makes of it without its fences. */
  lemma ParseOfParsed(parse: string -> Option<Json>, text: string, parsed: Json)
    requires text != "" && parse(StripCodeFences(text)) == Some(parsed)
    ensures ParseFieldUpdatesJson(parse, Some(JString(text))) == ReadProposal(parsed)
  {
  }

  lemma ReadProposalOf(parsed: Json, updates: seq<(string, Json)>, items: seq<Json>, texts: seq<string>)
    requires parsed.JObject?
    requires Get(parsed, "updates") == Some(JObject(updates)) && Get(parsed, "explanations") == Some(JArray(items))
    requires |items| == |texts| && forall i | 0 <= i < |items| :: items[i] == JString(texts[i]) && Clean(texts[i])
    ensures ReadProposal(parsed) == Some(Proposal(JObject(updates), texts))
  {
    StringEntriesOfClean(items, texts);
  }

  // ---------------------------------------------------------------- normalizeProposedFieldUpdates

  /** The `yearsExperience` value, unless it is `undefined` or `null`. */
  function YearsInput(obj: Json): Option<Json> {
    var v := Get(obj, "yearsExperience");
    if v.Some? && !v.value.JNull? then v else None
  }

  /** `Number(value)` is finite and not negative. */
  predicate YearsAccepted(obj: Json) {
    YearsInput(obj).Some? && ToNumber(YearsInput(obj).value).Finite? && ToNumber(YearsInput(obj).value).value >= 0.0
  }

  /** The business function and its `Other` specification, through `safeTrim`. */
  function FunctionInput(obj: Json): Option<string> {
    SafeTrim(Get(obj, "businessFunction"))
  }

  function OtherInput(obj: Json): Option<string> {
    SafeTrim(Get(obj, "businessFunctionOther"))
  }

  /** The message `validateBusinessFunction` gives a present business function, if it refuses it. */
  function FunctionRejection(obj: Json): Option<string> {
    if FunctionInput(obj).None? then None else ValidateBusinessFunction(FunctionInput(obj), OtherInput(obj))
  }

  predicate FunctionAccepted(obj: Json) {
    FunctionInput(obj).Some? && FunctionRejection(obj).None?
  }

  /** The `contactInfo` candidate: each sub-field through `safeTrim`, `undefined` ones absent. */
  function ContactCandidate(contact: Json): ContactInfo {
    ContactInfo(SafeTrim(Get(contact, "email")), SafeTrim(Get(contact, "phone")), SafeTrim(Get(contact, "linkedin")))
  }

  /** The candidate has at least one key. */
  predicate ContactPresent(c: ContactInfo) {
    c.email.Some? || c.phone.Some? || c.linkedin.Some?
  }

  /** A `contactInfo` was given but is not an object, or one of its present sub-fields is invalid. */
  predicate ContactRejected(obj: Json) {
    var contact := Get(obj, "contactInfo");
    contact.Some? && (!IsPlainObject(contact) || ContactInfoErrors(ContactCandidate(contact.value)) != [])
  }

  /** The contact details the normaliser keeps. */
  predicate ContactAccepted(obj: Json) {
    var contact := Get(obj, "contactInfo");
    IsPlainObject(contact) && ContactInfoErrors(ContactCandidate(contact.value)) == []
    && ContactPresent(ContactCandidate(contact.value))
  }

  /** What every normalised update set satisfies. */
  predicate Normalized(u: Updates) {
    && (u.jobTitle.Some? ==> Clean(u.jobTitle.value))
    && (u.department.Some? ==> Clean(u.department.value))
    && (u.location.Some? ==> Clean(u.location.value))
    && (u.yearsExperience.Some? ==> u.yearsExperience.value >= 0.0)
    && (u.businessFunction.Some? ==> u.businessFunction.value in BusinessFunctions)
    && (u.businessFunctionOther.Some? ==> u.businessFunction == Some("Other") && Clean(u.businessFunctionOther.value))
    && (u.businessFunction == Some("Other") ==> u.businessFunctionOther.Some?)
    && (u.contactInfo.Some? ==> ContactPresent(u.contactInfo.value) && ContactInfoErrors(u.contactInfo.value) == [])
  }

  /** The update set `normalizeProposedFieldUpdates` builds: each text field
      through `safeTrim`, the years when accepted, the business function (and its
      `Other` specification) when valid, the contact details when all present
      sub-fields are valid and at least one is present. */
  function NormalizedUpdates(raw: Option<Json>): (r: Updates)
    ensures !IsPlainObject(raw) ==> r == NoUpdates
    ensures Normalized(r)
  {
    if !IsPlainObject(raw) then NoUpdates
    else
      var obj := raw.value;
      Updates(
        SafeTrim(Get(obj, "jobTitle")),
        SafeTrim(Get(obj, "department")),
        SafeTrim(Get(obj, "location")),
        if YearsAccepted(obj) then Some(ToNumber(YearsInput(obj).value).value) else None,
        if FunctionAccepted(obj) then FunctionInput(obj) else None,
        if FunctionAccepted(obj) && FunctionInput(obj) == Some("Other") then OtherInput(obj) else None,
        if ContactAccepted(obj) then Some(ContactCandidate(Get(obj, "contactInfo").value)) else None)
  }

  /** The errors `normalizeProposedFieldUpdates` reports, in the order of its checks. */
  function NormalizeErrors(raw: Option<Json>): (errors: seq<string>)
    ensures !IsPlainObject(raw) ==> errors == []
    ensures |errors| <= 3
  {
    if !IsPlainObject(raw) then []
    else
      var obj := raw.value;
      (if YearsInput(obj).Some? && !YearsAccepted(obj) then ["Invalid yearsExperience"] else [])
      + OptionList(FunctionRejection(obj))
      + (if ContactRejected(obj) then ["Invalid contactInfo"] else [])
  }

  /** `normalizeProposedFieldUpdates`. An absent key of the result is `None`, so
      the source's deletion of keys holding `undefined` has nothing left to do. */
  method NormalizeProposedFieldUpdates(raw: Option<Json>) returns (updates: Updates, errors: seq<string>)
    ensures updates == NormalizedUpdates(raw)
    ensures errors == NormalizeErrors(raw)
  {
    if !IsPlainObject(raw) {
      return NoUpdates, [];
    }
    var obj := raw.value;
    var jobTitle := SafeTrim(Get(obj, "jobTitle"));
    var department := SafeTrim(Get(obj, "department"));
    var location := SafeTrim(Get(obj, "location"));
    var years, yearsErrors := NormalizeYears(obj);
    var businessFunction, businessFunctionOther, functionErrors := NormalizeBusinessFunction(obj);
    var contact, contactErrors := NormalizeContact(obj);
    updates := Updates(jobTitle, department, location, years, businessFunction, businessFunctionOther, contact);
    errors := yearsErrors + functionErrors + contactErrors;
  }

  /** The `yearsExperience` step: `Number(value)` kept when finite and not negative. */
  method NormalizeYears(obj: Json) returns (years: Option<real>, errors: seq<string>)
    ensures years.Some? <==> YearsAccepted(obj)
    ensures years.Some? ==> ToNumber(YearsInput(obj).value) == Finite(years.value) && years.value >= 0.0
    ensures errors == if YearsInput(obj).Some? && !YearsAccepted(obj) then ["Invalid yearsExperience"] else []
  {
    years, errors := None, [];
    var value := Get(obj, "yearsExperience");
    if value.Some? && !value.value.JNull? {
      var n := ToNumber(value.value);
      if n.Finite? && n.value >= 0.0 {
        years := Some(n.value);
      } else {
        errors := errors + ["Invalid yearsExperience"];
      }
    }
  }

  /** The business-function step: kept when valid, with its `Other` specification
      only for `Other`; the validator's message otherwise. */
  method NormalizeBusinessFunction(obj: Json) returns (businessFunction: Option<string>, other: Option<string>, errors: seq<string>)
    ensures businessFunction.Some? <==> FunctionAccepted(obj)
    ensures businessFunction.Some? ==> businessFunction == FunctionInput(obj) && businessFunction.value in BusinessFunctions
    ensures other.Some? <==> FunctionAccepted(obj) && FunctionInput(obj) == Some("Other")
    ensures other.Some? ==> other == OtherInput(obj) && Clean(other.value)
    ensures errors == OptionList(FunctionRejection(obj))
  {
    businessFunction, other, errors := None, None, [];
    var input := FunctionInput(obj);
    var otherInput := OtherInput(obj);
    if input.Some? {
      var result := ValidateBusinessFunction(input, otherInput);
      assert result == FunctionRejection(obj);
      if result.None? {
        AcceptedFunction(obj);
        businessFunction := input;
        if input.value == "Other" && otherInput.Some? {
          other := otherInput;
        }
        if input.value != "Other" {
          other := None;
        }
      } else {
        errors := errors + [result.value];
      }
    }
  }

  /** An accepted business function is one of the five, and `Other` comes with its specification. */
  lemma AcceptedFunction(obj: Json)
    requires FunctionAccepted(obj)
    ensures FunctionInput(obj).value in BusinessFunctions
    ensures FunctionInput(obj).value == "Other" ==> OtherInput(obj).Some?
  {
  }

  /** The `contactInfo` step: all present sub-fields valid, or an error. */
  method NormalizeContact(obj: Json) returns (contact: Option<ContactInfo>, errors: seq<string>)
    ensures contact.Some? <==> ContactAccepted(obj)
    ensures contact.Some? ==> contact.value == ContactCandidate(Get(obj, "contactInfo").value)
    ensures errors == if ContactRejected(obj) then ["Invalid contactInfo"] else []
  {
    contact, errors := None, [];
    var value := Get(obj, "contactInfo");
    if value.Some? {
      if IsPlainObject(value) {
        var candidate := ContactCandidate(value.value);
        if ContactInfoErrors(candidate) == [] {
          if ContactPresent(candidate) {
            contact := Some(candidate);
          }
        } else {
          errors := errors + ["Invalid contactInfo"];
        }
      } else {
        errors := errors + ["Invalid contactInfo"];
      }
    }
  }

  /** A whole-number string such as `'10'` is accepted as that number of years. */
  lemma YearsOfIntegerText(obj: Json, years: nat)
    requires Get(obj, "yearsExperience") == Some(JString(IntToString(years)))
    ensures YearsAccepted(obj) && ToNumber(YearsInput(obj).value) == Finite(years as real)
  {
    ToNumberOfIntegerText(years);
  }

  /** One invalid present sub-field refuses the whole contact block, whatever the others hold. */
  lemma ContactAllOrNothing(obj: Json)
    requires IsPlainObject(Get(obj, "contactInfo"))
    requires var c := ContactCandidate(Get(obj, "contactInfo").value);
      ValidateEmail(c.email).Some? || ValidatePhone(c.phone).Some? || ValidateLinkedIn(c.linkedin).Some?
    ensures ContactRejected(obj) && !ContactAccepted(obj)
  {
  }

  /** A contact block whose sub-fields are all blank or absent is dropped without an error. */
  lemma ContactBlankDropped(obj: Json)
    requires IsPlainObject(Get(obj, "contactInfo"))
    requires var c := ContactCandidate(Get(obj, "contactInfo").value); !ContactPresent(c)
    ensures !ContactRejected(obj) && !ContactAccepted(obj)
  {
    var c := ContactCandidate(Get(obj, "contactInfo").value);
    assert c == NoContactInfo;
  }

  // ---------------------------------------------------------------- hasAnyUpdates

  /** `hasAnyUpdates`; `None` is a value that is not a plain object. */
  function HasAnyUpdates(updates: Option<Updates>): (r: bool)
    ensures r <==> updates.Some? && var u := updates.value;
      || u.jobTitle.Some? || u.department.Some? || u.location.Some? || u.yearsExperience.Some?
      || u.businessFunction.Some? || u.businessFunctionOther.Some?
      || (u.contactInfo.Some? && ContactPresent(u.contactInfo.value))
  {
    if updates.None? then false
    else
      var keys := UpdateKeys(updates.value);
      if |keys| == 0 then false
      else if |keys| == 1 && keys[0] == "contactInfo" then
        var c := updates.value.contactInfo;
        c.Some? && ContactPresent(c.value)
      else true
  }

  /** On a normalised set, having any update is simply being non-empty. */
  lemma NormalizedHasAny(u: Updates)
    requires Normalized(u)
    ensures HasAnyUpdates(Some(u)) <==> u != NoUpdates
  {
  }

  // ---------------------------------------------------------------- buildUpdateExplanations

  /** The fields an explanation names, in the order the lines are emitted. No two
      names share a first letter, so a line tells which field it is about. */
  const ExplanationOrder: seq<string> :=
    ["job title", "department", "business function", "location", "years of experience", "email", "phone", "LinkedIn"]

  /** `(Other: …)` after an `Other` business function with a specification. */
  function OtherSuffix(u: Updates): string {
    if u.businessFunction == Some("Other") && u.businessFunctionOther.Some? && u.businessFunctionOther.value != ""
    then " (Other: " + u.businessFunctionOther.value + ")"
    else ""
  }

  /** The value a field's line shows, when the field is set. */
  function FieldText(u: Updates, name: string): Option<string> {
    if name == "job title" then u.jobTitle
    else if name == "department" then u.department
    else if name == "business function" then
      (if u.businessFunction.Some? then Some(u.businessFunction.value + OtherSuffix(u)) else None)
    else if name == "location" then u.location
    else if name == "years of experience" then
      (if u.yearsExperience.Some? then Some(NumberToString(u.yearsExperience.value)) else None)
    else if u.contactInfo.None? then None
    else if name == "email" then u.contactInfo.value.email
    else if name == "phone" then u.contactInfo.value.phone
    else if name == "LinkedIn" then u.contactInfo.value.linkedin
    else None
  }

  function ExplanationLine(name: string, text: string): string {
    "Set " + name + " to: " + text
  }

  /** The lines for `names`, in order, one for each name whose field is set. */
  function ExplanationLines(u: Updates, names: seq<string>): (r: seq<string>)
    ensures |r| <= |names|
  {
    if names == [] then []
    else
      var prefix := ExplanationLines(u, names[..|names| - 1]);
      var name := names[|names| - 1];
      match FieldText(u, name)
      case None => prefix
      case Some(text) => prefix + [ExplanationLine(name, text)]
  }

  /** `buildUpdateExplanations`; `None` is a value that is not a plain object. */
  function BuildUpdateExplanations(updates: Option<Updates>): (r: seq<string>)
    ensures updates.None? ==> r == []
    ensures |r| <= |ExplanationOrder|
  {
    if updates.None? then [] else ExplanationLines(updates.value, ExplanationOrder)
  }

  /** Labels are told apart by their first letters. */
  predicate DistinctInitials(names: seq<string>) {
    (forall i | 0 <= i < |names| :: names[i] != "")
    && forall i, j | 0 <= i < j < |names| :: names[i][0] != names[j][0]
  }

  /** A line names its name: equal lines for names with the same first letter have equal names and values. */
  lemma ExplanationLineInjective(l1: string, t1: string, l2: string, t2: string)
    requires l1 != "" && l2 != "" && ExplanationLine(l1, t1) == ExplanationLine(l2, t2)
    ensures l1[0] == l2[0]
  {
    assert ExplanationLine(l1, t1)[4] == l1[0];
    assert ExplanationLine(l2, t2)[4] == l2[0];
  }

  lemma ExplanationLineSame(l: string, t1: string, t2: string)
    requires ExplanationLine(l, t1) == ExplanationLine(l, t2)
    ensures t1 == t2
  {
    var n := |"Set " + l + " to: "|;
    assert ExplanationLine(l, t1)[n..] == t1;
    assert ExplanationLine(l, t2)[n..] == t2;
  }

  /** Exactly one line per set field: the line for `name` with `text` is there
      precisely when that field shows `text`. */
  lemma {:induction false} ExplanationLinesMember(u: Updates, names: seq<string>, name: string, text: string)
    requires DistinctInitials(names) && name in names
    ensures ExplanationLine(name, text) in ExplanationLines(u, names) <==> FieldText(u, name) == Some(text)
  {
    var init := names[..|names| - 1];
    var last := names[|names| - 1];
    var line := ExplanationLine(name, text);
    assert DistinctInitials(init) by {
      forall i, j | 0 <= i < j < |init| ensures init[i][0] != init[j][0] {
        assert init[i] == names[i] && init[j] == names[j];
      }
    }
    if name == last {
      assert name !in init by {
        forall i | 0 <= i < |init| ensures init[i] != name {
          assert init[i] == names[i];
        }
      }
      ExplanationLinesAbsent(u, init, name, text);
      if FieldText(u, last).Some? && line == ExplanationLine(last, FieldText(u, last).value) {
        ExplanationLineSame(last, text, FieldText(u, last).value);
      }
    } else {
      var k :| 0 <= k < |names| && names[k] == name;
      assert k < |init| && init[k] == name;
      ExplanationLinesMember(u, init, name, text);
      if FieldText(u, last).Some? && line == ExplanationLine(last, FieldText(u, last).value) {
        ExplanationLineInjective(name, text, last, FieldText(u, last).value);
      }
    }
  }

  /** No line names a name whose first letter no name of the list has. */
  lemma {:induction false} ExplanationLinesAbsent(u: Updates, names: seq<string>, name: string, text: string)
    requires name != "" && forall i | 0 <= i < |names| :: names[i] != "" && names[i][0] != name[0]
    ensures ExplanationLine(name, text) !in ExplanationLines(u, names)
  {
    if names != [] {
      var last := names[|names| - 1];
      ExplanationLinesAbsent(u, names[..|names| - 1], name, text);
      if FieldText(u, last).Some? && ExplanationLine(name, text) == ExplanationLine(last, FieldText(u, last).value) {
        ExplanationLineInjective(name, text, last, FieldText(u, last).value);
      }
    }
  }

  /** The names of `names` whose field is set, in order. */
  function SetNames(u: Updates, names: seq<string>): seq<string> {
    Filter(names, (n: string) => FieldText(u, n).Some?)
  }

  /** The lines are, in order, exactly one for each set name, showing that field's value. */
  lemma {:induction false} ExplanationLinesInOrder(u: Updates, names: seq<string>)
    ensures |ExplanationLines(u, names)| == |SetNames(u, names)|
    ensures forall i | 0 <= i < |SetNames(u, names)| ::
      && FieldText(u, SetNames(u, names)[i]).Some?
      && ExplanationLines(u, names)[i] == ExplanationLine(SetNames(u, names)[i], FieldText(u, SetNames(u, names)[i]).value)
  {
    if names != [] {
      ExplanationLinesInOrder(u, names[..|names| - 1]);
    }
  }

  /** `buildUpdateExplanations` writes, in the fixed order job title, department,
      business function, location, years, email, phone, LinkedIn, one line per
      set field and nothing else. */
  lemma ExplanationsInFixedOrder(u: Updates)
    ensures |BuildUpdateExplanations(Some(u))| == |SetNames(u, ExplanationOrder)|
    ensures forall i | 0 <= i < |SetNames(u, ExplanationOrder)| ::
      BuildUpdateExplanations(Some(u))[i]
        == ExplanationLine(SetNames(u, ExplanationOrder)[i], FieldText(u, SetNames(u, ExplanationOrder)[i]).value)
  {
    ExplanationLinesInOrder(u, ExplanationOrder);
  }

  /** The line for a listed field with a given text is there exactly when that field shows that text. */
  lemma ExplanationPerField(u: Updates, name: string, text: string)
    requires name in ExplanationOrder
    ensures ExplanationLine(name, text) in BuildUpdateExplanations(Some(u)) <==> FieldText(u, name) == Some(text)
  {
    assert DistinctInitials(ExplanationOrder);
    ExplanationLinesMember(u, ExplanationOrder, name, text);
  }

  /** No lines are written exactly when no field is set. */
  lemma {:induction false} ExplanationLinesEmpty(u: Updates, names: seq<string>)
    ensures ExplanationLines(u, names) == [] <==> forall i | 0 <= i < |names| :: FieldText(u, names[i]).None?
  {
    if names != [] {
      var init := names[..|names| - 1];
      ExplanationLinesEmpty(u, init);
      assert forall i | 0 <= i < |init| :: init[i] == names[i];
    }
  }

  /** For a normalised set, an explanation is written exactly when there is an update to confirm. */
  lemma NormalizedExplained(u: Updates)
    requires Normalized(u)
    ensures BuildUpdateExplanations(Some(u)) != [] <==> HasAnyUpdates(Some(u))
  {
    ExplanationLinesEmpty(u, ExplanationOrder);
    var order := ExplanationOrder;
    assert order[0] == "job title" && order[1] == "department" && order[2] == "business function";
    assert order[3] == "location" && order[4] == "years of experience";
    assert order[5] == "email" && order[6] == "phone" && order[7] == "LinkedIn";
  }

  // ---------------------------------------------------------------- detectYesNoIntent

  datatype Intent = Yes | No | Unknown

  const YesWords: seq<string> := ["yes", "y", "yep", "yeah", "apply", "confirm", "ok", "okay", "sure", "do it"]
  const NoWords: seq<string> := ["no", "n", "nope", "cancel", "stop", "don't", "dont", "discard"]

  /** A non-empty string. */
  predicate IsText(message: Option<Json>) {
    message.Some? && message.value.JString? && message.value.s != ""
  }

  /** `detectYesNoIntent`: the trimmed, lower-cased reply looked up in the two word lists. */
  function DetectYesNoIntent(message: Option<Json>): (r: Intent)
    ensures r == Yes <==> IsText(message) && ToLower(Trim(message.value.s)) in YesWords
    ensures r == No <==> IsText(message) && ToLower(Trim(message.value.s)) !in YesWords
                         && ToLower(Trim(message.value.s)) in NoWords
  {
    if !IsText(message) then Unknown
    else
      var text := ToLower(Trim(message.value.s));
      if text in YesWords then Yes
      else if text in NoWords then No
      else Unknown
  }

  /** No word means both yes and no. */
  lemma WordListsDisjoint()
    ensures forall w | w in YesWords :: w !in NoWords
  {
  }

  lemma LowerCharKeepsSpace(c: char)
    ensures IsSpace(LowerChar(c)) <==> IsSpace(c)
  {
  }

  lemma ToLowerIdempotent(s: string)
    ensures ToLower(ToLower(s)) == ToLower(s)
  {
  }

  /** Because no word is in both lists, a reply means no exactly when it is a no-word. */
  lemma IntentNo(message: Option<Json>)
    ensures DetectYesNoIntent(message) == No <==> IsText(message) && ToLower(Trim(message.value.s)) in NoWords
  {
    WordListsDisjoint();
  }

  /** Lower-casing keeps a word clean, so trimming it again changes nothing. */
  lemma LowerClean(word: string)
    requires Clean(word)
    ensures Clean(ToLower(word)) && Trim(ToLower(word)) == ToLower(word)
  {
    LowerCharKeepsSpace(word[0]);
    LowerCharKeepsSpace(word[|word| - 1]);
    TrimUnpadded(ToLower(word));
  }

  /** White space around a word and the case of its letters do not change the intent. */
  lemma IntentIgnoresPaddingAndCase(before: string, word: string, after: string)
    requires IsBlank(before) && IsBlank(after) && Clean(word)
    ensures DetectYesNoIntent(Some(JString(before + word + after))) == DetectYesNoIntent(Some(JString(ToLower(word))))
  {
    TrimAround(before, word, after);
    LowerClean(word);
    ToLowerIdempotent(word);
  }

  // ---------------------------------------------------------------- applyFieldUpdatesToBiography

  /** `{...existing, ...update}` on contact details: a key the update holds wins. */
  function MergeContact(existing: ContactInfo, update: ContactInfo): ContactInfo {
    ContactInfo(
      if update.email.Some? then update.email else existing.email,
      if update.phone.Some? then update.phone else existing.phone,
      if update.linkedin.Some? then update.linkedin else existing.linkedin)
  }

  /** The update's keys win, the existing keys it lacks survive, and merging again changes nothing. */
  lemma MergeContactProperties(existing: ContactInfo, update: ContactInfo)
    ensures var m := MergeContact(existing, update);
      && (update.email.Some? ==> m.email == update.email)
      && (update.phone.Some? ==> m.phone == update.phone)
      && (update.linkedin.Some? ==> m.linkedin == update.linkedin)
      && (update.email.None? ==> m.email == existing.email)
      && (update.phone.None? ==> m.phone == existing.phone)
      && (update.linkedin.None? ==> m.linkedin == existing.linkedin)
      && MergeContact(m, update) == m
      && MergeContact(existing, NoContactInfo) == existing
  {
  }

  /** The contact details a document starts a merge from: `{}` when it has none. */
  function ExistingContact(contact: Option<ContactInfo>): ContactInfo {
    if contact.Some? then contact.value else NoContactInfo
  }

  /** A field an update holds replaces the stored one; an absent one keeps it. */
  function Override<T>(update: Option<T>, current: Option<T>): (r: Option<T>)
    ensures update.Some? ==> r == update
    ensures update.None? ==> r == current
  {
    if update.Some? then update else current
  }

  /** `applyFieldUpdatesToBiography`: writes each field the updates hold and
      merges the contact details; every other field keeps its value. A `null`
      document or a non-object update set (`None`) changes nothing. */
  method ApplyFieldUpdatesToBiography(doc: BiographyDoc?, updates: Option<Updates>)
    modifies doc
    ensures doc != null ==> unchanged(doc`summary, doc`mentorSummary, doc`rawInput, doc`currentBiography, doc`experience,
      doc`education, doc`skills, doc`certifications, doc`notableAchievements, doc`tags, doc`userAddedTags,
      doc`manuallyManagedTags, doc`history, doc`pendingUpdate)
    ensures doc != null && updates.None? ==> unchanged(doc)
    ensures doc != null && updates.Some? ==> var u := updates.value;
      && doc.jobTitle == Override(u.jobTitle, old(doc.jobTitle))
      && doc.department == Override(u.department, old(doc.department))
      && doc.businessFunction == Override(u.businessFunction, old(doc.businessFunction))
      && doc.businessFunctionOther == Override(u.businessFunctionOther, old(doc.businessFunctionOther))
      && doc.location == Override(u.location, old(doc.location))
      && doc.yearsExperience == Override(u.yearsExperience, old(doc.yearsExperience))
      && doc.contactInfo == (if u.contactInfo.Some? then Some(MergeContact(ExistingContact(old(doc.contactInfo)), u.contactInfo.value)) else old(doc.contactInfo))
  {
    if doc != null && updates.Some? {
      WriteUpdates(doc, updates.value);
    }
  }

  /** The writes of `applyFieldUpdatesToBiography` once both arguments are usable. */
  method WriteUpdates(doc: BiographyDoc, u: Updates)
    modifies doc`jobTitle, doc`department, doc`businessFunction, doc`businessFunctionOther, doc`location,
      doc`yearsExperience, doc`contactInfo
    ensures doc.jobTitle == Override(u.jobTitle, old(doc.jobTitle))
    ensures doc.department == Override(u.department, old(doc.department))
    ensures doc.businessFunction == Override(u.businessFunction, old(doc.businessFunction))
    ensures doc.businessFunctionOther == Override(u.businessFunctionOther, old(doc.businessFunctionOther))
    ensures doc.location == Override(u.location, old(doc.location))
    ensures doc.yearsExperience == Override(u.yearsExperience, old(doc.yearsExperience))
    ensures doc.contactInfo == (if u.contactInfo.Some? then Some(MergeContact(ExistingContact(old(doc.contactInfo)), u.contactInfo.value)) else old(doc.contactInfo))
  {
    var contact := doc.contactInfo;
    if u.contactInfo.Some? {
      contact := Some(MergeContact(ExistingContact(doc.contactInfo), u.contactInfo.value));
    }
    doc.jobTitle, doc.department, doc.businessFunction, doc.businessFunctionOther, doc.location, doc.yearsExperience, doc.contactInfo :=
      Override(u.jobTitle, doc.jobTitle),
      Override(u.department, doc.department),
      Override(u.businessFunction, doc.businessFunction),
      Override(u.businessFunctionOther, doc.businessFunctionOther),
      Override(u.location, doc.location),
      Override(u.yearsExperience, doc.yearsExperience),
      contact;
  }
}

=== FILE: js_number.dfy ===
/** The ECMAScript number conversions the source relies on: `parseInt`,
    `parseFloat`, `Number(string)`, `Math.round` and the decimal rendering of a
    number inside a template literal. Numbers are exact reals here; IEEE-754
    rounding and overflow to Infinity are not modelled, and `-0` is `0`. */
module JsNumber {
  import opened Wrappers
  import opened JsText

  /** A JavaScript number: a finite value, one of the two infinities, or NaN. */
  datatype Num = Finite(value: real) | PosInfinity | NegInfinity | NaN

  /** The value of `c` as a digit in base `radix`, letters in either case. */
  function DigitValue(c: char, radix: nat): (d: Option<nat>)
    ensures d.Some? ==> d.value < radix
  {
    var v :=
      if '0' <= c <= '9' then c as int - '0' as int
      else if 'a' <= c <= 'z' then c as int - 'a' as int + 10
      else if 'A' <= c <= 'Z' then c as int - 'A' as int + 10
      else 36;
    if v < radix then Some(v) else None
  }

  predicate IsDigitIn(c: char, radix: nat) {
    DigitValue(c, radix).Some?
  }

  predicate AllDigits(s: string, radix: nat) {
    forall i | 0 <= i < |s| :: IsDigitIn(s[i], radix)
  }

  /** Length of the longest prefix of `s` made of base-`radix` digits. */
  function DigitRunLength(s: string, radix: nat): (n: nat)
    ensures n <= |s|
    ensures AllDigits(s[..n], radix)
    ensures n == |s| || !IsDigitIn(s[n], radix)
  {
    if s != [] && IsDigitIn(s[0], radix) then
      var n := 1 + DigitRunLength(s[1..], radix);
      assert s[..n] == [s[0]] + s[1..][..n - 1];
      n
    else 0
  }

  /** Positional value of a run of base-`radix` digits, most significant first. */
  function DigitsValue(s: string, radix: nat): nat
    requires AllDigits(s, radix)
  {
    if s == [] then 0
    else DigitsValue(s[..|s| - 1], radix) * radix + DigitValue(s[|s| - 1], radix).value
  }

  function Pow10(n: nat): (p: nat)
    ensures p >= 1
  {
    if n == 0 then 1 else 10 * Pow10(n - 1)
  }

  function RealPow(x: real, n: nat): real {
    if n == 0 then 1.0 else x * RealPow(x, n - 1)
  }

  /** `x` times ten to the power `e`. */
  function Scale10(x: real, e: int): real {
    if e >= 0 then x * Pow10(e) as real else x / Pow10(-e) as real
  }

  /** The sign in front of a numeric literal: whether it is `-`, and the rest. */
  function SplitSign(s: string): (bool, string) {
    if s != [] && (s[0] == '-' || s[0] == '+') then (s[0] == '-', s[1..]) else (false, s)
  }

  /** `parseInt(s, 10)` when `decimalRadix` holds and `parseInt(s)` otherwise:
      leading white space and one sign are skipped, then the digits are read.
      `None` is NaN. */
  function ParseInt(s: string, decimalRadix: bool): Option<int> {
    var (negative, u) := SplitSign(TrimStart(s));
    match ReadInteger(u, decimalRadix)
    case None => None
    case Some(m) => Some(if negative then -(m as int) else m)
  }

  /** The unsigned part of `parseInt`: a `0x`/`0X` prefix switches to base 16
      when no radix is given, and the longest run of digits is read. */
  function ReadInteger(u: string, decimalRadix: bool): Option<nat> {
    var hex := !decimalRadix && |u| >= 2 && u[0] == '0' && (u[1] == 'x' || u[1] == 'X');
    var radix := if hex then 16 else 10;
    var digits := if hex then u[2..] else u;
    var n := DigitRunLength(digits, radix);
    if n == 0 then None else Some(DigitsValue(digits[..n], radix))
  }

  /** The value of `whole.fraction`, both runs of decimal digits. */
  function Mantissa(whole: string, fraction: string): real
    requires AllDigits(whole, 10) && AllDigits(fraction, 10)
  {
    DigitsValue(whole, 10) as real + DigitsValue(fraction, 10) as real / Pow10(|fraction|) as real
  }

  lemma MantissaOfWhole(whole: string)
    requires AllDigits(whole, 10)
    ensures Mantissa(whole, "") == DigitsValue(whole, 10) as real
  {
    assert DigitsValue("", 10) == 0 && Pow10(0) == 1;
  }

  /** The longest prefix of `s` that is an unsigned decimal literal (digits, an
      optional fraction, an optional complete exponent): its length and value. */
  function UnsignedDecimalPrefix(s: string): (r: Option<(nat, real)>)
    ensures r.Some? ==> 0 < r.value.0 <= |s|
  {
    var i := DigitRunLength(s, 10);
    var hasPoint := i < |s| && s[i] == '.';
    var j := if hasPoint then DigitRunLength(s[i + 1..], 10) else 0;
    if i == 0 && j == 0 then None
    else
      var fraction := if hasPoint then s[i + 1..][..j] else "";
      var mantissa := Mantissa(s[..i], fraction);
      var e := if hasPoint then i + 1 + j else i;
      var hasE := e < |s| && (s[e] == 'e' || s[e] == 'E');
      var k := if hasE && e + 1 < |s| && (s[e + 1] == '+' || s[e + 1] == '-') then e + 2 else e + 1;
      var d := if hasE && k <= |s| then DigitRunLength(s[k..], 10) else 0;
      if d == 0 then Some((e, mantissa))
      else
        var exponent: int := DigitsValue(s[k..][..d], 10);
        var signed := if s[e + 1] == '-' then -exponent else exponent;
        Some((k + d, Scale10(mantissa, signed)))
  }

  /** `parseFloat(s)`: the longest decimal-literal prefix after leading white
      space, `Infinity` included. */
  function ParseFloat(s: string): Num {
    var (negative, u) := SplitSign(TrimStart(s));
    if StartsWith(u, "Infinity") then (if negative then NegInfinity else PosInfinity)
    else
      match UnsignedDecimalPrefix(u)
      case None => NaN
      case Some((_, v)) => Finite(if negative then -v else v)
  }

  /** `Number(s)` for a string: the whole trimmed text must be a numeric literal;
      the empty text is 0, and `0x`/`0o`/`0b` literals take no sign. */
  function StringToNumber(s: string): Num {
    var t := Trim(s);
    if t == [] then Finite(0.0)
    else if |t| >= 2 && t[0] == '0' && t[1] in "xXoObB" then NonDecimalLiteral(t[1], t[2..])
    else DecimalLiteral(t)
  }

  /** A `0x`, `0o` or `0b` literal, given the letter and the digits after it. */
  function NonDecimalLiteral(letter: char, digits: string): Num {
    var radix := if letter in "xX" then 16 else if letter in "oO" then 8 else 2;
    if digits != [] && DigitRunLength(digits, radix) == |digits| then
      assert digits[..|digits|] == digits;
      Finite(DigitsValue(digits, radix) as real)
    else NaN
  }

  /** A whole signed decimal literal, `Infinity` included. */
  function DecimalLiteral(t: string): Num {
    var (negative, u) := SplitSign(t);
    if u == "Infinity" then (if negative then NegInfinity else PosInfinity)
    else
      match UnsignedDecimalPrefix(u)
      case Some((n, v)) => if n == |u| then Finite(if negative then -v else v) else NaN
      case None => NaN
  }

  /** `Math.round` on a finite value: halves round up. */
  function Round(x: real): (r: int)
    ensures x - 0.5 < r as real <= x + 0.5
  {
    (x + 0.5).Floor
  }

  function DigitChar(d: nat): (c: char)
    requires d < 10
    ensures IsDigitIn(c, 10) && DigitValue(c, 10).value == d
  {
    ('0' as int + d) as char
  }

  /** Decimal digits of `n` without leading zeros. */
  function NatToString(n: nat): (r: string)
    ensures |r| >= 1 && AllDigits(r, 10)
    ensures DigitsValue(r, 10) == n
    ensures r[0] != '0' || n == 0
  {
    if n < 10 then [DigitChar(n)]
    else
      var r := NatToString(n / 10) + [DigitChar(n % 10)];
      assert r[..|r| - 1] == NatToString(n / 10);
      r
  }

  function IntToString(i: int): string {
    if i < 0 then "-" + NatToString(-i) else NatToString(i)
  }

  /** At most `fuel` decimal digits of a fraction `f`, stopping once it is used up. */
  function FractionDigits(f: real, fuel: nat): string
    requires 0.0 <= f < 1.0
    decreases fuel
  {
    if f == 0.0 || fuel == 0 then ""
    else
      var d := (f * 10.0).Floor;
      [DigitChar(d)] + FractionDigits(f * 10.0 - d as real, fuel - 1)
  }

  /** A number in a template literal: positional notation, sign first. Integers
      are exact; fractions are written out to at most twenty digits. */
  function NumberToString(v: real): string {
    var negative := v < 0.0;
    var a := if negative then -v else v;
    var whole := a.Floor;
    var fraction := a - whole as real;
    (if negative then "-" else "")
      + NatToString(whole)
      + (if fraction == 0.0 then "" else "." + FractionDigits(fraction, 20))
  }

  lemma NumberToStringInt(i: int)
    ensures NumberToString(i as real) == IntToString(i)
  {
    var a := if i < 0 then -(i as real) else i as real;
    assert a == (if i < 0 then -i else i) as real;
    assert a.Floor == (if i < 0 then -i else i);
  }

  /** A digit run followed by something that is not a digit is read up to the end of the run. */
  lemma {:induction false} DigitRunLengthAppend(a: string, b: string, radix: nat)
    requires AllDigits(a, radix)
    requires b == [] || !IsDigitIn(b[0], radix)
    ensures DigitRunLength(a + b, radix) == |a|
  {
    if a != [] {
      assert (a + b)[1..] == a[1..] + b;
      DigitRunLengthAppend(a[1..], b, radix);
    }
  }

  lemma SplitSignOfInt(i: int, tail: string)
    ensures SplitSign(IntToString(i) + tail) == (i < 0, NatToString(if i < 0 then -i else i) + tail)
  {
    var digits := NatToString(if i < 0 then -i else i);
    assert IsDigitIn(digits[0], 10);
    if i < 0 {
      assert ("-" + digits + tail)[1..] == digits + tail;
    } else {
      assert (digits + tail)[0] == digits[0];
    }
  }

  lemma DigitIsNotSpace(c: char)
    requires IsDigitIn(c, 10)
    ensures !IsSpace(c) && c != '-' && c != '+' && c != 'I' && c != 'x' && c != 'X'
  {
  }

  lemma ReadIntegerOfDigits(digits: string, tail: string, decimalRadix: bool)
    requires digits != [] && AllDigits(digits, 10)
    requires tail == [] || !IsDigitIn(tail[0], 10)
    requires !decimalRadix ==> digits[0] != '0' || |digits| > 1 || tail == [] || (tail[0] != 'x' && tail[0] != 'X')
    ensures ReadInteger(digits + tail, decimalRadix) == Some(DigitsValue(digits, 10))
  {
    var u := digits + tail;
    assert !decimalRadix ==> !(|u| >= 2 && u[0] == '0' && (u[1] == 'x' || u[1] == 'X')) by {
      if |digits| == 1 && |u| >= 2 {
        assert u[1] == tail[0];
      } else if |u| >= 2 {
        assert u[1] == digits[1];
        DigitIsNotSpace(digits[1]);
      }
    }
    DigitRunLengthAppend(digits, tail, 10);
    assert u[..|digits|] == digits;
  }

  /** `parseInt` reads back the decimal text of every integer, followed by any
      text that does not start with a digit, with or without an explicit radix. */
  lemma ParseIntRoundTrip(i: int, tail: string, decimalRadix: bool)
    requires tail == [] || !IsDigitIn(tail[0], 10)
    requires !decimalRadix ==> tail == [] || (tail[0] != 'x' && tail[0] != 'X')
    ensures ParseInt(IntToString(i) + tail, decimalRadix) == Some(i)
  {
    var n: nat := if i < 0 then -i else i;
    TrimStartOfInt(i, tail);
    SplitSignOfInt(i, tail);
    ReadIntegerOfDigits(NatToString(n), tail, decimalRadix);
  }

  /** The decimal text of an integer starts with a sign or a digit, not white space. */
  lemma TrimStartOfInt(i: int, tail: string)
    ensures TrimStart(IntToString(i) + tail) == IntToString(i) + tail
  {
    var s := IntToString(i) + tail;
    var digits := NatToString(if i < 0 then -i else i);
    DigitIsNotSpace(digits[0]);
    assert s[0] == (if i < 0 then '-' else digits[0]);
    assert !IsSpace(s[0]);
  }

  lemma DecimalPrefixOfDigits(digits: string)
    requires digits != [] && AllDigits(digits, 10)
    ensures UnsignedDecimalPrefix(digits) == Some((|digits|, DigitsValue(digits, 10) as real))
  {
    DigitRunLengthAppend(digits, "", 10);
    assert digits + "" == digits;
    assert DigitRunLength(digits, 10) == |digits|;
    assert digits[..|digits|] == digits;
    MantissaOfWhole(digits);
  }

  lemma DecimalLiteralOfInt(i: int)
    ensures DecimalLiteral(IntToString(i)) == Finite(i as real)
  {
    var digits := NatToString(if i < 0 then -i else i);
    SplitSignOfInt(i, "");
    assert IntToString(i) + "" == IntToString(i) && digits + "" == digits;
    DecimalPrefixOfDigits(digits);
    DigitIsNotSpace(digits[0]);
    assert digits != "Infinity" by {
      assert digits[0] != 'I';
    }
  }

  /** `Number` reads back the decimal text of every integer. */
  lemma StringToNumberOfInt(i: int)
    ensures StringToNumber(IntToString(i)) == Finite(i as real)
  {
    var s := IntToString(i);
    var digits := NatToString(if i < 0 then -i else i);
    DigitIsNotSpace(digits[0]);
    assert s[|s| - 1] == digits[|digits| - 1];
    DigitIsNotSpace(s[|s| - 1]);
    TrimUnpadded(s);
    assert s[0] == '0' ==> |s| == 1 by {
      if s[0] == '0' {
        assert i >= 0 && digits == s;
      }
    }
    DecimalLiteralOfInt(i);
  }
}

=== FILE: js_text.dfy ===
/** The ECMAScript string primitives the source relies on: white space as
    `trim()` and the regular-expression class `\s` see it, `toLowerCase()` on
    ASCII letters, `startsWith`, `includes`, `indexOf`, `lastIndexOf`,
    `split` on a one-character separator and `Array.prototype.join`. */
module JsText {
  import opened Sequences

  /** ECMAScript WhiteSpace and LineTerminator code points. */
  predicate IsSpace(c: char) {
    || c == '\t' || c == '\n' || c == '\U{000B}' || c == '\U{000C}' || c == '\r' || c == ' '
    || c == '\U{00A0}' || c == '\U{1680}' || ('\U{2000}' <= c <= '\U{200A}')
    || c == '\U{2028}' || c == '\U{2029}' || c == '\U{202F}' || c == '\U{205F}'
    || c == '\U{3000}' || c == '\U{FEFF}'
  }

  predicate IsBlank(s: string) {
    forall i | 0 <= i < |s| :: IsSpace(s[i])
  }

  /** `s` neither starts nor ends with white space. */
  predicate Unpadded(s: string) {
    s == [] || (!IsSpace(s[0]) && !IsSpace(s[|s| - 1]))
  }

  function TrimStart(s: string): (r: string)
    ensures |r| <= |s| && r == s[|s| - |r|..]
    ensures r == [] || !IsSpace(r[0])
    ensures IsBlank(s[..|s| - |r|])
  {
    if s != [] && IsSpace(s[0]) then TrimStart(s[1..]) else s
  }

  function TrimEnd(s: string): (r: string)
    ensures |r| <= |s| && r == s[..|r|]
    ensures r == [] || !IsSpace(r[|r| - 1])
    ensures IsBlank(s[|r|..])
  {
    if s != [] && IsSpace(s[|s| - 1]) then TrimEnd(s[..|s| - 1]) else s
  }

  /** `String.prototype.trim`. */
  function Trim(s: string): (r: string)
    ensures Unpadded(r)
    ensures r == [] <==> IsBlank(s)
    ensures |r| <= |s|
  {
    TrimEnd(TrimStart(s))
  }

  lemma TrimUnpadded(s: string)
    requires Unpadded(s)
    ensures Trim(s) == s
  {
  }

  lemma TrimIdempotent(s: string)
    ensures Trim(Trim(s)) == Trim(s)
  {
    TrimUnpadded(Trim(s));
  }

  /** Trimming the start skips exactly a blank prefix. */
  lemma {:induction false} TrimStartSkips(blank: string, rest: string)
    requires IsBlank(blank) && (rest == [] || !IsSpace(rest[0]))
    ensures TrimStart(blank + rest) == rest
  {
    if blank != [] {
      assert (blank + rest)[1..] == blank[1..] + rest;
      TrimStartSkips(blank[1..], rest);
    }
  }

  /** Trimming the end skips exactly a blank suffix. */
  lemma {:induction false} TrimEndSkips(rest: string, blank: string)
    requires IsBlank(blank) && (rest == [] || !IsSpace(rest[|rest| - 1]))
    ensures TrimEnd(rest + blank) == rest
  {
    if blank != [] {
      assert (rest + blank)[..|rest + blank| - 1] == rest + blank[..|blank| - 1];
      TrimEndSkips(rest, blank[..|blank| - 1]);
    }
  }

  /** Trimming removes exactly the blank padding around a non-empty unpadded word. */
  lemma TrimAround(before: string, word: string, after: string)
    requires IsBlank(before) && IsBlank(after) && word != [] && Unpadded(word)
    ensures Trim(before + word + after) == word
  {
    assert TrimStart(before + word + after) == word + after by {
      assert before + word + after == before + (word + after);
      assert (word + after)[0] == word[0];
      TrimStartSkips(before, word + after);
    }
    assert TrimEnd(word + after) == word by {
      TrimEndSkips(word, after);
    }
  }

  function LowerChar(c: char): char {
    if 'A' <= c <= 'Z' then (c as int + 32) as char else c
  }

  /** `String.prototype.toLowerCase` restricted to ASCII letters. */
  function ToLower(s: string): (r: string)
    ensures |r| == |s|
    ensures forall i | 0 <= i < |s| :: r[i] == LowerChar(s[i])
  {
    seq(|s|, i requires 0 <= i < |s| => LowerChar(s[i]))
  }

  predicate StartsWith(s: string, prefix: string) {
    |prefix| <= |s| && s[..|prefix|] == prefix
  }

  predicate EndsWith(s: string, suffix: string) {
    |suffix| <= |s| && s[|s| - |suffix|..] == suffix
  }

  lemma StartsWithConcat(prefix: string, rest: string)
    ensures StartsWith(prefix + rest, prefix)
  {
    assert (prefix + rest)[..|prefix|] == prefix;
  }

  lemma Affixes(prefix: string, middle: string, suffix: string)
    ensures StartsWith(prefix + middle + suffix, prefix)
    ensures EndsWith(prefix + middle + suffix, suffix)
  {
    assert (prefix + middle + suffix)[..|prefix|] == prefix;
    assert (prefix + middle + suffix)[|prefix + middle|..] == suffix;
  }

  predicate OccursAt(s: string, sub: string, i: int) {
    0 <= i && i + |sub| <= |s| && s[i..i + |sub|] == sub
  }

  /** `String.prototype.includes`. */
  predicate Contains(s: string, sub: string) {
    exists i | 0 <= i <= |s| - |sub| :: OccursAt(s, sub, i)
  }

  /** `String.prototype.indexOf` for one character: the first position, or -1. */
  function IndexOf(s: string, c: char): (r: int)
    ensures -1 <= r < |s|
    ensures r == -1 <==> c !in s
    ensures r >= 0 ==> s[r] == c && c !in s[..r]
  {
    IndexOfFrom(s, c, 0)
  }

  function IndexOfFrom(s: string, c: char, i: nat): (r: int)
    requires i <= |s| && c !in s[..i]
    ensures r == -1 || i <= r < |s|
    ensures r == -1 <==> c !in s
    ensures r >= 0 ==> s[r] == c && c !in s[..r]
    decreases |s| - i
  {
    if i == |s| then
      assert s[..i] == s;
      -1
    else if s[i] == c then i
    else
      assert s[..i + 1] == s[..i] + [s[i]];
      IndexOfFrom(s, c, i + 1)
  }

  /** `String.prototype.lastIndexOf` for one character: the last position, or -1. */
  function LastIndexOf(s: string, c: char): (r: int)
    ensures -1 <= r < |s|
    ensures r == -1 <==> c !in s
    ensures r >= 0 ==> s[r] == c && c !in s[r + 1..]
  {
    LastIndexOfBefore(s, c, |s|)
  }

  function LastIndexOfBefore(s: string, c: char, j: nat): (r: int)
    requires j <= |s| && c !in s[j..]
    ensures -1 <= r < j
    ensures r == -1 <==> c !in s
    ensures r >= 0 ==> s[r] == c && c !in s[r + 1..]
    decreases j
  {
    if j == 0 then
      assert s[j..] == s;
      -1
    else if s[j - 1] == c then j - 1
    else
      assert s[j - 1..] == [s[j - 1]] + s[j..];
      LastIndexOfBefore(s, c, j - 1)
  }

  lemma NotInPrefix(s: string, c: char, n: int, k: int)
    requires 0 <= k < n <= |s| && c !in s[..n]
    ensures s[k] != c
  {
    assert s[..n][k] == s[k];
  }

  lemma NotInSuffix(s: string, c: char, n: int, k: int)
    requires 0 <= n <= k < |s| && c !in s[n..]
    ensures s[k] != c
  {
    assert s[n..][k - n] == s[k];
  }

  /** `String.prototype.split` on a one-character separator. */
  function Split(s: string, sep: char): (r: seq<string>)
    ensures |r| >= 1
    ensures forall i | 0 <= i < |r| :: sep !in r[i]
    decreases |s|
  {
    var k := IndexOf(s, sep);
    if k < 0 then [s] else [s[..k]] + Split(s[k + 1..], sep)
  }

  /** `Array.prototype.join`. */
  function Join(parts: seq<string>, sep: string): string
  {
    if |parts| == 0 then ""
    else if |parts| == 1 then parts[0]
    else parts[0] + sep + Join(parts[1..], sep)
  }

  /** Splitting and joining with the same separator gives the text back. */
  lemma {:induction false} SplitJoin(s: string, sep: char)
    ensures Join(Split(s, sep), [sep]) == s
    decreases |s|
  {
    var k := IndexOf(s, sep);
    if k >= 0 {
      var rest := Split(s[k + 1..], sep);
      SplitJoin(s[k + 1..], sep);
      var parts := [s[..k]] + rest;
      assert Split(s, sep) == parts;
      assert parts[1..] == rest;
      assert Join(parts, [sep]) == s[..k] + [sep] + Join(rest, [sep]);
      SplitAround(s, k);
    } else {
      assert Split(s, sep) == [s];
    }
  }

  lemma JoinAppend(parts: seq<string>, last: string, sep: string)
    requires parts != []
    ensures Join(parts + [last], sep) == Join(parts, sep) + sep + last
  {
    if |parts| > 1 {
      assert (parts + [last])[1..] == parts[1..] + [last];
      JoinAppend(parts[1..], last, sep);
    }
  }

  /** The first occurrence of `c` is the position before which it does not occur. */
  lemma IndexOfAt(s: string, c: char, k: int)
    requires 0 <= k < |s| && s[k] == c && c !in s[..k]
    ensures IndexOf(s, c) == k
  {
    var r := IndexOf(s, c);
    assert s[k] in s;
    if r < k {
      NotInPrefix(s, c, k, r);
    } else if r > k {
      NotInPrefix(s, c, r, k);
    }
  }

  /** Joining pieces free of the separator and splitting again gives the pieces back. */
  lemma {:induction false} SplitOfJoin(parts: seq<string>, sep: char)
    requires |parts| >= 1 && forall i | 0 <= i < |parts| :: sep !in parts[i]
    ensures Split(Join(parts, [sep]), sep) == parts
    decreases |parts|
  {
    if |parts| == 1 {
      assert Join(parts, [sep]) == parts[0];
    } else {
      var first := parts[0];
      var tail := parts[1..];
      var rest := Join(tail, [sep]);
      var s := first + [sep] + rest;
      assert Join(parts, [sep]) == s;
      assert Split(s, sep) == [first] + Split(rest, sep) by {
        assert s[..|first|] == first;
        IndexOfAt(s, sep, |first|);
        assert s[|first| + 1..] == rest;
      }
      assert forall i | 0 <= i < |tail| :: sep !in tail[i] by {
        assert forall i | 0 <= i < |tail| :: tail[i] == parts[i + 1];
      }
      SplitOfJoin(tail, sep);
      assert parts == [first] + tail;
    }
  }

  /** A split piece holds only characters of the text. */
  lemma {:induction false} SplitPieceChars(s: string, sep: char, i: int, c: char)
    requires 0 <= i < |Split(s, sep)| && c in Split(s, sep)[i]
    ensures c in s
    decreases |s|
  {
    var k := IndexOf(s, sep);
    if k >= 0 {
      if i == 0 {
        assert c in s[..k];
      } else {
        SplitPieceChars(s[k + 1..], sep, i - 1, c);
        assert c in s[k + 1..];
      }
    }
  }

  /** Trimming only removes characters. */
  lemma TrimChars(s: string)
    ensures forall c | c in Trim(s) :: c in s
  {
    var t := TrimStart(s);
    assert Trim(s) == t[..|Trim(s)|];
    assert t == s[|s| - |t|..];
  }

  /** One leading space is trimmed away from an unpadded text. */
  lemma TrimSpaced(k: string)
    requires Unpadded(k)
    ensures Trim(" " + k) == k
  {
    TrimStartSkips(" ", k);
    TrimUnpadded(k);
    TrimStartSkips("", k);
    assert "" + k == k;
  }
}

=== FILE: json_text.dfy ===
/** Tolerant reading of JSON out of a model's free-text reply: code fences are
    stripped, the text is parsed, and when that fails the span from the first
    opening bracket to the last closing one is tried instead. `JSON.parse` itself
    is a parameter `parse`: `None` when it throws, `Some(value)` otherwise. */
module JsonText {
  import opened Wrappers
  import opened JsText
  import opened JsonValue

  const Fence := "```"

  /** Removes one leading fence (optionally tagged `json`, in any case) with the
      white space after it, and one trailing fence with the white space before it. */
  function StripCodeFences(text: string): (r: string)
    ensures Unpadded(r)
    ensures |r| <= |text|
  {
    Trim(CloseFence(OpenFence(Trim(text))))
  }

  /** Drops a leading fence, an optional `json` tag in any case, and the white space after them. */
  function OpenFence(t: string): (r: string)
    ensures |r| <= |t|
  {
    if StartsWith(t, Fence) then TrimStart(DropJsonTag(t[3..])) else t
  }

  /** Drops a trailing fence and the white space before it. */
  function CloseFence(u: string): (r: string)
    ensures |r| <= |u|
  {
    if EndsWith(u, Fence) then TrimEnd(u[..|u| - 3]) else u
  }

  function DropJsonTag(s: string): (r: string)
    ensures |r| <= |s|
  {
    if |s| >= 4 && ToLower(s[..4]) == "json" then s[4..] else s
  }

  lemma OpenFenceOfFenced(body: string)
    requires Unpadded(body)
    ensures OpenFence(Fence + "json\n" + body + "\n" + Fence) == body + (if body == [] then "" else "\n") + Fence
  {
    var after := body + "\n" + Fence;
    assert OpenFence(Fence + "json\n" + body + "\n" + Fence) == TrimStart(after) by {
      JsonLine();
      Regroup(Fence, "json", "\n", body, Fence);
      OpenFenceOfJson("\n" + after);
      DropNewline(after);
    }
    if body == [] {
      assert TrimStart(after) == Fence by {
        assert after == "\n" + Fence;
        DropNewline(Fence);
        assert Fence[0] == '`';
        TrimStartUnspaced(Fence);
      }
    } else {
      assert TrimStart(after) == after by {
        assert after[0] == body[0];
        TrimStartUnspaced(after);
      }
    }
  }

  lemma TrimStartUnspaced(s: string)
    requires s == [] || !IsSpace(s[0])
    ensures TrimStart(s) == s
  {
  }

  lemma JsonLine()
    ensures "json" + "\n" == "json\n"
  {
  }

  lemma Regroup(f: string, t: string, nl: string, b: string, g: string)
    ensures f + (t + nl) + b + nl + g == f + t + (nl + (b + nl + g))
  {
  }

  /** One leading line break is white space that `TrimStart` drops. */
  lemma DropNewline(x: string)
    ensures TrimStart("\n" + x) == TrimStart(x)
  {
    assert ("\n" + x)[1..] == x;
  }

  lemma OpenFenceOfJson(rest: string)
    ensures OpenFence(Fence + "json" + rest) == TrimStart(rest)
  {
    assert ToLower("json") == "json";
    OpenFenceOf("json", rest);
  }

  /** A fence and a `json` tag in any case are dropped with the white space after them. */
  lemma OpenFenceOf(tag: string, rest: string)
    requires |tag| == 4 && ToLower(tag) == "json"
    ensures OpenFence(Fence + tag + rest) == TrimStart(rest)
  {
    var text := Fence + tag + rest;
    assert text[..3] == Fence;
    assert text[3..] == tag + rest;
    assert (tag + rest)[..4] == tag;
    assert (tag + rest)[4..] == rest;
  }

  lemma CloseFenceOfFenced(body: string)
    requires Unpadded(body)
    ensures CloseFence(body + (if body == [] then "" else "\n") + Fence) == body
  {
    var u := body + (if body == [] then "" else "\n") + Fence;
    assert EndsWith(u, Fence);
    if body == [] {
      assert u[..|u| - 3] == [];
    } else {
      assert u[..|u| - 3] == body + "\n";
      TrimEndSkips(body, "\n");
    }
  }

  /** A fenced body comes back without its fence. */
  lemma StripFencedBody(body: string)
    requires Unpadded(body)
    ensures StripCodeFences(Fence + "json\n" + body + "\n" + Fence) == body
  {
    var text := Fence + "json\n" + body + "\n" + Fence;
    TrimUnpadded(text);
    OpenFenceOfFenced(body);
    CloseFenceOfFenced(body);
    TrimUnpadded(body);
  }

  /** Text without fences around it is left alone. */
  lemma StripUnfenced(text: string)
    requires Unpadded(text) && !StartsWith(text, Fence) && !EndsWith(text, Fence)
    ensures StripCodeFences(text) == text
  {
    TrimUnpadded(text);
  }

  /** `text[i..j + 1]` runs from the first `open` of `text` to its last `close`. */
  predicate Spans(text: string, open: char, close: char, r: string) {
    exists i, j | 0 <= i < j < |text| ::
      r == text[i..j + 1] && text[i] == open && text[j] == close
      && open !in text[..i] && close !in text[j + 1..]
  }

  /** Some `open` comes before some `close`. */
  predicate HasPair(text: string, open: char, close: char) {
    exists i, j | 0 <= i < j < |text| :: text[i] == open && text[j] == close
  }

  /** Any pair lies between the first `open` and the last `close`. */
  lemma PairWithinBounds(text: string, open: char, close: char, i: int, j: int)
    requires 0 <= i < j < |text| && text[i] == open && text[j] == close
    ensures 0 <= IndexOf(text, open) <= i
    ensures LastIndexOf(text, close) >= j
  {
    assert text[i] in text && text[j] in text;
    var first := IndexOf(text, open);
    var last := LastIndexOf(text, close);
    if i < first {
      NotInPrefix(text, open, first, i);
    }
    if j > last {
      NotInSuffix(text, close, last + 1, j);
    }
  }

  /** The span from the first `open` to the last `close`, when the last `close` comes after the first `open`. */
  function Candidate(text: string, open: char, close: char): (r: Option<string>)
    ensures r.Some? ==> 2 <= |r.value| && r.value[0] == open && r.value[|r.value| - 1] == close
  {
    var first := IndexOf(text, open);
    var last := LastIndexOf(text, close);
    if first != -1 && last != -1 && last > first then Some(text[first..last + 1]) else None
  }

  /** There is a candidate exactly when some `open` precedes some `close`, and it
      runs from the first `open` to the last `close`. */
  lemma CandidateSpans(text: string, open: char, close: char)
    ensures Candidate(text, open, close).Some? <==> HasPair(text, open, close)
    ensures Candidate(text, open, close).Some? ==> Spans(text, open, close, Candidate(text, open, close).value)
  {
    var first := IndexOf(text, open);
    var last := LastIndexOf(text, close);
    if first != -1 && last != -1 && last > first {
      assert text[first] == open && text[last] == close;
    } else {
      forall i, j | 0 <= i < j < |text| && text[i] == open && text[j] == close
        ensures false
      {
        PairWithinBounds(text, open, close, i, j);
      }
    }
  }

  /** The object span when there is one, the array span otherwise. */
  function ExtractJsonSubstring(text: string): (r: Option<string>)
    ensures r.Some? ==> 2 <= |r.value|
    ensures r.Some? ==> (r.value[0] == '{' && r.value[|r.value| - 1] == '}') || (r.value[0] == '[' && r.value[|r.value| - 1] == ']')
  {
    match Candidate(text, '{', '}')
    case Some(s) => Some(s)
    case None => Candidate(text, '[', ']')
  }

  /** The extracted span is the object span whenever some `{` precedes some `}`,
      the array span otherwise, and absent only when neither kind of pair exists. */
  lemma ExtractJsonSubstringSpans(text: string)
    ensures ExtractJsonSubstring(text).None? <==> !HasPair(text, '{', '}') && !HasPair(text, '[', ']')
    ensures HasPair(text, '{', '}') ==> ExtractJsonSubstring(text).Some? && Spans(text, '{', '}', ExtractJsonSubstring(text).value)
    ensures !HasPair(text, '{', '}') && ExtractJsonSubstring(text).Some? ==> Spans(text, '[', ']', ExtractJsonSubstring(text).value)
  {
    CandidateSpans(text, '{', '}');
    CandidateSpans(text, '[', ']');
  }

  /** `JSON.parse` with a thrown error and a parsed `null` both read as `None`. */
  function TryParse(parse: string -> Option<Json>, candidate: string): (r: Option<Json>)
    ensures r.Some? ==> !r.value.JNull? && parse(candidate) == r
    ensures r.None? ==> parse(candidate).None? || parse(candidate).value.JNull?
  {
    var parsed := parse(candidate);
    if parsed.Some? && parsed.value.JNull? then None else parsed
  }

  /** `parseJsonFromText`: `None` for empty text; otherwise the fence-stripped
      text if it parses to something other than `null`, else the bracketed span. */
  function ParseJsonFromText(parse: string -> Option<Json>, text: string): (r: Option<Json>)
    ensures text == "" ==> r.None?
    ensures r.Some? ==> !r.value.JNull?
    ensures r.Some? && parse(StripCodeFences(text)) != r ==>
              var span := ExtractJsonSubstring(StripCodeFences(text));
              span.Some? && parse(span.value) == r
    ensures text != "" && TryParse(parse, StripCodeFences(text)).None? ==>
              var span := ExtractJsonSubstring(StripCodeFences(text));
              r == if span.Some? then TryParse(parse, span.value) else None
  {
    if text == "" then None
    else
      var stripped := StripCodeFences(text);
      var direct := TryParse(parse, stripped);
      if direct.Some? then direct
      else
        match ExtractJsonSubstring(stripped)
        case None => None
        case Some(s) => TryParse(parse, s)
  }

  /** Whenever the stripped text itself parses to a non-null value, that value is the result. */
  lemma ParseJsonDirect(parse: string -> Option<Json>, text: string, v: Json)
    requires text != "" && !v.JNull? && parse(StripCodeFences(text)) == Some(v)
    ensures ParseJsonFromText(parse, text) == Some(v)
  {
  }
}

=== FILE: json_value.dfy ===
/** Values that `JSON.parse` produces, and the JavaScript operations the source
    applies to them: property access, `Boolean(value)`, the plain-object test
    and `Number(value)`. */
module JsonValue {
  import opened Wrappers
  import opened JsText
  import opened JsNumber

  /** A parsed JSON value. Object members keep their textual order, duplicates included. */
  datatype Json =
    | JNull
    | JBool(b: bool)
    | JNumber(n: real)
    | JString(s: string)
    | JArray(items: seq<Json>)
    | JObject(members: seq<(string, Json)>)

  /** `value[key]`: JSON.parse keeps the last of several members with one key;
      `None` is `undefined`. */
  function Get(value: Json, key: string): (r: Option<Json>)
    ensures r.Some? ==> value.JObject? && (key, r.value) in value.members
    ensures r.None? ==> !value.JObject? || forall i | 0 <= i < |value.members| :: value.members[i].0 != key
  {
    match value
    case JObject(members) => LastWithKey(members, key)
    case _ => None
  }

  function LastWithKey(members: seq<(string, Json)>, key: string): (r: Option<Json>)
    ensures r.Some? ==> (key, r.value) in members
    ensures r.None? ==> forall i | 0 <= i < |members| :: members[i].0 != key
  {
    if members == [] then None
    else if members[|members| - 1].0 == key then Some(members[|members| - 1].1)
    else LastWithKey(members[..|members| - 1], key)
  }

  /** `Boolean(value) && typeof value === 'object' && !Array.isArray(value)`. */
  predicate IsPlainObject(value: Option<Json>) {
    value.Some? && value.value.JObject?
  }

  /** `Boolean(value)`; `None` (undefined) is falsy. */
  predicate Truthy(value: Option<Json>) {
    match value
    case None => false
    case Some(JNull) => false
    case Some(JBool(b)) => b
    case Some(JNumber(n)) => n != 0.0
    case Some(JString(s)) => s != ""
    case Some(_) => true
  }

  /** `String(value)`: arrays are joined with commas, `null` inside an array is
      empty, and an object is `[object Object]`. */
  function Text(value: Json): string
    decreases value
  {
    match value
    case JNull => "null"
    case JBool(b) => if b then "true" else "false"
    case JNumber(n) => NumberToString(n)
    case JString(s) => s
    case JArray(items) =>
      Join(seq(|items|, i requires 0 <= i < |items| => if items[i].JNull? then "" else Text(items[i])), ",")
    case JObject(_) => "[object Object]"
  }

  /** `Number(value)`. */
  function ToNumber(value: Json): Num {
    match value
    case JNull => Finite(0.0)
    case JBool(b) => Finite(if b then 1.0 else 0.0)
    case JNumber(n) => Finite(n)
    case JString(s) => StringToNumber(s)
    case JArray(_) => StringToNumber(Text(value))
    case JObject(_) => NaN
  }

  lemma TextOfSingleString(text: string)
    ensures Text(JArray([JString(text)])) == text
  {
    var items := [JString(text)];
    var texts := seq(|items|, k requires 0 <= k < |items| => if items[k].JNull? then "" else Text(items[k]));
    assert texts == [text];
  }

  /** A string holding an integer converts to that integer, as does a one-element
      array holding such a string. */
  lemma ToNumberOfIntegerText(i: int)
    ensures ToNumber(JString(IntToString(i))) == Finite(i as real)
  {
    StringToNumberOfInt(i);
    ToNumberOfString(IntToString(i));
  }

  lemma ToNumberOfIntegerArray(i: int)
    ensures ToNumber(JArray([JString(IntToString(i))])) == Finite(i as real)
  {
    StringToNumberOfInt(i);
    ToNumberOfSingleton(IntToString(i));
  }

  lemma ToNumberOfString(text: string)
    ensures ToNumber(JString(text)) == StringToNumber(text)
  {
  }

  lemma ToNumberOfSingleton(text: string)
    ensures ToNumber(JArray([JString(text)])) == StringToNumber(text)
  {
    TextOfSingleString(text);
  }

  /** The empty array converts to 0. */
  lemma ToNumberOfEmptyArray()
    ensures ToNumber(JArray([])) == Finite(0.0)
  {
    assert Text(JArray([])) == "";
  }
}

=== FILE: mentor_summary.dfy ===
/** Normalisation of a generated mentor summary: line by line, a doubled
    hyphen bullet (`- - item`, `-- item`) or a bullet glyph becomes `- item`;
    then runs of three or more newlines shrink to two and the text is trimmed.
    The glyph the normaliser looks for is a parameter: `MojibakeGlyph` is what
    the source spells, `BulletGlyph` what it means. */
module MentorSummary {
  import opened Wrappers
  import opened JsText
  import opened Sequences

  /** The bullet U+2022. */
  const BulletGlyph: string := "\U{2022}"

  /** U+00E2 U+20AC U+00A2: the UTF-8 bytes of U+2022 read as Windows-1252. */
  const MojibakeGlyph: string := "\U{00E2}\U{20AC}\U{00A2}"

  /** A glyph whose first character is neither white space nor a hyphen, so
      that the patterns built from it match in exactly one way. */
  predicate PlainGlyph(glyph: string) {
    glyph != [] && !IsSpace(glyph[0]) && glyph[0] != '-'
  }

  /** `^\s*-\s*-\s*`: what follows the match, if the line matches. `\s` is the
      white space `trim` removes, so `\s*` is what `TrimStart` drops. */
  function DashDashMatch(line: string): (m: Option<string>)
    ensures m.Some? ==> m.value == [] || !IsSpace(m.value[0])
  {
    var t := TrimStart(line);
    if t != [] && t[0] == '-' then
      var u := TrimStart(t[1..]);
      if u != [] && u[0] == '-' then Some(TrimStart(u[1..])) else None
    else None
  }

  /** `^\s*--\s*`. */
  function DoubleDashMatch(line: string): (m: Option<string>)
    ensures m.Some? ==> m.value == [] || !IsSpace(m.value[0])
  {
    var t := TrimStart(line);
    if |t| >= 2 && t[0] == '-' && t[1] == '-' then Some(TrimStart(t[2..])) else None
  }

  /** `^\s*` glyph `\s*`. */
  function GlyphMatch(glyph: string, line: string): (m: Option<string>)
    ensures m.Some? ==> m.value == [] || !IsSpace(m.value[0])
  {
    var t := TrimStart(line);
    if StartsWith(t, glyph) then Some(TrimStart(t[|glyph|..])) else None
  }

  /** Replaces a matched prefix with `- `. */
  function ReplacePrefix(line: string, m: Option<string>): string {
    match m
    case None => line
    case Some(rest) => "- " + rest
  }

  /** The three line rewrites, in order, each applied to the previous one's output. */
  function NormalizeLine(glyph: string, line: string): string {
    var a := ReplacePrefix(line, DashDashMatch(line));
    var b := ReplacePrefix(a, DoubleDashMatch(a));
    ReplacePrefix(b, GlyphMatch(glyph, b))
  }

  function NormalizeLines(glyph: string, lines: seq<string>): (r: seq<string>)
    ensures |r| == |lines|
    ensures forall i | 0 <= i < |r| :: r[i] == NormalizeLine(glyph, lines[i])
  {
    seq(|lines|, i requires 0 <= i < |lines| => NormalizeLine(glyph, lines[i]))
  }

  // ---------------------------------------------------------------- line lemmas

  /** Once a prefix was replaced by `- `, neither the double-dash pattern nor
      the glyph pattern can match. */
  lemma AfterDashDash(glyph: string, rest: string)
    requires PlainGlyph(glyph)
    requires rest == [] || !IsSpace(rest[0])
    ensures DoubleDashMatch("- " + rest).None?
    ensures GlyphMatch(glyph, "- " + rest).None?
  {
    var line := "- " + rest;
    TrimStartSkips([], line);
    assert [] + line == line;
    assert line[1] == ' ';
    if |glyph| <= |line| {
      assert line[..|glyph|][0] == '-';
    }
  }

  /** The `--` rule never fires: whatever it would match, the `- -` rule has
      already matched and left a line starting `- ` followed by a non-space. */
  lemma DoubleDashRuleDead(line: string)
    ensures DoubleDashMatch(ReplacePrefix(line, DashDashMatch(line))).None?
  {
    match DashDashMatch(line)
    case Some(rest) =>
      AfterDashDash(BulletGlyph, rest);
    case None =>
      var t := TrimStart(line);
      if |t| >= 2 && t[1] == '-' {
        assert [] + t[1..] == t[1..];
        TrimStartSkips([], t[1..]);
      }
  }

  lemma DashDashMatchAt(line: string, x: string, y: string, rest: string)
    requires TrimStart(line) == x && x != [] && x[0] == '-'
    requires TrimStart(x[1..]) == y && y != [] && y[0] == '-'
    requires TrimStart(y[1..]) == rest
    ensures DashDashMatch(line) == Some(rest)
  {
  }

  /** Where the `- -` pattern ends on a line built from its parts. */
  lemma DashDashMatchOf(a: string, b: string, c: string, rest: string)
    requires IsBlank(a) && IsBlank(b) && IsBlank(c) && (rest == [] || !IsSpace(rest[0]))
    ensures DashDashMatch(a + ("-" + (b + ("-" + (c + rest))))) == Some(rest)
  {
    var y := "-" + (c + rest);
    var x := "-" + (b + y);
    TrimStartSkips(a, x);
    assert x[1..] == b + y;
    TrimStartSkips(b, y);
    assert y[1..] == c + rest;
    TrimStartSkips(c, rest);
    DashDashMatchAt(a + x, x, y, rest);
  }

  /** A line led by a hyphen, optional white space and a second hyphen has that lead replaced by `- `. */
  lemma DashDashLine(glyph: string, a: string, b: string, c: string, rest: string)
    requires PlainGlyph(glyph)
    requires IsBlank(a) && IsBlank(b) && IsBlank(c) && (rest == [] || !IsSpace(rest[0]))
    ensures NormalizeLine(glyph, a + ("-" + (b + ("-" + (c + rest))))) == "- " + rest
  {
    DashDashMatchOf(a, b, c, rest);
    AfterDashDash(glyph, rest);
  }

  /** Neither `- -`-style pattern matches a line whose first non-space character is not a hyphen. */
  lemma NoDashLead(line: string)
    requires TrimStart(line) == [] || TrimStart(line)[0] != '-'
    ensures DashDashMatch(line).None? && DoubleDashMatch(line).None?
  {
  }

  /** The glyph pattern does not match a line whose first non-space character differs from the glyph's. */
  lemma NoGlyphLead(glyph: string, line: string)
    requires glyph != []
    requires TrimStart(line) == [] || TrimStart(line)[0] != glyph[0]
    ensures GlyphMatch(glyph, line).None?
  {
    var t := TrimStart(line);
    if |glyph| <= |t| {
      assert t[..|glyph|][0] == t[0];
    }
  }

  /** A line whose first non-space character is neither a hyphen nor the glyph's is left alone. */
  lemma PlainLine(glyph: string, line: string)
    requires PlainGlyph(glyph)
    requires TrimStart(line) == [] || (TrimStart(line)[0] != '-' && TrimStart(line)[0] != glyph[0])
    ensures NormalizeLine(glyph, line) == line
  {
    NoDashLead(line);
    NoGlyphLead(glyph, line);
  }

  /** A line led by the glyph (after optional white space) has that lead replaced by `- `. */
  lemma GlyphLine(glyph: string, a: string, b: string, rest: string)
    requires PlainGlyph(glyph)
    requires IsBlank(a) && IsBlank(b) && (rest == [] || !IsSpace(rest[0]))
    ensures NormalizeLine(glyph, a + (glyph + (b + rest))) == "- " + rest
  {
    var line := a + (glyph + (b + rest));
    var x := glyph + (b + rest);
    TrimStartSkips(a, x);
    assert x[0] == glyph[0];
    NoDashLead(line);
    assert x[..|glyph|] == glyph;
    assert x[|glyph|..] == b + rest;
    TrimStartSkips(b, rest);
  }

  /** An already well-formed bullet `- item` is left alone. */
  lemma BulletLine(glyph: string, item: string)
    requires PlainGlyph(glyph)
    requires item == [] || (!IsSpace(item[0]) && item[0] != '-')
    ensures NormalizeLine(glyph, "- " + item) == "- " + item
  {
    var line := "- " + item;
    TrimStartSkips([], line);
    assert [] + line == line;
    assert line[1..] == " " + item;
    TrimStartSkips(" ", item);
    NoDashLead(line[1..]);
    AfterDashDash(glyph, item);
  }

  /** One pass is not always enough: `- - - item` becomes `- - item`, which a
      second pass would turn into `- item`. */
  lemma NormalizeLineNotIdempotent(glyph: string, item: string)
    requires PlainGlyph(glyph)
    requires item == [] || !IsSpace(item[0])
    ensures NormalizeLine(glyph, "- - - " + item) == "- - " + item
    ensures NormalizeLine(glyph, "- - " + item) == "- " + item
  {
    assert "" + ("-" + (" " + ("-" + (" " + ("- " + item))))) == "- - - " + item;
    assert "- " + ("- " + item) == "- - " + item;
    assert "" + ("-" + (" " + ("-" + (" " + item)))) == "- - " + item;
    DashDashLine(glyph, "", " ", " ", "- " + item);
    DashDashLine(glyph, "", " ", " ", item);
  }

  // ---------------------------------------------------------------- newline runs

  /** No three newlines in a row. */
  predicate NoTripleNewline(s: string) {
    forall i | 0 <= i < |s| - 2 :: !(s[i] == '\n' && s[i + 1] == '\n' && s[i + 2] == '\n')
  }

  /** The end of the run of newlines starting at `i`. */
  function NewlineRun(s: string, i: nat): (j: nat)
    requires i <= |s|
    ensures i <= j <= |s| && (j == |s| || s[j] != '\n')
    ensures forall k | i <= k < j :: s[k] == '\n'
    decreases |s| - i
  {
    if i < |s| && s[i] == '\n' then NewlineRun(s, i + 1) else i
  }

  /** Joining two texts without triple newlines gives none, unless newlines meet at the seam. */
  lemma NoTripleJoin(p: string, q: string)
    requires NoTripleNewline(p) && NoTripleNewline(q)
    requires p == [] || q == [] || p[|p| - 1] != '\n' || q[0] != '\n'
    ensures NoTripleNewline(p + q)
  {
    var s := p + q;
    forall i | 0 <= i < |s| - 2
      ensures !(s[i] == '\n' && s[i + 1] == '\n' && s[i + 2] == '\n')
    {
      if i >= |p| {
        assert s[i] == q[i - |p|] && s[i + 1] == q[i - |p| + 1] && s[i + 2] == q[i - |p| + 2];
      } else if i + 2 < |p| {
        assert s[i] == p[i] && s[i + 1] == p[i + 1] && s[i + 2] == p[i + 2];
      } else {
        assert s[|p| - 1] == p[|p| - 1] && s[|p|] == q[0];
      }
    }
  }

  /** A slice of a text without triple newlines has none. */
  lemma NoTripleSlice(s: string, a: nat, b: nat)
    requires a <= b <= |s| && NoTripleNewline(s)
    ensures NoTripleNewline(s[a..b])
  {
    var t := s[a..b];
    forall i | 0 <= i < |t| - 2
      ensures !(t[i] == '\n' && t[i + 1] == '\n' && t[i + 2] == '\n')
    {
      assert t[i] == s[a + i] && t[i + 1] == s[a + i + 1] && t[i + 2] == s[a + i + 2];
    }
  }

  /** Text with a single newline between two newline-free lines has no triple newline. */
  lemma OneNewline(x: string, y: string)
    requires '\n' !in x && '\n' !in y
    ensures NoTripleNewline(x + "\n" + y)
  {
    assert NoTripleNewline(x) by {
      forall i | 0 <= i < |x| - 2 ensures x[i] != '\n' {
        assert x[i] in x;
      }
    }
    assert NoTripleNewline(y) by {
      forall i | 0 <= i < |y| - 2 ensures y[i] != '\n' {
        assert y[i] in y;
      }
    }
    if x != [] {
      assert x[|x| - 1] in x;
    }
    NoTripleJoin(x, "\n");
    if y != [] {
      assert y[0] in y;
    }
    NoTripleJoin(x + "\n", y);
  }

  /** `replace(/\n{3,}/g, '\n\n')`: every run of three or more newlines becomes two. */
  function CollapseNewlines(s: string): (r: string)
    ensures NoTripleNewline(r)
    ensures s == [] ==> r == []
    ensures s != [] && s[0] != '\n' ==> r != [] && r[0] == s[0]
    decreases |s|
  {
    if s == [] then []
    else if s[0] == '\n' then
      var n := NewlineRun(s, 0);
      var run := if n >= 3 then "\n\n" else s[..n];
      var rest := CollapseNewlines(s[n..]);
      assert NoTripleNewline(run);
      NoTripleJoin(run, rest);
      run + rest
    else
      var rest := CollapseNewlines(s[1..]);
      NoTripleJoin([s[0]], rest);
      [s[0]] + rest
  }

  lemma LongNewlineRun(s: string)
    requires |s| >= 3
    ensures NewlineRun(s, 0) >= 3 ==> s[0] == '\n' && s[1] == '\n' && s[2] == '\n'
  {
  }

  /** Text without a run of three newlines is not changed by collapsing. */
  lemma {:induction false} CollapseUnchanged(s: string)
    requires NoTripleNewline(s)
    ensures CollapseNewlines(s) == s
    decreases |s|
  {
    if s != [] {
      if s[0] == '\n' {
        var n := NewlineRun(s, 0);
        if |s| >= 3 {
          LongNewlineRun(s);
        }
        NoTripleSlice(s, n, |s|);
        CollapseUnchanged(s[n..]);
        assert s[..n] + s[n..] == s;
      } else {
        NoTripleSlice(s, 1, |s|);
        CollapseUnchanged(s[1..]);
        assert [s[0]] + s[1..] == s;
      }
    }
  }

  predicate NotNewline(c: char) {
    c != '\n'
  }

  /** `n` newlines. */
  function Newlines(n: nat): (r: string)
    ensures |r| == n && forall i | 0 <= i < n :: r[i] == '\n'
  {
    seq(n, _ => '\n')
  }

  /** Collapsing removes newlines only: every other character is kept, in order. */
  lemma {:induction false} CollapseKeepsText(s: string)
    ensures Filter(CollapseNewlines(s), NotNewline) == Filter(s, NotNewline)
    decreases |s|
  {
    if s != [] {
      if s[0] == '\n' {
        var n := NewlineRun(s, 0);
        CollapseKeepsText(s[n..]);
        KeepsTextAfterRun(n, s[n..]);
        SplitAtRun(s);
      } else {
        CollapseKeepsText(s[1..]);
        KeepsTextAfterChar(s[0], s[1..]);
        SplitAtHead(s);
      }
    }
  }

  lemma SplitAtRun(s: string)
    requires s != [] && s[0] == '\n'
    ensures Newlines(NewlineRun(s, 0)) + s[NewlineRun(s, 0)..] == s
  {
    var n := NewlineRun(s, 0);
    assert s[..n] == Newlines(n);
    assert s[..n] + s[n..] == s;
  }

  lemma SplitAtHead(s: string)
    requires s != []
    ensures [s[0]] + s[1..] == s
  {
  }

  lemma KeepsTextAfterRun(n: nat, rest: string)
    requires n >= 1
    requires rest == [] || rest[0] != '\n'
    requires Filter(CollapseNewlines(rest), NotNewline) == Filter(rest, NotNewline)
    ensures Filter(CollapseNewlines(Newlines(n) + rest), NotNewline) == Filter(Newlines(n) + rest, NotNewline)
  {
    CollapseRun(n, rest);
    FilterSkipsNewlines(if n >= 3 then "\n\n" else Newlines(n), CollapseNewlines(rest));
    FilterSkipsNewlines(Newlines(n), rest);
  }

  lemma KeepsTextAfterChar(c: char, rest: string)
    requires c != '\n'
    requires Filter(CollapseNewlines(rest), NotNewline) == Filter(rest, NotNewline)
    ensures Filter(CollapseNewlines([c] + rest), NotNewline) == Filter([c] + rest, NotNewline)
  {
    assert ([c] + rest)[1..] == rest;
    FilterConcat([c], CollapseNewlines(rest), NotNewline);
    FilterConcat([c], rest, NotNewline);
  }

  lemma FilterSkipsNewlines(run: string, rest: string)
    requires forall i | 0 <= i < |run| :: run[i] == '\n'
    ensures Filter(run + rest, NotNewline) == Filter(rest, NotNewline)
  {
    FilterConcat(run, rest, NotNewline);
    FilterNone(run, NotNewline);
  }

  /** A run of `n` newlines ended by another character or by the end of the text
      becomes two newlines when `n` is three or more, and is kept otherwise. */
  lemma CollapseRun(n: nat, rest: string)
    requires n >= 1
    requires rest == [] || rest[0] != '\n'
    ensures CollapseNewlines(Newlines(n) + rest) ==
      (if n >= 3 then "\n\n" else Newlines(n)) + CollapseNewlines(rest)
  {
    var s := Newlines(n) + rest;
    NewlineRunEnds(s, 0, n);
    assert s[..n] == Newlines(n) && s[n..] == rest;
  }

  lemma {:induction false} NewlineRunEnds(s: string, i: nat, n: nat)
    requires i <= n <= |s|
    requires forall k | i <= k < n :: s[k] == '\n'
    requires n == |s| || s[n] != '\n'
    ensures NewlineRun(s, i) == n
    decreases n - i
  {
    if i < n {
      NewlineRunEnds(s, i + 1, n);
    }
  }

  /** Three or more newlines between two words leave exactly one blank line. */
  lemma CollapseBetweenWords(a: char, b: char, n: nat)
    requires a != '\n' && b != '\n' && n >= 3
    ensures CollapseNewlines([a] + Newlines(n) + [b]) == [a, '\n', '\n', b]
  {
    var s := [a] + Newlines(n) + [b];
    assert s[1..] == Newlines(n) + [b];
    CollapseRun(n, [b]);
    assert CollapseNewlines([b]) == [b] by {
      assert [b][1..] == [];
    }
  }

  /** Trimming keeps a text free of triple newlines. */
  lemma TrimNoTriple(s: string)
    requires NoTripleNewline(s)
    ensures NoTripleNewline(Trim(s))
  {
    var t := TrimStart(s);
    NoTripleSlice(s, |s| - |t|, |s|);
    NoTripleSlice(t, 0, |TrimEnd(t)|);
  }

  // ---------------------------------------------------------------- whole text

  /** `normalizeMentorSummary` with the given glyph. A value that is not a
      string (`None`) gives the empty text; blank text comes back as it was. */
  function NormalizeWith(glyph: string, text: Option<string>): (r: string)
    ensures text.None? ==> r == ""
    ensures text.Some? && IsBlank(text.value) ==> r == text.value
    ensures text.Some? && !IsBlank(text.value) ==> Unpadded(r) && NoTripleNewline(r)
  {
    var raw := if text.Some? then text.value else "";
    if IsBlank(raw) then raw
    else
      var collapsed := CollapseNewlines(Join(NormalizeLines(glyph, Split(raw, '\n')), "\n"));
      TrimNoTriple(collapsed);
      Trim(collapsed)
  }

  /** The normaliser as the source spells it; the service uses this one. */
  function NormalizeMentorSummaryAsWritten(text: Option<string>): (r: string)
    ensures text.None? ==> r == ""
    ensures text.Some? && IsBlank(text.value) ==> r == text.value
    ensures text.Some? && !IsBlank(text.value) ==> Unpadded(r) && NoTripleNewline(r)
  {
    NormalizeWith(MojibakeGlyph, text)
  }

  /** The normaliser with the glyph it means. */
  function NormalizeMentorSummary(text: Option<string>): (r: string)
    ensures text.None? ==> r == ""
    ensures text.Some? && IsBlank(text.value) ==> r == text.value
    ensures text.Some? && !IsBlank(text.value) ==> Unpadded(r) && NoTripleNewline(r)
  {
    NormalizeWith(BulletGlyph, text)
  }

  /** A trimmed text whose lines no rule touches and which has no triple newline is returned unchanged. */
  lemma NormalizeUnchanged(glyph: string, text: string)
    requires !IsBlank(text) && Unpadded(text) && NoTripleNewline(text)
    requires forall i | 0 <= i < |Split(text, '\n')| :: NormalizeLine(glyph, Split(text, '\n')[i]) == Split(text, '\n')[i]
    ensures NormalizeWith(glyph, Some(text)) == text
  {
    var lines := Split(text, '\n');
    assert NormalizeLines(glyph, lines) == lines;
    SplitJoin(text, '\n');
    CollapseUnchanged(text);
    TrimUnpadded(text);
  }

  /** A line of prose: trimmed, without newlines, and led by neither a hyphen nor either glyph. */
  predicate Prose(s: string) {
    s != [] && Unpadded(s) && '\n' !in s && s[0] != '-' && s[0] != BulletGlyph[0] && s[0] != MojibakeGlyph[0]
  }

  /** A bullet item: trimmed, non-empty and without newlines. */
  predicate Item(s: string) {
    s != [] && Unpadded(s) && '\n' !in s
  }

  /** An intro line followed by a line led by the U+2022 bullet. */
  function BulletedText(intro: string, item: string): string {
    intro + "\n" + (BulletGlyph + (" " + item))
  }

  lemma Unindented(s: string)
    requires s != [] && !IsSpace(s[0])
    ensures TrimStart(s) == s
  {
  }

  lemma BulletedSplit(intro: string, item: string)
    requires Prose(intro) && Item(item)
    ensures Split(BulletedText(intro, item), '\n') == [intro, BulletGlyph + (" " + item)]
  {
    var line := BulletGlyph + (" " + item);
    assert '\n' !in line;
    assert Join([intro, line], "\n") == BulletedText(intro, item);
    SplitOfJoin([intro, line], '\n');
  }

  lemma BulletedPadding(intro: string, item: string)
    requires Prose(intro) && Item(item)
    ensures !IsBlank(BulletedText(intro, item)) && Unpadded(BulletedText(intro, item))
    ensures NoTripleNewline(BulletedText(intro, item))
  {
    var s := BulletedText(intro, item);
    var line := BulletGlyph + (" " + item);
    assert s[0] == intro[0] && s[|s| - 1] == item[|item| - 1];
    assert '\n' !in line;
    OneNewline(intro, line);
  }

  /** Prose lines are left alone by either normaliser. */
  lemma ProseUnchanged(glyph: string, intro: string)
    requires glyph == BulletGlyph || glyph == MojibakeGlyph
    requires Prose(intro)
    ensures NormalizeLine(glyph, intro) == intro
  {
    Unindented(intro);
    PlainLine(glyph, intro);
  }

  /** The normaliser as written leaves a line led by the U+2022 bullet alone. */
  lemma MojibakeMissesBullet(item: string)
    ensures NormalizeLine(MojibakeGlyph, BulletGlyph + (" " + item)) == BulletGlyph + (" " + item)
  {
    var line := BulletGlyph + (" " + item);
    assert line[0] == BulletGlyph[0];
    Unindented(line);
    PlainLine(MojibakeGlyph, line);
  }

  /** As written, a line led by the U+2022 bullet is not converted: the text comes back unchanged. */
  lemma AsWrittenKeepsBullet(intro: string, item: string)
    requires Prose(intro) && Item(item)
    ensures NormalizeMentorSummaryAsWritten(Some(BulletedText(intro, item))) == BulletedText(intro, item)
  {
    var text := BulletedText(intro, item);
    var line := BulletGlyph + (" " + item);
    BulletedSplit(intro, item);
    var lines := Split(text, '\n');
    forall i | 0 <= i < |lines|
      ensures NormalizeLine(MojibakeGlyph, lines[i]) == lines[i]
    {
      if i == 0 {
        ProseUnchanged(MojibakeGlyph, intro);
      } else {
        MojibakeMissesBullet(item);
      }
    }
    BulletedPadding(intro, item);
    NormalizeUnchanged(MojibakeGlyph, text);
  }

  /** The corrected normaliser turns a line led by the U+2022 bullet into a `- ` bullet. */
  lemma BulletConverted(item: string)
    requires Item(item)
    ensures NormalizeLine(BulletGlyph, BulletGlyph + (" " + item)) == "- " + item
  {
    assert "" + (BulletGlyph + (" " + item)) == BulletGlyph + (" " + item);
    GlyphLine(BulletGlyph, "", " ", item);
  }

  lemma CorrectedLines(intro: string, item: string)
    requires Prose(intro) && Item(item)
    ensures NormalizeLines(BulletGlyph, [intro, BulletGlyph + (" " + item)]) == [intro, "- " + item]
  {
    TwoLines(BulletGlyph, intro, BulletGlyph + (" " + item));
    ProseUnchanged(BulletGlyph, intro);
    BulletConverted(item);
  }

  lemma TwoLines(glyph: string, a: string, b: string)
    ensures NormalizeLines(glyph, [a, b]) == [NormalizeLine(glyph, a), NormalizeLine(glyph, b)]
  {
    var r := NormalizeLines(glyph, [a, b]);
    assert r[0] == NormalizeLine(glyph, a);
    assert r[1] == NormalizeLine(glyph, b);
  }

  /** With the intended glyph the bullet line becomes `- item`. */
  lemma CorrectedConvertsBullet(intro: string, item: string)
    requires Prose(intro) && Item(item)
    ensures NormalizeMentorSummary(Some(BulletedText(intro, item))) == intro + "\n" + ("- " + item)
  {
    var joined := intro + "\n" + ("- " + item);
    assert Join([intro, "- " + item], "\n") == joined;
    assert '\n' !in "- " + item;
    assert joined[0] == intro[0] && joined[|joined| - 1] == item[|item| - 1];
    OneNewline(intro, "- " + item);
    CollapseUnchanged(joined);
    TrimUnpadded(joined);
    CorrectedLines(intro, item);
    BulletedSplit(intro, item);
    BulletedPadding(intro, item);
  }
}

=== FILE: ollama.dfy ===
/** The inference gateway: URL joining, the body of an Ollama `/api/generate`
    request, the retry loop around the HTTP POST, and the way each service
    operation turns a reply or a failure into its result. The HTTP client and
    the timer are a `Transport` object that records what it was asked to do;
    what each POST returns is fixed in advance by its `outcome` function. */
module Ollama {
  import opened Wrappers
  import opened JsText
  import opened JsNumber
  import opened JsonValue
  import opened AiConfig
  import opened Validators
  import opened Parsers
  import opened MentorSummary
  import opened Profile

  const GenerateEndpoint := "/api/generate"

  const GenerateFailed := "Failed to generate biography from Ollama"
  const MentorSummaryFailed := "Failed to generate mentor summary from Ollama"
  const KeywordsFailed := "Failed to extract keywords from Ollama"
  const RefineFailed := "Failed to refine biography with Ollama"

  // ---------------------------------------------------------------- URL and body

  /** `String(baseUrl).replace(/\/$/, '')`: one trailing slash at most is removed. */
  function StripTrailingSlash(base: string): (r: string)
    ensures EndsWith(base, "/") ==> |r| == |base| - 1
    ensures !EndsWith(base, "/") ==> r == base
    ensures r == base[..|r|]
  {
    if EndsWith(base, "/") then base[..|base| - 1] else base
  }

  /** `joinUrl`: the base without one trailing slash, then the path with a leading slash. */
  function JoinUrl(base: string, path: string): (r: string)
    ensures EndsWith(r, path)
    ensures StartsWith(r, StripTrailingSlash(base))
    ensures |r| - |path| - |StripTrailingSlash(base)| == if StartsWith(path, "/") then 0 else 1
    ensures !StartsWith(path, "/") ==> r[|StripTrailingSlash(base)|] == '/'
  {
    var head := StripTrailingSlash(base);
    var tail := if StartsWith(path, "/") then path else "/" + path;
    assert (head + tail)[..|head|] == head;
    assert (head + tail)[|head + tail| - |path|..] == path;
    head + tail
  }

  /** One trailing slash on the base does not change the URL. */
  lemma JoinUrlBaseSlash(base: string, path: string)
    requires !EndsWith(base, "/")
    ensures JoinUrl(base + "/", path) == JoinUrl(base, path)
  {
    assert EndsWith(base + "/", "/");
    assert (base + "/")[..|base|] == base;
  }

  /** Neither slash present: exactly one is inserted. */
  lemma JoinUrlInsertsSlash(base: string, path: string)
    requires !EndsWith(base, "/") && !StartsWith(path, "/")
    ensures JoinUrl(base, path) == base + "/" + path
  {
  }

  /** A leading slash on the path does not change the URL. */
  lemma JoinUrlPathSlash(base: string, path: string)
    requires !StartsWith(path, "/")
    ensures JoinUrl(base, "/" + path) == JoinUrl(base, path)
  {
    assert StartsWith("/" + path, "/");
  }

  /** The `options` object of a generate request; `numPredict` is `num_predict`. */
  datatype GenerateOptions = GenerateOptions(temperature: Option<real>, numPredict: Option<int>)

  datatype GenerateBody = GenerateBody(model: string, prompt: string, stream: bool, options: Option<GenerateOptions>)

  /** `buildOllamaGenerateBody`: streaming is off; `options` is present only
      when it has a key, and `maxTokens` travels as `num_predict`. */
  function BuildGenerateBody(model: string, prompt: string, temperature: Option<real>, maxTokens: Option<int>): (r: GenerateBody)
    ensures r.model == model && r.prompt == prompt && !r.stream
    ensures r.options.Some? <==> temperature.Some? || maxTokens.Some?
    ensures r.options.Some? ==> r.options.value.temperature == temperature && r.options.value.numPredict == maxTokens
  {
    var options := GenerateOptions(temperature, maxTokens);
    GenerateBody(model, prompt, false, if temperature.Some? || maxTokens.Some? then Some(options) else None)
  }

  // ---------------------------------------------------------------- retries

  /** A failed POST: `status` is `error.response.status`, `None` when no response came back. */
  datatype HttpFailure = HttpFailure(response: Option<int>)

  datatype Outcome = Answered(data: Json) | Failed(failure: HttpFailure)

  /** `shouldRetryError`: no error is not retried, a missing response is, and
      otherwise only server errors are. */
  predicate ShouldRetryError(error: Option<HttpFailure>) {
    error.Some? && (error.value.response.None? || error.value.response.value >= 500)
  }

  lemma RetryClassification(error: Option<HttpFailure>)
    ensures error.None? ==> !ShouldRetryError(error)
    ensures error.Some? && error.value.response.None? ==> ShouldRetryError(error)
    ensures error.Some? && error.value.response.Some? ==> (ShouldRetryError(error) <==> error.value.response.value >= 500)
  {
  }

  /** One call of the HTTP client: `timeout` is `None` when no config argument was passed. */
  datatype PostRecord = PostRecord(url: string, body: GenerateBody, timeout: Option<int>)

  /** The HTTP client and the timer. */
  class Transport {
    /** What the n-th POST made through this client returns. */
    const outcome: nat -> Outcome
    var posts: seq<PostRecord>
    var sleeps: seq<int>

    constructor(outcome: nat -> Outcome)
      ensures this.outcome == outcome && posts == [] && sleeps == []
    {
      this.outcome := outcome;
      posts := [];
      sleeps := [];
    }

    method Post(url: string, body: GenerateBody, timeout: Option<int>) returns (o: Outcome)
      modifies this`posts
      ensures posts == old(posts) + [PostRecord(url, body, timeout)]
      ensures o == outcome(|old(posts)|)
    {
      o := outcome(|posts|);
      posts := posts + [PostRecord(url, body, timeout)];
    }

    method Sleep(ms: int)
      modifies this`sleeps
      ensures sleeps == old(sleeps) + [ms]
    {
      sleeps := sleeps + [ms];
    }

    /** The answer to the latest POST. */
    function LastOutcome(): Outcome
      requires posts != []
      reads this
    {
      outcome(|posts| - 1)
    }
  }

  /** Whether the loop ends after the attempt numbered `attempt` (from 0) got `o`. */
  predicate Stops(o: Outcome, attempt: nat, maxRetries: int) {
    o.Answered? || attempt >= maxRetries || !ShouldRetryError(Some(o.failure))
  }

  /** Whether the loop ends at attempt `attempt` of a call that began after `start` POSTs. */
  predicate StopsAt(outcome: nat -> Outcome, start: nat, attempt: nat, maxRetries: int) {
    Stops(outcome(start + attempt), attempt, maxRetries)
  }

  /** How many POSTs the loop makes from attempt `attempt` on, when the client
      has made `start` POSTs before the loop began. */
  function AttemptsFrom(outcome: nat -> Outcome, start: nat, attempt: nat, maxRetries: int): (n: nat)
    ensures 1 <= n <= (if maxRetries > attempt then maxRetries - attempt else 0) + 1
    ensures StopsAt(outcome, start, attempt + n - 1, maxRetries)
    ensures forall k | attempt <= k < attempt + n - 1 :: !StopsAt(outcome, start, k, maxRetries)
    decreases if maxRetries > attempt then maxRetries - attempt else 0
  {
    if StopsAt(outcome, start, attempt, maxRetries) then 1
    else 1 + AttemptsFrom(outcome, start, attempt + 1, maxRetries)
  }

  /** The loop runs until the first attempt at which it stops. */
  lemma AttemptsAt(outcome: nat -> Outcome, start: nat, stop: nat, maxRetries: int)
    requires forall k | 0 <= k < stop :: !StopsAt(outcome, start, k, maxRetries)
    requires StopsAt(outcome, start, stop, maxRetries)
    ensures Attempts(outcome, start, maxRetries) == stop + 1
  {
  }

  /** The number of POSTs one call of `postWithRetry` makes. */
  function Attempts(outcome: nat -> Outcome, start: nat, maxRetries: int): (n: nat)
    ensures 1 <= n <= (if maxRetries > 0 then maxRetries else 0) + 1
  {
    AttemptsFrom(outcome, start, 0, maxRetries)
  }

  function MaxRetriesOf(retry: Option<RetryConfig>): int {
    if retry.Some? then retry.value.maxRetries else DefaultMaxRetries
  }

  function InitialDelayOf(retry: Option<RetryConfig>): int {
    if retry.Some? then retry.value.initialDelayMs else DefaultInitialDelayMs
  }

  function MultiplierOf(retry: Option<RetryConfig>): real {
    if retry.Some? then retry.value.backoffMultiplier else DefaultBackoffMultiplier
  }

  /** The delay before retry number `k + 1`: `round(initial * multiplier^k)`. */
  function Backoff(initial: int, multiplier: real, k: nat): int {
    Round(initial as real * RealPow(multiplier, k))
  }

  /** The sleeps before the first `count` retries. */
  function BackoffDelays(initial: int, multiplier: real, count: nat): (r: seq<int>)
    ensures |r| == count
    ensures forall k | 0 <= k < count :: r[k] == Backoff(initial, multiplier, k)
  {
    seq(count, k requires 0 <= k < count => Backoff(initial, multiplier, k))
  }

  lemma {:induction false} RealPowAtLeastOne(x: real, n: nat)
    requires x >= 1.0
    ensures RealPow(x, n) >= 1.0
  {
    if n > 0 {
      RealPowAtLeastOne(x, n - 1);
    }
  }

  /** With a non-negative first delay and a multiplier of at least one, the delays never shrink. */
  lemma BackoffNondecreasing(initial: int, multiplier: real, count: nat)
    requires initial >= 0 && multiplier >= 1.0
    ensures forall j, k | 0 <= j <= k < count ::
      BackoffDelays(initial, multiplier, count)[j] <= BackoffDelays(initial, multiplier, count)[k]
  {
    forall j, k | 0 <= j <= k < count
      ensures Backoff(initial, multiplier, j) <= Backoff(initial, multiplier, k)
    {
      BackoffMonotone(initial, multiplier, j, k);
    }
  }

  lemma {:induction false} BackoffMonotone(initial: int, multiplier: real, j: nat, k: nat)
    requires initial >= 0 && multiplier >= 1.0 && j <= k
    ensures Backoff(initial, multiplier, j) <= Backoff(initial, multiplier, k)
    decreases k - j
  {
    if j < k {
      BackoffMonotone(initial, multiplier, j, k - 1);
      RealPowAtLeastOne(multiplier, k - 1);
      var p := RealPow(multiplier, k - 1);
      var a := initial as real;
      assert RealPow(multiplier, k) == multiplier * p;
      NonnegativeProduct(multiplier - 1.0, p);
      NonnegativeProduct(a, multiplier * p - p);
      assert a * (multiplier * p) - a * p == a * (multiplier * p - p);
      RoundMonotone(a * p, a * (multiplier * p));
    }
  }

  lemma NonnegativeProduct(x: real, y: real)
    requires x >= 0.0 && y >= 0.0
    ensures x * y >= 0.0
  {
  }

  lemma RoundMonotone(x: real, y: real)
    requires x <= y
    ensures Round(x) <= Round(y)
  {
  }

  function Repeat<T>(x: T, n: nat): (r: seq<T>)
    ensures |r| == n && forall i | 0 <= i < n :: r[i] == x
  {
    seq(n, _ => x)
  }

  lemma RepeatStep<T>(before: seq<T>, x: T, n: nat)
    ensures before + Repeat(x, n) + [x] == before + Repeat(x, n + 1)
  {
    assert Repeat(x, n) + [x] == Repeat(x, n + 1);
  }

  /** What one call of `postWithRetry` leaves behind: `n` identical POSTs and
      the `n - 1` back-off sleeps between them. */
  twostate predicate Exchanged(transport: Transport, request: PostRecord, retry: Option<RetryConfig>)
    reads transport
  {
    var n := Attempts(transport.outcome, |old(transport.posts)|, MaxRetriesOf(retry));
    && transport.posts == old(transport.posts) + Repeat(request, n)
    && transport.sleeps == old(transport.sleeps) + BackoffDelays(InitialDelayOf(retry), MultiplierOf(retry), n - 1)
  }

  /** `postWithRetry`: the POST is repeated while it fails with a retryable
      error and retries remain, sleeping the back-off delay before each retry;
      the last outcome is the result (a failure is rethrown). */
  method PostWithRetry(transport: Transport, url: string, body: GenerateBody, timeout: Option<int>,
                       retry: Option<RetryConfig>) returns (r: Outcome)
    modifies transport`posts, transport`sleeps
    ensures Exchanged(transport, PostRecord(url, body, timeout), retry)
    ensures transport.posts != [] && r == transport.LastOutcome()
  {
    var maxRetries := MaxRetriesOf(retry);
    var initialDelayMs := InitialDelayOf(retry);
    var backoffMultiplier := MultiplierOf(retry);
    ghost var start := |transport.posts|;
    ghost var request := PostRecord(url, body, timeout);
    var attempt: nat := 0;
    while true
      invariant attempt == 0 || attempt <= maxRetries
      invariant |transport.posts| == start + attempt
      invariant transport.posts == old(transport.posts) + Repeat(request, attempt)
      invariant transport.sleeps == old(transport.sleeps) + BackoffDelays(initialDelayMs, backoffMultiplier, attempt)
      invariant forall k | 0 <= k < attempt :: !StopsAt(transport.outcome, start, k, maxRetries)
      decreases if maxRetries > attempt then maxRetries - attempt else 0
    {
      r := transport.Post(url, body, timeout);
      RepeatStep(old(transport.posts), request, attempt);
      if r.Answered? || attempt >= maxRetries || !ShouldRetryError(Some(r.failure)) {
        AttemptsAt(transport.outcome, start, attempt, maxRetries);
        return;
      }
      attempt := attempt + 1;
      var delayMs := Backoff(initialDelayMs, backoffMultiplier, attempt - 1);
      transport.Sleep(delayMs);
      BackoffDelaysStep(old(transport.sleeps), initialDelayMs, backoffMultiplier, attempt - 1);
    }
  }

  lemma BackoffDelaysStep(before: seq<int>, initial: int, multiplier: real, n: nat)
    ensures before + BackoffDelays(initial, multiplier, n) + [Backoff(initial, multiplier, n)]
         == before + BackoffDelays(initial, multiplier, n + 1)
  {
    assert BackoffDelays(initial, multiplier, n) + [Backoff(initial, multiplier, n)] == BackoffDelays(initial, multiplier, n + 1);
  }

  /** With the default settings exactly one POST is made and nothing sleeps. */
  lemma DefaultsPostOnce(outcome: nat -> Outcome, start: nat)
    ensures Attempts(outcome, start, MaxRetriesOf(None)) == 1
    ensures BackoffDelays(InitialDelayOf(None), MultiplierOf(None), 0) == []
  {
  }

  /** A non-retryable failure ends the loop at once, without a sleep. */
  lemma NonRetryableStopsAtOnce(outcome: nat -> Outcome, start: nat, maxRetries: int)
    requires outcome(start).Failed? && !ShouldRetryError(Some(outcome(start).failure))
    ensures Attempts(outcome, start, maxRetries) == 1
  {
  }

  /** The POST numbered `attempt` of the call failed with a retryable error. */
  predicate RetryableAt(outcome: nat -> Outcome, start: nat, attempt: nat) {
    outcome(start + attempt).Failed? && ShouldRetryError(Some(outcome(start + attempt).failure))
  }

  /** Retryable failures all the way: every retry is used. */
  lemma {:induction false} PersistentFailureUsesAllRetries(outcome: nat -> Outcome, start: nat, attempt: nat, maxRetries: int)
    requires attempt <= maxRetries
    requires forall k | attempt <= k <= maxRetries :: RetryableAt(outcome, start, k)
    ensures AttemptsFrom(outcome, start, attempt, maxRetries) == maxRetries - attempt + 1
    decreases maxRetries - attempt
  {
    assert RetryableAt(outcome, start, attempt);
    if attempt < maxRetries {
      PersistentFailureUsesAllRetries(outcome, start, attempt + 1, maxRetries);
    }
  }

  // ---------------------------------------------------------------- service operations

  /** Why a service operation threw: the settings could not be resolved (this
      error escapes unmapped, because the settings are read before the `try`),
      or the operation failed and its fixed message replaced the cause. */
  datatype ServiceError = ConfigFailure(message: string) | OperationFailed(message: string)

  /** The settings `getAIConfig()` returns when the cache held `cached`. */
  function ConfigFor(cached: Option<AIConfig>, env: Env, urlParses: string -> bool): Result<AIConfig, string> {
    if cached.Some? then Success(cached.value) else ResolveConfig(env, urlParses)
  }

  /** The request every operation sends with its prompt and generation settings. */
  function GenerateRequest(config: AIConfig, prompt: string, temperature: Option<real>, maxTokens: Option<int>): PostRecord {
    PostRecord(JoinUrl(config.baseUrl, GenerateEndpoint), BuildGenerateBody(config.model, prompt, temperature, maxTokens),
               config.http.timeoutMs)
  }

  /** `response.data.response` when it is a string; `None` where reading or
      trimming it would throw. */
  function ResponseText(o: Outcome): (r: Option<string>)
    ensures r.Some? ==> o.Answered? && Get(o.data, "response") == Some(JString(r.value))
  {
    if o.Answered? && Get(o.data, "response").Some? && Get(o.data, "response").value.JString? then
      Some(Get(o.data, "response").value.s)
    else None
  }

  /** `generateBiography` from the last outcome: the trimmed text, or the fixed message. */
  function BiographyResult(o: Outcome): (r: Result<string, ServiceError>)
    ensures r.Failure? <==> ResponseText(o).None?
    ensures r.Success? ==> r.value == Trim(ResponseText(o).value)
    ensures r.Failure? ==> r.error == OperationFailed(GenerateFailed)
  {
    match ResponseText(o)
    case Some(text) => Success(Trim(text))
    case None => Failure(OperationFailed(GenerateFailed))
  }

  /** Whether `response.data` can be read from: a reply whose `data` is null
      makes every `response.data.…` access throw. */
  predicate DataReadable(o: Outcome) {
    o.Answered? && !o.data.JNull?
  }

  /** `generateMentorSummary`, with the normaliser as the source spells it: a
      reply whose `response` is not a string normalises to the empty text, and
      a failed request or a null `data` gives the fixed message. */
  function MentorSummaryResult(o: Outcome): (r: Result<string, ServiceError>)
    ensures r.Failure? <==> !DataReadable(o)
    ensures r.Success? ==> r.value == NormalizeMentorSummaryAsWritten(ResponseText(o))
    ensures r.Success? && ResponseText(o).None? ==> r.value == ""
    ensures r.Failure? ==> r.error == OperationFailed(MentorSummaryFailed)
  {
    if !DataReadable(o) then Failure(OperationFailed(MentorSummaryFailed))
    else Success(NormalizeMentorSummaryAsWritten(ResponseText(o)))
  }

  /** `extractKeywords`: the comma-separated keywords of the reply. */
  function KeywordsResult(o: Outcome): (r: Result<seq<string>, ServiceError>)
    ensures r.Failure? <==> ResponseText(o).None?
    ensures r.Success? ==> r.value == ParseKeywords(ResponseText(o).value)
    ensures r.Failure? ==> r.error == OperationFailed(KeywordsFailed)
  {
    match ResponseText(o)
    case Some(text) => Success(ParseKeywords(text))
    case None => Failure(OperationFailed(KeywordsFailed))
  }

  /** `refineBiography`: the trimmed reply, refused when it is not valid
      biography text; the refusal is caught and replaced by the fixed message. */
  function RefineResult(o: Outcome): (r: Result<string, ServiceError>)
    ensures r.Success? <==> ResponseText(o).Some? && IsValidBiographyText(Trim(ResponseText(o).value))
    ensures r.Success? ==> r.value == Trim(ResponseText(o).value) && IsValidBiographyText(r.value)
    ensures r.Failure? ==> r.error == OperationFailed(RefineFailed)
  {
    match ResponseText(o)
    case Some(text) =>
      var refined := Trim(text);
      if IsValidBiographyText(refined) then Success(refined) else Failure(OperationFailed(RefineFailed))
    case None => Failure(OperationFailed(RefineFailed))
  }

  /** `proposeBiographyFieldUpdates`: `String(response || '').trim()`, or null
      when the request failed or `data` is null (the throw is caught); it never
      throws once the settings are resolved. */
  function ProposalResult(o: Outcome): (r: Option<string>)
    ensures r.None? <==> !DataReadable(o)
    ensures r.Some? ==> Unpadded(r.value)
    ensures r.Some? && !Truthy(Get(o.data, "response")) ==> r.value == ""
    ensures ResponseText(o).Some? ==> r == Some(Trim(ResponseText(o).value))
  {
    if !DataReadable(o) then None
    else
      var response := Get(o.data, "response");
      var text := if Truthy(response) then Text(response.value) else "";
      assert ResponseText(o).Some? ==> text == ResponseText(o).value by {
        if ResponseText(o).Some? {
          assert response == Some(JString(ResponseText(o).value));
        }
      }
      Some(Trim(text))
  }

  const ProposalTemperature := 0.0
  const ProposalMaxTokens := 400

  /** The prompt templates, fixed text around the interpolated values. */
  datatype Prompts = Prompts(
    biography: string -> string,
    mentorSummary: string -> string,
    keywords: string -> string,
    refinement: (string, string, string) -> string,
    fieldUpdates: (Updates, string) -> string)

  class OllamaService {
    const cache: ConfigCache
    const transport: Transport
    const prompts: Prompts

    constructor(cache: ConfigCache, transport: Transport, prompts: Prompts)
      ensures this.cache == cache && this.transport == transport && this.prompts == prompts
    {
      this.cache := cache;
      this.transport := transport;
      this.prompts := prompts;
    }

    /** The settings, then, when they resolved, the request with retries. */
    method Send(env: Env, urlParses: string -> bool, prompt: string, fixed: Option<(real, int)>)
      returns (config: Result<AIConfig, string>, o: Outcome)
      modifies cache, transport`posts, transport`sleeps
      ensures config == ConfigFor(old(cache.cached), env, urlParses)
      ensures config.Failure? ==> unchanged(transport)
      ensures config.Success? ==>
        var c := config.value;
        var temperature := if fixed.Some? then Some(fixed.value.0) else c.generation.temperature;
        var maxTokens := if fixed.Some? then Some(fixed.value.1) else c.generation.maxTokens;
        && Exchanged(transport, GenerateRequest(c, prompt, temperature, maxTokens), Some(c.retry))
        && transport.posts != [] && o == transport.LastOutcome()
    {
      config := cache.GetAIConfig(env, urlParses, false);
      o := Failed(HttpFailure(None));
      if config.Success? {
        var c := config.value;
        var url := JoinUrl(c.baseUrl, GenerateEndpoint);
        var temperature := if fixed.Some? then Some(fixed.value.0) else c.generation.temperature;
        var maxTokens := if fixed.Some? then Some(fixed.value.1) else c.generation.maxTokens;
        var body := BuildGenerateBody(c.model, prompt, temperature, maxTokens);
        o := PostWithRetry(transport, url, body, c.http.timeoutMs, Some(c.retry));
      }
    }

    /** `generateBiography(rawInput)`. */
    method GenerateBiography(env: Env, urlParses: string -> bool, rawInput: string) returns (r: Result<string, ServiceError>)
      modifies cache, transport`posts, transport`sleeps
      ensures var config := ConfigFor(old(cache.cached), env, urlParses);
        config.Failure? ==> r == Failure(ConfigFailure(config.error)) && unchanged(transport)
      ensures var config := ConfigFor(old(cache.cached), env, urlParses);
        config.Success? ==>
          && Exchanged(transport, GenerateRequest(config.value, prompts.biography(rawInput),
                config.value.generation.temperature, config.value.generation.maxTokens), Some(config.value.retry))
          && transport.posts != [] && r == BiographyResult(transport.LastOutcome())
    {
      var config, o := Send(env, urlParses, prompts.biography(rawInput), None);
      if config.Failure? {
        return Failure(ConfigFailure(config.error));
      }
      r := BiographyResult(o);
    }

    /** `generateMentorSummary(rawInput)`. */
    method GenerateMentorSummary(env: Env, urlParses: string -> bool, rawInput: string) returns (r: Result<string, ServiceError>)
      modifies cache, transport`posts, transport`sleeps
      ensures var config := ConfigFor(old(cache.cached), env, urlParses);
        config.Failure? ==> r == Failure(ConfigFailure(config.error)) && unchanged(transport)
      ensures var config := ConfigFor(old(cache.cached), env, urlParses);
        config.Success? ==>
          && Exchanged(transport, GenerateRequest(config.value, prompts.mentorSummary(rawInput),
                config.value.generation.temperature, config.value.generation.maxTokens), Some(config.value.retry))
          && transport.posts != [] && r == MentorSummaryResult(transport.LastOutcome())
    {
      var config, o := Send(env, urlParses, prompts.mentorSummary(rawInput), None);
      if config.Failure? {
        return Failure(ConfigFailure(config.error));
      }
      r := MentorSummaryResult(o);
    }

    /** `extractKeywords(text)`. */
    method ExtractKeywords(env: Env, urlParses: string -> bool, text: string) returns (r: Result<seq<string>, ServiceError>)
      modifies cache, transport`posts, transport`sleeps
      ensures var config := ConfigFor(old(cache.cached), env, urlParses);
        config.Failure? ==> r == Failure(ConfigFailure(config.error)) && unchanged(transport)
      ensures var config := ConfigFor(old(cache.cached), env, urlParses);
        config.Success? ==>
          && Exchanged(transport, GenerateRequest(config.value, prompts.keywords(text),
                config.value.generation.temperature, config.value.generation.maxTokens), Some(config.value.retry))
          && transport.posts != [] && r == KeywordsResult(transport.LastOutcome())
    {
      var config, o := Send(env, urlParses, prompts.keywords(text), None);
      if config.Failure? {
        return Failure(ConfigFailure(config.error));
      }
      r := KeywordsResult(o);
    }

    /** `proposeBiographyFieldUpdates(currentFields, userMessage)`: always at
        temperature 0 with at most 400 tokens. */
    method ProposeFieldUpdates(env: Env, urlParses: string -> bool, currentFields: Updates, userMessage: string)
      returns (r: Result<Option<string>, ServiceError>)
      modifies cache, transport`posts, transport`sleeps
      ensures var config := ConfigFor(old(cache.cached), env, urlParses);
        config.Failure? ==> r == Failure(ConfigFailure(config.error)) && unchanged(transport)
      ensures var config := ConfigFor(old(cache.cached), env, urlParses);
        config.Success? ==>
          && Exchanged(transport, GenerateRequest(config.value, prompts.fieldUpdates(currentFields, userMessage),
                Some(ProposalTemperature), Some(ProposalMaxTokens)), Some(config.value.retry))
          && transport.posts != [] && r == Success(ProposalResult(transport.LastOutcome()))
    {
      var config, o := Send(env, urlParses, prompts.fieldUpdates(currentFields, userMessage),
                            Some((ProposalTemperature, ProposalMaxTokens)));
      if config.Failure? {
        return Failure(ConfigFailure(config.error));
      }
      r := Success(ProposalResult(o));
    }

    /** `refineBiography(currentBiography, userMessage, conversationHistory)`:
        the history is rendered as a transcript for the prompt. */
    method RefineBiography(env: Env, urlParses: string -> bool, currentBiography: string, userMessage: string,
                           history: seq<ChatMessage>) returns (r: Result<string, ServiceError>)
      modifies cache, transport`posts, transport`sleeps
      ensures var config := ConfigFor(old(cache.cached), env, urlParses);
        config.Failure? ==> r == Failure(ConfigFailure(config.error)) && unchanged(transport)
      ensures var config := ConfigFor(old(cache.cached), env, urlParses);
        config.Success? ==>
          && Exchanged(transport, GenerateRequest(config.value,
                prompts.refinement(currentBiography, userMessage, BuildConversationContext(history)),
                config.value.generation.temperature, config.value.generation.maxTokens), Some(config.value.retry))
          && transport.posts != [] && r == RefineResult(transport.LastOutcome())
    {
      var prompt := prompts.refinement(currentBiography, userMessage, BuildConversationContext(history));
      var config, o := Send(env, urlParses, prompt, None);
      if config.Failure? {
        return Failure(ConfigFailure(config.error));
      }
      r := RefineResult(o);
    }
  }
}

=== FILE: parsers.dfy ===
/** Parsing and formatting helpers: the comma-separated keyword reply, the
    conversation transcript handed to the model, and tag sanitising. */
module Parsers {
  import opened Wrappers
  import opened JsText
  import opened Sequences
  import opened Profile

  function TrimAll(parts: seq<string>): (r: seq<string>)
    ensures |r| == |parts|
    ensures forall i | 0 <= i < |r| :: r[i] == Trim(parts[i])
  {
    seq(|parts|, i requires 0 <= i < |parts| => Trim(parts[i]))
  }

  predicate NonEmpty(s: string) {
    s != []
  }

  // ---------------------------------------------------------------- keywords

  /** `parseKeywords`: trim, split on commas, trim each piece, drop the empty ones. */
  function ParseKeywords(response: string): (r: seq<string>)
    ensures IsSubsequence(r, TrimAll(Split(Trim(response), ',')))
  {
    Filter(TrimAll(Split(Trim(response), ',')), NonEmpty)
  }

  /** Every keyword is non-empty, trimmed and free of commas. */
  lemma KeywordClean(response: string, i: int)
    requires 0 <= i < |ParseKeywords(response)|
    ensures var k := ParseKeywords(response)[i]; k != [] && Unpadded(k) && ',' !in k
  {
    var pieces := Split(Trim(response), ',');
    var trimmed := TrimAll(pieces);
    var k := ParseKeywords(response)[i];
    assert k in trimmed && k != [];
    var j :| 0 <= j < |trimmed| && trimmed[j] == k;
    TrimChars(pieces[j]);
  }

  /** A reply made only of white space and commas holds no keyword. */
  lemma KeywordsOfBlank(response: string)
    requires forall k | 0 <= k < |response| :: IsSpace(response[k]) || response[k] == ','
    ensures ParseKeywords(response) == []
  {
    var t := Trim(response);
    var pieces := Split(t, ',');
    var trimmed := TrimAll(pieces);
    forall j | 0 <= j < |pieces|
      ensures trimmed[j] == []
    {
      forall k | 0 <= k < |pieces[j]|
        ensures IsSpace(pieces[j][k])
      {
        var c := pieces[j][k];
        SplitPieceChars(t, ',', j, c);
        TrimChars(response);
      }
    }
    FilterNone(trimmed, NonEmpty);
  }

  /** `parts` joined with `", "`, written as a join with `","` of pieces that carry the space. */
  function Spaced(keys: seq<string>): (r: seq<string>)
    requires keys != []
    ensures |r| == |keys| && r[0] == keys[0]
    ensures forall i | 1 <= i < |r| :: r[i] == " " + keys[i]
  {
    [keys[0]] + seq(|keys| - 1, i requires 0 <= i < |keys| - 1 => " " + keys[i + 1])
  }

  lemma {:induction false} JoinSpaced(keys: seq<string>)
    requires keys != []
    ensures Join(keys, ", ") == Join(Spaced(keys), ",")
    decreases |keys|
  {
    if |keys| > 1 {
      var sp := Spaced(keys);
      var tail := Spaced(keys[1..]);
      var j := Join(keys[1..], ", ");
      JoinSpaced(keys[1..]);
      assert Join(sp[1..], ",") == " " + j by {
        assert sp[1..] == [" " + tail[0]] + tail[1..];
        JoinSpacedStep(tail);
      }
      assert Join(sp, ",") == keys[0] + "," + Join(sp[1..], ",");
      assert Join(keys, ", ") == keys[0] + ", " + j;
      CommaSpace(keys[0], j);
    }
  }

  lemma CommaSpace(a: string, j: string)
    ensures a + ", " + j == a + "," + (" " + j)
  {
  }

  lemma JoinSpacedStep(tail: seq<string>)
    requires tail != []
    ensures Join([" " + tail[0]] + tail[1..], ",") == " " + Join(tail, ",")
  {
    var t := [" " + tail[0]] + tail[1..];
    assert t[1..] == tail[1..];
  }

  /** A join of unpadded, non-empty pieces starts and ends with them. */
  lemma {:induction false} JoinUnpadded(keys: seq<string>, sep: string)
    requires keys != [] && forall i | 0 <= i < |keys| :: keys[i] != [] && Unpadded(keys[i])
    ensures Unpadded(Join(keys, sep))
    ensures Join(keys, sep) != []
    ensures Join(keys, sep)[0] == keys[0][0]
    ensures Join(keys, sep)[|Join(keys, sep)| - 1] == keys[|keys| - 1][|keys[|keys| - 1]| - 1]
    decreases |keys|
  {
    if |keys| > 1 {
      JoinUnpadded(keys[1..], sep);
    }
  }

  lemma TrimSpacedAll(keys: seq<string>)
    requires keys != [] && forall i | 0 <= i < |keys| :: Unpadded(keys[i])
    ensures TrimAll(Spaced(keys)) == keys
  {
    var sp := Spaced(keys);
    forall i | 0 <= i < |sp|
      ensures Trim(sp[i]) == keys[i]
    {
      if i == 0 {
        TrimUnpadded(keys[0]);
      } else {
        TrimSpaced(keys[i]);
      }
    }
  }

  lemma SplitSpaced(keys: seq<string>)
    requires keys != [] && forall i | 0 <= i < |keys| :: ',' !in keys[i]
    ensures Split(Join(keys, ", "), ',') == Spaced(keys)
  {
    JoinSpaced(keys);
    var sp := Spaced(keys);
    forall i | 0 <= i < |sp|
      ensures ',' !in sp[i]
    {
      if i > 0 {
        assert sp[i] == " " + keys[i];
      }
    }
    SplitOfJoin(sp, ',');
  }

  /** Keywords written out with `", "` are read back unchanged. */
  lemma KeywordsRoundTrip(keys: seq<string>)
    requires forall i | 0 <= i < |keys| :: keys[i] != [] && Unpadded(keys[i]) && ',' !in keys[i]
    ensures ParseKeywords(Join(keys, ", ")) == keys
  {
    if keys == [] {
      assert Split("", ',') == [""];
      assert TrimAll([""]) == [""];
      assert Filter([""], NonEmpty) == [];
    } else {
      var text := Join(keys, ", ");
      JoinUnpadded(keys, ", ");
      TrimUnpadded(text);
      SplitSpaced(keys);
      TrimSpacedAll(keys);
      FilterAll(keys, NonEmpty);
    }
  }

  // ---------------------------------------------------------------- conversation context

  function Speaker(m: ChatMessage): string {
    if m.role == "user" then "User" else "Assistant"
  }

  function ContextLines(history: seq<ChatMessage>): (lines: seq<string>)
    ensures |lines| == |history|
    ensures forall i | 0 <= i < |lines| :: lines[i] == Speaker(history[i]) + ": " + history[i].content
  {
    seq(|history|, i requires 0 <= i < |history| => Speaker(history[i]) + ": " + history[i].content)
  }

  /** `buildConversationContext`: one `Speaker: content` line per message, joined with newlines. */
  function BuildConversationContext(history: seq<ChatMessage>): (r: string)
    ensures history == [] ==> r == ""
  {
    if history == [] then "" else Join(ContextLines(history), "\n")
  }

  /** With single-line messages the transcript splits back into one line per message. */
  lemma ContextLinesRecovered(history: seq<ChatMessage>)
    requires history != []
    requires forall i | 0 <= i < |history| :: '\n' !in history[i].content
    ensures Split(BuildConversationContext(history), '\n') == ContextLines(history)
  {
    var lines := ContextLines(history);
    forall i | 0 <= i < |lines|
      ensures '\n' !in lines[i]
    {
      assert lines[i] == Speaker(history[i]) + ": " + history[i].content;
    }
    SplitOfJoin(lines, '\n');
  }

  /** A transcript line starts with `User: ` exactly when its message came from the user. */
  lemma ContextLineSpeaker(history: seq<ChatMessage>, i: int)
    requires 0 <= i < |history|
    ensures StartsWith(ContextLines(history)[i], "User: ") <==> history[i].role == "user"
  {
    var line := ContextLines(history)[i];
    if history[i].role == "user" {
      assert line[..6] == "User: ";
    } else {
      assert line[0] == 'A';
    }
  }

  // ---------------------------------------------------------------- tags

  /** Each element trimmed; a value that is not a string (`None`) becomes empty. */
  function TagTexts(tags: seq<Option<string>>): (r: seq<string>)
    ensures |r| == |tags|
    ensures forall i | 0 <= i < |r| :: r[i] == (if tags[i].Some? then Trim(tags[i].value) else "")
  {
    seq(|tags|, i requires 0 <= i < |tags| => if tags[i].Some? then Trim(tags[i].value) else "")
  }

  /** The sanitised tags: trimmed, non-empty, each once, in order of first occurrence. */
  function SanitizeTags(tags: seq<Option<string>>): (r: seq<string>)
    ensures NoDuplicates(r)
  {
    Dedup(Filter(TagTexts(tags), NonEmpty))
  }

  /** Every sanitised tag is the non-empty trimmed text of some string element. */
  lemma SanitizedFromInput(tags: seq<Option<string>>, i: int)
    requires 0 <= i < |SanitizeTags(tags)|
    ensures var t := SanitizeTags(tags)[i];
            t != [] && Unpadded(t) && exists j | 0 <= j < |tags| :: tags[j].Some? && Trim(tags[j].value) == t
  {
    var texts := TagTexts(tags);
    var kept := Filter(texts, NonEmpty);
    var t := SanitizeTags(tags)[i];
    assert t in kept;
    var j :| 0 <= j < |texts| && texts[j] == t;
  }

  /** Every string element with non-blank text is kept, trimmed. */
  lemma InputSanitized(tags: seq<Option<string>>, j: int)
    requires 0 <= j < |tags| && tags[j].Some? && Trim(tags[j].value) != []
    ensures Trim(tags[j].value) in SanitizeTags(tags)
  {
    var texts := TagTexts(tags);
    var kept := Filter(texts, NonEmpty);
    assert texts[j] in kept;
    var k :| 0 <= k < |kept| && kept[k] == texts[j];
  }

  function TagMessage(tag: string): string {
    "Tag \"" + tag + "\" exceeds 50 characters"
  }

  /** One message per over-long tag, in order. */
  function LengthErrors(tags: seq<string>): (errors: seq<string>)
    ensures |errors| <= |tags|
    ensures errors == [] <==> forall i | 0 <= i < |tags| :: |tags[i]| <= 50
  {
    if tags == [] then []
    else
      var n := |tags| - 1;
      var prefix := LengthErrors(tags[..n]);
      assert forall i | 0 <= i < n :: tags[..n][i] == tags[i];
      prefix + (if |tags[n]| > 50 then [TagMessage(tags[n])] else [])
  }

  function CountErrors(count: nat): (errors: seq<string>)
    ensures errors == [] <==> 1 <= count <= 20
  {
    (if count == 0 then ["At least one tag is required"] else [])
    + (if count > 20 then ["Maximum 20 tags allowed"] else [])
  }

  /** The `forEach` over the sanitised tags: one message per over-long tag. */
  method AppendLengthErrors(errors: seq<string>, tags: seq<string>) returns (result: seq<string>)
    ensures result == errors + LengthErrors(tags)
  {
    result := errors;
    var i := 0;
    while i < |tags|
      invariant 0 <= i <= |tags|
      invariant result == errors + LengthErrors(tags[..i])
    {
      if |tags[i]| > 50 {
        result := result + [TagMessage(tags[i])];
      }
      assert tags[..i + 1][..i] == tags[..i];
      i := i + 1;
    }
    assert tags[..i] == tags;
  }

  /** `validateTags`. `tags` is `None` when the value is not an array. */
  method ValidateTags(tags: Option<seq<Option<string>>>) returns (valid: bool, sanitized: seq<string>, errors: seq<string>)
    ensures tags.None? ==> sanitized == [] && errors == ["Tags must be an array"]
    ensures tags.Some? ==> sanitized == SanitizeTags(tags.value)
                           && errors == CountErrors(|sanitized|) + LengthErrors(sanitized)
    ensures valid <==> tags.Some? && 1 <= |sanitized| <= 20 && forall i | 0 <= i < |sanitized| :: |sanitized[i]| <= 50
  {
    if tags.None? {
      valid, sanitized, errors := false, [], ["Tags must be an array"];
    } else {
      sanitized := SanitizeTags(tags.value);
      errors := AppendLengthErrors(CountErrors(|sanitized|), sanitized);
      valid := errors == [];
    }
  }
}

=== FILE: profile.dfy ===
/** The stored biography profile: its value parts (contact details, education
    and experience entries, history entries, a pending update) and the
    document itself, whose fields the route handlers assign in place. An
    absent optional field is `None`. */
module Profile {
  import opened Wrappers

  datatype ContactInfo = ContactInfo(email: Option<string>, phone: Option<string>, linkedin: Option<string>)

  const NoContactInfo := ContactInfo(None, None, None)

  datatype Education = Education(degree: Option<string>, university: Option<string>, year: Option<real>)

  datatype Experience = Experience(
    title: Option<string>,
    company: Option<string>,
    years: Option<string>,
    description: Option<string>)

  /** Where a history entry came from; the schema admits exactly these five. */
  datatype HistorySource = Initial | Chat | Manual | FieldUpdate | RegenerateKeywords

  /** One stored history entry. Keys the schema does not declare are not stored. */
  datatype HistoryEntry = HistoryEntry(
    biography: string,
    tags: seq<string>,
    userAddedTags: seq<string>,
    source: HistorySource,
    field: Option<string>,
    timestamp: int)

  /** A normalised set of proposed profile-field updates; `None` is an absent key. */
  datatype Updates = Updates(
    jobTitle: Option<string>,
    department: Option<string>,
    location: Option<string>,
    yearsExperience: Option<real>,
    businessFunction: Option<string>,
    businessFunctionOther: Option<string>,
    contactInfo: Option<ContactInfo>)

  const NoUpdates := Updates(None, None, None, None, None, None, None)

  /** The top-level keys of an update set, in the order the normaliser inserts them. */
  function UpdateKeys(u: Updates): (keys: seq<string>)
    ensures |keys| <= 7
    ensures keys == [] <==> u == NoUpdates
  {
    (if u.jobTitle.Some? then ["jobTitle"] else [])
    + (if u.department.Some? then ["department"] else [])
    + (if u.location.Some? then ["location"] else [])
    + (if u.yearsExperience.Some? then ["yearsExperience"] else [])
    + (if u.businessFunction.Some? then ["businessFunction"] else [])
    + (if u.businessFunctionOther.Some? then ["businessFunctionOther"] else [])
    + (if u.contactInfo.Some? then ["contactInfo"] else [])
  }

  /** A stored chat message; the schema admits the roles `user` and `assistant`. */
  datatype ChatMessage = ChatMessage(role: string, content: string)

  datatype PendingUpdate = PendingUpdate(updates: Updates, explanations: seq<string>, createdAt: int)

  /** A stored biography document. */
  class BiographyDoc {
    var jobTitle: Option<string>
    var department: Option<string>
    var businessFunction: Option<string>
    var businessFunctionOther: Option<string>
    var location: Option<string>
    var yearsExperience: Option<real>
    var contactInfo: Option<ContactInfo>
    var summary: Option<string>
    var mentorSummary: Option<string>
    var rawInput: Option<string>
    var currentBiography: string
    var experience: seq<Experience>
    var education: seq<Education>
    var skills: seq<string>
    var certifications: seq<string>
    var notableAchievements: seq<string>
    var tags: seq<string>
    var userAddedTags: seq<string>
    var manuallyManagedTags: bool
    var history: seq<HistoryEntry>
    var pendingUpdate: Option<PendingUpdate>

    /** A new document with the schema defaults. */
    constructor ()
      ensures jobTitle.None? && department.None? && businessFunction.None? && businessFunctionOther.None?
      ensures location.None? && yearsExperience.None? && contactInfo.None?
      ensures summary.None? && mentorSummary.None? && rawInput.None? && currentBiography == ""
      ensures experience == [] && education == [] && skills == [] && certifications == []
      ensures notableAchievements == [] && tags == [] && userAddedTags == []
      ensures !manuallyManagedTags && history == [] && pendingUpdate.None?
    {
      jobTitle := None;
      department := None;
      businessFunction := None;
      businessFunctionOther := None;
      location := None;
      yearsExperience := None;
      contactInfo := None;
      summary := None;
      mentorSummary := None;
      rawInput := None;
      currentBiography := "";
      experience := [];
      education := [];
      skills := [];
      certifications := [];
      notableAchievements := [];
      tags := [];
      userAddedTags := [];
      manuallyManagedTags := false;
      history := [];
      pendingUpdate := None;
    }

    /** `summary || ''`. */
    function SummaryText(): string
      reads this
    {
      match summary
      case Some(s) => s
      case None => ""
    }

    /** `currentBiography || summary || ''`. */
    function BiographyText(): string
      reads this
    {
      if currentBiography != "" then currentBiography else SummaryText()
    }
  }
}

=== FILE: prompt_builder.dfy ===
/** Assembly of a prompt from titled sections: an optional SYSTEM section, the
    TASK, the DATA sections in order, and the OUTPUT rules, each rendered as
    `### <title>` over its trimmed body and left out when that body is blank. */
module PromptBuilder {
  import opened Wrappers
  import opened JsText
  import opened Parsers
  import opened Sequences

  /** `clean`: `undefined`/`null` (here `None`) become the empty string; a string is trimmed. */
  function Clean(value: Option<string>): (r: string)
    ensures Unpadded(r)
    ensures value.None? ==> r == ""
    ensures value.Some? ==> |r| <= |value.value| && (r == "" <==> IsBlank(value.value))
  {
    if value.None? then "" else Trim(value.value)
  }

  /** The text of one rendered section. */
  function Section(title: string, content: string): string {
    "### " + title + "\n" + content
  }

  /** `pushSection`: appends the rendered section when the cleaned body is not empty. */
  function PushSection(parts: seq<string>, title: string, body: Option<string>): (r: seq<string>)
    ensures Clean(body) == "" ==> r == parts
    ensures Clean(body) != "" ==> r == parts + [Section(title, Clean(body))]
  {
    var content := Clean(body);
    if content == "" then parts else parts + [Section(title, content)]
  }

  datatype DataSection = DataSection(title: Option<string>, content: Option<string>)

  /** The arguments of `assemblePrompt`. `dataSections == None` stands for a
      value that is not an array; `includeSystemInPrompt == None` for an
      omitted flag, which defaults to true. */
  datatype PromptParams = PromptParams(
    system: Option<string>,
    task: Option<string>,
    dataSections: Option<seq<Option<DataSection>>>,
    outputRules: Option<string>,
    includeSystemInPrompt: Option<bool>)

  predicate IncludeSystem(p: PromptParams) {
    p.includeSystemInPrompt != Some(false)
  }

  /** A data section is used when it is present and both its title and its content are non-blank. */
  predicate Usable(section: Option<DataSection>) {
    section.Some? && Clean(section.value.title) != "" && Clean(section.value.content) != ""
  }

  /** The rendered text of a usable data section. */
  function DataText(section: Option<DataSection>): string
    requires Usable(section)
  {
    Section("DATA: " + Clean(section.value.title), Clean(section.value.content))
  }

  /** The parts one entry of `dataSections` contributes. */
  function DataPart(section: Option<DataSection>): seq<string> {
    if section.None? then []
    else
      var title := Clean(section.value.title);
      var content := Clean(section.value.content);
      if title == "" || content == "" then []
      else PushSection([], "DATA: " + title, Some(content))
  }

  /** The parts the data sections contribute, in order. */
  function DataParts(sections: seq<Option<DataSection>>): seq<string> {
    if sections == [] then []
    else DataParts(sections[..|sections| - 1]) + DataPart(sections[|sections| - 1])
  }

  lemma DataPartsStep(sections: seq<Option<DataSection>>, i: int)
    requires 0 <= i < |sections|
    ensures DataParts(sections[..i + 1]) == DataParts(sections[..i]) + DataPart(sections[i])
  {
    PrefixStep(sections, i);
  }

  /** The loop body of `assemblePrompt` appends exactly `DataPart(section)`. */
  lemma DataPartPush(parts: seq<string>, section: Option<DataSection>)
    ensures !Usable(section) ==> DataPart(section) == []
    ensures Usable(section) ==>
      PushSection(parts, "DATA: " + Clean(section.value.title), Some(Clean(section.value.content))) == parts + DataPart(section)
  {
    DataPartUsable(section);
    if Usable(section) {
      TrimUnpadded(Clean(section.value.content));
    }
  }

  /** The parts before the data sections. */
  function HeadParts(p: PromptParams): seq<string> {
    var parts := if IncludeSystem(p) then PushSection([], "SYSTEM", p.system) else [];
    PushSection(parts, "TASK", p.task)
  }

  /** Every part, in the order `assemblePrompt` pushes them. */
  function PromptParts(p: PromptParams): seq<string> {
    var data := if p.dataSections.Some? then DataParts(p.dataSections.value) else [];
    PushSection(HeadParts(p) + data, "OUTPUT", p.outputRules)
  }

  /** `assemblePrompt`. The closing trim never changes anything: the prompt is the parts joined by blank lines. */
  method AssemblePrompt(p: PromptParams) returns (prompt: string)
    ensures prompt == Join(PromptParts(p), "\n\n")
  {
    var parts: seq<string> := [];
    if IncludeSystem(p) {
      parts := PushSection(parts, "SYSTEM", p.system);
    }
    parts := PushSection(parts, "TASK", p.task);
    assert parts == HeadParts(p);
    if p.dataSections.Some? {
      parts := PushDataSections(parts, p.dataSections.value);
    }
    ghost var data := if p.dataSections.Some? then DataParts(p.dataSections.value) else [];
    assert parts == HeadParts(p) + data;
    parts := PushSection(parts, "OUTPUT", p.outputRules);
    assert parts == PromptParts(p);
    PromptUntrimmed(p);
    prompt := Trim(Join(parts, "\n\n"));
  }

  /** The `dataSections` loop of `assemblePrompt`: skips a missing entry and one
      whose cleaned title or content is empty, pushes the rest in order. */
  method PushDataSections(parts: seq<string>, sections: seq<Option<DataSection>>) returns (r: seq<string>)
    ensures r == parts + DataParts(sections)
  {
    r := parts;
    PrefixEnds(sections);
    for i := 0 to |sections|
      invariant r == parts + DataParts(sections[..i])
    {
      DataPartsStep(sections, i);
      var section := sections[i];
      ghost var before := r;
      DataPartPush(r, section);
      if section.Some? {
        var title := Clean(section.value.title);
        var content := Clean(section.value.content);
        if title != "" && content != "" {
          assert Usable(section);
          r := PushSection(r, "DATA: " + title, Some(content));
        } else {
          assert !Usable(section);
        }
      }
      assert r == before + DataPart(section);
      ConcatAssoc(parts, DataParts(sections[..i]), DataPart(section));
    }
  }

  // ---------------------------------------------------------------- shape of the parts

  /** A rendered part: `### ` first, never padded. */
  predicate WellFormedPart(part: string) {
    |part| > 4 && part[..4] == "### " && Unpadded(part)
  }

  lemma SectionShape(title: string, content: string)
    requires title != [] && content != [] && Unpadded(content)
    ensures WellFormedPart(Section(title, content)) && Section(title, content)[4] == title[0]
  {
    var s := Section(title, content);
    assert s == "### " + (title + ("\n" + content));
    assert s[|s| - 1] == content[|content| - 1];
  }

  lemma DataPartUsable(section: Option<DataSection>)
    ensures Usable(section) ==> DataPart(section) == [DataText(section)]
    ensures !Usable(section) ==> DataPart(section) == []
  {
    if Usable(section) {
      var title := "DATA: " + Clean(section.value.title);
      var content := Clean(section.value.content);
      assert Clean(Some(content)) == content by {
        TrimUnpadded(content);
      }
      PushSectionSingle(title, content);
    }
  }

  lemma PushSectionSingle(title: string, content: string)
    requires content != "" && Clean(Some(content)) == content
    ensures PushSection([], title, Some(content)) == [Section(title, content)]
  {
    assert [] + [Section(title, content)] == [Section(title, content)];
  }

  lemma {:induction false} DataPartsShape(sections: seq<Option<DataSection>>)
    ensures DataShaped(DataParts(sections))
  {
    if sections != [] {
      var init := sections[..|sections| - 1];
      var last := sections[|sections| - 1];
      DataPartsShape(init);
      DataPartShape(last);
      DataShapedConcat(DataParts(init), DataPart(last));
    }
  }

  lemma DataPartShape(section: Option<DataSection>)
    ensures DataShaped(DataPart(section))
  {
    DataPartUsable(section);
    if Usable(section) {
      var title := "DATA: " + Clean(section.value.title);
      var part := Section(title, Clean(section.value.content));
      assert title[0] == 'D';
      SectionShape(title, Clean(section.value.content));
      assert DataPart(section) == [part];
      DataShapedSingle(part);
    }
  }

  lemma DataShapedSingle(part: string)
    requires WellFormedPart(part) && part[4] == 'D'
    ensures DataShaped([part])
  {
  }

  /** Every part is well formed and has the `D` of `DATA` after `### `. */
  predicate DataShaped(parts: seq<string>) {
    forall i | 0 <= i < |parts| :: WellFormedPart(parts[i]) && parts[i][4] == 'D'
  }

  lemma DataShapedConcat(x: seq<string>, y: seq<string>)
    requires DataShaped(x) && DataShaped(y)
    ensures DataShaped(x + y)
  {
    forall i | 0 <= i < |x + y|
      ensures WellFormedPart((x + y)[i]) && (x + y)[i][4] == 'D'
    {
      IndexConcat(x, y, i);
    }
  }

  /** Pushing a non-blank body adds a well-formed part whose fifth character is the title's first. */
  lemma PushSectionShape(parts: seq<string>, title: string, body: Option<string>)
    requires title != []
    ensures var r := PushSection(parts, title, body);
      forall i | |parts| <= i < |r| :: WellFormedPart(r[i]) && r[i][4] == title[0]
  {
    if Clean(body) != "" {
      SectionShape(title, Clean(body));
    }
  }

  lemma PushSectionAppend(parts: seq<string>, title: string, body: Option<string>)
    ensures PushSection(parts, title, body) == parts + PushSection([], title, body)
  {
  }

  /** Every part is well formed; none but a leading SYSTEM part has `S` after `### `. */
  lemma PromptPartsShape(p: PromptParams)
    ensures var parts := PromptParts(p);
      forall i | 0 <= i < |parts| :: WellFormedPart(parts[i])
    ensures var parts := PromptParts(p);
      forall i | 0 <= i < |parts| :: parts[i][4] == 'S' ==> i == 0 && IncludeSystem(p) && Clean(p.system) != ""
  {
    var sys := if IncludeSystem(p) then PushSection([], "SYSTEM", p.system) else [];
    var task := PushSection([], "TASK", p.task);
    var data := if p.dataSections.Some? then DataParts(p.dataSections.value) else [];
    var out := PushSection([], "OUTPUT", p.outputRules);
    PushSectionShape([], "SYSTEM", p.system);
    PushSectionShape([], "TASK", p.task);
    PushSectionShape([], "OUTPUT", p.outputRules);
    if p.dataSections.Some? {
      DataPartsShape(p.dataSections.value);
    }
    PushSectionAppend(sys, "TASK", p.task);
    PushSectionAppend(HeadParts(p) + data, "OUTPUT", p.outputRules);
    var ab := sys + task;
    var abc := ab + data;
    var parts := PromptParts(p);
    assert parts == abc + out;
    forall i | 0 <= i < |parts|
      ensures WellFormedPart(parts[i]) && (parts[i][4] == 'S' ==> i == 0 && IncludeSystem(p) && Clean(p.system) != "")
    {
      if i >= |abc| {
        IndexConcat(abc, out, i);
      } else {
        IndexConcat(abc, out, i);
        if i >= |ab| {
          IndexConcat(ab, data, i);
        } else {
          IndexConcat(ab, data, i);
          IndexConcat(sys, task, i);
        }
      }
    }
  }

  /** The closing `trim` is the identity on the joined parts. */
  lemma PromptUntrimmed(p: PromptParams)
    ensures Trim(Join(PromptParts(p), "\n\n")) == Join(PromptParts(p), "\n\n")
  {
    var parts := PromptParts(p);
    PromptPartsShape(p);
    if parts != [] {
      forall i | 0 <= i < |parts| ensures parts[i] != [] && Unpadded(parts[i]) {
      }
      JoinUnpadded(parts, "\n\n");
      TrimUnpadded(Join(parts, "\n\n"));
    }
  }

  lemma JoinStartsWithFirst(parts: seq<string>, sep: string)
    requires parts != []
    ensures StartsWith(Join(parts, sep), parts[0])
  {
    var j := Join(parts, sep);
    if |parts| > 1 {
      assert j == parts[0] + (sep + Join(parts[1..], sep));
    }
    assert j[..|parts[0]|] == parts[0];
  }

  lemma StartsWithTrans(a: string, b: string, c: string)
    requires StartsWith(a, b) && StartsWith(b, c)
    ensures StartsWith(a, c)
  {
    assert a[..|c|] == a[..|b|][..|c|];
  }

  lemma StartsWithAt(a: string, b: string, k: int)
    requires StartsWith(a, b) && 0 <= k < |b|
    ensures a[k] == b[k]
  {
    assert a[..|b|][k] == a[k];
  }

  lemma SystemSectionPrefix(content: string)
    ensures StartsWith(Section("SYSTEM", content), "### SYSTEM\n")
  {
    var s := Section("SYSTEM", content);
    assert s == "### SYSTEM\n" + content;
  }

  /** The prompt opens with the SYSTEM section exactly when the system text is
      included and not blank. */
  lemma SystemFirst(p: PromptParams)
    ensures StartsWith(Join(PromptParts(p), "\n\n"), "### SYSTEM\n") <==> IncludeSystem(p) && Clean(p.system) != ""
  {
    var parts := PromptParts(p);
    var prompt := Join(parts, "\n\n");
    PromptPartsShape(p);
    if IncludeSystem(p) && Clean(p.system) != "" {
      var first := Section("SYSTEM", Clean(p.system));
      assert HeadParts(p)[0] == first;
      assert parts[0] == first;
      JoinStartsWithFirst(parts, "\n\n");
      SystemSectionPrefix(Clean(p.system));
      StartsWithTrans(prompt, first, "### SYSTEM\n");
    } else if parts != [] {
      JoinStartsWithFirst(parts, "\n\n");
      StartsWithAt(prompt, parts[0], 4);
      assert parts[0][4] != 'S';
      if StartsWith(prompt, "### SYSTEM\n") {
        StartsWithAt(prompt, "### SYSTEM\n", 4);
      }
    }
  }

  // ---------------------------------------------------------------- data sections

  /** Data sections render in input order. */
  lemma {:induction false} DataPartsAppend(a: seq<Option<DataSection>>, b: seq<Option<DataSection>>)
    ensures DataParts(a + b) == DataParts(a) + DataParts(b)
    decreases |b|
  {
    if b == [] {
      assert a + b == a;
    } else {
      var init := b[..|b| - 1];
      var last := b[|b| - 1];
      DataPartsAppend(a, init);
      assert DataParts(a + b) == DataParts(a + init) + DataPart(last) by {
        ConcatInit(a, b);
      }
      ConcatAssoc(DataParts(a), DataParts(init), DataPart(last));
    }
  }

  /** Every part the data sections contribute renders one usable section. */
  lemma {:induction false} DataPartsSound(sections: seq<Option<DataSection>>, part: string)
    requires part in DataParts(sections)
    ensures exists i | 0 <= i < |sections| :: Usable(sections[i]) && part == DataText(sections[i])
  {
    var init := sections[..|sections| - 1];
    var last := sections[|sections| - 1];
    DataPartUsable(last);
    if part in DataParts(init) {
      DataPartsSound(init, part);
      var i :| 0 <= i < |init| && Usable(init[i]) && part == DataText(init[i]);
      assert sections[i] == init[i];
    } else {
      assert sections[|sections| - 1] == last;
    }
  }

  lemma DataPartsSingle(section: Option<DataSection>)
    ensures DataParts([section]) == DataPart(section)
  {
    assert [section][..0] == [];
  }

  /** Every usable section is rendered, between the parts of the sections around it. */
  lemma DataPartsComplete(sections: seq<Option<DataSection>>, i: int)
    requires 0 <= i < |sections| && Usable(sections[i])
    ensures DataParts(sections) == DataParts(sections[..i]) + [DataText(sections[i])] + DataParts(sections[i + 1..])
    ensures DataText(sections[i]) in DataParts(sections)
  {
    var pre := sections[..i];
    var post := sections[i + 1..];
    var x := sections[i];
    var r := DataParts(sections);
    assert r == DataParts(pre + [x]) + DataParts(post) by {
      SplitAround(sections, i);
      DataPartsAppend(pre + [x], post);
    }
    assert DataParts(pre + [x]) == DataParts(pre) + [DataText(x)] by {
      DataPartsAppend(pre, [x]);
      DataPartsSingle(x);
      DataPartUsable(x);
    }
    assert r[|DataParts(pre)|] == DataText(x) by {
      IndexConcat(DataParts(pre) + [DataText(x)], DataParts(post), |DataParts(pre)|);
    }
  }

  /** A part comes from the data sections exactly when it renders some usable section. */
  lemma DataPartsMembers(sections: seq<Option<DataSection>>, part: string)
    ensures part in DataParts(sections) <==>
      exists i | 0 <= i < |sections| :: Usable(sections[i]) && part == DataText(sections[i])
  {
    if part in DataParts(sections) {
      DataPartsSound(sections, part);
    }
    if exists i | 0 <= i < |sections| :: Usable(sections[i]) && part == DataText(sections[i]) {
      var i :| 0 <= i < |sections| && Usable(sections[i]) && part == DataText(sections[i]);
      DataPartsComplete(sections, i);
    }
  }

  /** All inputs blank (or left out) is exactly the empty prompt. */
  lemma PromptEmpty(p: PromptParams)
    ensures Join(PromptParts(p), "\n\n") == "" <==>
      (!IncludeSystem(p) || Clean(p.system) == "") && Clean(p.task) == "" && Clean(p.outputRules) == ""
      && (p.dataSections.Some? ==> forall i | 0 <= i < |p.dataSections.value| :: !Usable(p.dataSections.value[i]))
  {
    var parts := PromptParts(p);
    PromptPartsShape(p);
    if parts != [] {
      JoinStartsWithFirst(parts, "\n\n");
    }
    if p.dataSections.Some? {
      var sections := p.dataSections.value;
      if DataParts(sections) != [] {
        DataPartsMembers(sections, DataParts(sections)[0]);
      }
      forall i | 0 <= i < |sections| && Usable(sections[i])
        ensures DataParts(sections) != []
      {
        DataPartsMembers(sections, DataText(sections[i]));
      }
    }
  }
}

=== FILE: sequences.dfy ===
/** Order-preserving list operations: `Array.prototype.filter` and the
    insertion-ordered de-duplication that `[...new Set(list)]` performs. */
module Sequences {

  predicate NoDuplicates<T(==)>(s: seq<T>) {
    forall i, j | 0 <= i < j < |s| :: s[i] != s[j]
  }

  /** `a` can be obtained from `b` by deleting elements. */
  predicate IsSubsequence<T(==)>(a: seq<T>, b: seq<T>)
    decreases |b|
  {
    if a == [] then true
    else if b == [] then false
    else if a[|a| - 1] == b[|b| - 1] then IsSubsequence(a[..|a| - 1], b[..|b| - 1])
    else IsSubsequence(a, b[..|b| - 1])
  }

  /** `Array.prototype.filter`. */
  function Filter<T(==)>(s: seq<T>, keep: T -> bool): (r: seq<T>)
    ensures forall i | 0 <= i < |r| :: r[i] in s && keep(r[i])
    ensures forall i | 0 <= i < |s| && keep(s[i]) :: s[i] in r
    ensures IsSubsequence(r, s)
    ensures |r| <= |s|
  {
    if s == [] then []
    else
      var prefix := Filter(s[..|s| - 1], keep);
      var last := s[|s| - 1];
      assert s == s[..|s| - 1] + [last];
      if keep(last) then
        assert (prefix + [last])[..|prefix|] == prefix;
        prefix + [last]
      else
        SubsequenceSkip(prefix, s, keep);
        prefix
  }

  lemma SubsequenceSkip<T>(a: seq<T>, b: seq<T>, keep: T -> bool)
    requires b != [] && !keep(b[|b| - 1])
    requires forall i | 0 <= i < |a| :: keep(a[i])
    requires IsSubsequence(a, b[..|b| - 1])
    ensures IsSubsequence(a, b)
  {
  }

  /** `[...new Set(s)]`: every element once, in the order of its first occurrence. */
  function Dedup<T(==)>(s: seq<T>): (r: seq<T>)
    ensures NoDuplicates(r)
    ensures forall i | 0 <= i < |r| :: r[i] in s
    ensures forall i | 0 <= i < |s| :: s[i] in r
    ensures IsSubsequence(r, s)
  {
    if s == [] then []
    else
      var prefix := s[..|s| - 1];
      var d := Dedup(prefix);
      var last := s[|s| - 1];
      assert s == prefix + [last];
      if last in d then
        SubsequenceExtend(d, prefix, last);
        d
      else
        var r := d + [last];
        assert r[..|d|] == d;
        r
  }

  /** `Dedup` keeps first occurrences in order: an element that comes earlier in
      the result occurs in the input before any occurrence of a later one. */
  lemma {:induction false} DedupOrder<T>(s: seq<T>)
    ensures forall i, j, k | 0 <= i < j < |Dedup(s)| && 0 <= k < |s| && s[k] == Dedup(s)[j] :: Dedup(s)[i] in s[..k]
  {
    if s != [] {
      var prefix := s[..|s| - 1];
      DedupOrder(prefix);
      var last := s[|s| - 1];
      assert s == prefix + [last];
      assert forall k | 0 <= k < |prefix| :: s[..k] == prefix[..k];
      assert s[..|prefix|] == prefix;
    }
  }

  /** A non-empty sequence is its prefix and its last element. */
  lemma LastSplit<T>(s: seq<T>)
    requires s != []
    ensures s == s[..|s| - 1] + [s[|s| - 1]]
  {
  }

  lemma ConcatAssoc<T>(a: seq<T>, b: seq<T>, c: seq<T>)
    ensures (a + b) + c == a + (b + c)
  {
  }

  lemma IndexConcat<T>(a: seq<T>, b: seq<T>, i: int)
    requires 0 <= i < |a| + |b|
    ensures (a + b)[i] == if i < |a| then a[i] else b[i - |a|]
  {
  }

  /** The prefix of a concatenation with a non-empty right part. */
  lemma ConcatInit<T>(a: seq<T>, b: seq<T>)
    requires b != []
    ensures (a + b)[..|a + b| - 1] == a + b[..|b| - 1]
    ensures (a + b)[|a + b| - 1] == b[|b| - 1]
  {
  }

  /** Taking one more element of a prefix. */
  lemma PrefixStep<T>(s: seq<T>, i: int)
    requires 0 <= i < |s|
    ensures s[..i + 1][..i] == s[..i] && s[..i + 1][i] == s[i]
  {
  }

  lemma PrefixEnds<T>(s: seq<T>)
    ensures s[..0] == [] && s[..|s|] == s
  {
  }

  /** A sequence is its prefix before `i`, its element at `i` and the rest. */
  lemma SplitAround<T>(s: seq<T>, i: int)
    requires 0 <= i < |s|
    ensures s == s[..i] + [s[i]] + s[i + 1..]
  {
  }

  lemma SubsequenceExtend<T>(a: seq<T>, b: seq<T>, x: T)
    requires IsSubsequence(a, b)
    ensures IsSubsequence(a, b + [x])
    decreases |b|, 1
  {
    var b' := b + [x];
    assert b'[..|b|] == b;
    if a != [] && a[|a| - 1] == x {
      SubsequenceDropLast(a, b);
    }
  }

  lemma SubsequenceDropLast<T>(a: seq<T>, b: seq<T>)
    requires a != [] && IsSubsequence(a, b)
    ensures IsSubsequence(a[..|a| - 1], b)
    decreases |b|, 0
  {
    if a[|a| - 1] == b[|b| - 1] {
      SubsequenceExtend(a[..|a| - 1], b[..|b| - 1], b[|b| - 1]);
      assert b[..|b| - 1] + [b[|b| - 1]] == b;
    } else {
      SubsequenceDropLast(a, b[..|b| - 1]);
      SubsequenceExtend(a[..|a| - 1], b[..|b| - 1], b[|b| - 1]);
      assert b[..|b| - 1] + [b[|b| - 1]] == b;
    }
  }

  /** Filtering keeps every passing element as often as it occurs, and nothing else. */
  lemma {:induction false} FilterMultiset<T>(s: seq<T>, keep: T -> bool)
    ensures forall x :: multiset(Filter(s, keep))[x] == if keep(x) then multiset(s)[x] else 0
  {
    if s != [] {
      var prefix := s[..|s| - 1];
      FilterMultiset(prefix, keep);
      assert s == prefix + [s[|s| - 1]];
    }
  }

  /** Filtering distributes over concatenation. */
  lemma {:induction false} FilterConcat<T>(a: seq<T>, b: seq<T>, keep: T -> bool)
    ensures Filter(a + b, keep) == Filter(a, keep) + Filter(b, keep)
    decreases |b|
  {
    if b == [] {
      assert a + b == a;
    } else {
      var init, last := b[..|b| - 1], b[|b| - 1];
      FilterConcat(a, init, keep);
      SnocSplit(a, b);
      FilterSnoc(a + init, last, keep);
      FilterSnoc(init, last, keep);
      ConcatAssoc(Filter(a, keep), Filter(init, keep), if keep(last) then [last] else []);
    }
  }

  lemma SnocSplit<T>(a: seq<T>, b: seq<T>)
    requires b != []
    ensures b == b[..|b| - 1] + [b[|b| - 1]]
    ensures a + b == (a + b[..|b| - 1]) + [b[|b| - 1]]
  {
  }

  /** Filtering a list with one more element at the end. */
  lemma FilterSnoc<T>(s: seq<T>, x: T, keep: T -> bool)
    ensures Filter(s + [x], keep) == Filter(s, keep) + (if keep(x) then [x] else [])
  {
    assert (s + [x])[..|s|] == s;
  }

  /** Filtering keeps everything when every element passes. */
  lemma {:induction false} FilterAll<T>(s: seq<T>, keep: T -> bool)
    requires forall i | 0 <= i < |s| :: keep(s[i])
    ensures Filter(s, keep) == s
  {
    if s != [] {
      FilterAll(s[..|s| - 1], keep);
      assert s == s[..|s| - 1] + [s[|s| - 1]];
    }
  }

  /** Filtering keeps nothing when no element passes. */
  lemma FilterNone<T>(s: seq<T>, keep: T -> bool)
    requires forall i | 0 <= i < |s| :: !keep(s[i])
    ensures Filter(s, keep) == []
  {
  }

  /** De-duplication changes nothing in a list that has no duplicates. */
  lemma {:induction false} DedupNoDuplicates<T>(s: seq<T>)
    requires NoDuplicates(s)
    ensures Dedup(s) == s
  {
    if s != [] {
      DedupNoDuplicates(s[..|s| - 1]);
    }
  }
}

=== FILE: structured_display.dfy ===
/** The display side of a biography: the business function shown to the
    reader, and the split of a mentor summary into an intro paragraph and a
    list of bullets. */
module StructuredDisplay {
  import opened Wrappers
  import opened JsText
  import opened Sequences
  import opened Parsers
  import opened Validators

  /** `businessFunction === 'Other' ? businessFunctionOther : businessFunction`. */
  function DisplayBusinessFunction(businessFunction: Option<string>, businessFunctionOther: Option<string>): Option<string> {
    if businessFunction == Some("Other") then businessFunctionOther else businessFunction
  }

  /** For a pair that passes validation, what is displayed is never blank: the
      free text for `Other`, else one of the listed functions other than `Other`. */
  lemma DisplayOfValid(businessFunction: Option<string>, businessFunctionOther: Option<string>)
    requires ValidateBusinessFunction(businessFunction, businessFunctionOther).None?
    ensures var shown := DisplayBusinessFunction(businessFunction, businessFunctionOther);
      shown.Some? && !IsBlank(shown.value)
    ensures businessFunction != Some("Other") ==>
      DisplayBusinessFunction(businessFunction, businessFunctionOther) == businessFunction
      && businessFunction.value in BusinessFunctions
  {
    if businessFunction != Some("Other") {
      var bf := businessFunction.value;
      assert bf in BusinessFunctions;
      assert bf != [] && !IsSpace(bf[0]);
    }
  }

  /** A line that the display treats as a bullet. */
  predicate IsBulletLine(line: string) {
    StartsWith(line, "- ")
  }

  predicate IsIntroLine(line: string) {
    !IsBulletLine(line)
  }

  /** The bullet text of a bullet line: what follows `- `, trimmed. */
  function BulletText(line: string): string
    requires IsBulletLine(line)
  {
    Trim(line[2..])
  }

  /** The trimmed, non-empty lines of the trimmed text; `None` reads as empty. */
  function SummaryLines(text: Option<string>): (lines: seq<string>)
    ensures forall i | 0 <= i < |lines| :: lines[i] != [] && Unpadded(lines[i]) && '\n' !in lines[i]
  {
    var raw := Trim(if text.Some? then text.value else "");
    var lines := Filter(TrimAll(Split(raw, '\n')), NonEmpty);
    forall i | 0 <= i < |lines|
      ensures lines[i] != [] && Unpadded(lines[i]) && '\n' !in lines[i]
    {
      SummaryLineClean(raw, i);
    }
    lines
  }

  lemma SummaryLineClean(raw: string, i: int)
    requires 0 <= i < |Filter(TrimAll(Split(raw, '\n')), NonEmpty)|
    ensures var line := Filter(TrimAll(Split(raw, '\n')), NonEmpty)[i];
      line != [] && Unpadded(line) && '\n' !in line
  {
    var pieces := Split(raw, '\n');
    var trimmed := TrimAll(pieces);
    var line := Filter(trimmed, NonEmpty)[i];
    assert line in trimmed && line != [];
    var j :| 0 <= j < |trimmed| && trimmed[j] == line;
    TrimChars(pieces[j]);
  }

  /** The bullets of `lines`, in order: the non-empty bullet texts of the bullet lines. */
  function Bullets(lines: seq<string>): (r: seq<string>)
    ensures |r| <= |lines|
  {
    if lines == [] then []
    else
      var prefix := Bullets(lines[..|lines| - 1]);
      var last := lines[|lines| - 1];
      if IsBulletLine(last) && BulletText(last) != [] then prefix + [BulletText(last)] else prefix
  }

  /** The lines that are not bullets, in order. */
  function IntroLines(lines: seq<string>): (r: seq<string>)
    ensures |r| <= |lines|
  {
    if lines == [] then []
    else
      var prefix := IntroLines(lines[..|lines| - 1]);
      var last := lines[|lines| - 1];
      if IsIntroLine(last) then prefix + [last] else prefix
  }

  /** Every bullet is non-empty and trimmed. */
  lemma {:induction false} BulletsTrimmed(lines: seq<string>)
    ensures forall i | 0 <= i < |Bullets(lines)| :: Bullets(lines)[i] != [] && Unpadded(Bullets(lines)[i])
  {
    if lines != [] {
      var prefix := Bullets(lines[..|lines| - 1]);
      var r := Bullets(lines);
      BulletsTrimmed(lines[..|lines| - 1]);
      forall i | 0 <= i < |r|
        ensures r[i] != [] && Unpadded(r[i])
      {
        if i < |prefix| {
          assert r[i] == prefix[i];
        }
      }
    }
  }

  /** No intro line looks like a bullet. */
  lemma {:induction false} IntroLinesPlain(lines: seq<string>)
    ensures forall i | 0 <= i < |IntroLines(lines)| :: IsIntroLine(IntroLines(lines)[i])
  {
    if lines != [] {
      IntroLinesPlain(lines[..|lines| - 1]);
    }
  }

  lemma LinesStep(lines: seq<string>, i: int)
    requires 0 <= i < |lines|
    ensures IsBulletLine(lines[i]) && BulletText(lines[i]) != [] ==> Bullets(lines[..i + 1]) == Bullets(lines[..i]) + [BulletText(lines[i])]
    ensures !(IsBulletLine(lines[i]) && BulletText(lines[i]) != []) ==> Bullets(lines[..i + 1]) == Bullets(lines[..i])
    ensures IsIntroLine(lines[i]) ==> IntroLines(lines[..i + 1]) == IntroLines(lines[..i]) + [lines[i]]
    ensures !IsIntroLine(lines[i]) ==> IntroLines(lines[..i + 1]) == IntroLines(lines[..i])
  {
    assert lines[..i + 1][..i] == lines[..i];
  }

  /** Blank text has no lines. */
  lemma BlankSummaryLines(text: Option<string>)
    requires IsBlank(if text.Some? then text.value else "")
    ensures SummaryLines(text) == []
  {
    var raw := Trim(if text.Some? then text.value else "");
    assert Split(raw, '\n') == [""] by {
      assert raw == "";
    }
    assert TrimAll([""]) == [""];
    FilterNone([""], NonEmpty);
  }

  /** `parseMentorSummary`: the intro is the non-bullet lines joined with
      single spaces; the bullets come from the bullet lines. */
  method ParseMentorSummary(text: Option<string>) returns (intro: string, bullets: seq<string>)
    ensures intro == Join(IntroLines(SummaryLines(text)), " ")
    ensures bullets == Bullets(SummaryLines(text))
    ensures IsBlank(if text.Some? then text.value else "") ==> intro == "" && bullets == []
  {
    var raw := Trim(if text.Some? then text.value else "");
    if raw == "" {
      BlankSummaryLines(text);
      return "", [];
    }
    intro, bullets := ClassifyLines(SummaryLines(text));
  }

  /** The loop of `parseMentorSummary` over the trimmed, non-empty lines. */
  method ClassifyLines(lines: seq<string>) returns (intro: string, bullets: seq<string>)
    ensures intro == Join(IntroLines(lines), " ")
    ensures bullets == Bullets(lines)
  {
    bullets := [];
    var introParts: seq<string> := [];
    assert lines[..0] == [];
    for i := 0 to |lines|
      invariant bullets == Bullets(lines[..i])
      invariant introParts == IntroLines(lines[..i])
    {
      var line := lines[i];
      LinesStep(lines, i);
      if IsBulletLine(line) {
        var bullet := BulletText(line);
        if bullet != "" {
          bullets := bullets + [bullet];
        }
      } else {
        introParts := introParts + [line];
      }
    }
    assert lines[..|lines|] == lines;
    intro := Join(introParts, " ");
  }

  // ---------------------------------------------------------------- round trip

  /** The bullet lines `- item` of a list of items. */
  function BulletLines(items: seq<string>): (r: seq<string>)
    ensures |r| == |items|
    ensures forall i | 0 <= i < |r| :: r[i] == "- " + items[i]
  {
    seq(|items|, i requires 0 <= i < |items| => "- " + items[i])
  }

  /** A mentor summary as the normaliser leaves it: an optional intro line, then one `- item` line per bullet. */
  function RenderSummary(intro: string, items: seq<string>): string {
    Join((if intro == "" then [] else [intro]) + BulletLines(items), "\n")
  }

  /** An intro line the display can give back: one trimmed line that does not look like a bullet. */
  predicate IntroShaped(intro: string) {
    intro == "" || (Unpadded(intro) && '\n' !in intro && !IsBulletLine(intro))
  }

  /** A bullet item the display can give back: non-empty, trimmed, one line. */
  predicate ItemShaped(item: string) {
    item != [] && Unpadded(item) && '\n' !in item
  }

  lemma BulletLineShape(item: string)
    requires ItemShaped(item)
    ensures var line := "- " + item;
      line != [] && Unpadded(line) && '\n' !in line && IsBulletLine(line) && BulletText(line) == item
  {
    var line := "- " + item;
    assert line[0] == '-' && line[|line| - 1] == item[|item| - 1];
    assert line[2..] == item;
    TrimUnpadded(item);
  }

  /** One more bullet line adds its item to the bullets and nothing to the intro. */
  lemma BulletsSnoc(lines: seq<string>, item: string)
    requires ItemShaped(item)
    ensures Bullets(lines + ["- " + item]) == Bullets(lines) + [item]
    ensures IntroLines(lines + ["- " + item]) == IntroLines(lines)
  {
    BulletLineShape(item);
    assert (lines + ["- " + item])[..|lines|] == lines;
  }

  lemma BulletLinesSnoc(items: seq<string>)
    requires items != []
    ensures BulletLines(items) == BulletLines(items[..|items| - 1]) + ["- " + items[|items| - 1]]
  {
  }

  lemma {:induction false} BulletsOfLines(items: seq<string>)
    requires forall i | 0 <= i < |items| :: ItemShaped(items[i])
    ensures Bullets(BulletLines(items)) == items
    ensures IntroLines(BulletLines(items)) == []
  {
    if items != [] {
      var init := items[..|items| - 1];
      var last := items[|items| - 1];
      BulletsOfLines(init);
      BulletLinesSnoc(items);
      BulletsSnoc(BulletLines(init), last);
      LastSplit(items);
    }
  }

  lemma {:induction false} BulletsAfterIntro(intro: string, lines: seq<string>)
    requires IsIntroLine(intro)
    ensures Bullets([intro] + lines) == Bullets(lines)
    decreases |lines|
  {
    var all := [intro] + lines;
    if lines == [] {
      assert all[..0] == [];
    } else {
      assert all[|all| - 1] == lines[|lines| - 1];
      assert all[..|all| - 1] == [intro] + lines[..|lines| - 1];
      BulletsAfterIntro(intro, lines[..|lines| - 1]);
    }
  }

  lemma {:induction false} IntroLinesAfterIntro(intro: string, lines: seq<string>)
    requires IsIntroLine(intro)
    ensures IntroLines([intro] + lines) == [intro] + IntroLines(lines)
    decreases |lines|
  {
    var all := [intro] + lines;
    if lines == [] {
      assert all[..0] == [];
    } else {
      var last := lines[|lines| - 1];
      assert all[|all| - 1] == last;
      assert all[..|all| - 1] == [intro] + lines[..|lines| - 1];
      IntroLinesAfterIntro(intro, lines[..|lines| - 1]);
      if IsIntroLine(last) {
        assert [intro] + IntroLines(lines[..|lines| - 1]) + [last] == [intro] + (IntroLines(lines[..|lines| - 1]) + [last]);
      }
    }
  }

  /** The lines of a rendered summary. */
  function RenderedLineList(intro: string, items: seq<string>): seq<string> {
    (if intro == "" then [] else [intro]) + BulletLines(items)
  }

  lemma RenderedLineShape(intro: string, items: seq<string>, i: int)
    requires IntroShaped(intro) && forall i | 0 <= i < |items| :: ItemShaped(items[i])
    requires 0 <= i < |RenderedLineList(intro, items)|
    ensures var line := RenderedLineList(intro, items)[i];
      line != [] && Unpadded(line) && '\n' !in line
  {
    var k := if intro == "" then i else i - 1;
    if k >= 0 {
      BulletLineShape(items[k]);
    }
  }

  /** Text joined from clean lines splits, trims and filters back to those lines. */
  lemma CleanLinesRecovered(lines: seq<string>)
    requires lines != [] && forall i | 0 <= i < |lines| :: lines[i] != [] && Unpadded(lines[i]) && '\n' !in lines[i]
    ensures SummaryLines(Some(Join(lines, "\n"))) == lines
  {
    var text := Join(lines, "\n");
    JoinedLines(lines);
    TrimAllUnpadded(lines);
    FilterAll(lines, NonEmpty);
    SummaryLinesOf(text, lines);
  }

  lemma JoinedLines(lines: seq<string>)
    requires lines != [] && forall i | 0 <= i < |lines| :: lines[i] != [] && Unpadded(lines[i]) && '\n' !in lines[i]
    ensures Trim(Join(lines, "\n")) == Join(lines, "\n") && Split(Join(lines, "\n"), '\n') == lines
  {
    JoinUnpadded(lines, "\n");
    TrimUnpadded(Join(lines, "\n"));
    SplitOfJoin(lines, '\n');
  }

  lemma TrimAllUnpadded(lines: seq<string>)
    requires forall i | 0 <= i < |lines| :: Unpadded(lines[i])
    ensures TrimAll(lines) == lines
  {
    forall i | 0 <= i < |lines| ensures Trim(lines[i]) == lines[i] {
      TrimUnpadded(lines[i]);
    }
  }

  lemma SummaryLinesOf(text: string, lines: seq<string>)
    requires Trim(text) == text && Split(text, '\n') == lines
    requires TrimAll(lines) == lines && Filter(lines, NonEmpty) == lines
    ensures SummaryLines(Some(text)) == lines
  {
  }

  lemma RenderedLines(intro: string, items: seq<string>)
    requires IntroShaped(intro) && forall i | 0 <= i < |items| :: ItemShaped(items[i])
    ensures SummaryLines(Some(RenderSummary(intro, items))) == RenderedLineList(intro, items)
  {
    var lines := RenderedLineList(intro, items);
    if lines == [] {
      assert RenderSummary(intro, items) == "";
      BlankSummaryLines(Some(""));
    } else {
      forall i | 0 <= i < |lines|
        ensures lines[i] != [] && Unpadded(lines[i]) && '\n' !in lines[i]
      {
        RenderedLineShape(intro, items, i);
      }
      CleanLinesRecovered(lines);
    }
  }

  lemma RenderedBullets(intro: string, items: seq<string>)
    requires IntroShaped(intro) && forall i | 0 <= i < |items| :: ItemShaped(items[i])
    ensures Bullets(RenderedLineList(intro, items)) == items
  {
    BulletsOfLines(items);
    if intro != "" {
      BulletsAfterIntro(intro, BulletLines(items));
    } else {
      assert RenderedLineList(intro, items) == BulletLines(items);
    }
  }

  lemma RenderedIntro(intro: string, items: seq<string>)
    requires IntroShaped(intro) && forall i | 0 <= i < |items| :: ItemShaped(items[i])
    ensures Join(IntroLines(RenderedLineList(intro, items)), " ") == intro
  {
    BulletsOfLines(items);
    if intro != "" {
      IntroLinesAfterIntro(intro, BulletLines(items));
      assert [intro] + [] == [intro];
    } else {
      assert RenderedLineList(intro, items) == BulletLines(items);
    }
  }

  /** A summary rendered from an intro line and bullet items parses back to that
      intro and those items. */
  lemma ParseRendered(intro: string, items: seq<string>)
    requires IntroShaped(intro) && forall i | 0 <= i < |items| :: ItemShaped(items[i])
    ensures var lines := SummaryLines(Some(RenderSummary(intro, items)));
      Join(IntroLines(lines), " ") == intro && Bullets(lines) == items
  {
    RenderedBullets(intro, items);
    RenderedIntro(intro, items);
    RenderedLines(intro, items);
  }
}

=== FILE: tracing.dfy ===
/** The tracing service: spans that are started and ended around model calls,
    the payload sanitiser applied to span outputs, the bounded newest-first
    in-memory buffer of finished spans, and the per-operation statistics. The
    clock, `Math.random`, `uuidv4` and `NODE_ENV` are parameters; the MongoDB
    and JSON-file persistence is not part of this model. */
module Tracing {
  import opened Wrappers
  import opened JsText
  import opened JsNumber
  import opened JsonValue
  import opened Sequences
  import TracingConfig

  datatype Status = InProgress | Succeeded | Errored

  /** The value thrown by a traced operation, as far as `endSpan` reads it. */
  datatype Thrown = Thrown(message: string, code: Option<Json>, stack: string)

  /** The `error` record of a failed span; `code` is `error.code || null`. */
  datatype SpanError = SpanError(message: string, code: Json, stack: string)

  const MaxPayloadText := 5000
  const Redacted := "[REDACTED]"
  const DefaultRecentLimit := 50
  const DefaultEnvironment := "development"

  /** The key names whose values are never recorded, compared after lower-casing. */
  const SensitiveKeys := ["password", "token", "apikey", "api_key", "secret", "authorization", "x-api-key", "api-key"]

  predicate IsSensitiveKey(key: string) {
    ToLower(key) in SensitiveKeys
  }

  /** A string payload longer than 5000 characters keeps its first 5000 and gains `...`. */
  function TruncateText(s: string): (r: string)
    ensures |r| <= MaxPayloadText + 3
    ensures |s| <= MaxPayloadText ==> r == s
    ensures |s| > MaxPayloadText ==>
      |r| == MaxPayloadText + 3 && r[..MaxPayloadText] == s[..MaxPayloadText] && r[MaxPayloadText..] == "..."
  {
    if |s| > MaxPayloadText then s[..MaxPayloadText] + "..." else s
  }

  /** What `sanitizePayload` returns for `payload`. Arrays are sanitised element
      by element, objects member by member with their keys kept, and values
      that are neither strings, arrays nor objects are returned as they are. */
  function Sanitized(payload: Json): (r: Json)
    decreases payload, 1
  {
    match payload
    case JString(s) => JString(TruncateText(s))
    case JArray(items) => JArray(seq(|items|, i requires 0 <= i < |items| => Sanitized(items[i])))
    case JObject(members) =>
      JObject(seq(|members|, i requires 0 <= i < |members| => (members[i].0, SanitizedMember(members[i].0, members[i].1))))
    case _ => payload
  }

  /** The sanitised value of the object member `key`: a sensitive key is
      redacted, a `headers` object or array has its entries sanitised one by
      one, and any other value is sanitised. */
  function SanitizedMember(key: string, value: Json): Json
    decreases value, 2
  {
    if IsSensitiveKey(key) then JString(Redacted)
    else if ToLower(key) == "headers" && (value.JObject? || value.JArray?) then SanitizedHeaders(value)
    else Sanitized(value)
  }

  /** A `headers` value rebuilt from `Object.entries`: always a plain object,
      an array's entries being keyed by their index. */
  function SanitizedHeaders(headers: Json): Json
    requires headers.JObject? || headers.JArray?
    decreases headers, 1
  {
    match headers
    case JObject(members) =>
      JObject(seq(|members|, i requires 0 <= i < |members| => (members[i].0, SanitizedHeader(members[i].0, members[i].1))))
    case JArray(items) =>
      JObject(seq(|items|, i requires 0 <= i < |items| => (NatToString(i), SanitizedHeader(NatToString(i), items[i]))))
  }

  function SanitizedHeader(key: string, value: Json): Json
    decreases value, 2
  {
    if IsSensitiveKey(key) then JString(Redacted) else Sanitized(value)
  }

  /** Sanitising keeps the kind of every value, the length of every array and
      the keys of every object in order, and redacts every sensitive key. */
  lemma SanitizedShape(payload: Json)
    ensures var r := Sanitized(payload);
      && (r.JString? <==> payload.JString?)
      && (r.JArray? <==> payload.JArray?)
      && (r.JObject? <==> payload.JObject?)
      && (!payload.JString? && !payload.JArray? && !payload.JObject? ==> r == payload)
      && (payload.JString? ==> |r.s| <= MaxPayloadText + 3)
      && (payload.JArray? ==> |r.items| == |payload.items|)
      && (payload.JObject? ==>
            && |r.members| == |payload.members|
            && (forall i | 0 <= i < |r.members| :: r.members[i].0 == payload.members[i].0)
            && (forall i | 0 <= i < |r.members| && IsSensitiveKey(payload.members[i].0) ::
                  r.members[i].1 == JString(Redacted)))
  {
  }

  /** Sanitising a sanitised payload changes nothing more. */
  lemma {:induction false} SanitizedIdempotent(payload: Json)
    ensures Sanitized(Sanitized(payload)) == Sanitized(payload)
    decreases payload, 1
  {
    match payload
    case JString(s) =>
    case JArray(items) =>
      var once := Sanitized(payload).items;
      forall i | 0 <= i < |items|
        ensures Sanitized(once[i]) == once[i]
      {
        SanitizedIdempotent(items[i]);
      }
    case JObject(members) =>
      var once := Sanitized(payload).members;
      forall i | 0 <= i < |members|
        ensures SanitizedMember(once[i].0, once[i].1) == once[i].1
      {
        MemberIdempotent(members[i].0, members[i].1);
      }
    case _ =>
  }

  lemma {:induction false} MemberIdempotent(key: string, value: Json)
    ensures SanitizedMember(key, SanitizedMember(key, value)) == SanitizedMember(key, value)
    decreases value, 2
  {
    if IsSensitiveKey(key) {
    } else if ToLower(key) == "headers" && (value.JObject? || value.JArray?) {
      HeadersIdempotent(value);
    } else {
      SanitizedIdempotent(value);
      SanitizedKind(value);
    }
  }

  lemma {:induction false} HeadersIdempotent(headers: Json)
    requires headers.JObject? || headers.JArray?
    ensures SanitizedHeaders(SanitizedHeaders(headers)) == SanitizedHeaders(headers)
    decreases headers, 1
  {
    var once := SanitizedHeaders(headers).members;
    match headers
    case JObject(members) =>
      forall i | 0 <= i < |members|
        ensures SanitizedHeader(once[i].0, once[i].1) == once[i].1
      {
        HeaderIdempotent(members[i].0, members[i].1);
      }
    case JArray(items) =>
      forall i | 0 <= i < |items|
        ensures SanitizedHeader(once[i].0, once[i].1) == once[i].1
      {
        HeaderIdempotent(NatToString(i), items[i]);
      }
  }

  lemma {:induction false} HeaderIdempotent(key: string, value: Json)
    ensures SanitizedHeader(key, SanitizedHeader(key, value)) == SanitizedHeader(key, value)
    decreases value, 2
  {
    if !IsSensitiveKey(key) {
      SanitizedIdempotent(value);
    }
  }

  lemma SanitizedKind(value: Json)
    ensures Sanitized(value).JObject? <==> value.JObject?
    ensures Sanitized(value).JArray? <==> value.JArray?
  {
  }

  /** `Math.random() < sampleRate`: a NaN rate never samples. */
  predicate Sampled(draw: real, sampleRate: Num) {
    match sampleRate
    case Finite(rate) => draw < rate
    case PosInfinity => true
    case NegInfinity => false
    case NaN => false
  }

  /** A rate of 1 samples every draw of `Math.random`, a rate of 0 or NaN none. */
  lemma SamplingExtremes(draw: real)
    requires 0.0 <= draw < 1.0
    ensures Sampled(draw, Finite(1.0))
    ensures !Sampled(draw, Finite(0.0))
    ensures !Sampled(draw, NaN)
  {
  }

  /** An unparsable `TRACE_SAMPLE_RATE` loads without error and then turns every span off. */
  lemma UnparsableRateSamplesNothing(env: TracingConfig.Env, dir: string, draw: real)
    requires "TRACE_SAMPLE_RATE" in env && env["TRACE_SAMPLE_RATE"] != ""
    requires ParseFloat(env["TRACE_SAMPLE_RATE"]) == NaN
    ensures TracingConfig.LoadTracingConfig(env, dir).Success?
    ensures !Sampled(draw, TracingConfig.LoadTracingConfig(env, dir).value.sampleRate)
  {
    TracingConfig.UnparsableSampleRateAccepted(env, dir);
  }

  /** `metadata.traceId || uuidv4()`. */
  function TraceIdOf(metadata: map<string, Json>, uuid: string): (r: Json)
    ensures "traceId" in metadata && Truthy(Some(metadata["traceId"])) ==> r == metadata["traceId"]
    ensures !("traceId" in metadata && Truthy(Some(metadata["traceId"]))) ==> r == JString(uuid)
  {
    if "traceId" in metadata && Truthy(Some(metadata["traceId"])) then metadata["traceId"] else JString(uuid)
  }

  /** `process.env.NODE_ENV || 'development'`. */
  function EnvironmentName(nodeEnv: Option<string>): (r: string)
    ensures r != ""
    ensures nodeEnv.Some? && nodeEnv.value != "" ==> r == nodeEnv.value
  {
    if nodeEnv.Some? && nodeEnv.value != "" then nodeEnv.value else DefaultEnvironment
  }

  /** `typeof value`. */
  function TypeOf(value: Json): string {
    match value
    case JBool(_) => "boolean"
    case JNumber(_) => "number"
    case JString(_) => "string"
    case _ => "object"
  }

  /** `value.length`: a string's or array's length, an object's `length` member, else undefined. */
  function LengthOf(value: Json): Option<Json> {
    match value
    case JString(s) => Some(JNumber(|s| as real))
    case JArray(items) => Some(JNumber(|items| as real))
    case JObject(_) => Get(value, "length")
    case _ => None
  }

  /** The `{type, length}` summary recorded when payloads are not included. */
  function OutputSummary(result: Json): (r: Json)
    ensures r.JObject? && |r.members| == 2
    ensures r.members[0] == ("type", JString(TypeOf(result)))
    ensures r.members[1].0 == "length"
    ensures Truthy(LengthOf(result)) ==> Some(r.members[1].1) == LengthOf(result)
    ensures !Truthy(LengthOf(result)) ==> r.members[1].1 == JNull
  {
    var length := LengthOf(result);
    JObject([("type", JString(TypeOf(result))), ("length", if Truthy(length) then length.value else JNull)])
  }

  /** The end index `slice(0, end)` stops at in a list of `len` elements:
      a negative end counts back from the end of the list. */
  function SliceEnd(len: nat, end: int): (k: nat)
    ensures k <= len
    ensures 0 <= end ==> k == if end < len then end else len
    ensures end < 0 ==> k == if len + end > 0 then len + end else 0
  {
    if end < 0 then (if len + end > 0 then len + end else 0)
    else if end < len then end else len
  }

  /** The buffer after `saveTrace` put a span in front: `slice(0, max)` once it
      is longer than `maxInMemoryTraces`; a NaN bound (`None`) never truncates. */
  function KeepNewest<T>(traces: seq<T>, max: Option<int>): (r: seq<T>)
    ensures |r| <= |traces| && r == traces[..|r|]
    ensures max.Some? && 0 <= max.value ==> |r| == if |traces| <= max.value then |traces| else max.value
    ensures max.None? ==> r == traces
  {
    if max.Some? && |traces| > max.value then traces[..SliceEnd(|traces|, max.value)] else traces
  }

  /** A bound of at least one always keeps the span just saved in front. */
  lemma NewestKept<T>(span: T, older: seq<T>, max: int)
    requires max >= 1
    ensures var r := KeepNewest([span] + older, Some(max));
      r != [] && r[0] == span && r[1..] == older[..|r| - 1]
  {
    var r := KeepNewest([span] + older, Some(max));
    assert r == ([span] + older)[..|r|];
  }

  /** A negative bound drops that many spans from the end of the buffer, the new one included when the buffer is short. */
  lemma NegativeBoundDropsFromEnd<T>(span: T, older: seq<T>, max: int)
    requires max < 0
    ensures |KeepNewest([span] + older, Some(max))| == if |older| + 1 + max > 0 then |older| + 1 + max else 0
  {
  }

  /** One trace span; the fields `endSpan` fills in are mutable. */
  class Span {
    const traceId: Json
    const spanId: string
    const parentSpanId: Option<string>
    const operation: string
    const startTime: int
    var metadata: map<string, Json>
    var status: Status
    var endTime: Option<int>
    var durationMs: Option<int>
    var output: Option<Json>
    var error: Option<SpanError>

    constructor (traceId: Json, spanId: string, parentSpanId: Option<string>, operation: string,
                 startTime: int, metadata: map<string, Json>)
      ensures this.traceId == traceId && this.spanId == spanId && this.parentSpanId == parentSpanId
      ensures this.operation == operation && this.startTime == startTime && this.metadata == metadata
      ensures status == InProgress && endTime.None? && durationMs.None? && output.None? && error.None?
    {
      this.traceId := traceId;
      this.spanId := spanId;
      this.parentSpanId := parentSpanId;
      this.operation := operation;
      this.startTime := startTime;
      this.metadata := metadata;
      status := InProgress;
      endTime := None;
      durationMs := None;
      output := None;
      error := None;
    }
  }

  /** The fields of a span after `endSpan(span, result, error, extra)` at time `now`. */
  twostate predicate Ended(span: Span, result: Option<Json>, error: Option<Thrown>, extra: map<string, Json>,
                           now: int, includePayloads: bool)
    reads span
  {
    && span.endTime == Some(now)
    && span.durationMs == Some(now - span.startTime)
    && span.status == (if error.Some? then Errored else Succeeded)
    && span.output == (if !Truthy(result) then old(span.output)
                       else if includePayloads then Some(Sanitized(result.value))
                       else Some(OutputSummary(result.value)))
    && span.error == (if error.None? then old(span.error)
                      else Some(SpanError(error.value.message,
                                          if Truthy(error.value.code) then error.value.code.value else JNull,
                                          error.value.stack)))
    && span.metadata == old(span.metadata) + extra
  }

  /** Per-operation counters of `getStatistics`. */
  datatype OpStats = OpStats(count: nat, successCount: nat, errorCount: nat, totalDuration: real, avgDuration: real)

  /** A stored trace as `getStatistics` reads it. */
  datatype TraceRecord = TraceRecord(operation: string, status: Status, durationMs: real)

  datatype Statistics = Statistics(
    totalTraces: nat,
    successCount: nat,
    errorCount: nat,
    avgDuration: real,
    /** `stats.operations`, in the order operations first appear. */
    operations: seq<(string, OpStats)>)

  function CountStatus(traces: seq<TraceRecord>, status: Status): (n: nat)
    ensures n <= |traces|
  {
    if traces == [] then 0
    else CountStatus(traces[..|traces| - 1], status) + (if traces[|traces| - 1].status == status then 1 else 0)
  }

  function TotalDuration(traces: seq<TraceRecord>): real {
    if traces == [] then 0.0
    else TotalDuration(traces[..|traces| - 1]) + traces[|traces| - 1].durationMs
  }

  /** Successes and errors together never exceed the number of traces. */
  lemma {:induction false} StatusCountsBounded(traces: seq<TraceRecord>)
    ensures CountStatus(traces, Succeeded) + CountStatus(traces, Errored) <= |traces|
  {
    if traces != [] {
      StatusCountsBounded(traces[..|traces| - 1]);
    }
  }

  /** The traces of one operation, in order. */
  function OfOperation(traces: seq<TraceRecord>, op: string): (r: seq<TraceRecord>)
    ensures |r| <= |traces|
    ensures forall i | 0 <= i < |r| :: r[i].operation == op
  {
    if traces == [] then []
    else
      var prefix := OfOperation(traces[..|traces| - 1], op);
      if traces[|traces| - 1].operation == op then prefix + [traces[|traces| - 1]] else prefix
  }

  /** The counters of `op` before the averages are filled in. */
  function Tally(traces: seq<TraceRecord>, op: string): OpStats {
    var mine := OfOperation(traces, op);
    OpStats(|mine|, CountStatus(mine, Succeeded), CountStatus(mine, Errored), TotalDuration(mine), 0.0)
  }

  function WithAverage(stats: OpStats): OpStats
    requires stats.count > 0
  {
    stats.(avgDuration := stats.totalDuration / stats.count as real)
  }

  function Keys(table: seq<(string, OpStats)>): seq<string> {
    seq(|table|, i requires 0 <= i < |table| => table[i].0)
  }

  function SumCounts(table: seq<(string, OpStats)>): nat {
    if table == [] then 0 else SumCounts(table[..|table| - 1]) + table[|table| - 1].1.count
  }

  /** The index of `op` in the table, or -1: the property lookup `stats.operations[op]`. */
  function FindOperation(table: seq<(string, OpStats)>, op: string): (j: int)
    ensures -1 <= j < |table|
    ensures 0 <= j ==> table[j].0 == op
    ensures j == -1 ==> forall i | 0 <= i < |table| :: table[i].0 != op
  {
    if table == [] then -1
    else if table[|table| - 1].0 == op then |table| - 1
    else FindOperation(table[..|table| - 1], op)
  }

  /** One step of the grouping loop. */
  function Bump(stats: OpStats, trace: TraceRecord): OpStats {
    stats.(count := stats.count + 1,
           totalDuration := stats.totalDuration + trace.durationMs,
           successCount := stats.successCount + (if trace.status == Succeeded then 1 else 0),
           errorCount := stats.errorCount + (if trace.status == Errored then 1 else 0))
  }

  /** Every group holds the counters of its operation over `seen`. */
  predicate CountsMatch(table: seq<(string, OpStats)>, seen: seq<TraceRecord>) {
    forall j | 0 <= j < |table| :: table[j].1 == Tally(seen, table[j].0) && table[j].1.count > 0
  }

  /** Every trace in `seen` has a group. */
  predicate Covers(table: seq<(string, OpStats)>, seen: seq<TraceRecord>) {
    forall k | 0 <= k < |seen| :: seen[k].operation in Keys(table)
  }

  /** The operations of `seen`, each once, in the order they first appear. */
  function FirstAppearances(seen: seq<TraceRecord>): seq<string> {
    if seen == [] then []
    else
      var earlier := FirstAppearances(seen[..|seen| - 1]);
      if seen[|seen| - 1].operation in earlier then earlier else earlier + [seen[|seen| - 1].operation]
  }

  /** Where `op` first occurs in `seen`, or `|seen|` when it does not. */
  function FirstIndex(seen: seq<TraceRecord>, op: string): (k: nat)
    ensures k <= |seen|
    ensures k < |seen| ==> seen[k].operation == op
    ensures forall m | 0 <= m < k :: seen[m].operation != op
  {
    if seen == [] then 0
    else if FirstIndex(seen[..|seen| - 1], op) < |seen| - 1 then FirstIndex(seen[..|seen| - 1], op)
    else if seen[|seen| - 1].operation == op then |seen| - 1
    else |seen|
  }

  /** The groups come in the order of each operation's first trace: every
      operation of `seen` is there once, and earlier first traces come first. */
  lemma {:induction false} FirstAppearancesInOrder(seen: seq<TraceRecord>)
    ensures NoDuplicates(FirstAppearances(seen))
    ensures forall k | 0 <= k < |seen| :: seen[k].operation in FirstAppearances(seen)
    ensures forall i | 0 <= i < |FirstAppearances(seen)| :: FirstIndex(seen, FirstAppearances(seen)[i]) < |seen|
    ensures forall i, j | 0 <= i < j < |FirstAppearances(seen)| ::
      FirstIndex(seen, FirstAppearances(seen)[i]) < FirstIndex(seen, FirstAppearances(seen)[j])
  {
    if seen != [] {
      var prefix := seen[..|seen| - 1];
      var op := seen[|seen| - 1].operation;
      var earlier := FirstAppearances(prefix);
      FirstAppearancesInOrder(prefix);
      assert forall k | 0 <= k < |prefix| :: seen[k] == prefix[k];
      forall i | 0 <= i < |earlier|
        ensures FirstIndex(seen, earlier[i]) == FirstIndex(prefix, earlier[i])
      {
      }
      if op !in earlier {
        assert FirstIndex(prefix, op) == |prefix|;
        assert FirstAppearances(seen) == earlier + [op];
        assert FirstIndex(seen, op) == |prefix|;
      }
    }
  }

  /** What the grouping loop has built after the traces `seen`. */
  predicate Grouped(table: seq<(string, OpStats)>, seen: seq<TraceRecord>) {
    && NoDuplicates(Keys(table))
    && Keys(table) == FirstAppearances(seen)
    && CountsMatch(table, seen)
    && Covers(table, seen)
    && SumCounts(table) == |seen|
  }

  lemma SumCountsUpdate(table: seq<(string, OpStats)>, j: int, entry: (string, OpStats))
    requires 0 <= j < |table|
    ensures SumCounts(table[j := entry]) == SumCounts(table) - table[j].1.count + entry.1.count
    decreases |table|
  {
    if j < |table| - 1 {
      assert table[j := entry][..|table| - 1] == table[..|table| - 1][j := entry];
      SumCountsUpdate(table[..|table| - 1], j, entry);
    } else {
      assert table[j := entry][..|table| - 1] == table[..|table| - 1];
    }
  }

  lemma TallyStep(seen: seq<TraceRecord>, trace: TraceRecord, op: string)
    ensures Tally(seen + [trace], op) == if trace.operation == op then Bump(Tally(seen, op), trace) else Tally(seen, op)
  {
    assert (seen + [trace])[..|seen|] == seen;
    var mine := OfOperation(seen, op);
    if trace.operation == op {
      assert (mine + [trace])[..|mine|] == mine;
    }
  }

  /** The grouping step for an operation not seen before appends its counters. */
  lemma GroupedAppend(table: seq<(string, OpStats)>, seen: seq<TraceRecord>, trace: TraceRecord)
    requires Grouped(table, seen)
    requires forall i | 0 <= i < |table| :: table[i].0 != trace.operation
    ensures Grouped(table + [(trace.operation, Bump(OpStats(0, 0, 0, 0.0, 0.0), trace))], seen + [trace])
  {
    var next := table + [(trace.operation, Bump(OpStats(0, 0, 0, 0.0, 0.0), trace))];
    AppendKeys(table, seen, trace, next[|table|].1);
    assert SumCounts(next) == SumCounts(table) + 1 by {
      assert next[..|table|] == table;
    }
    AppendCounts(table, seen, trace);
    AppendCovers(table, seen, trace);
  }

  lemma AppendKeys(table: seq<(string, OpStats)>, seen: seq<TraceRecord>, trace: TraceRecord, stats: OpStats)
    requires NoDuplicates(Keys(table)) && Keys(table) == FirstAppearances(seen)
    requires forall i | 0 <= i < |table| :: table[i].0 != trace.operation
    ensures NoDuplicates(Keys(table + [(trace.operation, stats)]))
    ensures Keys(table + [(trace.operation, stats)]) == FirstAppearances(seen + [trace])
  {
    assert Keys(table + [(trace.operation, stats)]) == Keys(table) + [trace.operation];
    assert (seen + [trace])[..|seen|] == seen;
  }

  lemma AppendCounts(table: seq<(string, OpStats)>, seen: seq<TraceRecord>, trace: TraceRecord)
    requires CountsMatch(table, seen) && Covers(table, seen)
    requires forall i | 0 <= i < |table| :: table[i].0 != trace.operation
    ensures CountsMatch(table + [(trace.operation, Bump(OpStats(0, 0, 0, 0.0, 0.0), trace))], seen + [trace])
  {
    var op := trace.operation;
    var next := table + [(op, Bump(OpStats(0, 0, 0, 0.0, 0.0), trace))];
    forall k | 0 <= k < |seen|
      ensures seen[k].operation != op
    {
      assert seen[k].operation in Keys(table);
    }
    TallyOfAbsent(seen, op);
    forall j | 0 <= j < |next|
      ensures next[j].1 == Tally(seen + [trace], next[j].0) && next[j].1.count > 0
    {
      TallyStep(seen, trace, next[j].0);
    }
  }

  lemma AppendCovers(table: seq<(string, OpStats)>, seen: seq<TraceRecord>, trace: TraceRecord)
    requires Covers(table, seen)
    ensures Covers(table + [(trace.operation, Bump(OpStats(0, 0, 0, 0.0, 0.0), trace))], seen + [trace])
  {
    var next := table + [(trace.operation, Bump(OpStats(0, 0, 0, 0.0, 0.0), trace))];
    var seen' := seen + [trace];
    assert Keys(next) == Keys(table) + [trace.operation];
    forall k | 0 <= k < |seen'|
      ensures seen'[k].operation in Keys(next)
    {
      if k < |seen| {
        assert seen'[k] == seen[k];
      } else {
        assert Keys(next)[|table|] == trace.operation;
      }
    }
  }

  /** The grouping step for a known operation bumps its counters in place. */
  lemma GroupedUpdate(table: seq<(string, OpStats)>, seen: seq<TraceRecord>, trace: TraceRecord, j: int)
    requires Grouped(table, seen)
    requires 0 <= j < |table| && table[j].0 == trace.operation
    ensures Grouped(table[j := (trace.operation, Bump(table[j].1, trace))], seen + [trace])
  {
    var next := table[j := (trace.operation, Bump(table[j].1, trace))];
    assert Keys(next) == Keys(table);
    assert Keys(next) == FirstAppearances(seen + [trace]) by {
      assert (seen + [trace])[..|seen|] == seen;
      assert trace.operation in Keys(table) by { assert Keys(table)[j] == trace.operation; }
    }
    SumCountsUpdate(table, j, (trace.operation, Bump(table[j].1, trace)));
    UpdateCounts(table, seen, trace, j);
    UpdateCovers(table, seen, trace, j);
  }

  lemma UpdateCounts(table: seq<(string, OpStats)>, seen: seq<TraceRecord>, trace: TraceRecord, j: int)
    requires CountsMatch(table, seen) && NoDuplicates(Keys(table))
    requires 0 <= j < |table| && table[j].0 == trace.operation
    ensures CountsMatch(table[j := (trace.operation, Bump(table[j].1, trace))], seen + [trace])
  {
    var next := table[j := (trace.operation, Bump(table[j].1, trace))];
    forall i | 0 <= i < |next|
      ensures next[i].1 == Tally(seen + [trace], next[i].0) && next[i].1.count > 0
    {
      TallyStep(seen, trace, next[i].0);
      if i != j {
        assert Keys(table)[i] != Keys(table)[j];
      }
    }
  }

  lemma UpdateCovers(table: seq<(string, OpStats)>, seen: seq<TraceRecord>, trace: TraceRecord, j: int)
    requires Covers(table, seen)
    requires 0 <= j < |table| && table[j].0 == trace.operation
    ensures Covers(table[j := (trace.operation, Bump(table[j].1, trace))], seen + [trace])
  {
    var next := table[j := (trace.operation, Bump(table[j].1, trace))];
    var seen' := seen + [trace];
    assert Keys(next) == Keys(table);
    forall k | 0 <= k < |seen'|
      ensures seen'[k].operation in Keys(next)
    {
      if k < |seen| {
        assert seen'[k] == seen[k];
      } else {
        assert Keys(next)[j] == trace.operation;
      }
    }
  }

  /** The grouping step at position `i` of the traces, for an operation not seen before. */
  lemma GroupedAppendAt(table: seq<(string, OpStats)>, traces: seq<TraceRecord>, i: nat)
    requires i < |traces| && Grouped(table, traces[..i])
    requires forall k | 0 <= k < |table| :: table[k].0 != traces[i].operation
    ensures Grouped(table + [(traces[i].operation, Bump(OpStats(0, 0, 0, 0.0, 0.0), traces[i]))], traces[..i + 1])
  {
    assert traces[..i + 1] == traces[..i] + [traces[i]];
    GroupedAppend(table, traces[..i], traces[i]);
  }

  /** The grouping step at position `i` of the traces, for the operation of group `j`. */
  lemma GroupedUpdateAt(table: seq<(string, OpStats)>, traces: seq<TraceRecord>, i: nat, j: int)
    requires i < |traces| && Grouped(table, traces[..i])
    requires 0 <= j < |table| && table[j].0 == traces[i].operation
    ensures Grouped(table[j := (traces[i].operation, Bump(table[j].1, traces[i]))], traces[..i + 1])
  {
    assert traces[..i + 1] == traces[..i] + [traces[i]];
    GroupedUpdate(table, traces[..i], traces[i], j);
  }

  lemma TallyOfAbsent(seen: seq<TraceRecord>, op: string)
    requires forall k | 0 <= k < |seen| :: seen[k].operation != op
    ensures Tally(seen, op) == OpStats(0, 0, 0, 0.0, 0.0)
    decreases |seen|
  {
    if seen != [] {
      TallyOfAbsent(seen[..|seen| - 1], op);
    }
  }

  /** The averaged groups keep what the grouping loop established. */
  lemma GroupsAveraged(table: seq<(string, OpStats)>, averaged: seq<(string, OpStats)>, traces: seq<TraceRecord>)
    requires Grouped(table, traces)
    requires |averaged| == |table| && Keys(averaged) == Keys(table) && SumCounts(averaged) == SumCounts(table)
    requires forall k | 0 <= k < |table| :: averaged[k] == (table[k].0, WithAverage(table[k].1))
    ensures NoDuplicates(Keys(averaged))
    ensures Keys(averaged) == FirstAppearances(traces)
    ensures forall k | 0 <= k < |traces| :: traces[k].operation in Keys(averaged)
    ensures forall j | 0 <= j < |averaged| ::
      Tally(traces, averaged[j].0).count > 0 && averaged[j].1 == WithAverage(Tally(traces, averaged[j].0))
    ensures SumCounts(averaged) == |traces|
  {
    forall j | 0 <= j < |averaged|
      ensures Tally(traces, averaged[j].0).count > 0 && averaged[j].1 == WithAverage(Tally(traces, averaged[j].0))
    {
      assert averaged[j].0 == table[j].0;
    }
  }

  /** The tracing service: settings from the tracing configuration and the in-memory buffer. */
  class TracingService {
    const enabled: bool
    const includePayloads: bool
    const sampleRate: Num
    const maxInMemoryTraces: Option<int>
    /** Finished spans, newest first. */
    var inMemoryTraces: seq<Span>

    constructor (config: TracingConfig.TracingConfig)
      ensures enabled == config.enabled && includePayloads == config.includePayloads
      ensures sampleRate == config.sampleRate && maxInMemoryTraces == config.maxInMemoryTraces
      ensures inMemoryTraces == []
    {
      enabled := config.enabled;
      includePayloads := config.includePayloads;
      sampleRate := config.sampleRate;
      maxInMemoryTraces := config.maxInMemoryTraces;
      inMemoryTraces := [];
    }

    /** `startSpan`: no span unless tracing is on and the draw is sampled; otherwise
        an in-progress span whose metadata gains the environment name. */
    method StartSpan(operation: string, metadata: map<string, Json>, parentSpanId: Option<string>,
                     draw: real, traceUuid: string, spanUuid: string, now: int, nodeEnv: Option<string>)
      returns (span: Span?)
      ensures span == null <==> !enabled || !Sampled(draw, sampleRate)
      ensures span != null ==>
        && fresh(span)
        && span.traceId == TraceIdOf(metadata, traceUuid)
        && span.spanId == spanUuid && span.parentSpanId == parentSpanId
        && span.operation == operation && span.startTime == now
        && span.metadata == metadata["environment" := JString(EnvironmentName(nodeEnv))]
        && span.status == InProgress && span.output.None? && span.error.None?
    {
      if !enabled || !Sampled(draw, sampleRate) {
        return null;
      }
      span := new Span(TraceIdOf(metadata, traceUuid), spanUuid, parentSpanId, operation, now,
                       metadata["environment" := JString(EnvironmentName(nodeEnv))]);
    }

    /** `endSpan`: nothing happens without a span or with tracing off;
        otherwise the span is completed and saved in the buffer. */
    method EndSpan(span: Span?, result: Option<Json>, error: Option<Thrown>, extra: map<string, Json>, now: int)
      returns (r: Span?)
      modifies span, this`inMemoryTraces
      ensures !enabled || span == null ==> r == null && inMemoryTraces == old(inMemoryTraces)
      ensures !enabled && span != null ==> unchanged(span)
      ensures enabled && span != null ==>
        && r == span
        && Ended(span, result, error, extra, now, includePayloads)
        && inMemoryTraces == KeepNewest([span] + old(inMemoryTraces), maxInMemoryTraces)
    {
      if !enabled || span == null {
        return null;
      }
      span.endTime := Some(now);
      span.durationMs := Some(now - span.startTime);
      span.status := if error.Some? then Errored else Succeeded;
      if Truthy(result) && includePayloads {
        var sanitized := SanitizePayload(result.value);
        span.output := Some(sanitized);
      } else if Truthy(result) {
        span.output := Some(OutputSummary(result.value));
      }
      if error.Some? {
        var code := if Truthy(error.value.code) then error.value.code.value else JNull;
        span.error := Some(SpanError(error.value.message, code, error.value.stack));
      }
      span.metadata := span.metadata + extra;
      SaveTrace(span);
      r := span;
    }

    /** The in-memory part of `saveTrace`, which runs before any persistence
        and so survives its failures. */
    method SaveTrace(span: Span)
      modifies this`inMemoryTraces
      ensures inMemoryTraces == KeepNewest([span] + old(inMemoryTraces), maxInMemoryTraces)
    {
      inMemoryTraces := [span] + inMemoryTraces;
      if maxInMemoryTraces.Some? && |inMemoryTraces| > maxInMemoryTraces.value {
        inMemoryTraces := inMemoryTraces[..SliceEnd(|inMemoryTraces|, maxInMemoryTraces.value)];
      }
    }

    /** `getRecentTraces(limit)`: the newest `limit` spans. */
    function RecentTraces(limit: int): (r: seq<Span>)
      reads this
      ensures |r| <= |inMemoryTraces| && r == inMemoryTraces[..|r|]
      ensures 0 <= limit ==> |r| == if limit < |inMemoryTraces| then limit else |inMemoryTraces|
    {
      inMemoryTraces[..SliceEnd(|inMemoryTraces|, limit)]
    }

    /** `sanitizePayload`, built as the source builds it: one pass over the
        array items or the object entries, recursing into each value. */
    method SanitizePayload(payload: Json) returns (r: Json)
      ensures r == Sanitized(payload)
      decreases payload, 1
    {
      match payload {
        case JString(s) =>
          r := if |s| > MaxPayloadText then JString(s[..MaxPayloadText] + "...") else payload;
        case JArray(items) =>
          var out: seq<Json> := [];
          for i := 0 to |items|
            invariant |out| == i && forall k | 0 <= k < i :: out[k] == Sanitized(items[k])
          {
            var item := SanitizePayload(items[i]);
            out := out + [item];
          }
          r := JArray(out);
        case JObject(members) =>
          var out: seq<(string, Json)> := [];
          for i := 0 to |members|
            invariant |out| == i
            invariant forall k | 0 <= k < i :: out[k] == (members[k].0, SanitizedMember(members[k].0, members[k].1))
          {
            var key := members[i].0;
            var value := members[i].1;
            var clean: Json;
            if IsSensitiveKey(key) {
              clean := JString(Redacted);
            } else if ToLower(key) == "headers" && (value.JObject? || value.JArray?) {
              clean := SanitizeHeaders(value);
            } else {
              clean := SanitizePayload(value);
            }
            out := out + [(key, clean)];
          }
          r := JObject(out);
        case _ =>
          r := payload;
      }
    }

    method SanitizeHeaders(headers: Json) returns (r: Json)
      requires headers.JObject? || headers.JArray?
      ensures r == SanitizedHeaders(headers)
      decreases headers, 0
    {
      var entries: seq<(string, Json)>;
      if headers.JObject? {
        entries := headers.members;
      } else {
        entries := seq(|headers.items|, i requires 0 <= i < |headers.items| => (NatToString(i), headers.items[i]));
      }
      var out: seq<(string, Json)> := [];
      for i := 0 to |entries|
        invariant |out| == i
        invariant forall k | 0 <= k < i :: out[k] == (entries[k].0, SanitizedHeader(entries[k].0, entries[k].1))
      {
        var key := entries[i].0;
        var clean: Json;
        if IsSensitiveKey(key) {
          clean := JString(Redacted);
        } else {
          assert entries[i].1 < headers;
          clean := SanitizePayload(entries[i].1);
        }
        out := out + [(key, clean)];
      }
      r := JObject(out);
    }

    /** `getStatistics` over the traces a query returned: totals by status, the
        mean duration, and one group of counters per operation in the order the
        operations first appear, whose counts add up to the number of traces. */
    method GetStatistics(traces: seq<TraceRecord>) returns (stats: Statistics)
      ensures stats.totalTraces == |traces|
      ensures stats.successCount == CountStatus(traces, Succeeded)
      ensures stats.errorCount == CountStatus(traces, Errored)
      ensures stats.successCount + stats.errorCount <= stats.totalTraces
      ensures stats.avgDuration == if |traces| > 0 then TotalDuration(traces) / |traces| as real else 0.0
      ensures NoDuplicates(Keys(stats.operations))
      ensures Keys(stats.operations) == FirstAppearances(traces)
      ensures forall k | 0 <= k < |traces| :: traces[k].operation in Keys(stats.operations)
      ensures forall j | 0 <= j < |stats.operations| ::
        Tally(traces, stats.operations[j].0).count > 0 &&
        stats.operations[j].1 == WithAverage(Tally(traces, stats.operations[j].0))
      ensures SumCounts(stats.operations) == |traces|
    {
      StatusCountsBounded(traces);
      var table := GroupByOperation(traces);
      var averaged := FillAverages(table);
      GroupsAveraged(table, averaged, traces);
      var avg := if |traces| > 0 then TotalDuration(traces) / |traces| as real else 0.0;
      stats := Statistics(|traces|, CountStatus(traces, Succeeded), CountStatus(traces, Errored), avg, averaged);
    }

    /** The `forEach` that sets each group's mean duration. */
    method FillAverages(table: seq<(string, OpStats)>) returns (averaged: seq<(string, OpStats)>)
      requires forall j | 0 <= j < |table| :: table[j].1.count > 0
      ensures |averaged| == |table| && Keys(averaged) == Keys(table) && SumCounts(averaged) == SumCounts(table)
      ensures forall k | 0 <= k < |table| :: averaged[k] == (table[k].0, WithAverage(table[k].1))
    {
      averaged := table;
      for j := 0 to |table|
        invariant |averaged| == |table| && Keys(averaged) == Keys(table) && SumCounts(averaged) == SumCounts(table)
        invariant forall k | 0 <= k < |table| ::
          averaged[k] == if k < j then (table[k].0, WithAverage(table[k].1)) else table[k]
      {
        SumCountsUpdate(averaged, j, (table[j].0, WithAverage(table[j].1)));
        averaged := averaged[j := (table[j].0, WithAverage(table[j].1))];
      }
    }

    /** The `forEach` that groups the traces by operation. */
    method GroupByOperation(traces: seq<TraceRecord>) returns (table: seq<(string, OpStats)>)
      ensures Grouped(table, traces)
    {
      table := [];
      for i := 0 to |traces|
        invariant Grouped(table, traces[..i])
      {
        var trace := traces[i];
        var j := FindOperation(table, trace.operation);
        if j < 0 {
          GroupedAppendAt(table, traces, i);
          table := table + [(trace.operation, Bump(OpStats(0, 0, 0, 0.0, 0.0), trace))];
        } else {
          GroupedUpdateAt(table, traces, i, j);
          table := table[j := (trace.operation, Bump(table[j].1, trace))];
        }
      }
      assert traces[..|traces|] == traces;
    }
  }
}

=== FILE: tracing_config.dfy ===
/** The tracing settings, read once from the process environment when the
    module loads. */
module TracingConfig {
  import opened Wrappers
  import opened JsText
  import opened JsNumber

  type Env = map<string, string>

  const SampleRateRange := "TRACE_SAMPLE_RATE must be between 0 and 1"

  datatype TracingConfig = TracingConfig(
    enabled: bool,
    outputDir: string,
    level: string,
    persistToDatabase: bool,
    /** `parseInt`'s result; `None` is NaN. */
    maxInMemoryTraces: Option<int>,
    includePayloads: bool,
    operations: seq<string>,
    sampleRate: Num)

  function Lookup(env: Env, name: string): Option<string> {
    if name in env then Some(env[name]) else None
  }

  /** `process.env[name] || fallback`: an absent or empty variable gives the fallback. */
  function OrElse(env: Env, name: string, fallback: string): (r: string)
    ensures name in env && env[name] != "" ==> r == env[name]
    ensures name !in env || env[name] == "" ==> r == fallback
  {
    if name in env && env[name] != "" then env[name] else fallback
  }

  /** `value < 0 || value > 1` on a JavaScript number; every comparison with NaN is false. */
  predicate OutOfUnitRange(value: Num) {
    match value
    case Finite(v) => v < 0.0 || v > 1.0
    case PosInfinity => true
    case NegInfinity => true
    case NaN => false
  }

  /** `TRACE_OPERATIONS.split(',').map(op => op.trim())`, or none when unset or empty. */
  function Operations(env: Env): (r: seq<string>)
    ensures (Lookup(env, "TRACE_OPERATIONS").None? || env["TRACE_OPERATIONS"] == "") ==> r == []
    ensures Lookup(env, "TRACE_OPERATIONS").Some? && env["TRACE_OPERATIONS"] != "" ==>
      && |r| == |Split(env["TRACE_OPERATIONS"], ',')|
      && forall i | 0 <= i < |r| :: r[i] == Trim(Split(env["TRACE_OPERATIONS"], ',')[i]) && Unpadded(r[i]) && ',' !in r[i]
  {
    if "TRACE_OPERATIONS" in env && env["TRACE_OPERATIONS"] != "" then
      var parts := Split(env["TRACE_OPERATIONS"], ',');
      var r := seq(|parts|, i requires 0 <= i < |parts| => Trim(parts[i]));
      assert forall i | 0 <= i < |r| :: ',' !in r[i] by {
        forall i | 0 <= i < |r|
          ensures ',' !in r[i]
        {
          TrimChars(parts[i]);
        }
      }
      r
    else []
  }

  /** The module body: the settings, then the sample-rate check that makes the load throw. */
  function LoadTracingConfig(env: Env, defaultOutputDir: string): (r: Result<TracingConfig, string>)
    ensures r.Failure? <==> OutOfUnitRange(ParseFloat(OrElse(env, "TRACE_SAMPLE_RATE", "1.0")))
    ensures r.Failure? ==> r.error == SampleRateRange
    ensures r.Success? ==>
      && (r.value.enabled <==> Lookup(env, "TRACING_ENABLED") == Some("true"))
      && (r.value.persistToDatabase <==> Lookup(env, "TRACE_PERSIST_TO_DB") == Some("true"))
      && (r.value.includePayloads <==> Lookup(env, "TRACE_INCLUDE_PAYLOADS") != Some("false"))
      && r.value.maxInMemoryTraces == ParseInt(OrElse(env, "TRACE_MAX_IN_MEMORY", "1000"), true)
      && r.value.operations == Operations(env)
      && r.value.outputDir == OrElse(env, "TRACE_OUTPUT_DIR", defaultOutputDir)
      && r.value.level == OrElse(env, "TRACE_LEVEL", "info")
      && r.value.sampleRate == ParseFloat(OrElse(env, "TRACE_SAMPLE_RATE", "1.0"))
      && !OutOfUnitRange(r.value.sampleRate)
  {
    var config := TracingConfig(
      Lookup(env, "TRACING_ENABLED") == Some("true"),
      OrElse(env, "TRACE_OUTPUT_DIR", defaultOutputDir),
      OrElse(env, "TRACE_LEVEL", "info"),
      Lookup(env, "TRACE_PERSIST_TO_DB") == Some("true"),
      ParseInt(OrElse(env, "TRACE_MAX_IN_MEMORY", "1000"), true),
      Lookup(env, "TRACE_INCLUDE_PAYLOADS") != Some("false"),
      Operations(env),
      ParseFloat(OrElse(env, "TRACE_SAMPLE_RATE", "1.0")));
    if OutOfUnitRange(config.sampleRate) then Failure(SampleRateRange) else Success(config)
  }

  /** Only the exact text `true` enables tracing: `TRUE`, ` true` and `1` do not. */
  lemma EnabledOnlyByExactTrue(env: Env, urlDir: string)
    requires "TRACING_ENABLED" in env && env["TRACING_ENABLED"] != "true"
    ensures LoadTracingConfig(env, urlDir).Success? ==> !LoadTracingConfig(env, urlDir).value.enabled
  {
  }

  /** A sample rate that does not parse is NaN, and NaN passes the range check. */
  lemma UnparsableSampleRateAccepted(env: Env, dir: string)
    requires "TRACE_SAMPLE_RATE" in env && env["TRACE_SAMPLE_RATE"] != ""
    requires ParseFloat(env["TRACE_SAMPLE_RATE"]) == NaN
    ensures LoadTracingConfig(env, dir).Success?
    ensures LoadTracingConfig(env, dir).value.sampleRate == NaN
  {
  }

  /** The in-memory bound defaults to 1000 when the variable is unset or empty. */
  lemma DefaultMaxInMemory(env: Env, dir: string)
    requires "TRACE_MAX_IN_MEMORY" !in env || env["TRACE_MAX_IN_MEMORY"] == ""
    ensures LoadTracingConfig(env, dir).Success? ==> LoadTracingConfig(env, dir).value.maxInMemoryTraces == Some(1000)
  {
    assert IntToString(1000) == "1000";
    ParseIntRoundTrip(1000, "", true);
    assert IntToString(1000) + "" == "1000";
  }

  /** The sample rate defaults to 1, which passes the range check. */
  lemma DefaultSampleRate(env: Env, dir: string)
    requires "TRACE_SAMPLE_RATE" !in env || env["TRACE_SAMPLE_RATE"] == ""
    ensures LoadTracingConfig(env, dir).Success?
    ensures LoadTracingConfig(env, dir).value.sampleRate == Finite(1.0)
  {
    ParseFloatOfDefault();
  }

  /** `parseFloat('1.0')` is 1. */
  lemma ParseFloatOfDefault()
    ensures ParseFloat("1.0") == Finite(1.0)
  {
    ParseFloatOneDotZero("1.0");
  }

  lemma ParseFloatOneDotZero(text: string)
    requires |text| == 3 && text[0] == '1' && text[1] == '.' && text[2] == '0'
    ensures ParseFloat(text) == Finite(1.0)
  {
    assert TrimStart(text) == text;
    assert SplitSign(text) == (false, text);
    assert !StartsWith(text, "Infinity") by {
      assert text[0] != "Infinity"[0];
    }
    assert DigitRunLength(text[2..][1..], 10) == 0;
    assert DigitRunLength(text[2..], 10) == 1;
    assert DigitRunLength(text[1..], 10) == 0;
    assert DigitRunLength(text, 10) == 1;
    assert DigitsValue(text[..1], 10) == 1 by {
      assert text[..1][..0] == [];
    }
    assert DigitsValue(text[2..][..1], 10) == 0 by {
      assert text[2..][..1][..0] == [];
    }
  }
}

=== FILE: validators.dfy ===
/** Validation of the structured biography fields: contact formats, years,
    the business function, education and experience entries, the combined
    field check the create and update routes run, and the test that tells a
    biography text from a model's refusal. A single-field validator returns
    `None` when the value passes and `Some(message)` otherwise. */
module Validators {
  import opened Wrappers
  import opened JsText
  import opened JsNumber
  import opened Sequences
  import opened Profile

  /** `!value`: absent or empty. */
  predicate Missing(value: Option<string>) {
    value.None? || value.value == ""
  }

  /** `!value || value.trim() === ''`. */
  predicate MissingOrBlank(value: Option<string>) {
    value.None? || IsBlank(value.value)
  }

  // ---------------------------------------------------------------- e-mail

  /** A run that `[^\s@]+` accepts. */
  predicate EmailPart(x: string) {
    x != [] && forall k | 0 <= k < |x| :: !IsSpace(x[k]) && x[k] != '@'
  }

  /** The e-mail pattern read as a regular expression: a part, `@`, a part, `.`, a part. */
  ghost predicate EmailMatches(s: string) {
    exists i, j | 0 < i < j < |s| ::
      s[i] == '@' && s[j] == '.' && EmailPart(s[0..i]) && EmailPart(s[i + 1..j]) && EmailPart(s[j + 1..|s|])
  }

  /** The pattern decided directly: no white space, exactly one `@` with text
      before it, and a dot with text on both sides after it. */
  predicate IsEmail(s: string) {
    (forall k | 0 <= k < |s| :: !IsSpace(s[k]))
    && var at := IndexOf(s, '@');
    at > 0 && '@' !in s[at + 1..] && DottedDomain(s[at + 1..])
  }

  predicate DottedDomain(d: string) {
    |d| >= 3 && '.' in d[1..|d| - 1]
  }

  lemma PartAt(s: string, lo: int, hi: int, k: int)
    requires 0 <= lo <= k < hi <= |s| && EmailPart(s[lo..hi])
    ensures !IsSpace(s[k]) && s[k] != '@'
  {
    assert s[lo..hi][k - lo] == s[k];
  }

  /** With three parts around `@` at `i` and `.` at `j`, the text has no white
      space and no other `@`. */
  lemma PartsChars(s: string, i: int, j: int)
    requires 0 < i < j < |s| && s[i] == '@' && s[j] == '.'
    requires EmailPart(s[0..i]) && EmailPart(s[i + 1..j]) && EmailPart(s[j + 1..|s|])
    ensures forall k | 0 <= k < |s| :: !IsSpace(s[k])
    ensures forall k | 0 <= k < |s| && k != i :: s[k] != '@'
  {
    forall k | 0 <= k < |s|
      ensures !IsSpace(s[k]) && (k != i ==> s[k] != '@')
    {
      if k < i {
        PartAt(s, 0, i, k);
      } else if i < k < j {
        PartAt(s, i + 1, j, k);
      } else if j < k {
        PartAt(s, j + 1, |s|, k);
      }
    }
  }

  lemma EmailMatchesIsEmail(s: string)
    requires EmailMatches(s)
    ensures IsEmail(s)
  {
    var i, j :| 0 < i < j < |s| && s[i] == '@' && s[j] == '.'
      && EmailPart(s[0..i]) && EmailPart(s[i + 1..j]) && EmailPart(s[j + 1..|s|]);
    PartsChars(s, i, j);
    var at := IndexOf(s, '@');
    assert at == i;
    var d := s[at + 1..];
    assert '@' !in d by {
      forall k | 0 <= k < |d| ensures d[k] != '@' {
        assert d[k] == s[at + 1 + k];
      }
    }
    assert i + 1 < j && j + 1 < |s| by {
      assert s[i + 1..j] != [] && s[j + 1..|s|] != [];
    }
    assert d[1..|d| - 1][j - i - 2] == '.';
  }

  lemma IsEmailMatches(s: string)
    requires IsEmail(s)
    ensures EmailMatches(s)
  {
    var at := IndexOf(s, '@');
    var d := s[at + 1..];
    var m :| 0 <= m < |d[1..|d| - 1]| && d[1..|d| - 1][m] == '.';
    var j := at + 2 + m;
    assert s[j] == '.';
    forall k | 0 <= k < |s| && k != at
      ensures s[k] != '@'
    {
      if k < at {
        NotInPrefix(s, '@', at, k);
      } else {
        assert d[k - at - 1] == s[k];
      }
    }
    assert EmailPart(s[0..at]);
    assert EmailPart(s[at + 1..j]);
    assert EmailPart(s[j + 1..|s|]);
  }

  /** The direct test decides the pattern, in both directions. */
  lemma EmailPattern(s: string)
    ensures IsEmail(s) <==> EmailMatches(s)
  {
    if IsEmail(s) {
      IsEmailMatches(s);
    }
    if EmailMatches(s) {
      EmailMatchesIsEmail(s);
    }
  }

  /** `validateEmail`: an absent or empty address passes; otherwise it must match the pattern. */
  function ValidateEmail(email: Option<string>): (r: Option<string>)
    ensures r.None? <==> Missing(email) || EmailMatches(email.value)
    ensures r.Some? ==> r.value == "Invalid email format"
  {
    if Missing(email) then None
    else
      EmailPattern(email.value);
      if IsEmail(email.value) then None else Some("Invalid email format")
  }

  // ---------------------------------------------------------------- phone

  predicate IsAsciiDigit(c: char) {
    '0' <= c <= '9'
  }

  /** The characters `[\d\s\-\+\(\)]` admits. */
  predicate PhoneChar(c: char) {
    IsAsciiDigit(c) || IsSpace(c) || c == '-' || c == '+' || c == '(' || c == ')'
  }

  /** `validatePhone`: an absent or empty number passes; otherwise it may hold
      only digits, white space and `-+()`, and at least ten digits. */
  function ValidatePhone(phone: Option<string>): (r: Option<string>)
    ensures r.Some? ==> !Missing(phone) && r.value == "Phone number must contain at least 10 digits"
    ensures r.None? <==> Missing(phone)
                         || ((forall k | 0 <= k < |phone.value| :: PhoneChar(phone.value[k]))
                             && |Filter(phone.value, IsAsciiDigit)| >= 10)
    ensures r.None? && !Missing(phone) ==> |phone.value| >= 10
  {
    if Missing(phone) then None
    else
      var s := phone.value;
      if (forall k | 0 <= k < |s| :: PhoneChar(s[k])) && |Filter(s, IsAsciiDigit)| >= 10 then None
      else Some("Phone number must contain at least 10 digits")
  }

  /** Ten or more bare digits make a valid number. */
  lemma PhoneOfDigits(s: string)
    requires |s| >= 10 && forall k | 0 <= k < |s| :: IsAsciiDigit(s[k])
    ensures ValidatePhone(Some(s)).None?
  {
    FilterAll(s, IsAsciiDigit);
  }

  /** A number with a character outside the admitted set is rejected, however many digits it has. */
  lemma PhoneRejectsOtherChars(s: string, k: int)
    requires 0 <= k < |s| && !PhoneChar(s[k])
    ensures ValidatePhone(Some(s)).Some?
  {
  }

  // ---------------------------------------------------------------- LinkedIn

  /** The parts of a profile address the LinkedIn pattern accepts. */
  datatype LinkedInUrl = LinkedInUrl(scheme: string, www: bool, company: bool, slug: string, trailingSlash: bool)

  predicate SlugChar(c: char) {
    ('a' <= c <= 'z') || ('A' <= c <= 'Z') || ('0' <= c <= '9') || c == '_' || c == '-'
  }

  predicate IsSlug(s: string) {
    s != [] && forall k | 0 <= k < |s| :: SlugChar(s[k])
  }

  predicate WellFormed(l: LinkedInUrl) {
    (l.scheme == "" || l.scheme == "http://" || l.scheme == "https://") && IsSlug(l.slug)
  }

  /** The address the parts spell. */
  function Render(l: LinkedInUrl): string {
    l.scheme + ((if l.www then "www." else "") + ("linkedin.com/"
    + ((if l.company then "company/" else "in/") + (l.slug + (if l.trailingSlash then "/" else "")))))
  }

  function SplitScheme(u: string): (r: (string, string))
    ensures (r.0 == "" || r.0 == "http://" || r.0 == "https://") && u == r.0 + r.1
  {
    if StartsWith(u, "https://") then ("https://", u[8..])
    else if StartsWith(u, "http://") then ("http://", u[7..])
    else ("", u)
  }

  function SplitWww(a: string): (r: (bool, string))
    ensures a == (if r.0 then "www." else "") + r.1
  {
    if StartsWith(a, "www.") then (true, a[4..]) else (false, a)
  }

  function SplitProfilePath(b: string): (r: Option<(bool, string)>)
    ensures r.Some? ==> b == "linkedin.com/" + ((if r.value.0 then "company/" else "in/") + r.value.1)
  {
    if !StartsWith(b, "linkedin.com/") then None
    else
      var c := b[13..];
      assert b == "linkedin.com/" + c;
      if StartsWith(c, "company/") then
        assert c == "company/" + c[8..];
        Some((true, c[8..]))
      else if StartsWith(c, "in/") then
        assert c == "in/" + c[3..];
        Some((false, c[3..]))
      else None
  }

  function SplitSlug(d: string): (r: Option<(string, bool)>)
    ensures r.Some? ==> IsSlug(r.value.0) && d == r.value.0 + (if r.value.1 then "/" else "")
  {
    if EndsWith(d, "/") then
      assert d == d[..|d| - 1] + "/";
      if IsSlug(d[..|d| - 1]) then Some((d[..|d| - 1], true)) else None
    else if IsSlug(d) then Some((d, false))
    else None
  }

  /** Reads an address left to right as the pattern does: optional scheme,
      optional `www.`, `linkedin.com/`, `in/` or `company/`, a slug, an optional `/`. */
  function ParseLinkedIn(u: string): (r: Option<LinkedInUrl>)
    ensures r.Some? ==> WellFormed(r.value) && Render(r.value) == u
  {
    var (scheme, a) := SplitScheme(u);
    var (www, b) := SplitWww(a);
    match SplitProfilePath(b)
    case None => None
    case Some((company, d)) =>
      match SplitSlug(d)
      case None => None
      case Some((slug, slash)) => Some(LinkedInUrl(scheme, www, company, slug, slash))
  }

  lemma DiffersAt(s: string, p: string, k: int)
    requires 0 <= k < |p| && k < |s| && s[k] != p[k]
    ensures !StartsWith(s, p)
  {
    if |p| <= |s| {
      assert s[..|p|][k] == s[k];
    }
  }

  lemma SplitSchemeOf(scheme: string, rest: string)
    requires scheme == "" || scheme == "http://" || scheme == "https://"
    requires rest != [] && (rest[0] == 'w' || rest[0] == 'l')
    ensures SplitScheme(scheme + rest) == (scheme, rest)
  {
    var u := scheme + rest;
    if scheme == "" {
      assert u == rest;
      DiffersAt(u, "https://", 0);
      DiffersAt(u, "http://", 0);
    } else if scheme == "http://" {
      DiffersAt(u, "https://", 4);
      assert u[..7] == scheme;
      assert u[7..] == rest;
    } else {
      assert u[..8] == scheme;
      assert u[8..] == rest;
    }
  }

  lemma SplitWwwOf(www: bool, rest: string)
    requires StartsWith(rest, "linkedin.com/")
    ensures SplitWww((if www then "www." else "") + rest) == (www, rest)
  {
    var a := (if www then "www." else "") + rest;
    if www {
      assert a[..4] == "www.";
      assert a[4..] == rest;
    } else {
      assert a == rest;
      assert rest[..13][0] == 'l';
      DiffersAt(a, "www.", 0);
    }
  }

  lemma SplitProfilePathOf(company: bool, d: string)
    ensures SplitProfilePath("linkedin.com/" + ((if company then "company/" else "in/") + d)) == Some((company, d))
  {
    var c := (if company then "company/" else "in/") + d;
    var b := "linkedin.com/" + c;
    assert b[..13] == "linkedin.com/";
    assert b[13..] == c;
    if company {
      assert c[..8] == "company/";
      assert c[8..] == d;
    } else {
      DiffersAt(c, "company/", 0);
      assert c[..3] == "in/";
      assert c[3..] == d;
    }
  }

  lemma SplitSlugOf(slug: string, slash: bool)
    requires IsSlug(slug)
    ensures SplitSlug(slug + (if slash then "/" else "")) == Some((slug, slash))
  {
    var d := slug + (if slash then "/" else "");
    if slash {
      assert d[|d| - 1..] == "/";
      assert d[..|d| - 1] == slug;
    } else {
      assert d == slug;
      assert SlugChar(slug[|slug| - 1]);
      assert d[|d| - 1..] == [slug[|slug| - 1]];
    }
  }

  /** Every well-formed address is read back into the parts that spell it. */
  lemma ParseRender(l: LinkedInUrl)
    requires WellFormed(l)
    ensures ParseLinkedIn(Render(l)) == Some(l)
  {
    var d := l.slug + (if l.trailingSlash then "/" else "");
    var b := "linkedin.com/" + ((if l.company then "company/" else "in/") + d);
    var a := (if l.www then "www." else "") + b;
    assert Render(l) == l.scheme + a;
    assert b[..13] == "linkedin.com/";
    assert a[0] == 'w' || a[0] == 'l';
    SplitSchemeOf(l.scheme, a);
    SplitWwwOf(l.www, b);
    SplitProfilePathOf(l.company, d);
    SplitSlugOf(l.slug, l.trailingSlash);
  }

  /** `validateLinkedIn`: an absent or empty address passes; otherwise it must
      be spelled by well-formed parts. */
  function ValidateLinkedIn(url: Option<string>): (r: Option<string>)
    ensures r.Some? ==> !Missing(url) && r.value == "Invalid LinkedIn URL format"
    ensures r.None? && !Missing(url) ==> exists l :: WellFormed(l) && Render(l) == url.value
  {
    if Missing(url) then None
    else if ParseLinkedIn(url.value).Some? then None
    else Some("Invalid LinkedIn URL format")
  }

  /** Every well-formed address passes. */
  lemma LinkedInAccepts(l: LinkedInUrl)
    requires WellFormed(l)
    ensures ValidateLinkedIn(Some(Render(l))).None?
  {
    ParseRender(l);
  }

  // ---------------------------------------------------------------- biography text

  /** Phrases that mark a model's reply as a request for input rather than a biography. */
  const ErrorPhrases: seq<string> := [
    "I don't have",
    "Please provide",
    "Could you please share",
    "Unfortunately",
    "I need the",
    "share it now",
    "no original biography",
    "can't assist without",
    "I'll be happy to help",
    "provide the biography text"
  ]

  /** `isValidBiographyText`: not blank, and no error phrase occurs, ignoring case. */
  predicate IsValidBiographyText(text: string) {
    !IsBlank(text) && forall p | p in ErrorPhrases :: !Contains(ToLower(text), ToLower(p))
  }

  lemma ToLowerIdempotent(s: string)
    ensures ToLower(ToLower(s)) == ToLower(s)
  {
  }

  lemma ToLowerKeepsBlank(s: string)
    ensures IsBlank(ToLower(s)) <==> IsBlank(s)
  {
    assert forall k | 0 <= k < |s| :: IsSpace(LowerChar(s[k])) <==> IsSpace(s[k]);
  }

  /** The verdict does not depend on letter case. */
  lemma BiographyTextIgnoresCase(text: string)
    ensures IsValidBiographyText(ToLower(text)) <==> IsValidBiographyText(text)
  {
    ToLowerIdempotent(text);
    ToLowerKeepsBlank(text);
  }

  /** A text in which an error phrase occurs, in any case, is rejected. */
  lemma PhraseRejects(text: string, p: string, i: int)
    requires p in ErrorPhrases && OccursAt(text, p, i)
    ensures !IsValidBiographyText(text)
  {
    assert ToLower(text)[i..i + |p|] == ToLower(text[i..i + |p|]);
    assert OccursAt(ToLower(text), ToLower(p), i);
  }

  /** A blank text is rejected. */
  lemma BlankTextRejected(text: string)
    requires Trim(text) == ""
    ensures !IsValidBiographyText(text)
  {
  }

  // ---------------------------------------------------------------- years and business function

  /** `validateYear`: an absent or zero year passes; otherwise it must lie
      between 1950 and ten years after `currentYear`, the clock's year. */
  function ValidateYear(year: Option<real>, currentYear: int): (r: Option<string>)
    ensures r.None? <==> year.None? || year.value == 0.0 || 1950.0 <= year.value <= (currentYear + 10) as real
    ensures r.Some? ==> r.value == "Year must be between 1950 and " + IntToString(currentYear + 10)
  {
    if year.None? || year.value == 0.0 then None
    else if 1950.0 <= year.value && year.value <= (currentYear + 10) as real then None
    else Some("Year must be between 1950 and " + IntToString(currentYear + 10))
  }

  /** A year that passes now passes in every later year. */
  lemma YearStaysValid(year: Option<real>, currentYear: int, laterYear: int)
    requires currentYear <= laterYear && ValidateYear(year, currentYear).None?
    ensures ValidateYear(year, laterYear).None?
  {
  }

  const BusinessFunctions: seq<string> := ["Developer", "UI/UX", "Product Specialist", "Product Manager", "Other"]

  /** `validateBusinessFunction`: required, one of the five, and `Other` needs a non-blank specification. */
  function ValidateBusinessFunction(businessFunction: Option<string>, other: Option<string>): (r: Option<string>)
    ensures r.None? <==> !Missing(businessFunction) && businessFunction.value in BusinessFunctions
                          && (businessFunction.value == "Other" ==> !MissingOrBlank(other))
    ensures r == Some("Business function is required") <==> Missing(businessFunction)
  {
    if Missing(businessFunction) then Some("Business function is required")
    else if businessFunction.value !in BusinessFunctions then Some("Invalid business function")
    else if businessFunction.value == "Other" && MissingOrBlank(other) then
      Some("Please specify business function when selecting \"Other\"")
    else None
  }

  // ---------------------------------------------------------------- contact, education, experience

  function OptionList(o: Option<string>): (r: seq<string>)
    ensures r == [] <==> o.None?
  {
    match o
    case None => []
    case Some(m) => [m]
  }

  /** `validateContactInfo` on a present object: the failed formats, e-mail first, then phone, then LinkedIn. */
  function ContactInfoErrors(c: ContactInfo): (errors: seq<string>)
    ensures |errors| <= 3
    ensures errors == [] <==> ValidateEmail(c.email).None? && ValidatePhone(c.phone).None? && ValidateLinkedIn(c.linkedin).None?
    ensures ValidateEmail(c.email).Some? ==> errors[0] == "Invalid email format"
  {
    OptionList(ValidateEmail(c.email)) + OptionList(ValidatePhone(c.phone)) + OptionList(ValidateLinkedIn(c.linkedin))
  }

  /** `validateEducation`: degree and university are required; a year must be in range. */
  function EducationErrors(e: Education, currentYear: int): (errors: seq<string>)
    ensures |errors| <= 3
    ensures errors == [] <==> !MissingOrBlank(e.degree) && !MissingOrBlank(e.university) && ValidateYear(e.year, currentYear).None?
  {
    (if MissingOrBlank(e.degree) then ["Degree is required"] else [])
    + (if MissingOrBlank(e.university) then ["University is required"] else [])
    + OptionList(ValidateYear(e.year, currentYear))
  }

  /** `validateExperience`: title and company are required. */
  function ExperienceErrors(e: Experience): (errors: seq<string>)
    ensures |errors| <= 2
    ensures errors == [] <==> !MissingOrBlank(e.title) && !MissingOrBlank(e.company)
  {
    (if MissingOrBlank(e.title) then ["Job title is required"] else [])
    + (if MissingOrBlank(e.company) then ["Company is required"] else [])
  }

  // ---------------------------------------------------------------- all fields

  /** The body fields the combined check reads. Absent arrays are empty. */
  datatype FieldsInput = FieldsInput(
    jobTitle: Option<string>,
    department: Option<string>,
    businessFunction: Option<string>,
    businessFunctionOther: Option<string>,
    yearsExperience: Option<real>,
    summary: Option<string>,
    mentorSummary: Option<string>,
    contactInfo: Option<ContactInfo>,
    education: seq<Education>,
    experience: seq<Experience>)

  datatype FieldError = FieldError(field: string, message: string)

  /** `name[index]`. */
  function IndexedField(name: string, index: nat): string {
    name + "[" + NatToString(index) + "]"
  }

  lemma IndexedFieldInjective(name: string, i: nat, j: nat)
    requires IndexedField(name, i) == IndexedField(name, j)
    ensures i == j
  {
    var a := IndexedField(name, i);
    var si, sj := NatToString(i), NatToString(j);
    assert |si| == |sj|;
    assert si == a[|name| + 1..|a| - 1];
    assert sj == a[|name| + 1..|a| - 1];
  }

  /** The errors before the entry lists, in the order they are pushed. */
  function LeadingErrors(data: FieldsInput): seq<FieldError> {
    (if MissingOrBlank(data.jobTitle) then [FieldError("jobTitle", "Job title is required")] else [])
    + (if MissingOrBlank(data.department) then [FieldError("department", "Department is required")] else [])
    + (match ValidateBusinessFunction(data.businessFunction, data.businessFunctionOther)
       case Some(m) => [FieldError("businessFunction", m)]
       case None => [])
    + (if data.yearsExperience.Some? && data.yearsExperience.value < 0.0
       then [FieldError("yearsExperience", "Years of experience cannot be negative")] else [])
    + (if !Missing(data.summary) && |data.summary.value| > 500
       then [FieldError("summary", "Summary must be 500 characters or less")] else [])
    + (if !Missing(data.mentorSummary) && |data.mentorSummary.value| > 2000
       then [FieldError("mentorSummary", "Mentor summary must be 2000 characters or less")] else [])
    + (if data.contactInfo.Some? && ContactInfoErrors(data.contactInfo.value) != []
       then [FieldError("contactInfo", Join(ContactInfoErrors(data.contactInfo.value), ", "))] else [])
  }

  /** One error per failing entry, named `name[index]`, its messages joined with `, `. */
  function IndexedErrors<E>(name: string, entries: seq<E>, check: E -> seq<string>): (errors: seq<FieldError>)
    ensures |errors| <= |entries|
  {
    if entries == [] then []
    else
      var n := |entries| - 1;
      IndexedErrors(name, entries[..n], check)
      + (if check(entries[n]) != [] then [FieldError(IndexedField(name, n), Join(check(entries[n]), ", "))] else [])
  }

  lemma IndexedErrorsSnoc<E>(name: string, entries: seq<E>, check: E -> seq<string>, i: nat)
    requires i < |entries|
    ensures IndexedErrors(name, entries[..i + 1], check) == IndexedErrors(name, entries[..i], check)
      + (if check(entries[i]) != [] then [FieldError(IndexedField(name, i), Join(check(entries[i]), ", "))] else [])
  {
    assert entries[..i + 1][..i] == entries[..i];
  }

  /** An entry is reported, with its own messages, exactly when it fails. */
  lemma {:induction false} IndexedErrorsReport<E>(name: string, entries: seq<E>, check: E -> seq<string>, i: nat, message: string)
    ensures FieldError(IndexedField(name, i), message) in IndexedErrors(name, entries, check)
            <==> i < |entries| && check(entries[i]) != [] && message == Join(check(entries[i]), ", ")
  {
    if entries != [] {
      var n := |entries| - 1;
      IndexedErrorsReport(name, entries[..n], check, i, message);
      if FieldError(IndexedField(name, i), message) == FieldError(IndexedField(name, n), Join(check(entries[n]), ", ")) {
        IndexedFieldInjective(name, i, n);
      }
    }
  }

  lemma {:induction false} IndexedErrorsEmpty<E>(name: string, entries: seq<E>, check: E -> seq<string>)
    ensures IndexedErrors(name, entries, check) == [] <==> forall k | 0 <= k < |entries| :: check(entries[k]) == []
  {
    if entries != [] {
      var n := |entries| - 1;
      IndexedErrorsEmpty(name, entries[..n], check);
      assert forall k | 0 <= k < n :: entries[..n][k] == entries[k];
    }
  }

  function EducationCheck(currentYear: int): Education -> seq<string> {
    e => EducationErrors(e, currentYear)
  }

  /** `validateBiographyFields`, as the list of errors it collects. */
  function FieldErrors(data: FieldsInput, currentYear: int): seq<FieldError> {
    LeadingErrors(data)
    + IndexedErrors("education", data.education, EducationCheck(currentYear))
    + IndexedErrors("experience", data.experience, ExperienceErrors)
  }

  /** Every rule the combined check enforces, stated field by field. */
  predicate FieldsValid(data: FieldsInput, currentYear: int) {
    && !MissingOrBlank(data.jobTitle)
    && !MissingOrBlank(data.department)
    && ValidateBusinessFunction(data.businessFunction, data.businessFunctionOther).None?
    && (data.yearsExperience.Some? ==> data.yearsExperience.value >= 0.0)
    && (!Missing(data.summary) ==> |data.summary.value| <= 500)
    && (!Missing(data.mentorSummary) ==> |data.mentorSummary.value| <= 2000)
    && (data.contactInfo.Some? ==> ContactInfoErrors(data.contactInfo.value) == [])
    && (forall k | 0 <= k < |data.education| :: EducationErrors(data.education[k], currentYear) == [])
    && (forall k | 0 <= k < |data.experience| :: ExperienceErrors(data.experience[k]) == [])
  }

  lemma LeadingErrorsEmpty(data: FieldsInput)
    ensures LeadingErrors(data) == [] <==>
      && !MissingOrBlank(data.jobTitle)
      && !MissingOrBlank(data.department)
      && ValidateBusinessFunction(data.businessFunction, data.businessFunctionOther).None?
      && (data.yearsExperience.Some? ==> data.yearsExperience.value >= 0.0)
      && (!Missing(data.summary) ==> |data.summary.value| <= 500)
      && (!Missing(data.mentorSummary) ==> |data.mentorSummary.value| <= 2000)
      && (data.contactInfo.Some? ==> ContactInfoErrors(data.contactInfo.value) == [])
  {
  }

  /** No error is collected exactly when every rule holds. */
  lemma FieldErrorsEmpty(data: FieldsInput, currentYear: int)
    ensures FieldErrors(data, currentYear) == [] <==> FieldsValid(data, currentYear)
  {
    LeadingErrorsEmpty(data);
    IndexedErrorsEmpty("education", data.education, EducationCheck(currentYear));
    IndexedErrorsEmpty("experience", data.experience, ExperienceErrors);
  }

  /** A failing education entry is reported under its index with its own messages. */
  lemma EducationEntryReported(data: FieldsInput, currentYear: int, i: nat)
    requires i < |data.education| && EducationErrors(data.education[i], currentYear) != []
    ensures FieldError(IndexedField("education", i), Join(EducationErrors(data.education[i], currentYear), ", "))
            in FieldErrors(data, currentYear)
  {
    IndexedErrorsReport("education", data.education, EducationCheck(currentYear), i,
      Join(EducationErrors(data.education[i], currentYear), ", "));
  }

  /** One `forEach` over the entries: appends an error for each failing entry, in index order. */
  method AppendIndexedErrors<E>(errors: seq<FieldError>, name: string, entries: seq<E>, check: E -> seq<string>)
    returns (result: seq<FieldError>)
    ensures result == errors + IndexedErrors(name, entries, check)
  {
    result := errors;
    var i := 0;
    while i < |entries|
      invariant 0 <= i <= |entries|
      invariant result == errors + IndexedErrors(name, entries[..i], check)
    {
      var entryErrors := check(entries[i]);
      if entryErrors != [] {
        result := result + [FieldError(IndexedField(name, i), Join(entryErrors, ", "))];
      }
      IndexedErrorsSnoc(name, entries, check, i);
      i := i + 1;
    }
    assert entries[..i] == entries;
  }

  /** `validateBiographyFields`: collects the errors in order, walking the
      education and experience entries by index. */
  method ValidateBiographyFields(data: FieldsInput, currentYear: int) returns (valid: bool, errors: seq<FieldError>)
    ensures errors == FieldErrors(data, currentYear)
    ensures valid <==> FieldsValid(data, currentYear)
  {
    errors := LeadingErrors(data);
    errors := AppendIndexedErrors(errors, "education", data.education, EducationCheck(currentYear));
    errors := AppendIndexedErrors(errors, "experience", data.experience, ExperienceErrors);
    valid := errors == [];
    FieldErrorsEmpty(data, currentYear);
  }
}

=== FILE: wrappers.dfy ===
/** Option and Result, the two failure-compatible wrappers used across the model.
    `None` stands for JavaScript's `undefined`/`null` where the source tests for
    absence; `Failure` stands for a thrown `Error` or an error response. */
module Wrappers {

  datatype Option<+T> = None | Some(value: T) {
    predicate IsFailure() { None? }

    function PropagateFailure<U>(): Option<U>
      requires None?
    {
      None
    }

    function Extract(): T
      requires Some?
    {
      value
    }

    function GetOr(default: T): T {
      match this
      case Some(v) => v
      case None => default
    }
  }

  datatype Result<+R, +E> = Success(value: R) | Failure(error: E) {
    predicate IsFailure() { Failure? }

    function PropagateFailure<U>(): Result<U, E>
      requires Failure?
    {
      Failure(error)
    }

    function Extract(): R
      requires Success?
    {
      value
    }
  }
}
